=== FILE: README.md ===
# WhatsApp click tracker — a Dafny model

This project models the core of a WordPress plugin that records clicks on
WhatsApp links and serves them back through an authenticated REST API. The
model covers four parts.

- **Link classification.** `UrlMatcher` and `WaRegex` model the PHP matcher.
  It tries its anchored patterns (`wa.me`, `api.whatsapp.com/send`,
  `whatsapp://send`) first, and falls back to `parse_url` only when they fail.
  `TrackerJs` and `TrackerBuildJs` model the two browser trackers. These do
  the opposite: structured URL parsing first, and the regex only when parsing
  throws. They also model the trackers' dedupe rules and click payloads.
- **Ingestion.** `AjaxClick` models the `admin-ajax` click handler: nonce,
  phone match, field fallbacks, and the row it inserts. `Helpers` models the
  phone helpers. `ClickRepositoryLegacy` and `ClickRepositoryBuild` model the
  two click repositories: insert normalisation, truncation, column pruning,
  list paging and totals.
- **The read API.** Each is its own module:
  - `TokenAuth`, `TokenAuthLegacy`: the two token authenticators;
  - `CompatPermission`: route-permission rewriting;
  - `SecurityGate`, `Env`, `HttpsEnforcer`: the HTTPS gates;
  - `RateLimiter`: the fixed-window rate limiter over a key → bucket map;
  - `RequestValidator`: the request validator;
  - `CursorCodec`, with `Base64` and `Json`: the cursor codec, unpadded
    base64url (section 5 of RFC 4648) wrapping a two-field JSON object;
  - `RestClickRepository`: range and keyset-after queries over a table held
    as a sequence of rows;
  - `RestClicksController`, `MvpClicksController`: both `ClicksController::handle`
    versions;
  - `Http`, `Limits`: the error payloads and the advertised limits.
- **Admin logic.** `TokenHandlers` models token generation, rotation and
  export. `SettingsPage` models what the settings page shows. `SavePhoneHandler`
  models the phone form, and `ClickMeta` models per-click metadata. All of
  these work over `WpOptions`, a model of WordPress's options table.

PHP values are modelled in `Php` (`empty`, `isset`, the `(int)` and
`(string)` casts) and JavaScript string helpers in `JsText`. Strings are PHP
byte strings, `seq<char>` with one character per byte. Some things are
parameters rather than code:
- clocks, random bytes, `md5`;
- the WordPress sanitisers, `home_url` and `parse_url`'s host lookup;
- the database's accept/refuse verdict.

A "now" is passed in as a plain integer or a formatted string.

## Model

Some predicates are reference definitions. Each is a direct reading of a
condition in the source, and the rows below use it as the partner other
contracts are stated against. They have no row of their own:
- `Php.Empty` (PHP's `empty()`): used by `Php.IntCast`, `Php.StrCast` and the
  repositories' condition builders;
- `RequestValidator.IsNumericString` (`is_numeric`): `RequestValidator.ValidateLimit`,
  `RequestValidator.DigitsAreNumeric`;
- `RestClicksController.TakesCursor` and the check list behind
  `RestClicksController.CursorCheck`: `RestClicksController.Plan`,
  `RestClicksController.Choose`;
- `SavePhoneHandler.Refused` (the length guard): `SavePhoneHandler.Save`;
- `RateLimiter.Live` (a stored bucket still inside its window):
  `RateLimiter.Bucket`, `RateLimiter.CheckIsolated`;
- `TrackerJs.IsDuplicate` (the two-second window): `TrackerJs.CaptureClick`,
  `TrackerJs.SendClick`;
- `TrackerBuildJs.IsWhatsAppLink`: `TrackerBuildJs.Handle`;
- `WaRegex.Matches` (one pattern under one regex flavour): `WaRegex.WaMeLink`
  and the other pattern lemmas, `UrlMatcher.MatchesTarget`;
- `UrlMatcher.PhoneGuard`: `UrlMatcher.MatchesTarget`, `UrlMatcher.ValidPhoneIsGuard`;
- `MvpClicksController.BadCursor`: `MvpClicksController.Answer`,
  `MvpClicksController.Handle`.

| member | source | states |
|---|---|---|
| `Limits.DefaultPageSizeAllowed` | src/Services/LimitsProvider.php:13-24 | the default page size 200 lies within 1..500, the largest page a client may ask for, and the rate of 60 per minute is positive |
| `Env.IsProduction` | src/Support/Env.php:13-23 | production exactly when `WP_DEBUG` is off and the home host is missing or not local; debug always means not production |
| `Env.LocalHostIgnoresCase` | src/Support/Env.php:25-32 | two hosts equal up to letter case are both local or both not |
| `Env.LocalHostOfUpper` | src/Support/Env.php:25-32 | upper-casing a host never changes whether it counts as local |
| `Http.MakeError` | src/Http/ErrorFactory.php:13-28 | the response carries the given status and a payload with exactly `error`, `message`, `status` and `request_id`, plus `details` iff details are non-empty and `retry_after_seconds` iff a retry delay is given |
| `Http.ErrorKeys` | src/Http/ErrorFactory.php:15-26 | the payload's key set is the four fixed keys together with the optional `details` and `retry_after_seconds` |
| `Http.FromWpError` | build/iw8-wa-click-tracker/src/Rest/ClicksController.php:71-77 | a `WP_Error` becomes an error response with its status and code, and with neither details nor a retry delay |
| `HttpsEnforcer.Enforce` | build/iw8-wa-click-tracker/src/Security/HttpsEnforcer.php:19-29 | `insecure_transport` with status 400 exactly in production without SSL; outside production or with SSL the request passes |
| `SecurityGate.FirstOf` | build/iw8-wa-click-tracker/includes/Core/Security.php:70 | `$_SERVER[a] ?? $_SERVER[b] ?? null`: the value of `a` when it is set, else the value of `b` when that is set, else none |
| `SecurityGate.IsHttpsRequest` | build/iw8-wa-click-tracker/includes/Core/Security.php:64-90 | the check dies with PHP 8's `TypeError` exactly when it reaches `strtolower` of an array `CF-Visitor` scheme (no `is_ssl()`, no forwarded https); otherwise a request counts as HTTPS iff `is_ssl()`, a forwarded protocol containing "https", a Cloudflare visitor scheme "https", port 443 or `HTTPS` = "on" says so |
| `SecurityGate.Gate` | build/iw8-wa-click-tracker/includes/Core/Security.php:25-62 | the filter refuses with `rest_forbidden_http` and status 401 exactly in production, on a plugin route, without HTTPS; it dies exactly when the HTTPS check does on such a route; otherwise it returns its input unchanged |
| `SecurityGate.OtherRoutesPass` | build/iw8-wa-click-tracker/includes/Core/Security.php:36-38 | a route outside `/iw8-wa/v1/` always passes, whatever the transport |
| `SecurityGate.Port443Passes` | build/iw8-wa-click-tracker/includes/Core/Security.php:82-84 | a request on port 443 passes even when `is_ssl()` and every header say plain HTTP, unless an array `CF-Visitor` scheme is reached first, which is fatal on a plugin route in production |
| `SecurityGate.ArraySchemeIsFatal` | build/iw8-wa-click-tracker/includes/Core/Security.php:75-79 | a client-sent `CF-Visitor` whose scheme is an array turns a plain-HTTP plugin request in production into a fatal error instead of the 401 |
| `RateLimiter.KeyFor` | build/iw8-wa-click-tracker/src/Security/RateLimiter.php:18-22 | the key is `iw8_rl_` followed by the digest of `route|token` |
| `RateLimiter.KeyForJoined` | build/iw8-wa-click-tracker/src/Security/RateLimiter.php:18-22 | two route/token pairs that join to the same `route|token` text share one bucket |
| `RateLimiter.Bucket` | build/iw8-wa-click-tracker/src/Security/RateLimiter.php:31-38 | a stored bucket is used while it is an array with both keys and its reset time is still ahead; otherwise a fresh bucket with count 0 that resets one window from now |
| `RateLimiter.Increment` | build/iw8-wa-click-tracker/src/Security/RateLimiter.php:52 | the count goes up by one; the reset time and the other keys stay |
| `RateLimiter.Check` | build/iw8-wa-click-tracker/src/Security/RateLimiter.php:28-65 | denied iff the bucket's count has reached the limit; a denial stores nothing and reports 0 remaining and the same non-negative retry and reset delays; an allowed check stores only this key, with a lifetime of at least one second equal to the reported reset, and no retry delay |
| `RateLimiter.AllowedIncrements` | build/iw8-wa-click-tracker/src/Security/RateLimiter.php:51-64 | an allowed check stores the bucket with one more request and the same reset time, and reports the remaining allowance and a reset of at least one second |
| `RateLimiter.Run` | build/iw8-wa-click-tracker/src/Security/RateLimiter.php:28-65 | consecutive checks on one key give one verdict per request |
| `RateLimiter.RunInWindow` | build/iw8-wa-click-tracker/src/Security/RateLimiter.php:33-54 | before the bucket resets, the k-th further request is allowed iff the requests already counted plus k stay below the limit |
| `RateLimiter.RunDenied` | build/iw8-wa-click-tracker/src/Security/RateLimiter.php:40-49 | once a bucket is full, every request before its reset is denied |
| `RateLimiter.FreshWindow` | build/iw8-wa-click-tracker/src/Security/RateLimiter.php:28-65 | from no bucket, within one window, exactly the first `limit` requests are allowed |
| `RateLimiter.FreshDenied` | build/iw8-wa-click-tracker/src/Security/RateLimiter.php:40-49 | with a limit of zero or less every request is denied |
| `RateLimiter.ApplyHeaders` | build/iw8-wa-click-tracker/src/Security/RateLimiter.php:68-88 | the response gets the limit, remaining and reset headers and `X-Cursor-Semantics: forward_only`; `Retry-After` is added on a denial only; no header already present is dropped |
| `RateLimiter.DeniedRetryAfter` | build/iw8-wa-click-tracker/src/Security/RateLimiter.php:40-48 | on a denial `Retry-After` is a non-negative whole number of seconds (section 10.2.3 of RFC 9110) |
| `RateLimiter.Load` | build/iw8-wa-click-tracker/src/Security/RateLimiter.php:31 | `get_transient` yields false exactly when nothing is stored under the key, and otherwise the stored value |
| `RateLimiter.CheckIsolated` | build/iw8-wa-click-tracker/src/Security/RateLimiter.php:28-54 | a check leaves every other key's transient as it was, and after an allowed check the bucket reads as live until its reset time |
| `TokenAuth.FirstValue` | src/Security/TokenAuthenticator.php:42-45 | the first value under a header spelling, trimmed, or nothing when it trims to "" |
| `TokenAuth.ExtractToken` | src/Security/TokenAuthenticator.php:38-48 | the lower-case spelling decides when usable, else the mixed-case one; the token found is non-empty and trimmed |
| `TokenAuth.Last4` | src/Security/TokenAuthenticator.php:51-57 | nothing for a missing or PHP-falsy token; otherwise the token's last four characters, or all of a shorter one |
| `TokenAuth.Strings` | src/Security/TokenAuthenticator.php:85 | exactly the string entries survive `array_filter(..., 'is_string')` |
| `TokenAuth.Unique` | src/Security/TokenAuthenticator.php:85 | the result has no duplicates and holds the same strings as its input |
| `TokenAuth.Seed` | src/Security/TokenAuthenticator.php:67-76 | the list before the filter holds exactly the dev token and then the option, each only when it is a non-empty string: nothing else and no entry twice from one source |
| `TokenAuth.ValidTokens` | src/Security/TokenAuthenticator.php:65-86 | the valid tokens are exactly the strings the filter returns, without duplicates |
| `TokenAuth.Validate` | src/Security/TokenAuthenticator.php:14-35 | accepted iff the token is present, not PHP-falsy and in the list; a missing or "0" token gives `missing_token`, every refusal is status 401, and an empty list refuses everything |
| `TokenAuth.ZeroTokenMissing` | src/Security/TokenAuthenticator.php:17-23 | a header token "0" is reported missing even when "0" is a valid token |
| `TokenAuth.NothingConfigured` | src/Security/TokenAuthenticator.php:65-86 | without a dev token, option or filter additions every request is refused |
| `TokenAuthLegacy.Error` | includes/Rest/TokenAuthenticator.php:100-106 | every error code is the given code prefixed with `iw8_wa_` |
| `TokenAuthLegacy.TokenFromRequest` | includes/Rest/TokenAuthenticator.php:52-66 | a non-empty header, trimmed, wins; else a non-empty string query parameter, trimmed; else "" |
| `TokenAuthLegacy.ExpectedToken` | includes/Rest/TokenAuthenticator.php:75-90 | the trimmed new token when it is non-empty, else the trimmed legacy one; "" iff both are blank |
| `TokenAuthLegacy.Validate` | includes/Rest/TokenAuthenticator.php:25-43 | `missing_token` for an empty token, `token_not_configured` when nothing is expected, and success iff the token equals the expected one |
| `TokenAuthLegacy.LegacyOnlyWhileNewBlank` | includes/Rest/TokenAuthenticator.php:75-90 | the legacy token is accepted iff the new token is blank and the legacy one is not |
| `TokenAuthLegacy.HeaderWins` | includes/Rest/TokenAuthenticator.php:54-57 | a non-empty header that trims to nothing gives `missing_token`; the query parameter is not consulted |
| `TokenAuthLegacy.ValidateRequest` | includes/Rest/TokenAuthenticator.php:25-90 | the request's token is accepted iff it is non-empty and equals the new token, or the legacy one while the new one is blank; `missing_token` iff the request carries none; `token_not_configured` iff it carries one and both options are blank; no other error |
| `CompatPermission.WrapHandler` | includes/Rest/CompatPermission.php:45-69 | a handler that is an array with a `callback` gets its `permission_callback` replaced by the wrapper over the original check, and nothing else of it changes; any other handler is left alone |
| `CompatPermission.WrapRoute` | includes/Rest/CompatPermission.php:35-44 | the handlers of a route under `/iw8-wa/v1/` are each wrapped; any other route is left alone |
| `CompatPermission.Wrap` | includes/Rest/CompatPermission.php:29-74 | a non-array comes back unchanged; an array keeps its routes, leaves every route outside `/iw8-wa/v1/` as it was and replaces every plugin route by its `WrapRoute` |
| `CompatPermission.WrapChangesOnly` | includes/Rest/CompatPermission.php:37-49 | a handler changes exactly when it is an array with a `callback` under a plugin route |
| `CompatPermission.RunWrapper` | includes/Rest/CompatPermission.php:54-69 | with the authenticator loaded the wrapper returns its error or true; without it, the original check's result when callable, else true |
| `CompatPermission.WrapperIgnoresOriginal` | includes/Rest/CompatPermission.php:56-68 | with the authenticator loaded the wrapped route's verdict is the legacy validator's verdict, whatever the original permission callback says |
| `Php.Lookup` | src/Validation/RequestValidator.php:119-126 | reading a key of an associative array finds it exactly when the key is there; a list has no non-numeric keys |
| `Php.Coalesce` | src/Rest/ClicksController.php:46-49 | `$a[$key] ?? $default` is the stored value when the key is set (present and not null), else the default |
| `Php.NumericToInt` | build/iw8-wa-click-tracker/src/Validation/CursorCodec.php:33 | the integer a numeric string casts to always lies in the 64-bit range: in-range values are kept, values beyond it go to the nearer end while a double still holds them, and values a double cannot hold (from 2^1024 - 2^970 on, which `strtod` makes infinite) become 0 |
| `Php.IntCastOfNatText` | build/iw8-wa-click-tracker/src/Validation/CursorCodec.php:33 | `(int)` of the decimal text of a natural number is that number, `PHP_INT_MAX` when it is larger, and 0 once a double cannot hold it |
| `Php.IntCast` | src/Validation/RequestValidator.php:52 | `(int)` is 0 for null, false and empty arrays and 1 for true and other arrays, keeps an integer, and reads a string's leading number held to the 64-bit range: an all-digit string is its value, or `PHP_INT_MAX` when larger |
| `Php.StrCast` | src/Validation/RequestValidator.php:64 | `(string)` keeps a string, gives "Array" for an array, "" for null and false, "1" for true, and an integer's decimal text with a leading `-` when negative |
| `Php.IntCastStrCast` | includes/Ajax/ClickController.php:120 | `(int)` of the text `(string)` writes for a 64-bit integer gives that integer back |
| `Text.Digits` | build/iw8-wa-click-tracker/includes/Frontend/UrlMatcher.php:91 | `preg_replace('/\D+/', '', s)` keeps only digits, is never longer than its input, and leaves an all-digit text unchanged |
| `Text.DigitsAppend` | build/iw8-wa-click-tracker/includes/Frontend/UrlMatcher.php:91 | the digits of a concatenation are the digits of each part, concatenated |
| `Text.DigitsIdempotent` | build/iw8-wa-click-tracker/includes/Frontend/UrlMatcher.php:91 | stripping non-digits twice is the same as once |
| `Text.DigitsOfNoDigits` | build/iw8-wa-click-tracker/includes/Frontend/UrlMatcher.php:91 | a text without digits normalises to "" |
| `Text.Lower` | build/iw8-wa-click-tracker/includes/Frontend/UrlMatcher.php:125-126 | `strtolower` maps each character by itself and keeps the length |
| `Text.LowerIdempotent` | build/iw8-wa-click-tracker/includes/Frontend/UrlMatcher.php:125-126 | lower-casing twice is the same as once |
| `Text.StartsWithCILower` | build/iw8-wa-click-tracker/includes/Frontend/UrlMatcher.php:98-113 | a case-insensitive prefix test (the `i` flag) is the same as lower-casing the head and comparing |
| `Text.Truncate` | includes/Database/ClickRepository.php:53-64 | the cut text is a prefix of at most `n` characters: the whole text when it is short enough, exactly `n` otherwise |
| `Text.Trim` | src/Validation/RequestValidator.php:64 | PHP `trim()` gives the slice of the input that starts after its leading trim characters and is followed only by trim characters, with no trim character at either end of the result; "" exactly for texts made only of such characters |
| `Text.TrimIdempotent` | src/Validation/RequestValidator.php:64 | trimming twice is the same as once |
| `Text.Split` | src/Validation/RequestValidator.php:69 | `explode` returns at least one piece and no piece holds the separator |
| `Text.SplitJoin` | src/Validation/RequestValidator.php:69 | joining the pieces of `explode` with the separator gives the text back |
| `Text.SplitConcat` | src/Validation/RequestValidator.php:161 | splitting a text made of two parts around a separator splits each part |
| `Text.NatToString` | build/iw8-wa-click-tracker/src/Security/RateLimiter.php:71-73 | the decimal text of a natural number is all digits without a leading zero |
| `Text.IntToString` | build/iw8-wa-click-tracker/src/Security/RateLimiter.php:71-77 | `(string)` of an integer is its decimal text: digits without a leading zero that parse back to it when it is non-negative, otherwise `-` followed by such digits for its magnitude |
| `Text.ParseNatToString` | build/iw8-wa-click-tracker/src/Security/RateLimiter.php:71-73 | reading back the decimal text of a natural number gives the number |
| `Text.NatToStringInjective` | build/iw8-wa-click-tracker/src/Security/RateLimiter.php:71-73 | distinct numbers have distinct decimal texts |
| `Time.Pad2` | src/Validation/RequestValidator.php:124-125 | a two-digit field is written as exactly two digits spelling its value |
| `Time.Pad4` | src/Validation/RequestValidator.php:124-125 | a four-digit year is written as exactly four digits spelling its value |
| `Time.ParseIso` | src/Validation/RequestValidator.php:137 | a text is accepted iff it has the `Y-m-d\TH:i:s\Z` shape and its fields spell a real date and time; what is accepted is a valid instant with a four-digit year |
| `Time.ParseFormatIso` | src/Validation/RequestValidator.php:124-137 | rendering an instant and parsing it back gives the instant |
| `Time.FormatParseIso` | src/Validation/RequestValidator.php:124-137 | parsing a text and rendering the result gives the text back: the accepted texts are exactly the canonical ones |
| `Time.FormatIsoInjective` | src/Validation/RequestValidator.php:124-125 | distinct instants render to distinct texts |
| `Time.FormatIsoIsIsoUtcZ` | build/iw8-wa-click-tracker/src/Validation/CursorCodec.php:40-44 | every rendered instant passes the cursor's `YYYY-MM-DDTHH:MM:SSZ` check |
| `Time.SqlOfIso` | src/Validation/RequestValidator.php:239-240 | an instant's `Y-m-d H:i:s` text is its ISO-Z text with the `T` turned into a space and the `Z` dropped |
| `Time.PrevDay` | src/Validation/RequestValidator.php:116 | the previous calendar day at the same time of day is a valid, earlier instant |
| `Time.MinusDays` | src/Validation/RequestValidator.php:116 | subtracting `P<n>D` keeps the time of day, stays valid, and moves strictly earlier when n > 0 |
| `Time.BeforeTransitive` | src/Validation/RequestValidator.php:116 | the order on instants is transitive |
| `Url.RawUrlEncode` | build/iw8-wa-click-tracker/includes/Admin/Actions/SavePhoneHandler.php:36 | `rawurlencode` keeps letters, digits and `-_.~`, escapes every other byte as `%XX` (two characters longer each), leaves an all-unreserved text unchanged, and its output holds only unreserved characters and `%` |
| `Url.DecodeRawUrlEncode` | build/iw8-wa-click-tracker/includes/Frontend/UrlMatcher.php:132 | `urldecode` (as `parse_str` applies it) undoes `rawurlencode` on every byte string |
| `Url.SplitPair` | build/iw8-wa-click-tracker/includes/Frontend/UrlMatcher.php:132 | a query pair is cut at its first `=`: the name holds no `=`, and a pair without `=` has the value "" |
| `Url.DecodePlain` | build/iw8-wa-click-tracker/includes/Frontend/UrlMatcher.php:132 | a text without `+` or `%` decodes to itself |
| `Url.PhpLastWins` | build/iw8-wa-click-tracker/includes/Frontend/UrlMatcher.php:132-135 | in `parse_str` a later pair for the same name overrides an earlier one |
| `Url.PhpSinglePair` | build/iw8-wa-click-tracker/includes/Frontend/UrlMatcher.php:132-135 | a single pair `name=value` sets `name` to the decoded value |
| `Url.JsFirstWins` | assets/js/tracker.js:46-51 | `URLSearchParams.get` returns the first pair for a name, so an earlier pair shadows a later one |
| `Url.JsSinglePair` | assets/js/tracker.js:46-51 | a single pair `name=value` is found by `get` as the decoded value |
| `Url.RepeatedParam` | assets/js/tracker.js:48-51 | a repeated `phone` parameter reads as the last value in PHP (UrlMatcher.php:132) and as the first in the browser |
| `Url.Decode` | build/iw8-wa-click-tracker/includes/Frontend/UrlMatcher.php:132 | decoding never lengthens the text, and a text without `%` only has each `+` turned into a space |
| `Url.PhpQueryParam` | build/iw8-wa-click-tracker/includes/Frontend/UrlMatcher.php:132-133 | after `parse_str`, `$q[name]` is unset exactly when no pair addresses `name`, and otherwise is what the last pair addressing it sets: its decoded value, or an array for `name[...]` |
| `Url.JsSearchGet` | assets/js/tracker.js:46-50 | `searchParams.get(name)` is null exactly when no non-empty pair has the decoded name `name`, and otherwise the decoded value of the first such pair |
| `Base64.Encode` | build/iw8-wa-click-tracker/src/Validation/CursorCodec.php:16 | `base64_encode` output is padded to a multiple of four characters |
| `Base64.Decode` | build/iw8-wa-click-tracker/src/Validation/CursorCodec.php:24 | strict `base64_decode` yields bytes when it succeeds |
| `Base64.DecodeEncode` | build/iw8-wa-click-tracker/src/Validation/CursorCodec.php:16-24 | strict decoding inverts encoding (section 4 of RFC 4648) |
| `Base64.DecodeEncodeUnpadded` | build/iw8-wa-click-tracker/src/Validation/CursorCodec.php:16-24 | strict decoding also inverts the encoding with its padding removed |
| `Base64.DecodeRejectsForeignByte` | build/iw8-wa-click-tracker/src/Validation/CursorCodec.php:24-27 | a byte outside the alphabet, whitespace and `=` makes strict decoding fail |
| `Base64.TrailingBitsIgnored` | build/iw8-wa-click-tracker/src/Validation/CursorCodec.php:24 | the decoder ignores the unused low bits: "QQ" and "QR" both decode to "A" |
| `Base64.Scan` | build/iw8-wa-click-tracker/src/Validation/CursorCodec.php:24 | the strict scan yields at most one sextet per character; an all-alphabet text scans to exactly its characters' values with no padding; a byte outside the alphabet, the skipped white space and `=` makes it fail |
| `Json.ParseEscapeBody` | build/iw8-wa-click-tracker/src/Validation/CursorCodec.php:15-28 | the string body `json_encode` writes for an ASCII text reads back as that text |
| `Json.ParseIntText` | build/iw8-wa-click-tracker/src/Validation/CursorCodec.php:15-28 | the decimal text of a 64-bit integer reads back as that integer |
| `Json.EncodeCursorObjectText` | build/iw8-wa-click-tracker/src/Validation/CursorCodec.php:15 | `wp_json_encode(['t' => t, 'i' => i])` is `{"t":"<escaped t>","i":<digits of i>}` |
| `Json.DecodeCursorObject` | build/iw8-wa-click-tracker/src/Validation/CursorCodec.php:15-28 | `json_decode(..., true)` of the encoded cursor object is the array `['t' => t, 'i' => i]` |
| `Json.Decode` | build/iw8-wa-click-tracker/src/Validation/CursorCodec.php:28 | `json_decode` of a blank document yields nothing; a decoded value's kind is fixed by the first character after the leading white space (`{` object, `[` array, `"` string, `n`/`t`/`f` literals, sign or digit number); `null`, `true` and `false` decode to those literals |
| `CursorCodec.ToUrlSafe` | build/iw8-wa-click-tracker/src/Validation/CursorCodec.php:16 | `strtr(…, '+/', '-_')` keeps the length and maps each character by itself |
| `CursorCodec.ToStandard` | build/iw8-wa-click-tracker/src/Validation/CursorCodec.php:22 | `strtr(…, '-_', '+/')` keeps the length and maps each character by itself |
| `CursorCodec.TrimPadding` | build/iw8-wa-click-tracker/src/Validation/CursorCodec.php:16 | `rtrim(…, '=')` removes exactly the trailing `=` characters |
| `CursorCodec.Repad` | build/iw8-wa-click-tracker/src/Validation/CursorCodec.php:23 | the text is extended with at most three `=` to a multiple of four |
| `CursorCodec.Encode` | build/iw8-wa-click-tracker/src/Validation/CursorCodec.php:13-17 | a cursor uses only the URL-safe alphabet and is never one more than a multiple of four long |
| `CursorCodec.Decode` | build/iw8-wa-click-tracker/src/Validation/CursorCodec.php:20-38 | a decoded cursor has an ISO-Z time and a positive id; every failure is `invalid_cursor` with status 400; it fails at the base64 step exactly when the unarmoured text is not strict base64 |
| `CursorCodec.DecodePayload` | build/iw8-wa-click-tracker/src/Validation/CursorCodec.php:28-37 | a payload is refused as badly shaped exactly when it is not an array with `t` and `i` set; an accepted one has an ISO-Z time and a positive id |
| `CursorCodec.UnarmorArmor` | build/iw8-wa-click-tracker/src/Validation/CursorCodec.php:16-24 | undoing the URL-safe armour (repad, swap the alphabet, strict decode) gives the JSON text back |
| `CursorCodec.DecodePayloadOfObject` | build/iw8-wa-click-tracker/src/Validation/CursorCodec.php:28-37 | the JSON the encoder writes for a valid time and id decodes to that cursor |
| `CursorCodec.DecodeEncode` | build/iw8-wa-click-tracker/src/Validation/CursorCodec.php:13-38 | decoding the encoding of an ISO-Z time and a positive 64-bit id gives them back |
| `CursorCodec.DecodeEitherAlphabet` | build/iw8-wa-click-tracker/src/Validation/CursorCodec.php:22 | a cursor decodes the same whether written in the URL-safe or the standard alphabet |
| `CursorCodec.DecodeSingleChar` | build/iw8-wa-click-tracker/src/Validation/CursorCodec.php:22-27 | a one-character cursor is refused at the base64 step |
| `CursorCodec.Armor` | build/iw8-wa-click-tracker/src/Validation/CursorCodec.php:16 | the cursor text is the base64 text in the URL-safe alphabet with its trailing `=` removed: a prefix, character for character, not ending in `=`, with only `=` cut off |
| `CursorCodec.Unarmor` | build/iw8-wa-click-tracker/src/Validation/CursorCodec.php:22-24 | undoing the armour yields bytes when it succeeds, and fails for a cursor with a character outside both alphabets, the skipped white space and `=` |
| `RequestValidator.Param` | src/Validation/RequestValidator.php:45 | `get_param` is null for a parameter that was not sent, and the sent value otherwise |
| `RequestValidator.DigitsAreNumeric` | src/Validation/RequestValidator.php:49-52 | a run of decimal digits passes `is_numeric` and `(int)` reads it back, saturated to 64 bits |
| `RequestValidator.ValidateLimit` | src/Validation/RequestValidator.php:44-61 | null or "" gives the default 200; otherwise `invalid_limit` (status 400) exactly when the value is not numeric or its `(int)` lies outside 1..500, and the accepted size is that `(int)` |
| `RequestValidator.DecimalLimitAccepted` | src/Validation/RequestValidator.php:49-60 | every size from 1 to 500 sent as decimal text is accepted as itself |
| `RequestValidator.NonNumericRefused` | src/Validation/RequestValidator.php:49-51 | a non-empty text that is not numeric gives the "não numérico" `invalid_limit` error |
| `RequestValidator.Parts` | src/Validation/RequestValidator.php:68-74 | the pieces kept are exactly the non-blank trimmed pieces of `explode(',', …)` |
| `RequestValidator.Intersect` | src/Validation/RequestValidator.php:75 | `array_intersect` keeps exactly the pieces that are allowed, and is empty iff no piece is allowed |
| `RequestValidator.FieldsOf` | src/Validation/RequestValidator.php:63-79 | the lenient field list only names allowed fields and is never empty while the allow-list is not |
| `RequestValidator.LenientFields` | src/Validation/RequestValidator.php:63-79 | the fields of `validate` are a non-empty list of allowed field names |
| `RequestValidator.LenientFieldsKeepRequested` | src/Validation/RequestValidator.php:75 | every allowed name the request lists is kept |
| `RequestValidator.LenientFieldsOnlyRequested` | src/Validation/RequestValidator.php:75-78 | when some requested name is allowed, nothing unrequested is added |
| `RequestValidator.LenientFieldsDefault` | src/Validation/RequestValidator.php:65-66 | no parameter, or nothing allowed in it, means the whole allow-list |
| `RequestValidator.CursorRaw` | src/Validation/RequestValidator.php:83-94 | the trimmed `cursor` when it is a non-blank string; otherwise `next_cursor` (trimmed when a string) when PHP does not find it empty; otherwise "" |
| `RequestValidator.CursorRawNotNull` | src/Validation/RequestValidator.php:83-94 | the raw cursor is never null |
| `RequestValidator.CursorPrecedence` | src/Validation/RequestValidator.php:83-94 | a non-blank `cursor` wins over the alias; a blank one defers to a non-empty alias; an empty alias gives "" |
| `RequestValidator.ReadIsoOrNull` | src/Validation/RequestValidator.php:130-142 | the trimmed text parsed as `Y-m-d\TH:i:s\Z`, or nothing; what it accepts is a valid instant that renders back to the same text |
| `RequestValidator.RangeOf` | src/Validation/RequestValidator.php:107-117 | `until` is the parsed parameter, else now; `since` is the parsed parameter, else seven days before `until`; both are valid instants |
| `RequestValidator.ReadParams` | src/Validation/RequestValidator.php:45-110 | each of the six parameters is read by its own name |
| `RequestValidator.Validate` | src/Validation/RequestValidator.php:42-127 | fails exactly when the limit check fails, with its error; otherwise carries that limit and the lenient fields, uses cursor mode iff the raw cursor is not "", keeps that raw cursor, and in range mode has the window of `RangeOf` |
| `RequestValidator.EffectiveSince` | src/Validation/RequestValidator.php:102-124 | `effective_since` is null exactly in cursor mode |
| `RequestValidator.EffectiveUntil` | src/Validation/RequestValidator.php:103-125 | `effective_until` is null exactly in cursor mode |
| `RequestValidator.RangeWindow` | src/Validation/RequestValidator.php:107-126 | in range mode a well-formed `until` or `since` is echoed exactly; a missing or malformed `until` means now and a missing or malformed `since` means seven days before `until` |
| `RequestValidator.DefaultWindow` | src/Validation/RequestValidator.php:112-117 | with neither bound given the window is the seven days up to now, and since is before until |
| `RequestValidator.Canonical` | src/Validation/RequestValidator.php:172-181 | only `created_at` is renamed (to `clicked_at`) |
| `RequestValidator.Normalize` | src/Validation/RequestValidator.php:176-183 | each requested name is lower-cased and then aliased |
| `RequestValidator.Outside` | src/Validation/RequestValidator.php:186 | `array_diff` keeps exactly the names not in the allow-list |
| `RequestValidator.FirstIndex` | src/Validation/RequestValidator.php:194-199 | the position of a name's first occurrence |
| `RequestValidator.Dedupe` | src/Validation/RequestValidator.php:194-199 | the `in_array` loop keeps each name once, nothing else, in order of first occurrence |
| `RequestValidator.DedupeStep` | src/Validation/RequestValidator.php:195-198 | one step of the loop keeps the three properties of `Dedupe` |
| `RequestValidator.FirstIndexKept` | src/Validation/RequestValidator.php:195-198 | appending a name does not move the first occurrences of the earlier ones |
| `RequestValidator.ValidateFields` | src/Validation/RequestValidator.php:150-202 | `invalid_fields` (status 400) exactly when some normalised name is not allowed, with a message listing every such name; otherwise the normalised names once each in first-request order |
| `RequestValidator.FieldsRefusedIffUnknown` | src/Validation/RequestValidator.php:186-191 | the strict check refuses exactly the requests naming something outside the allow-list |
| `RequestValidator.FieldsAcceptedOnce` | src/Validation/RequestValidator.php:193-201 | an accepted list names each requested field once, only allowed fields, in order of first request |
| `RequestValidator.BlankFieldsMeanDefaults` | src/Validation/RequestValidator.php:152-157 | blank or non-string input gives [], which the caller reads as "use the defaults" |
| `RequestValidator.CreatedAtIsClickedAt` | src/Validation/RequestValidator.php:172-181 | a lone `created_at`, in any letter case, is accepted as `clicked_at` |
| `RequestValidator.Expand` | src/Validation/RequestValidator.php:218-221 | a bare `YYYY-MM-DD` gets `T00:00:00Z` appended; anything else is left alone |
| `RequestValidator.ParseIsoUtc` | src/Validation/RequestValidator.php:211-237 | nothing for a blank value; `invalid_datetime` exactly when the expanded text is not a valid ISO-Z instant; otherwise that instant |
| `RequestValidator.ValidateIsoUtc` | src/Validation/RequestValidator.php:211-241 | fails exactly when `ParseIsoUtc` does, with `invalid_datetime` and status 400; returns a text exactly when an instant was named, and that text is the instant formatted `Y-m-d H:i:s` |
| `RequestValidator.ValidateIsoUtcText` | src/Validation/RequestValidator.php:218-240 | for every accepted value, a bare date or a padded one included, the SQL text is the expanded ISO text with the `T` turned into a space and the `Z` dropped |
| `RequestValidator.IsoTimestampAccepted` | src/Validation/RequestValidator.php:211-237 | a timestamp in the API's own format is accepted and names the same instant |
| `RequestValidator.IsoTimestampRendered` | src/Validation/RequestValidator.php:224-240 | such a timestamp is rendered `Y-m-d H:i:s` for SQL |
| `RequestValidator.DateAloneIsMidnight` | src/Validation/RequestValidator.php:218-221 | the date part of a midnight timestamp, given alone, names that midnight |
| `RequestValidator.ParseIsoUtcOf` | src/Validation/RequestValidator.php:216-240 | a non-blank parameter names the instant its expanded text parses to |
| `RequestValidator.MidnightText` | src/Validation/RequestValidator.php:218-221 | a midnight timestamp is its date followed by `T00:00:00Z` |
| `RestClickRepository.LessTotal` | src/Repositories/ClickRepository.php:100 | any two `(clicked_at, id)` keys are equal or ordered one way |
| `RestClickRepository.Insert` | src/Repositories/ClickRepository.php:100 | inserting into a sorted sequence keeps it sorted and adds exactly the new row |
| `RestClickRepository.SortByKey` | src/Repositories/ClickRepository.php:100 | `ORDER BY clicked_at ASC, id ASC` gives a sorted permutation of the rows |
| `RestClickRepository.Where` | src/Repositories/ClickRepository.php:99 | the rows kept are exactly those the `WHERE` clause admits |
| `RestClickRepository.Matching` | src/Repositories/ClickRepository.php:98-103 | the query returns at most `limit` admitted rows in key order, and leaves out no admitted row that sorts before the last one returned |
| `RestClickRepository.PrefixComplete` | src/Repositories/ClickRepository.php:100-101 | cutting a sorted permutation of the admitted rows at `LIMIT` leaves out only rows not below the last one kept |
| `RestClickRepository.KeyColumnsSelectable` | src/Repositories/ClickRepository.php:32-46 | `id` and `clicked_at` are selectable columns |
| `RestClickRepository.SelectColumns` | src/Repositories/ClickRepository.php:49-68 | the columns are the requested selectable names plus `id` and `clicked_at`, each once, all selectable |
| `RestClickRepository.Item` | src/Repositories/ClickRepository.php:108-127 | an item holds exactly the requested selectable fields, or the selected `id` and `clicked_at` when nothing was requested, each with the row's value |
| `RestClickRepository.SelectedKeys` | src/Repositories/ClickRepository.php:116-125 | of the selected columns, the item keeps exactly the requested allowed ones, or both key columns when nothing was requested |
| `RestClickRepository.Items` | src/Repositories/ClickRepository.php:111-127 | one item per returned row, in order |
| `RestClickRepository.PageOf` | src/Repositories/ClickRepository.php:110-139 | the page has one item per row, and `last` is null iff no rows came back, else the key of the final row |
| `RestClickRepository.Fetch` | src/Repositories/ClickRepository.php:86-139 | a missing table gives an empty page with no `last`; otherwise the items are, in order, the projections of rows the window admits, sorted by `(clicked_at, id)`, at most `limit` of them, with every admitted row left out sorting after the last one returned and left out only when the page is full; `last` is the key of the final row, null iff the page is empty |
| `RestClickRepository.FetchByRange` | src/Repositories/ClickRepository.php:83-140 | `fetchByRange` returns at most `limit` items, and `last` is null iff the table is missing or no row has `since <= clicked_at <= until` |
| `RestClickRepository.FetchAfter` | src/Repositories/ClickRepository.php:146-198 | `fetchAfter` returns at most `limit` items, and `last` is null iff the table is missing or no row is strictly after `(t, i)` |
| `RestClickRepository.SqlStamp` | src/Repositories/ClickRepository.php:98-103 | a bound text that MySQL can compare is a valid instant; text that is not ISO-Z compares as no instant |
| `RestClickRepository.SqlStampIso` | src/Repositories/ClickRepository.php:98-103 | a stamp rendered `Y-m-d\TH:i:s\Z` is read back as the same instant |
| `RestClickRepository.FetchByRangeText` | src/Repositories/ClickRepository.php:83-140 | with the bounds bound as text: an unreadable bound matches nothing, readable bounds give the page of the instants they spell |
| `RestClickRepository.FetchAfterText` | src/Repositories/ClickRepository.php:146-198 | with the cursor stamp bound as text: an unreadable stamp matches nothing, a readable one gives the page after that key |
| `RestClickRepository.PageStrictlyIncreasing` | src/Repositories/ClickRepository.php:100 | in a table with unique ids the keys of one page strictly increase |
| `RestClickRepository.SameKeySameRow` | src/Repositories/ClickRepository.php:162 | in a table with unique ids two rows with the same id are the same row |
| `RestClickRepository.SortedNoRepeat` | src/Repositories/ClickRepository.php:98-103 | a page never repeats a row |
| `RestClickRepository.WhereNoRepeat` | src/Repositories/ClickRepository.php:99 | the filter keeps each row of a unique-id table at most once |
| `RestClickRepository.ConsecutivePages` | src/Repositories/ClickRepository.php:146-198 | for the page after `k0` and the page after its last key: every key of the second page is above every key of the first, so the pages are disjoint and increasing, and the first page holds every row between `k0` and its last key |
| `RestClicksController.BoundText` | build/iw8-wa-click-tracker/src/Rest/ClicksController.php:129-136 | a bound is the strict parameter's instant rendered ISO-Z when given, else the validator's effective bound, else "" |
| `RestClicksController.CheckParams` | build/iw8-wa-click-tracker/src/Rest/ClicksController.php:69-127 | when every check passes: the base validation, `since` and `until` succeeded with these results, and the fields are the strict list when it is non-empty, else the validator's lenient list |
| `RestClicksController.Choose` | build/iw8-wa-click-tracker/src/Rest/ClicksController.php:138-182 | fails exactly when the cursor branch runs and the cursor does not decode, with the decoder's error; otherwise queries after the decoded cursor in that branch, or the since/until window, with the checked limit and fields |
| `RestClicksController.PlanBy` | build/iw8-wa-click-tracker/src/Rest/ClicksController.php:69-168 | the first failing check's error, else the chosen query, whose limit lies in 1..500 |
| `RestClicksController.StrictFieldsAllowed` | build/iw8-wa-click-tracker/src/Rest/ClicksController.php:83-107 | every field the strict check accepts is one of the ten allowed columns |
| `RestClicksController.ErrorOf` | build/iw8-wa-click-tracker/src/Rest/ClicksController.php:71-126 | a check reports an error exactly when it failed, and that error |
| `RestClicksController.FirstError` | build/iw8-wa-click-tracker/src/Rest/ClicksController.php:69-148 | no error iff every check passed; otherwise the error of the earliest failing check |
| `RestClicksController.Checks` | build/iw8-wa-click-tracker/src/Rest/ClicksController.php:69-148 | the handler makes five checks |
| `RestClicksController.ErrorPrecedence` | build/iw8-wa-click-tracker/src/Rest/ClicksController.php:69-148 | the request fails exactly when one of the checks does, with the error of the first failing one in the order base validation, strict fields, since, until, cursor |
| `RestClicksController.UnknownFieldRefused` | build/iw8-wa-click-tracker/src/Rest/ClicksController.php:96-105 | with a valid limit, a request naming an unknown field fails with `invalid_fields` |
| `RestClicksController.NextCursor` | build/iw8-wa-click-tracker/src/Rest/ClicksController.php:159-161 | the next cursor uses only the URL-safe alphabet |
| `RestClicksController.NextCursorDecodes` | build/iw8-wa-click-tracker/src/Rest/ClicksController.php:159-161 | the next cursor decodes to the last row's time and id, and that time is one the query can bind |
| `RestClicksController.Run` | build/iw8-wa-click-tracker/src/Rest/ClicksController.php:150-168 | the repository returns at most `limit` items and a stored key as `last` |
| `RestClicksController.ItemValues` | build/iw8-wa-click-tracker/src/Rest/ClicksController.php:157 | one JSON object per item, in order |
| `RestClicksController.Success` | build/iw8-wa-click-tracker/src/Rest/ClicksController.php:154-184 | status 200 with `range`, `count` equal to the number of items, the items in order, and `next_cursor` present iff `last` is set and the page is full, then the encoding of `last`; no other key |
| `RestClicksController.Serve` | build/iw8-wa-click-tracker/src/Rest/ClicksController.php:69-184 | a failed check answers with its error's status and code, and only a failed check puts `error` in the body; a passing request is answered 200 with `count` equal to the number of items, at most `limit` items, and `next_cursor` present iff the page is full and has a last row |
| `RestClicksController.RateLimited` | build/iw8-wa-click-tracker/src/Rest/ClicksController.php:58-65 | a denial answers 429 `too_many_requests` with `retry_after_seconds` from the limiter |
| `RestClicksController.WithHeaders` | build/iw8-wa-click-tracker/src/Rest/ClicksController.php:66 | `applyHeaders` changes only the headers of a response |
| `RestClicksController.Handle` | build/iw8-wa-click-tracker/src/Rest/ClicksController.php:48-186 | every response carries the rate-limit and cursor-semantics headers and the store is the limiter's; a denial answers 429 `too_many_requests` with `retry_after_seconds` and `Retry-After`; an allowed request answers as `Serve` does |
| `RestClicksController.DeniedBeforeValidation` | build/iw8-wa-click-tracker/src/Rest/ClicksController.php:50-67 | when the limiter denies, the parameters make no difference: the rate limit is checked before validation |
| `RestClicksController.NextCursorResumes` | build/iw8-wa-click-tracker/src/Rest/ClicksController.php:150-161 | a `next_cursor` is only given for a full page with a last row; it decodes to that row's key, and fetching after it is fetching after that key |
| `RestClicksController.RangeBounds` | build/iw8-wa-click-tracker/src/Rest/ClicksController.php:109-136 | the range queried is the strict `since`/`until` rendered ISO-Z when given, else the validator's effective bounds |
| `RestClicksController.DefaultRange` | build/iw8-wa-click-tracker/src/Rest/ClicksController.php:130-136 | without `since` and `until` the range queried is the validator's default window |
| `RestClicksController.ZeroCursorValidated` | src/Validation/RequestValidator.php:83-105 | the validator puts a request with `cursor=0` in cursor mode with raw cursor "0" |
| `RestClicksController.ZeroCursorPlanned` | build/iw8-wa-click-tracker/src/Rest/ClicksController.php:130-168 | as written, a request with `cursor=0` skips the cursor branch and queries the range "" to "" with the default limit and every field |
| `RestClicksController.EmptyBoundsMatchNothing` | src/Repositories/ClickRepository.php:98-106 | a range with "" bounds matches no row |
| `RestClicksController.ZeroCursorServedAsRange` | build/iw8-wa-click-tracker/src/Rest/ClicksController.php:138-184 | as written, `cursor=0` is answered 200 with an empty page and no `next_cursor`, instead of a cursor error |
| `RestClicksController.ZeroDecodeRefused` | build/iw8-wa-click-tracker/src/Validation/CursorCodec.php:20-27 | the cursor "0" does not decode: `invalid_cursor` |
| `RestClicksController.CursorModeNeverRange` | build/iw8-wa-click-tracker/src/Rest/ClicksController.php:138-165 | with the branch test corrected, a request the validator puts in cursor mode is never answered from a range query |
| `RestClicksController.ZeroCursorRefused` | build/iw8-wa-click-tracker/src/Rest/ClicksController.php:138-148 | with the branch test corrected, `cursor=0` fails with `invalid_cursor` |
| `MvpClicksController.Echo` | src/Rest/ClicksController.php:47-48 | an effective bound is echoed as its text, and as null exactly when there is none |
| `MvpClicksController.Answer` | src/Rest/ClicksController.php:38-58 | status 200 iff the cursor, in cursor mode, decodes; a decode failure answers with its error; otherwise exactly `range` (the effective bounds or nulls), `count` 0 and an empty `items` |
| `MvpClicksController.Validated` | src/Rest/ClicksController.php:33 | the MVP handler uses the same validator as the build |
| `MvpClicksController.Handle` | src/Rest/ClicksController.php:31-59 | a request is answered 200 exactly when the validator accepts it and its cursor, if any, decodes; no answer carries `next_cursor`; a 200 answer has count 0 and no items; a refusal carries the validator's or the codec's error |
| `MvpClicksController.AcceptedIff` | src/Rest/ClicksController.php:33-58 | status 200 iff validation succeeds and, in cursor mode, the cursor decodes |
| `MvpClicksController.NeverNextCursor` | src/Rest/ClicksController.php:51-56 | the MVP never sends a `next_cursor` |
| `MvpClicksController.CursorWindowIsNull` | src/Rest/ClicksController.php:46-49 | in cursor mode the echoed range is two nulls |
| `MvpClicksController.DefaultWindowEchoed` | src/Rest/ClicksController.php:46-58 | with no cursor and no well-formed bound, the MVP answers 200 echoing the seven days up to now as ISO-Z text |
| `MvpClicksController.LimitErrorsAgree` | src/Rest/ClicksController.php:33-36 | when base validation fails, the MVP and the build answer the same |
| `MvpClicksController.ZeroCursorRefused` | src/Rest/ClicksController.php:39-43 | the MVP's `isset` test sends `cursor=0` to the decoder, which refuses it with status 400 and `invalid_cursor` |
| `MvpClicksController.RangeOf` | src/Rest/ClicksController.php:46-49 | the `range` object has exactly `effective_since` and `effective_until`: the validator's bounds as ISO text in range mode, both null in cursor mode |
| `RestClicksController.ServedAsPlanned` | build/iw8-wa-click-tracker/src/Rest/ClicksController.php:166-185 | a request whose checks pass is answered with the success page of exactly the query that was planned, run against the store |
| `RestClicksController.EmptyPage` | build/iw8-wa-click-tracker/src/Rest/ClicksController.php:171-184 | an empty page is a 200 with count 0 and no `next_cursor` |
| `RestClicksController.Plan` | build/iw8-wa-click-tracker/src/Rest/ClicksController.php:69-165 | the handler as written fails exactly when one of its five checks fails, with the first failing check's error (limit, fields, since, until, cursor); a planned query has a limit in 1..max and reads after a cursor exactly when the cursor branch is taken |
| `RestClicksController.PlanIntended` | build/iw8-wa-click-tracker/src/Rest/ClicksController.php:69-165 | the same error precedence and limit bound with the cursor branch taken for every cursor-mode request |
| `ClickRepositoryLegacy.OptText` | includes/Database/ClickRepository.php:44-49 | a column read with `isset` is present exactly when the key exists with a non-null value, and is then that value cast to text |
| `ClickRepositoryLegacy.NormalizeInsert` | includes/Database/ClickRepository.php:43-76 | the row written: url and user agent are the first min(255, length) bytes and the element tag the first min(50, length) bytes of what was given; page url and element text passed through; user id the integer cast when set; `clicked_at` the given text unless `empty()`, else the current time |
| `ClickRepositoryLegacy.ShortValuesKept` | includes/Database/ClickRepository.php:52-65 | a url, a tag and a user agent already within their widths are stored exactly as given |
| `ClickRepositoryLegacy.NormalizeIdempotent` | includes/Database/ClickRepository.php:43-76 | normalising a row that was already normalised gives the same row back |
| `ClickRepositoryLegacy.AsData` | includes/Database/ClickRepository.php:68-76 | the stored row, read back as the input array, carries each column under its own key, absent values as null |
| `ClickRepositoryLegacy.InsertClick` | includes/Database/ClickRepository.php:39-114 | a failed insert yields `db_insert_failed` with "Falha ao inserir clique: " followed by the database error; a successful one yields the new id; the row written is the normalised one either way |
| `ClickRepositoryLegacy.ListQuery` | includes/Database/ClickRepository.php:122-140 | the page size defaults to 20 and is at least 1, the offset defaults to 0 and is never negative, a given value is taken as cast and raised to 1 (page size) or 0 (offset) when it is below, and the order is newest `clicked_at` first, then highest id |
| `ClickRepositoryLegacy.EscLike` | includes/Database/ClickRepository.php:165-166 | escaping never shortens the search text and leaves text without `%`, `_` or `\` unchanged |
| `ClickRepositoryLegacy.EscLikeConcat` | includes/Database/ClickRepository.php:165 | escaping works character by character: the escape of a concatenation is the concatenation of the escapes |
| `ClickRepositoryLegacy.EscLikeAt` | includes/Database/ClickRepository.php:165 | every `%`, `_` and `\` of the search text comes out preceded by `\`, between the escapes of the text before and after it |
| `ClickRepositoryLegacy.UnescEscLike` | includes/Database/ClickRepository.php:165-166 | escaping loses nothing: reading each `\x` back as `x` recovers the search text |
| `ClickRepositoryLegacy.BaseConds` | includes/Database/ClickRepository.php:160-176 | the shared conditions: `LIKE '%' + esc_like(s) + '%'` when the search text is not `empty()`, then `REGEXP` of the url expression as given when that is not `empty()`, and nothing else |
| `ClickRepositoryLegacy.TotalConds` | includes/Database/ClickRepository.php:178-189 | the total keeps the shared conditions first and gains `clicked_at >= from 00:00:00` exactly when `from` is given and `clicked_at <= to 23:59:59` exactly when `to` is given |
| `ClickRepositoryLegacy.WindowConds` | includes/Database/ClickRepository.php:203-213 | a rolling window holds exactly the shared conditions, in order, and `clicked_at >= since`, bound last |
| `ClickRepositoryLegacy.WindowMeets` | includes/Database/ClickRepository.php:203-213 | a row is counted in a rolling window iff it meets every shared condition and was clicked at `since` or later |
| `ClickRepositoryLegacy.SearchOnly` | includes/Database/ClickRepository.php:198-215 | dropping the date range keeps the search text and the url expression and removes `from` and `to` |
| `ClickRepositoryLegacy.CountTotals` | includes/Database/ClickRepository.php:146-222 | the total counts under the range conditions (the shared ones alone without a range); the 7- and 30-day counts depend only on the search filters and the instants now minus 7 and 30 days |
| `ClickRepositoryLegacy.WindowsIgnoreRange` | includes/Database/ClickRepository.php:198-215 | two filter sets with the same search text and url expression give the same 7- and 30-day counts, whatever their date ranges |
| `ClickRepositoryLegacy.CountsKeepBase` | includes/Database/ClickRepository.php:160-215 | every shared condition constrains all three counts |
| `ClickRepositoryBuild.ResolveTableName` | build/iw8-wa-click-tracker/includes/Database/ClickRepository.php:11-20 | the new `iw8_wa_clicks` table when it exists, else the old `wa_clicks` table when that exists, else the new name |
| `ClickRepositoryBuild.ResolvedExists` | build/iw8-wa-click-tracker/includes/Database/ClickRepository.php:11-29 | the resolved table exists exactly when either table exists |
| `ClickRepositoryBuild.FieldNames` | build/iw8-wa-click-tracker/includes/Database/ClickRepository.php:35-42 | the column list holds exactly the `Field` values the database reports, no more entries than rows |
| `ClickRepositoryBuild.DiscoverSchema` | build/iw8-wa-click-tracker/includes/Database/ClickRepository.php:31-46 | the columns are the reported fields; the timestamp column is `clicked_at` when present, else `created_at` when present, else none |
| `ClickRepositoryBuild.NormalizeDate` | build/iw8-wa-click-tracker/includes/Database/ClickRepository.php:69-78 | an `empty()` date is kept; a date `strtotime` cannot read becomes ""; a readable one becomes its UTC `Y-m-d H:i:s` rendering |
| `ClickRepositoryBuild.NormalizeFilters` | build/iw8-wa-click-tracker/includes/Database/ClickRepository.php:53-80 | exactly the six known filter keys, each the caller's non-null value or its default, with both dates normalised |
| `ClickRepositoryBuild.UnknownFiltersDropped` | build/iw8-wa-click-tracker/includes/Database/ClickRepository.php:53-80 | the admin-area names `s`, `from`, `to`, `url_regexp` and any `order` do not survive normalisation |
| `ClickRepositoryBuild.Prune` | build/iw8-wa-click-tracker/includes/Database/ClickRepository.php:103-108 | the pruned row keeps exactly the pairs whose column exists, and keeps them in their input order (a subsequence of the full row) |
| `ClickRepositoryBuild.FullRow` | build/iw8-wa-click-tracker/includes/Database/ClickRepository.php:93-101 | the row built before pruning has the seven insert columns in order: the insert's own time under `clicked_at`, each text column the caller's value cast to text or `''`, and `user_id` its integer value or 0 |
| `ClickRepositoryBuild.Formats` | build/iw8-wa-click-tracker/includes/Database/ClickRepository.php:110-114 | one format per remaining column: `%d` for `user_id`, `%s` for every other |
| `ClickRepositoryBuild.InsertClick` | build/iw8-wa-click-tracker/includes/Database/ClickRepository.php:83-121 | `table_missing` with its message when the resolved table does not exist; otherwise the row written holds exactly the built pairs whose column exists, with matching formats; a failed insert gives `db_insert_failed` with the database error or "Falha ao inserir" when that is empty; a successful one the new id |
| `ClickRepositoryBuild.CallerClockIgnored` | build/iw8-wa-click-tracker/includes/Database/ClickRepository.php:93-101 | a `clicked_at` in the caller's data changes nothing about the insert |
| `ClickRepositoryBuild.StampedWithNow` | build/iw8-wa-click-tracker/includes/Database/ClickRepository.php:93-94 | when the table has a `clicked_at` column the row carries the insert's own UTC time there |
| `ClickRepositoryBuild.Untrailing` | build/iw8-wa-click-tracker/includes/Database/ClickRepository.php:146 | removing trailing slashes leaves a prefix that does not end in `/` or `\` |
| `ClickRepositoryBuild.TrailingSlashIt` | build/iw8-wa-click-tracker/includes/Database/ClickRepository.php:146 | the result ends in exactly one `/`, with no slash or backslash before it |
| `ClickRepositoryBuild.TrailingSlashIdempotent` | build/iw8-wa-click-tracker/includes/Database/ClickRepository.php:146 | adding the trailing slash twice is the same as once |
| `ClickRepositoryBuild.UntrailingFixed` | build/iw8-wa-click-tracker/includes/Database/ClickRepository.php:146 | text without a trailing slash is left unchanged |
| `ClickRepositoryBuild.ColumnConds` | build/iw8-wa-click-tracker/includes/Database/ClickRepository.php:146-148 | in this order: `page_url LIKE trailingslashit(page_url) + '%'` exactly when the page filter is not `empty()` and the column exists, `element_tag = tag` likewise, and `user_id = (int) user_id` likewise; nothing else |
| `ClickRepositoryBuild.RangeConds` | build/iw8-wa-click-tracker/includes/Database/ClickRepository.php:149-151 | in this order: `col >= since` exactly when `since` is not `empty()`, `col <= until` likewise, both on the timestamp column with the values as given, and `element_text LIKE '%' + esc_like(search) + '%'` exactly when the search is set and `element_text` exists; nothing else |
| `ClickRepositoryBuild.SelectParts` | build/iw8-wa-click-tracker/includes/Database/ClickRepository.php:155-170 | exactly the existing requested columns are selected: every one of them other than `clicked_at` appears, and nothing else; `clicked_at` is selected directly when it is the timestamp column, or `created_at` is aliased to it |
| `ClickRepositoryBuild.SelectList` | build/iw8-wa-click-tracker/includes/Database/ClickRepository.php:155-170 | the select list is never empty: the selected public columns, or `1 AS id` when none exists (the `` `id` `` fallback cannot happen, since an `id` column is always selected) |
| `ClickRepositoryBuild.Bounded` | build/iw8-wa-click-tracker/includes/Database/ClickRepository.php:177-178 | a missing value gives the default; a set value is its integer cast when that reaches the floor, and the floor otherwise |
| `ClickRepositoryBuild.List` | build/iw8-wa-click-tracker/includes/Database/ClickRepository.php:124-192 | no query without a table or a timestamp column; otherwise it orders by the timestamp column, newest first, with limit `max(1, (int) limit)` (default 50) and offset `max(0, (int) offset)` (default 0); it selects `SelectList` and filters by the column conditions followed by the range conditions of the normalised filters; a requested sort order never survives the normalisation, so the order is always descending |
| `ClickRepositoryBuild.ListConditions` | build/iw8-wa-click-tracker/includes/Database/ClickRepository.php:136-153 | a listing has a lower bound exactly when the normalised `since` is set, an upper bound exactly when `until` is set, and a user condition exactly when the user filter is set and the column exists |
| `ClickRepositoryBuild.WhereSplit` | build/iw8-wa-click-tracker/includes/Database/ClickRepository.php:146-153 | the column conditions and the range conditions never mix, so each kind of condition comes from its own half |
| `ClickRepositoryBuild.SelectNeverFallsBack` | build/iw8-wa-click-tracker/includes/Database/ClickRepository.php:155-173 | whenever the listing queries, its select list is not empty, so the `id` fallback never applies |
| `ClickRepositoryBuild.CountTotals` | build/iw8-wa-click-tracker/includes/Database/ClickRepository.php:196-239 | all three counts are zero without a table or timestamp column; otherwise all-time, 7-day and 30-day counts over the same page, tag and user conditions |
| `ClickRepositoryBuild.CountConds` | build/iw8-wa-click-tracker/includes/Database/ClickRepository.php:211-228 | the counts apply only page, tag and user conditions |
| `ClickRepositoryBuild.CountsIgnoreRangeAndSearch` | build/iw8-wa-click-tracker/includes/Database/ClickRepository.php:211-236 | two filter sets agreeing on page, tag and user give the same totals, whatever their dates and search text |
| `AjaxClick.GetUserAgent` | includes/Ajax/ClickController.php:194-204 | no user agent without the header; a header of at most 255 bytes is kept whole; a longer one becomes its first 252 bytes followed by "..." (255 bytes) |
| `AjaxClick.DataPayload` | includes/Ajax/ClickController.php:97-106 | the payload is an array: the decoded `data` JSON when it is a non-empty string holding an object or array, else the empty array |
| `AjaxClick.Field` | includes/Ajax/ClickController.php:108-113 | a posted field wins; otherwise the payload's set value; otherwise the default |
| `AjaxClick.Sanitize` | includes/Ajax/ClickController.php:115-120 | url and page url through `esc_url_raw`, tag through `sanitize_text_field`, text through `wp_strip_all_tags`, user id as the integer cast, each read from the merged fields |
| `AjaxClick.PageUrl` | includes/Ajax/ClickController.php:153 | a non-empty page url is kept; otherwise the referer when it is non-empty; otherwise the home url |
| `AjaxClick.ElementTag` | includes/Ajax/ClickController.php:154 | never empty: the tag upper-cased character by character, or "A" for an empty tag |
| `AjaxClick.UserId` | includes/Ajax/ClickController.php:157 | a positive posted id is kept, otherwise the current user's id |
| `AjaxClick.InsertData` | includes/Ajax/ClickController.php:150-159 | the seven columns handed to the repository, each filled by its rule, with the user agent null exactly when there is no header |
| `AjaxClick.Admit` | includes/Ajax/ClickController.php:79-148 | the checks in order: bad nonce exactly when none of the three nonces verifies, missing url exactly when the sanitised url is "", no phone exactly when the stored phone is blank or invalid, and acceptance exactly when the url also matches the phone |
| `AjaxClick.HandleClick` | includes/Ajax/ClickController.php:67-188 | an insert is attempted exactly when every check passes; the status is 200 exactly when the reply is a success; `ok` is true exactly when the insert was attempted and succeeded |
| `AjaxClick.Record` | includes/Ajax/ClickController.php:165-187 | the row attempted is the repository's normalised row; a failure answers 500 with `db_insert_failed`, the repository message and the database error; a success answers 200 with the id |
| `AjaxClick.BadNonceRefused` | includes/Ajax/ClickController.php:79-91 | a request with no valid nonce gets 403 `bad_nonce` and nothing is inserted |
| `AjaxClick.MissingUrlRefused` | includes/Ajax/ClickController.php:122-125 | a request whose sanitised url is "" gets 400 `missing_url` and nothing is inserted |
| `AjaxClick.NoPhoneIgnored` | includes/Ajax/ClickController.php:127-135 | without a valid configured phone the click is acknowledged as ignored with reason `no_phone` and nothing is inserted |
| `AjaxClick.MismatchIgnored` | includes/Ajax/ClickController.php:140-148 | a url that does not target the phone is acknowledged as ignored with reason `url_mismatch` and the url, and nothing is inserted |
| `AjaxClick.RecordedClicksMatch` | includes/Ajax/ClickController.php:127-168 | every click the handler tries to insert has a url targeting the configured phone |
| `AjaxClick.AcceptedRow` | includes/Ajax/ClickController.php:150-168 | the row of an accepted click: url cut to 255, a non-empty tag, the text, the page url rule, the user id rule, the current time, and a user agent of at most 255 bytes exactly when the header was sent |
| `AjaxClick.InsertFailureReported` | includes/Ajax/ClickController.php:170-181 | a failed insert answers 500 with `db_insert_failed`, the message "Falha ao inserir clique: " plus the database error, and that error |
| `AjaxClick.InsertSuccessReported` | includes/Ajax/ClickController.php:187 | a successful insert answers 200 with `ok` and the id |
| `AjaxClick.PostedFieldsWin` | includes/Ajax/ClickController.php:108-113 | a request posting all five fields is handled the same whatever its `data` JSON holds |
| `AjaxClick.DataFillsMissingFields` | includes/Ajax/ClickController.php:100-116 | a url given only inside the `data` JSON object is the one sanitised |
| `AjaxClick.EmptyDataRejected` | includes/Ajax/ClickController.php:100-105 | `data` of "" or "0" never supplies a payload object |
| `Helpers.GetConfiguredPhone` | includes/Utils/Helpers.php:87-91 | the configured phone is `Digits` of the option, the option's digits in order with every other character removed; an all-digit option is returned unchanged |
| `Helpers.IsPhoneConfigured` | includes/Utils/Helpers.php:70-80 | an `empty()` option is never configured, and a configured one has 10 to 15 digits |
| `Helpers.ConfiguredIsValid` | includes/Utils/Helpers.php:70-80 | the helper's test agrees in both directions with the URL matcher's phone validity |
| `Helpers.ConfiguredPhoneStable` | includes/Utils/Helpers.php:70-91 | extracting the digits twice changes nothing, and the extracted phone is still configured |
| `Helpers.EscapeSlashes` | includes/Utils/Helpers.php:105-106 | escaping never shortens and leaves text without `/` unchanged |
| `Helpers.UnescapeEscape` | includes/Utils/Helpers.php:105-106 | for text without backslashes, escaping is undone by reading `\/` back as `/` |
| `Helpers.EscapedSlashes` | includes/Utils/Helpers.php:105-106 | every `/` of the escaped text is preceded by a backslash |
| `Helpers.GenerateUrlRegexp` | includes/Utils/Helpers.php:99-110 | "" exactly for an `empty()` phone; otherwise `phone=` and `wa\.me\/`, each followed by the three spellings (bare, `%2B`, `\+`) of the phone with its slashes escaped |
| `Helpers.GenerateUrlRegexpDigits` | includes/Utils/Helpers.php:99-110 | for a digit phone p the pattern offers p, `%2B` then p, and `\+` then p, once after `phone=` and once after `wa\.me\/` |
| `Helpers.TrimText` | includes/Utils/Helpers.php:36-43 | "" for `empty()` text, otherwise the text as `wp_trim_words` shortens it with "..." |
| `UrlMatcher.PregQuote` | build/iw8-wa-click-tracker/includes/Frontend/UrlMatcher.php:54 | `preg_quote($s, '#')`: quoting never shortens and leaves text without special characters or NUL unchanged; the special set is `preg_quote`'s own (`. \ + * ? [ ^ ] $ ( ) { } = ! < > \| : - #`), which leaves `/` alone |
| `UrlMatcher.PregQuoteConcat` | build/iw8-wa-click-tracker/includes/Frontend/UrlMatcher.php:54 | quoting works character by character: the quote of a concatenation is the concatenation of the quotes |
| `UrlMatcher.PregQuoteAt` | build/iw8-wa-click-tracker/includes/Frontend/UrlMatcher.php:54 | every special character of the text comes out preceded by `\`, between the quotes of the text before and after it |
| `UrlMatcher.UnquotePregQuote` | build/iw8-wa-click-tracker/includes/Frontend/UrlMatcher.php:54 | quoting loses nothing: reading `\000` as NUL and `\x` as `x` gives the text back |
| `UrlMatcher.PregQuoteDigits` | build/iw8-wa-click-tracker/includes/Frontend/UrlMatcher.php:53-54 | a run of digits is quoted as itself |
| `UrlMatcher.Pattern` | build/iw8-wa-click-tracker/includes/Frontend/UrlMatcher.php:45-74 | "" exactly when the phone has no digits, otherwise a non-capturing group `(?:...)` |
| `UrlMatcher.PatternSharesAlternatives` | build/iw8-wa-click-tracker/includes/Frontend/UrlMatcher.php:45-113 | `pattern()` and the expression `matchesTarget` builds offer the same five alternatives around the same digits, one unanchored, the other anchored and case-insensitive |
| `UrlMatcher.MatchesTarget` | build/iw8-wa-click-tracker/includes/Frontend/UrlMatcher.php:83-166 | false for an `empty()` url or phone or a phone without 10 to 15 digits; true when the anchored pattern matches; otherwise exactly the `parse_url` fallback's answer, false when `parse_url` fails |
| `UrlMatcher.IsValidPhone` | build/iw8-wa-click-tracker/includes/Frontend/UrlMatcher.php:174-183 | false for null or "", and true only for 10 to 15 digits |
| `UrlMatcher.ValidPhoneIsGuard` | build/iw8-wa-click-tracker/includes/Frontend/UrlMatcher.php:86-94 | `isValidPhone` accepts exactly the phones `matchesTarget` lets past its guards |
| `UrlMatcher.WaMeAccepted` | build/iw8-wa-click-tracker/includes/Frontend/UrlMatcher.php:102-103 | `http(s)://wa.me/` with an optional `+` or `%2B`, the digits and an optional query is a target |
| `UrlMatcher.ApiMessageAccepted` | build/iw8-wa-click-tracker/includes/Frontend/UrlMatcher.php:105-106 | `http(s)://api.whatsapp.com/message/` followed by a code is a target, whatever the phone |
| `UrlMatcher.WaMeMessageAccepted` | build/iw8-wa-click-tracker/includes/Frontend/UrlMatcher.php:108-109 | `http(s)://wa.me/message/` followed by a code is a target, whatever the phone |
| `UrlMatcher.SendAccepted` | build/iw8-wa-click-tracker/includes/Frontend/UrlMatcher.php:99-100 | `http(s)://api.whatsapp.com/send?` with `phone=`, an optional sign and the digits anywhere in the query at a word boundary is a target |
| `UrlMatcher.BareSendAccepted` | build/iw8-wa-click-tracker/includes/Frontend/UrlMatcher.php:99-112 | `http(s)://api.whatsapp.com/send` and `whatsapp://send` without any query are targets, whatever the phone |
| `UrlMatcher.WaMeExtraDigitRefused` | build/iw8-wa-click-tracker/includes/Frontend/UrlMatcher.php:103-163 | `https://wa.me/` followed by the digits and one more digit is refused by both the pattern and the fallback |
| `UrlMatcher.BothRefuse` | build/iw8-wa-click-tracker/includes/Frontend/UrlMatcher.php:115-165 | a url that neither the pattern nor the fallback accepts is not a target |
| `UrlMatcher.ExtraDigitFallback` | build/iw8-wa-click-tracker/includes/Frontend/UrlMatcher.php:153-163 | the fallback refuses `wa.me` with a path of the digits plus one more |
| `UrlMatcher.OtherHostsRefused` | build/iw8-wa-click-tracker/includes/Frontend/UrlMatcher.php:125-165 | the fallback refuses every url whose scheme is not `whatsapp` and whose host is neither `api.whatsapp.com` nor `wa.me`, compared without case |
| `UrlMatcher.ArrayPhoneRefused` | build/iw8-wa-click-tracker/includes/Frontend/UrlMatcher.php:143-147 | a `phone` parameter that `parse_str` turns into an array never matches, since "Array" has no digits |
| `UrlMatcher.PhoneParamOfSingle` | build/iw8-wa-click-tracker/includes/Frontend/UrlMatcher.php:132-136 | the query `phone=` followed by the digits passes the `parse_str` test |
| `UrlMatcher.PhoneParamOfRepeated` | build/iw8-wa-click-tracker/includes/Frontend/UrlMatcher.php:132-136 | `phone=<digits>&phone=0` fails the `parse_str` test: the last value wins and "0" is empty |
| `UrlMatcher.SchemeFallback` | build/iw8-wa-click-tracker/includes/Frontend/UrlMatcher.php:130-138 | in the fallback a `whatsapp:` url matches exactly when its `phone` parameter carries the digits |
| `WaRegex.SendLink` | build/iw8-wa-click-tracker/includes/Frontend/UrlMatcher.php:100 | every flavour accepts `http(s)://api.whatsapp.com/send` with no query or a query containing the phone parameter |
| `WaRegex.SchemeLink` | build/iw8-wa-click-tracker/includes/Frontend/UrlMatcher.php:112 | every flavour accepts `whatsapp://send` with no query or a query containing the phone parameter |
| `WaRegex.WaMeLink` | build/iw8-wa-click-tracker/includes/Frontend/UrlMatcher.php:103 | every flavour accepts `http(s)://wa.me/`, an optional sign, the digits and an optional query |
| `WaRegex.ApiMessageLink` | build/iw8-wa-click-tracker/includes/Frontend/UrlMatcher.php:106 | every flavour accepts `http(s)://api.whatsapp.com/message/` followed by a code |
| `WaRegex.WaMeMessageLink` | build/iw8-wa-click-tracker/includes/Frontend/UrlMatcher.php:109 | every flavour accepts `http(s)://wa.me/message/` followed by a code |
| `WaRegex.WaMeTrailing` | build/iw8-wa-click-tracker/includes/Frontend/UrlMatcher.php:103-113 | no flavour matches `wa.me/` plus the digits followed by anything other than a query |
| `WaRegex.WaMeExtraDigit` | build/iw8-wa-click-tracker/includes/Frontend/UrlMatcher.php:103-113 | no flavour matches `wa.me/` plus the digits and one extra digit |
| `WaRegex.FinalNewlineFlavors` | assets/js/tracker.js:84-107 | a `wa.me` link followed by one newline matches on the server, whose `$` accepts a final newline, but not in the browser |
| `WaRegex.MessageQueryFlavors` | assets/js/tracker.js:86-89 | `api.whatsapp.com/message?` with the phone parameter matches on the server but not in the browser, whose first alternative has `send` only |
| `JsText.Trim` | assets/js/tracker.js:204 | `trim()` gives the slice of the text after its leading white space, followed in the text only by white space, with no white space at either end; "" exactly for text that is all white space |
| `JsText.TrimKeepsVisible` | assets/js/tracker.js:204 | trimming removes only white space: the non-space characters are kept in order |
| `JsText.Collapse` | build/iw8-wa-click-tracker/assets/js/tracker.js:43 | `replace(/\s+/g, " ")` turns every maximal run of white space into exactly one `' '`: the result is collapsed and reads as the same sequence of characters and white-space runs (`Tokens`) as the input; it never lengthens |
| `JsText.CollapsedByTokens` | build/iw8-wa-click-tracker/assets/js/tracker.js:43 | two collapsed texts with the same characters and white-space runs are equal, so the collapse's result is fully determined |
| `JsText.CollapseCollapsed` | build/iw8-wa-click-tracker/assets/js/tracker.js:43 | text that is already collapsed is left unchanged |
| `JsText.CollapseKeepsVisible` | build/iw8-wa-click-tracker/assets/js/tracker.js:43 | collapsing white space keeps the non-space characters in order |
| `JsText.ParseInt` | build/iw8-wa-click-tracker/assets/js/tracker.js:14 | `parseInt(s, 10)`: leading white space is skipped; an optional `-` or `+` is followed by the longest run of digits, which must not be empty; the value is the digits' number with the sign; any other first character, or no digit, is `NaN` |
| `JsText.RemoveFirst` | assets/js/tracker.js:43 | `replace(":", "")` leaves text without `:` unchanged and otherwise removes exactly the first `:` |
| `TrackerJs.QueryText` | assets/js/tracker.js:46 | the query text is the search string without its leading `?` |
| `TrackerJs.PhoneDigits` | assets/js/tracker.js:50 | the phone parameter is reduced to digits |
| `TrackerJs.WaMePathDigits` | assets/js/tracker.js:71 | a `wa.me` path matches `/(+\|%2B)?` followed by 6 to 20 digits, which are returned |
| `TrackerJs.IsTarget` | assets/js/tracker.js:38-113 | false for an empty url or a phone without digits; when `new URL` throws, exactly the browser regex's answer; otherwise exactly the structured check's answer |
| `TrackerJs.SchemeMatchesIff` | assets/js/tracker.js:48-52 | a `whatsapp:` url is a target exactly when its `phone` parameter has the destination digits |
| `TrackerJs.ApiHostPaths` | assets/js/tracker.js:54-66 | on `api.whatsapp.com`, `/send` is a target exactly when the phone matches; any other path exactly when it starts with `/message/` |
| `TrackerJs.StructuredWaMe` | assets/js/tracker.js:68-80 | on `wa.me`, a digit path is a target exactly when its digits are the destination; any other path exactly when it starts with `/message/` |
| `TrackerJs.WaMePathOf` | assets/js/tracker.js:71 | `/`, an optional sign and digits is recognised exactly when there are 6 to 20 digits |
| `TrackerJs.WaMePathMatches` | assets/js/tracker.js:69-74 | `https://wa.me/` with the destination is a target exactly when the destination has 6 to 20 digits |
| `TrackerJs.LongDestinationNoWaMePath` | assets/js/tracker.js:69-79 | a destination of more than 20 digits is never matched through a `wa.me` path |
| `TrackerJs.OtherHostRefused` | assets/js/tracker.js:48-112 | a web url on any other host is never a target |
| `TrackerJs.RepeatedPhoneDisagrees` | assets/js/tracker.js:48-52 | for `whatsapp://send?phone=<d>&phone=0` the browser (first value) accepts while the server fallback (last value) refuses |
| `TrackerJs.MessageWithoutSlashDisagrees` | assets/js/tracker.js:54-66 | `https://api.whatsapp.com/message?phone=<d>` is refused by the browser but accepted by the server fallback |
| `TrackerJs.SendClick` | assets/js/tracker.js:133-152 | a url sent less than 2000 ms ago is dropped and nothing changes; otherwise its time is recorded before the config check, and it is sent exactly when the config is complete |
| `TrackerJs.RepeatWithinWindowDropped` | assets/js/tracker.js:137-141 | the same url clicked again within 2000 ms is dropped |
| `TrackerJs.RepeatAfterWindowRecorded` | assets/js/tracker.js:137-142 | the same url clicked 2000 ms or more later is recorded again |
| `TrackerJs.SendClickFrame` | assets/js/tracker.js:142 | a click changes only its own url's entry |
| `TrackerJs.BurstSpacing` | assets/js/tracker.js:137-142 | in a burst of clicks on one url, every click that is not dropped is at least 2000 ms after the last recorded one |
| `TrackerJs.CapturePayload` | assets/js/tracker.js:198-205 | the payload keeps url and page, lower-cases the tag or says "unknown", and takes the first min(500, length) characters of the trimmed text |
| `TrackerJs.CaptureClick` | assets/js/tracker.js:183-208 | nothing happens for a non-target url; a payload is sent exactly for a target that is not a duplicate while the config is complete, and it is the `CapturePayload` of the click; a non-duplicate target records the time |
| `TrackerBuildJs.SchemeAddsNothing` | build/iw8-wa-click-tracker/assets/js/tracker.js:25-31 | the optional scheme adds nothing: the host pattern matches somewhere exactly when a host occurs at the start or after a non-word character |
| `TrackerBuildJs.GluedHostRefused` | build/iw8-wa-click-tracker/assets/js/tracker.js:28 | a host glued to a letter or digit in front does not match at that place |
| `TrackerBuildJs.Cut` | build/iw8-wa-click-tracker/assets/js/tracker.js:55 | `replace(/[#?].*$/, "")` keeps the text up to the first `#` or `?` with no line break after it |
| `TrackerBuildJs.CutIdempotent` | build/iw8-wa-click-tracker/assets/js/tracker.js:55 | cutting twice is the same as once |
| `TrackerBuildJs.CutLower` | build/iw8-wa-click-tracker/assets/js/tracker.js:55 | cutting and lower-casing commute |
| `TrackerBuildJs.KeyForIdempotent` | build/iw8-wa-click-tracker/assets/js/tracker.js:55 | `keyFor` is idempotent: a key is its own key |
| `TrackerBuildJs.FirstNonEmpty` | build/iw8-wa-click-tracker/assets/js/tracker.js:36-42 | the chain of `\|\|` gives "" exactly when every candidate is empty, otherwise the first non-empty one |
| `TrackerBuildJs.Clean` | build/iw8-wa-click-tracker/assets/js/tracker.js:43 | the cleaned label is the first min(500, length) characters of the trimmed, collapsed text: "" exactly for blank text, no leading white space, no white-space run, and, when nothing is cut, exactly the characters and white-space runs of the trimmed text |
| `TrackerBuildJs.CleanKeepsText` | build/iw8-wa-click-tracker/assets/js/tracker.js:43 | when no cut is needed, cleaning keeps every non-space character in order |
| `TrackerBuildJs.FallbackLabel` | build/iw8-wa-click-tracker/assets/js/tracker.js:45-47 | the fallback label is a non-empty `text` parameter when there is one, and the pathname otherwise |
| `TrackerBuildJs.GetLabel` | build/iw8-wa-click-tracker/assets/js/tracker.js:34-51 | at most 500 characters: `Clean` of the element's label source when that is not blank, else the fallback cut to 500, else "" when the url does not parse |
| `TrackerBuildJs.UserId` | build/iw8-wa-click-tracker/assets/js/tracker.js:14 | an unset user id is 0; a digit string is its value |
| `TrackerBuildJs.ElementTag` | build/iw8-wa-click-tracker/assets/js/tracker.js:136-138 | the tag upper-cased, or "UNKNOWN" without a tag name |
| `TrackerBuildJs.Handle` | build/iw8-wa-click-tracker/assets/js/tracker.js:117-148 | a payload is produced exactly for a WhatsApp link whose key was not seen, which is then added; the payload has the href, page, tag, label, user agent and user id |
| `TrackerBuildJs.SentOnce` | build/iw8-wa-click-tracker/assets/js/tracker.js:117-130 | over a page's clicks, every sent key was new and is seen at the end, and no key is sent twice |
| `TrackerBuildJs.KeyFor` | build/iw8-wa-click-tracker/assets/js/tracker.js:55 | the key is the link lower-cased up to the first place `[#?].*$` matches, or the whole link when it matches nowhere |
| `TrackerBuildJs.Run` | build/iw8-wa-click-tracker/assets/js/tracker.js:117-151 | over a page's clicks the seen set only grows and at most one payload is sent per click |
| `AdminPost.Guard` | includes/Admin/Actions/TokenHandlers.php:13-16 | a handler carries on exactly when the caller may manage options and the nonce is valid; otherwise 403 "Acesso negado." or the nonce failure, in that order |
| `AdminPost.Back` | includes/Admin/Actions/TokenHandlers.php:57-60 | the referer when it is a non-empty string, else the settings page |
| `WpOptions.Get` | includes/Admin/Actions/TokenHandlers.php:42 | `get_option` gives the stored value, or the default for a missing option |
| `WpOptions.Add` | includes/Admin/Actions/TokenHandlers.php:44 | `add_option` leaves an existing option alone and otherwise creates it with the given autoload flag |
| `WpOptions.Update` | includes/Admin/Actions/TokenHandlers.php:46 | `update_option` sets the value, keeps an existing autoload flag, autoloads a new option, and changes no other option |
| `WpOptions.GetUpdate` | build/iw8-wa-click-tracker/includes/Admin/Actions/SavePhoneHandler.php:45-46 | reading an option after writing it gives what was written |
| `WpOptions.GetUpdateOther` | build/iw8-wa-click-tracker/includes/Admin/Actions/SavePhoneHandler.php:45-46 | writing one option does not change how any other reads |
| `WpOptions.UpdateValid` | includes/Admin/Actions/TokenHandlers.php:41-55 | writing a non-null value keeps the options free of nulls |
| `TokenHandlers.Bin2Hex` | includes/Admin/Actions/TokenHandlers.php:22 | `bin2hex` gives two lower-case hex digits per byte |
| `TokenHandlers.Hex2BinBin2Hex` | includes/Admin/Actions/TokenHandlers.php:22 | `bin2hex` loses nothing: decoding the hex gives the bytes back |
| `TokenHandlers.FromDraws` | includes/Admin/Actions/TokenHandlers.php:34-39 | the last-resort token has one hex digit per draw, each spelling its draw |
| `TokenHandlers.GenerateToken` | includes/Admin/Actions/TokenHandlers.php:18-39 | always 64 lower-case hex digits: the hex of `random_bytes` when it works, else of strong OpenSSL bytes, else of 64 draws of `wp_rand(0, 15)` |
| `TokenHandlers.TierOrder` | includes/Admin/Actions/TokenHandlers.php:18-39 | a later source is consulted only when every earlier one failed |
| `TokenHandlers.Put` | includes/Admin/Actions/TokenHandlers.php:41-55 | writing an option sets its value, creates a missing one without autoload, keeps an existing autoload flag and changes no other option |
| `TokenHandlers.Rotate` | includes/Admin/Actions/TokenHandlers.php:41-55 | rotation stores the token and the time, both not autoloaded when new, and changes no other option |
| `TokenHandlers.RotateUi` | includes/Admin/Actions/TokenHandlers.php:11-64 | a refused caller changes nothing; otherwise the options are rotated with a freshly generated token and the browser goes back with `rotated` |
| `TokenHandlers.EffectiveToken` | includes/Admin/Actions/TokenHandlers.php:77-79 | the new token when it is not "", else the legacy token, else ""; "" exactly when both are "" |
| `TokenHandlers.ExportUi` | includes/Admin/Actions/TokenHandlers.php:70-100 | a refused caller gets the guard's answer; otherwise a 400 exactly when there is no token, and a download carrying the effective token otherwise |
| `TokenHandlers.ExportAfterRotate` | includes/Admin/Actions/TokenHandlers.php:11-100 | exporting right after a rotation hands out the token just generated, whatever the legacy option holds |
| `SettingsPage.Bullets` | build/iw8-wa-click-tracker/includes/Admin/Pages/SettingsPage.php:268 | `str_repeat('•', n)` has three bytes per bullet, each a byte of the bullet |
| `SettingsPage.MaskToken` | build/iw8-wa-click-tracker/includes/Admin/Pages/SettingsPage.php:263-269 | a token of at most eight bytes is shown whole; a longer one as one bullet per hidden byte and its last eight bytes |
| `SettingsPage.MaskSeesOnlyTail` | build/iw8-wa-click-tracker/includes/Admin/Pages/SettingsPage.php:263-269 | two tokens of the same length with the same last eight bytes are masked alike |
| `SettingsPage.TokenShown` | build/iw8-wa-click-tracker/includes/Admin/Pages/SettingsPage.php:38-46 | "(não definido)" when the effective token is empty to PHP, else its mask |
| `SettingsPage.RotatedTokenShown` | build/iw8-wa-click-tracker/includes/Admin/Pages/SettingsPage.php:38-46 | after a rotation the page shows 56 bullets and the new token's last eight bytes |
| `SettingsPage.StoredPhone` | build/iw8-wa-click-tracker/includes/Admin/Pages/SettingsPage.php:25-31 | the phone option, or its mirror when it is "" |
| `SettingsPage.PhoneShown` | build/iw8-wa-click-tracker/includes/Admin/Pages/SettingsPage.php:32-33 | the sanitised prefill when it is not "", else the stored phone |
| `SettingsPage.FreshSiteDefaults` | build/iw8-wa-click-tracker/includes/Admin/Pages/SettingsPage.php:25-46 | on a site with no options: no phone, debug off, the beacon switched off and no token |
| `SavePhoneHandler.Flag` | build/iw8-wa-click-tracker/includes/Admin/Actions/SavePhoneHandler.php:48-58 | a flag is set to 1 when its box is posted, to 0 when only its marker is, and left alone otherwise |
| `SavePhoneHandler.Save` | build/iw8-wa-click-tracker/includes/Admin/Actions/SavePhoneHandler.php:15-67 | a refused caller changes nothing; 1 to 9 or more than 15 digits go back with `phone_invalid` and the raw text, changing nothing; otherwise the digits and flags are stored and the browser goes back with `saved` |
| `SavePhoneHandler.Store` | build/iw8-wa-click-tracker/includes/Admin/Actions/SavePhoneHandler.php:44-58 | an accepted form stores the same digits under both phone options, sets each flag as the form says, and changes no other option |
| `SavePhoneHandler.FlagWrites` | build/iw8-wa-click-tracker/includes/Admin/Actions/SavePhoneHandler.php:48-58 | a flag writes only its own option, and only when the form carried it |
| `SavePhoneHandler.StoredPhoneConfigured` | build/iw8-wa-click-tracker/includes/Admin/Actions/SavePhoneHandler.php:24-46 | what an accepted form stores is the digits, which count as a configured phone exactly when they are not "" |
| `SavePhoneHandler.SavedPhoneShown` | build/iw8-wa-click-tracker/includes/Admin/Actions/SavePhoneHandler.php:45 | after an accepted form the settings page shows the digits just saved |
| `SavePhoneHandler.SavedDebugShown` | build/iw8-wa-click-tracker/includes/Admin/Actions/SavePhoneHandler.php:49-53 | after a form that carried the debug field or marker, the page's debug switch is on exactly when the box was ticked |
| `SavePhoneHandler.RefusedChangesNothing` | build/iw8-wa-click-tracker/includes/Admin/Actions/SavePhoneHandler.php:27-42 | a refused phone leaves every option as it was |
| `ClickMeta.NormalKey` | includes/meta.php:54-58 | a key is refused exactly when it trims to ""; otherwise it is the first min(64, length) bytes of the trimmed key |
| `ClickMeta.AddClickMeta` | includes/meta.php:50-72 | true exactly for a positive click id, a non-blank key and an accepted insert, which appends one row; otherwise nothing changes |
| `ClickMeta.Select` | includes/meta.php:98-111 | the rows read are exactly the stored rows of the click whose key is asked for, in the order they were stored (a subsequence of the stored rows) |
| `ClickMeta.Collect` | includes/meta.php:113-117 | the map has exactly the keys read, and every key's value is the value of the last row read with that key |
| `ClickMeta.AskedKeys` | includes/meta.php:86-92 | the key list as written holds exactly the normalised forms of the asked keys other than "0": no "", no "0", nothing longer than 64 bytes, nothing that was not asked |
| `ClickMeta.GetClickMeta` | includes/meta.php:79-118 | nothing for a click id that is not positive or when no asked key survives; otherwise the collected rows for the surviving keys, or for every key when none was asked |
| `ClickMeta.IntendedKeys` | includes/meta.php:86-92 | the corrected key list holds exactly the normalised forms of the asked keys: only blank keys are dropped and nothing that was not asked appears |
| `ClickMeta.GetClickMetaIntended` | includes/meta.php:79-118 | the corrected read: nothing for a click id that is not positive, the collected rows for the kept keys, and every key read belongs to the click |
| `ClickMeta.AddThenGet` | includes/meta.php:50-118 | adding a value and asking for its key gives that value back |
| `ClickMeta.AddThenGetAll` | includes/meta.php:50-118 | adding a value and reading every key of the click gives that value back |
| `ClickMeta.ZeroKeyLost` | includes/meta.php:88-94 | the key "0" is stored, yet asking for it by name returns nothing while reading every key finds it |
| `ClickMeta.ZeroKeyFound` | includes/meta.php:88-94 | with the corrected filter, asking for "0" finds its value |
| `ClickMeta.AgreeOffZero` | includes/meta.php:86-94 | for a key list that does not name "0", the read as written and the corrected one agree |

## Left out

- RequestValidator.ReadIsoOrNull: `DateTime::createFromFormat('Y-m-d\TH:i:s\Z')` also accepts one-digit month, day and hour, and rolls an impossible date over ("2025-02-30" becomes 2 March), since `getLastErrors()` is never consulted (src/Validation/RequestValidator.php:131-142). The model accepts only the zero-padded form of a real calendar date and returns null otherwise, so its round-trip ensures holds only for that form.
- RequestValidator.ParseIsoUtc: for the same reason, "2025-1-5T3:04:05Z" is refused here with `invalid_datetime`, while PHP parses it (src/Validation/RequestValidator.php:224-240). Overflowing dates are refused both here and in PHP.
- RequestValidator.ValidateIsoUtc: inherits the narrower parser of `ParseIsoUtc`.
- ClickRepositoryLegacy.NormalizeInsert: cuts `url` and `user_agent` at 255 bytes and `element_tag` at 50 bytes, as the `substr` fallback does. It does not model `mb_substr`'s cut at the 255th or 50th UTF-8 character, which keeps more bytes for non-ASCII text.
- Php.IntCast: integers are unbounded. The 64-bit effects modelled are those of a numeric string: it saturates at `PHP_INT_MAX`/`PHP_INT_MIN`, and becomes 0 once its value overflows a double (`Php.NumericToInt`). The rounding of a fractional or exponent string to the nearest double before the cast is not modelled: the model truncates the exact decimal value, so a string such as "9007199254740993.5" casts to 9007199254740993 here and to 9007199254740992 in PHP. A `Float` is cast by truncating its literal without either bound.
- JsText.ParseInt: the value is the exact integer of the digits. `parseInt` returns a double, so a digit run above 2^53 comes back rounded to the nearest double ("9007199254740993" reads as 9007199254740992), and one beyond the largest double is `Infinity`. Only the exact value is modelled.
- TrackerBuildJs.UserId: inherits `JsText.ParseInt`'s exact value, so a configured user id above 2^53 is the exact digits here and the rounded double in the browser. WordPress user ids are far below that bound.
- TrackerJs.CapturePayload: `substring(0, 500)` counts UTF-16 code units. The model counts characters, so a text of characters outside the Basic Multilingual Plane keeps more of them here than in the browser.
- TrackerBuildJs.Clean: the same UTF-16 simplification applies to its 500 cut.
- TrackerBuildJs.GetLabel: inherits `Clean`'s character count.
- TrackerBuildJs.KeyForIdempotent: `KeyFor` lower-cases ASCII letters only; `toLowerCase` also maps non-ASCII letters.
- TrackerBuildJs.ElementTag: `toUpperCase` is modelled on ASCII letters only.
- Url.Decode: yields the decoded bytes. `URLSearchParams` then reads them as UTF-8, so "%C3%A9" is two characters here and one ("é") in the browser. The stated properties are the length bound, the plain `+` to space reading of a text without `%`, and the round trip in `Url.DecodeRawUrlEncode`.
- Json.Decode: the contract fixes a value's kind by its first character and the three literals; beyond that only the documents the cursor codec meets are characterised, through the round trip `Json.DecodeCursorObject`. Floats and `\u` escapes outside the BMP are parsed but not stated.
- TokenAuth.ExtractToken: the header map is taken as given. WordPress's `WP_REST_Request::get_headers()` stores header names lower-cased with `-` turned into `_` (`x_iw8_token`); under that canonicalisation neither spelling src/Security/TokenAuthenticator.php:41 looks up would be present. The canonicalisation belongs to WordPress and is not modelled.
- RestClickRepository.ColumnValue: `id` is returned as an integer. `$wpdb->get_results` returns every column as a string, so the source's JSON carries `"id":"7"` where the model has 7; the cursor path casts it with `(int)` either way.
- RestClickRepository: rows are assumed stored with valid timestamps and ids in `1..PHP_INT_MAX` (`Stored`), which the table's schema guarantees. SQL execution itself is replaced by evaluation over a sequence.
- The admin repositories (`ClickRepositoryLegacy`, `ClickRepositoryBuild`) are modelled as the query they build: conditions, order, limit and offset. MySQL's evaluation, collation and text conversion are not modelled.
- ClickMeta.Collect: the meta rows are read in insertion order, so a key stored twice reads back its later value; the source's `SELECT` has no `ORDER BY`, so the database may return them in another order and the earlier value may win.
- ClickMeta.GetClickMeta: MySQL's case-insensitive `IN` comparison under the default collation is not modelled; keys match exactly. `maybe_serialize`/`maybe_unserialize` are taken to be inverse, and the meta table's DDL is not modelled.
- The rate limiter's read-then-write race between concurrent requests is not modelled; checks happen one at a time. A bucket whose reset time has passed counts as absent; WordPress's own eviction of expired transients is not modelled.
- `Helpers::format_datetime` (`date_i18n`) formats for display and is not modelled.
- The browser trackers' `extractUrl`, `trackWindowOpen` and `window.open` patch, and the beacon/fetch/XHR sending are not modelled: they are DOM and network glue.
- Foreign primitives are parameters and not modelled: `md5`, `random_bytes`/`wp_generate_password`, `esc_url_raw`, `sanitize_text_field`, `wp_strip_all_tags`, `home_url`, `parse_url` and `new URL`, `strtotime` and `gmdate`, and the clock.
- `wp_die`, `wp_safe_redirect`, `exit` and the key order of JSON responses are reduced to the outcome value they produce.
- `src/Http/JsonResponse.php` and `src/Validation/CursorCodec.php` (the older copies) are not part of this model. The model follows the build copies.
- Admin UI rendering (the clicks, hub and diagnostics pages, menus, CSV export) is not modelled beyond what `SettingsPage` shows.

## Findings

| source | as written | input that shows it | evidently intended | confidence | as-written member | corrected member |
|---|---|---|---|---|---|---|
| build/iw8-wa-click-tracker/src/Rest/ClicksController.php:139 | the cursor branch is taken only when `!empty($v['cursor_raw'])`, and PHP's `empty("0")` is true | `GET /clicks?cursor=0`: the validator selects cursor mode, the controller skips the cursor branch, and the request is answered 200 with an empty range page | a cursor the validator accepted is decoded, and "0" is refused with `invalid_cursor` as the MVP controller does | high, not executed | `RestClicksController.ZeroCursorServedAsRange` | `RestClicksController.ZeroCursorRefused` |
| includes/meta.php:88-94 | `array_filter` without a callback drops every falsy key, including "0" | `iw8_wa_add_click_meta(5, "0", "x")` stores the row, then `iw8_wa_get_click_meta(5, ["0"])` returns `[]`; reading every key of click 5 does return "0" | only the blank keys mapped to null are dropped | medium, not executed | `ClickMeta.ZeroKeyLost` | `ClickMeta.ZeroKeyFound` |

=== FILE: admin_post.dfy ===
/**
 * What the `admin-post.php` handlers share: the capability and nonce checks
 * that end the request, and the redirect back to the calling page.
 */
module AdminPost {
  import opened Wrappers
  import opened Text
  import opened Php

  /** The settings page, used when there is no referer. */
  const SettingsPath := "admin.php?page=iw8-wa-settings"

  const AccessDenied := "Acesso negado."

  /** The caller, as far as the handlers ask about it. */
  datatype Caller = Caller(canManageOptions: bool, nonceValid: bool)

  /** Where a handler sends the browser back to. */
  datatype Target = Referer(url: string) | AdminPage(path: string)

  /**
   * How a handler ends: `wp_die` with a status, `check_admin_referer`'s own
   * failure page, a redirect with query arguments, or a JSON download.
   */
  datatype Outcome =
    | Die(status: int, message: string)
    | NonceFailed
    | Redirect(target: Target, args: seq<(string, string)>)
    | Download(payload: Value)

  /**
   * The two checks every handler starts with: `manage_options` (else a 403)
   * and then the nonce. None means the handler carries on.
   */
  function Guard(c: Caller): (r: Option<Outcome>)
    ensures r.None? <==> c.canManageOptions && c.nonceValid
    ensures !c.canManageOptions ==> r == Some(Die(403, AccessDenied))
    ensures c.canManageOptions && !c.nonceValid ==> r == Some(NonceFailed)
  {
    if !c.canManageOptions then Some(Die(403, AccessDenied))
    else if !c.nonceValid then Some(NonceFailed)
    else None
  }

  /**
   * `wp_get_referer()`, or the settings page when it is false or a string
   * PHP considers empty.
   */
  function Back(referer: Option<string>): (t: Target)
    ensures t.Referer? <==> referer.Some? && !PhpEmptyString(referer.value)
    ensures t.Referer? ==> t.url == referer.value
    ensures t.AdminPage? ==> t.path == SettingsPath
  {
    if referer.Some? && !PhpEmptyString(referer.value) then Referer(referer.value)
    else AdminPage(SettingsPath)
  }
}

=== FILE: ajax_click.dfy ===
/**
 * `Ajax\ClickController::handle_click`, the `admin-ajax.php` endpoint the
 * front-end tracker posts to: nonce, payload (individual fields or a `data`
 * JSON object), sanitisation, the configured phone, the target match, and
 * the insert through the admin-area repository.
 *
 * The WordPress environment (sanitisers, `parse_url`, referer, home URL,
 * current user, clock) is a value of `Wp`; the database's answer to the
 * insert is a parameter.
 */
module AjaxClick {
  import opened Wrappers
  import opened Text
  import opened Php
  import Json
  import UrlMatcher
  import Repo = ClickRepositoryLegacy

  /** What the handler reads from WordPress besides the request. */
  datatype Wp = Wp(
    escUrlRaw: string -> string,
    sanitizeTextField: string -> string,
    stripAllTags: string -> string,
    parseUrl: string -> Option<UrlMatcher.UrlParts>,
    referer: Option<string>,
    homeUrl: string,
    currentUserId: nat,
    now: string)

  /** The request: the three nonce checks, `$_POST` after `wp_unslash`, and the `User-Agent` header. */
  datatype Request = Request(
    ajaxNonceOk: bool, nonceOk: bool, legacyNonceOk: bool,
    post: map<string, Value>,
    userAgent: Option<string>)

  /**
   * `wp_send_json_success` (status 200) or `wp_send_json_error` with its
   * status. Every reply's data has an `ok` flag, kept apart from the other keys.
   */
  datatype Reply = Reply(status: int, success: bool, ok: bool, data: map<string, Value>)

  /** The reply and the row handed to the repository, if the handler got that far. */
  datatype Outcome = Outcome(reply: Reply, attempted: Option<Repo.Row>)

  const MaxAgent: nat := 255

  // ---------------------------------------------------------------------
  // get_user_agent
  // ---------------------------------------------------------------------

  /** `get_user_agent`: absent stays absent; longer than 255 becomes 252 characters and `...`. */
  function GetUserAgent(header: Option<string>): (r: Option<string>)
    ensures r.Some? <==> header.Some?
    ensures r.Some? ==> |r.value| <= MaxAgent
    ensures header.Some? && |header.value| <= MaxAgent ==> r == header
    ensures header.Some? && |header.value| > MaxAgent
            ==> |r.value| == MaxAgent && StartsWith(header.value, r.value[..252]) && EndsWith(r.value, "...")
  {
    match header
    case None => None
    case Some(ua) =>
      if |ua| > MaxAgent then
        var r := ua[..252] + "...";
        assert r[..252] == ua[..252] && r[252..] == "...";
        Some(r)
      else Some(ua)
  }

  // ---------------------------------------------------------------------
  // The payload
  // ---------------------------------------------------------------------

  /** `is_array(json_decode($raw, true))` for a non-empty `data` field, else `[]`. */
  function DataPayload(post: map<string, Value>): (r: Value)
    ensures IsArray(r)
    ensures !("data" in post && !Empty(post["data"])) ==> r == Assoc(map[])
    ensures "data" in post && post["data"].Str? && !PhpEmptyString(post["data"].s)
            ==> var d := Json.Decode(post["data"].s);
                r == (if d.Some? && IsArray(d.value) then d.value else Assoc(map[]))
    ensures "data" in post && !post["data"].Str? ==> r == Assoc(map[])
  {
    if "data" in post && !Empty(post["data"]) then
      var raw := if post["data"].Str? then post["data"].s else "";
      var arr := Json.Decode(raw);
      if arr.Some? && IsArray(arr.value) then arr.value else Assoc(map[])
    else Assoc(map[])
  }

  /** `isset($post[k])`. */
  predicate Posted(post: map<string, Value>, key: string)
  {
    key in post && !post[key].Null?
  }

  /** `isset($post[k]) ? $post[k] : ($payload[k] ?? default)`: a posted field wins. */
  function Field(post: map<string, Value>, payload: Value, key: string, default: Value): (r: Value)
    requires IsArray(payload)
    ensures Posted(post, key) ==> r == post[key]
    ensures !Posted(post, key) && IsSet(payload, key) ==> Some(r) == Lookup(payload, key)
    ensures !Posted(post, key) && !IsSet(payload, key) ==> r == default
  {
    if Posted(post, key) then post[key] else Coalesce(payload, key, default)
  }

  /** The five fields after sanitisation. */
  datatype Fields = Fields(url: string, pageUrl: string, elementTag: string, elementText: string, userId: int)

  function Sanitize(wp: Wp, post: map<string, Value>): (r: Fields)
    ensures var payload := DataPayload(post);
      && r.url == wp.escUrlRaw(StrCast(Field(post, payload, "url", Str(""))))
      && r.pageUrl == wp.escUrlRaw(StrCast(Field(post, payload, "page_url", Str(""))))
      && r.elementTag == wp.sanitizeTextField(StrCast(Field(post, payload, "element_tag", Str(""))))
      && r.elementText == wp.stripAllTags(StrCast(Field(post, payload, "element_text", Str(""))))
      && r.userId == IntCast(Field(post, payload, "user_id", Int(0)))
  {
    var payload := DataPayload(post);
    Fields(
      wp.escUrlRaw(StrCast(Field(post, payload, "url", Str("")))),
      wp.escUrlRaw(StrCast(Field(post, payload, "page_url", Str("")))),
      wp.sanitizeTextField(StrCast(Field(post, payload, "element_tag", Str("")))),
      wp.stripAllTags(StrCast(Field(post, payload, "element_text", Str("")))),
      IntCast(Field(post, payload, "user_id", Int(0))))
  }

  // ---------------------------------------------------------------------
  // The data array handed to insertClick
  // ---------------------------------------------------------------------

  /** `$page_url ?: (wp_get_referer() ?: home_url('/'))`. */
  function PageUrl(wp: Wp, pageUrl: string): (r: string)
    ensures !PhpEmptyString(pageUrl) ==> r == pageUrl
    ensures PhpEmptyString(pageUrl) && wp.referer.Some? && !PhpEmptyString(wp.referer.value) ==> r == wp.referer.value
    ensures PhpEmptyString(pageUrl) && !(wp.referer.Some? && !PhpEmptyString(wp.referer.value)) ==> r == wp.homeUrl
  {
    if !PhpEmptyString(pageUrl) then pageUrl
    else if wp.referer.Some? && !PhpEmptyString(wp.referer.value) then wp.referer.value
    else wp.homeUrl
  }

  /** The tag in upper case, `A` when none was sent. */
  function ElementTag(tag: string): (r: string)
    ensures r != ""
    ensures tag != "" ==> |r| == |tag| && forall k :: 0 <= k < |r| ==> r[k] == UpperChar(tag[k])
    ensures tag == "" ==> r == "A"
  {
    if tag != "" then Upper(tag) else "A"
  }

  /** `$user_id > 0 ? $user_id : (get_current_user_id() ?: 0)`. */
  function UserId(wp: Wp, userId: int): (r: nat)
    ensures userId > 0 ==> r == userId
    ensures userId <= 0 ==> r == wp.currentUserId
  {
    if userId > 0 then userId else wp.currentUserId
  }

  function InsertData(wp: Wp, f: Fields, userAgent: Option<string>): (d: map<string, Value>)
    ensures d.Keys == {"url", "page_url", "element_tag", "element_text", "user_agent", "user_id", "clicked_at"}
    ensures d["url"] == Str(f.url) && d["page_url"] == Str(PageUrl(wp, f.pageUrl))
    ensures d["element_tag"] == Str(ElementTag(f.elementTag)) && d["element_text"] == Str(f.elementText)
    ensures d["user_id"] == Int(UserId(wp, f.userId)) && d["clicked_at"] == Str(wp.now)
    ensures "user_agent" in d && (d["user_agent"].Null? <==> GetUserAgent(userAgent).None?)
    ensures GetUserAgent(userAgent).Some? ==> d["user_agent"] == Str(GetUserAgent(userAgent).value)
  {
    var ua := GetUserAgent(userAgent);
    map["url" := Str(f.url),
        "page_url" := Str(PageUrl(wp, f.pageUrl)),
        "element_tag" := Str(ElementTag(f.elementTag)),
        "element_text" := Str(f.elementText),
        "user_agent" := if ua.Some? then Str(ua.value) else Null,
        "user_id" := Int(UserId(wp, f.userId)),
        "clicked_at" := Str(wp.now)]
  }

  // ---------------------------------------------------------------------
  // handle_click
  // ---------------------------------------------------------------------

  predicate NonceOk(req: Request)
  {
    req.ajaxNonceOk || req.nonceOk || req.legacyNonceOk
  }

  /** `(string) get_option('iw8_wa_phone', '')` is set and valid. */
  predicate PhoneConfigured(phoneOption: Value)
  {
    var phone := StrCast(phoneOption);
    phone != "" && UrlMatcher.IsValidPhone(Some(phone))
  }

  function Matches(wp: Wp, url: string, phoneOption: Value): bool
  {
    UrlMatcher.MatchesTarget(url, StrCast(phoneOption), wp.parseUrl(url))
  }

  /** How far a request gets before the insert. */
  datatype Gate = BadNonce | MissingUrl | NoPhone | Mismatch(url: string) | Accept(fields: Fields)

  /** The checks of `handle_click`, in the order it makes them. */
  function Admit(wp: Wp, req: Request, phoneOption: Value): (g: Gate)
    ensures g.BadNonce? <==> !NonceOk(req)
    ensures g.MissingUrl? <==> NonceOk(req) && Sanitize(wp, req.post).url == ""
    ensures g.NoPhone? <==> NonceOk(req) && Sanitize(wp, req.post).url != "" && !PhoneConfigured(phoneOption)
    ensures g.Accept? <==> NonceOk(req) && Sanitize(wp, req.post).url != "" && PhoneConfigured(phoneOption)
                           && Matches(wp, Sanitize(wp, req.post).url, phoneOption)
    ensures g.Mismatch? ==> g.url == Sanitize(wp, req.post).url
    ensures g.Accept? ==> g.fields == Sanitize(wp, req.post)
  {
    if !NonceOk(req) then BadNonce
    else
      var f := Sanitize(wp, req.post);
      if f.url == "" then MissingUrl
      else if !PhoneConfigured(phoneOption) then NoPhone
      else if !Matches(wp, f.url, phoneOption) then Mismatch(f.url)
      else Accept(f)
  }

  const BadNonceReply := Reply(403, false, false, map["error" := Str("bad_nonce")])
  const MissingUrlReply := Reply(400, false, false, map["error" := Str("missing_url")])
  const NoPhoneReply := Reply(200, true, false, map["ignored" := Bool(true), "reason" := Str("no_phone")])

  function MismatchReply(url: string): Reply
  {
    Reply(200, true, false, map["ignored" := Bool(true), "reason" := Str("url_mismatch"),
                         "url" := Str(url)])
  }

  /**
   * `handle_click`. `phoneOption` is the stored `iw8_wa_phone`; `insertId`
   * is what `$wpdb->insert` produced (None for failure) and `lastError`
   * is `$wpdb->last_error`.
   */
  function HandleClick(wp: Wp, req: Request, phoneOption: Value, insertId: Option<int>, lastError: string)
    : (r: Outcome)
    ensures r.attempted.Some? <==> Admit(wp, req, phoneOption).Accept?
    ensures r.reply.status == 200 <==> r.reply.success
    ensures r.reply.ok <==> r.attempted.Some? && insertId.Some?
  {
    match Admit(wp, req, phoneOption)
    case BadNonce => Outcome(BadNonceReply, None)
    case MissingUrl => Outcome(MissingUrlReply, None)
    case NoPhone => Outcome(NoPhoneReply, None)
    case Mismatch(url) => Outcome(MismatchReply(url), None)
    case Accept(f) => Record(wp, f, req.userAgent, insertId, lastError)
  }

  /** The insert of an accepted click and the reply to it. */
  function Record(wp: Wp, f: Fields, userAgent: Option<string>, insertId: Option<int>, lastError: string)
    : (r: Outcome)
    ensures r.attempted == Some(Repo.NormalizeInsert(InsertData(wp, f, userAgent), wp.now))
    ensures insertId.None? ==> r.reply == Reply(500, false, false, map["error" := Str("db_insert_failed"),
              "message" := Str("Falha ao inserir clique: " + lastError), "wpdb" := Str(lastError)])
    ensures insertId.Some? ==> r.reply == Reply(200, true, true, map["id" := Int(insertId.value)])
  {
    var (row, result) := Repo.InsertClick(InsertData(wp, f, userAgent), wp.now, insertId, lastError);
    match result
    case InsertFailed(_, message) =>
      Outcome(Reply(500, false, false, map["error" := Str("db_insert_failed"),
                                    "message" := Str(message), "wpdb" := Str(lastError)]), Some(row))
    case Inserted(id) =>
      Outcome(Reply(200, true, true, map["id" := Int(id)]), Some(row))
  }

  /** A request without a valid nonce is refused with 403 and writes nothing. */
  lemma BadNonceRefused(wp: Wp, req: Request, phoneOption: Value, insertId: Option<int>, lastError: string)
    requires !NonceOk(req)
    ensures HandleClick(wp, req, phoneOption, insertId, lastError) == Outcome(BadNonceReply, None)
  {
  }

  /** A request whose url sanitises to nothing is refused with 400. */
  lemma MissingUrlRefused(wp: Wp, req: Request, phoneOption: Value, insertId: Option<int>, lastError: string)
    requires NonceOk(req) && Sanitize(wp, req.post).url == ""
    ensures HandleClick(wp, req, phoneOption, insertId, lastError) == Outcome(MissingUrlReply, None)
  {
  }

  // ---------------------------------------------------------------------
  // Properties
  // ---------------------------------------------------------------------

  /** Without a configured phone every click with a url is ignored, whatever the url. */
  lemma NoPhoneIgnored(wp: Wp, req: Request, phoneOption: Value, insertId: Option<int>, lastError: string)
    requires NonceOk(req) && Sanitize(wp, req.post).url != "" && !PhoneConfigured(phoneOption)
    ensures HandleClick(wp, req, phoneOption, insertId, lastError) == Outcome(NoPhoneReply, None)
  {
  }

  /** A click on another link is ignored and its url echoed back. */
  lemma MismatchIgnored(wp: Wp, req: Request, phoneOption: Value, insertId: Option<int>, lastError: string)
    requires NonceOk(req) && PhoneConfigured(phoneOption)
    requires var url := Sanitize(wp, req.post).url; url != "" && !Matches(wp, url, phoneOption)
    ensures HandleClick(wp, req, phoneOption, insertId, lastError)
            == Outcome(MismatchReply(Sanitize(wp, req.post).url), None)
  {
  }

  /** A recorded click always has a target phone the url matches. */
  lemma RecordedClicksMatch(wp: Wp, req: Request, phoneOption: Value, insertId: Option<int>, lastError: string)
    requires HandleClick(wp, req, phoneOption, insertId, lastError).attempted.Some?
    ensures var url := Sanitize(wp, req.post).url;
      UrlMatcher.IsValidPhone(Some(StrCast(phoneOption)))
      && UrlMatcher.MatchesTarget(url, StrCast(phoneOption), wp.parseUrl(url))
  {
  }

  /**
   * The row written for an accepted click: the url, a non-empty tag, the
   * user (the posted one when positive, else the logged-in one), the
   * clock, and a user agent of at most 255 characters.
   */
  lemma AcceptedRow(wp: Wp, req: Request, phoneOption: Value, insertId: Option<int>, lastError: string)
    requires HandleClick(wp, req, phoneOption, insertId, lastError).attempted.Some?
    ensures var row := HandleClick(wp, req, phoneOption, insertId, lastError).attempted.value;
      var f := Sanitize(wp, req.post);
      && row.url == Truncate(f.url, Repo.UrlWidth)
      && row.elementTag != ""
      && row.elementText == Some(f.elementText)
      && row.pageUrl == Some(PageUrl(wp, f.pageUrl))
      && row.userId == Some(UserId(wp, f.userId) as int)
      && row.clickedAt == wp.now
      && (row.userAgent.Some? <==> req.userAgent.Some?)
      && (row.userAgent.Some? ==> |row.userAgent.value| <= MaxAgent)
  {
    var f := Sanitize(wp, req.post);
    var data := InsertData(wp, f, req.userAgent);
    var row := Repo.NormalizeInsert(data, wp.now);
    assert Repo.OptText(data, "element_tag") == Some(ElementTag(f.elementTag));
    assert Repo.OptText(data, "url") == Some(f.url);
    if !PhpEmptyString(wp.now) {
      assert StrCast(data["clicked_at"]) == wp.now;
    }
  }

  /** The insert's failure is reported with status 500 and the database's message. */
  lemma InsertFailureReported(wp: Wp, req: Request, phoneOption: Value, lastError: string)
    requires HandleClick(wp, req, phoneOption, None, lastError).attempted.Some?
    ensures var r := HandleClick(wp, req, phoneOption, None, lastError).reply;
      r.status == 500 && !r.success && !r.ok
      && r.data == map["error" := Str("db_insert_failed"),
                       "message" := Str("Falha ao inserir clique: " + lastError), "wpdb" := Str(lastError)]
  {
  }

  /** A successful insert answers with the new id. */
  lemma InsertSuccessReported(wp: Wp, req: Request, phoneOption: Value, id: int, lastError: string)
    requires HandleClick(wp, req, phoneOption, Some(id), lastError).attempted.Some?
    ensures HandleClick(wp, req, phoneOption, Some(id), lastError).reply
            == Reply(200, true, true, map["id" := Int(id)])
  {
  }

  /**
   * Posted fields take precedence over the `data` JSON: a request that
   * posts all five fields is handled the same whatever `data` holds.
   */
  lemma PostedFieldsWin(wp: Wp, req: Request, data1: Value, data2: Value, phoneOption: Value,
                        insertId: Option<int>, lastError: string)
    requires Posted(req.post, "url") && Posted(req.post, "page_url") && Posted(req.post, "element_tag")
    requires Posted(req.post, "element_text") && Posted(req.post, "user_id")
    ensures var r1 := req.(post := req.post["data" := data1]);
      var r2 := req.(post := req.post["data" := data2]);
      HandleClick(wp, r1, phoneOption, insertId, lastError) == HandleClick(wp, r2, phoneOption, insertId, lastError)
  {
    var p1 := req.post["data" := data1];
    var p2 := req.post["data" := data2];
    assert Sanitize(wp, p1) == Sanitize(wp, p2);
  }


  /** The JSON object fills the fields that were not posted. */
  lemma DataFillsMissingFields(wp: Wp, m: map<string, Value>, json: string)
    requires Json.Decode(json) == Some(Assoc(m))
    requires "url" in m && m["url"].Str?
    ensures Sanitize(wp, map["data" := Str(json)]).url == wp.escUrlRaw(m["url"].s)
  {
    var post := map["data" := Str(json)];
    assert "url" !in post;
    if json == "" || json == "0" {
      EmptyDataRejected(json);
    }
    assert DataPayload(post) == Assoc(m);
  }

  /** Neither `''` nor `'0'` decodes to an object. */
  lemma EmptyDataRejected(json: string)
    requires json == "" || json == "0"
    ensures Json.Decode(json).None? || !Json.Decode(json).value.Assoc?
  {
  }
}

=== FILE: base64.dfy ===
/**
 * PHP's `base64_encode` and strict `base64_decode($s, true)` over byte
 * strings (a byte is a `char` below 256), with the alphabet of section 4 of
 * RFC 4648.
 *
 * The strict decoder skips the whitespace bytes "\t", "\n", "\r" and " ",
 * counts `=` characters, fails on any other byte outside the alphabet and on
 * data after a `=`, fails when the number of data characters leaves one
 * character in the last quantum, and fails when padding is present but is
 * more than two characters or does not complete a quantum. It does not check
 * that the unused low bits of the last character are zero.
 */
module Base64 {
  import opened Wrappers

  predicate IsByte(c: char) { c as int < 256 }

  predicate IsBytes(s: string)
  {
    forall i :: 0 <= i < |s| ==> IsByte(s[i])
  }

  // ---------------------------------------------------------------------
  // Alphabet
  // ---------------------------------------------------------------------

  predicate IsAlphabetChar(c: char)
  {
    ('A' <= c <= 'Z') || ('a' <= c <= 'z') || ('0' <= c <= '9') || c == '+' || c == '/'
  }

  /** The bytes the strict decoder skips. */
  predicate IsSkipped(c: char)
  {
    c == '\t' || c == '\n' || c == '\r' || c == ' '
  }

  function CharOf(v: int): (c: char)
    requires 0 <= v < 64
    ensures IsAlphabetChar(c)
  {
    if v < 26 then ('A' as int + v) as char
    else if v < 52 then ('a' as int + (v - 26)) as char
    else if v < 62 then ('0' as int + (v - 52)) as char
    else if v == 62 then '+'
    else '/'
  }

  function ValueOf(c: char): (v: int)
    requires IsAlphabetChar(c)
    ensures 0 <= v < 64
    ensures CharOf(v) == c
  {
    if 'A' <= c <= 'Z' then c as int - 'A' as int
    else if 'a' <= c <= 'z' then c as int - 'a' as int + 26
    else if '0' <= c <= '9' then c as int - '0' as int + 52
    else if c == '+' then 62
    else 63
  }

  lemma ValueOfCharOf(v: int)
    requires 0 <= v < 64
    ensures ValueOf(CharOf(v)) == v
  {
  }

  predicate IsSextets(v: seq<int>)
  {
    forall i :: 0 <= i < |v| ==> 0 <= v[i] < 64
  }

  function Chars(v: seq<int>): (s: string)
    requires IsSextets(v)
    ensures |s| == |v|
    ensures forall i :: 0 <= i < |s| ==> IsAlphabetChar(s[i]) && s[i] == CharOf(v[i])
  {
    if |v| == 0 then "" else [CharOf(v[0])] + Chars(v[1..])
  }

  // ---------------------------------------------------------------------
  // Bytes <-> sextets
  // ---------------------------------------------------------------------

  /** Splits bytes into 6-bit groups; a short final group is padded with zero bits. */
  function ToSextets(b: string): (v: seq<int>)
    requires IsBytes(b)
    ensures IsSextets(v)
    ensures |v| % 4 != 1
  {
    if |b| == 0 then []
    else if |b| == 1 then
      [b[0] as int / 4, b[0] as int % 4 * 16]
    else if |b| == 2 then
      [b[0] as int / 4, b[0] as int % 4 * 16 + b[1] as int / 16, b[1] as int % 16 * 4]
    else
      var head := Quantum(b[0] as int, b[1] as int, b[2] as int);
      var tail := ToSextets(b[3..]);
      SextetsConcat(head, tail);
      head + tail
  }

  /** The four 6-bit groups of three bytes. */
  function Quantum(x: int, y: int, z: int): (v: seq<int>)
    requires 0 <= x < 256 && 0 <= y < 256 && 0 <= z < 256
    ensures |v| == 4 && IsSextets(v)
    ensures v[0] * 4 + v[1] / 16 == x && v[1] % 16 * 16 + v[2] / 4 == y && v[2] % 4 * 64 + v[3] == z
  {
    [x / 4, x % 4 * 16 + y / 16, y % 16 * 4 + z / 64, z % 64]
  }

  lemma SextetsConcat(a: seq<int>, b: seq<int>)
    requires IsSextets(a) && IsSextets(b)
    ensures IsSextets(a + b)
  {
  }

  /** Reassembles bytes from 6-bit groups; a final group of two or three keeps only its whole bytes. */
  function FromSextets(v: seq<int>): (b: string)
    requires IsSextets(v)
    requires |v| % 4 != 1
    ensures IsBytes(b)
  {
    if |v| == 0 then ""
    else if |v| == 2 then
      [(v[0] * 4 + v[1] / 16) as char]
    else if |v| == 3 then
      [(v[0] * 4 + v[1] / 16) as char, (v[1] % 16 * 16 + v[2] / 4) as char]
    else
      Triple(v[0], v[1], v[2], v[3]) + FromSextets(v[4..])
  }

  /** The three bytes of four 6-bit groups. */
  function Triple(a: int, b: int, c: int, d: int): (r: string)
    requires 0 <= a < 64 && 0 <= b < 64 && 0 <= c < 64 && 0 <= d < 64
    ensures |r| == 3 && IsBytes(r)
  {
    [(a * 4 + b / 16) as char, (b % 16 * 16 + c / 4) as char, (c % 4 * 64 + d) as char]
  }

  lemma TripleOfQuantum(x: int, y: int, z: int)
    requires 0 <= x < 256 && 0 <= y < 256 && 0 <= z < 256
    ensures var q := Quantum(x, y, z); Triple(q[0], q[1], q[2], q[3]) == [x as char, y as char, z as char]
  {
  }

  lemma {:induction false} FromToSextets(b: string)
    requires IsBytes(b)
    ensures FromSextets(ToSextets(b)) == b
    decreases |b|
  {
    if |b| >= 3 {
      var tail := ToSextets(b[3..]);
      assert ToSextets(b) == Quantum(b[0] as int, b[1] as int, b[2] as int) + tail;
      FromToSextets(b[3..]);
      FromSextetsQuantum(b[0] as int, b[1] as int, b[2] as int, tail);
      SplitThree(b);
    } else if |b| == 2 {
      assert b == [b[0], b[1]];
    } else if |b| == 1 {
      assert b == [b[0]];
    }
  }

  lemma SplitThree(b: string)
    requires |b| >= 3
    ensures b == [b[0] as int as char, b[1] as int as char, b[2] as int as char] + b[3..]
  {
  }

  lemma QuantumLength(k: nat)
    requires k % 4 != 1
    ensures (4 + k) % 4 != 1 && 4 + k != 2 && 4 + k != 3 && 4 + k != 0
  {
  }

  lemma FromSextetsQuantum(x: int, y: int, z: int, tail: seq<int>)
    requires 0 <= x < 256 && 0 <= y < 256 && 0 <= z < 256
    requires IsSextets(tail) && |tail| % 4 != 1
    ensures IsSextets(Quantum(x, y, z) + tail)
    ensures FromSextets(Quantum(x, y, z) + tail) == [x as char, y as char, z as char] + FromSextets(tail)
  {
    var q := Quantum(x, y, z);
    var v := q + tail;
    SextetsConcat(q, tail);
    assert v[4..] == tail;
    QuantumLength(|tail|);
    assert FromSextets(v) == Triple(v[0], v[1], v[2], v[3]) + FromSextets(v[4..]);
    assert v[0] == q[0] && v[1] == q[1] && v[2] == q[2] && v[3] == q[3];
    TripleOfQuantum(x, y, z);
  }

  // ---------------------------------------------------------------------
  // base64_encode
  // ---------------------------------------------------------------------

  function Padding(n: nat): (s: string)
    ensures |s| == n
    ensures forall i :: 0 <= i < n ==> s[i] == '='
  {
    if n == 0 then "" else "=" + Padding(n - 1)
  }

  /** The data characters of the encoding, without padding. */
  function EncodeUnpadded(b: string): (s: string)
    requires IsBytes(b)
    ensures forall i :: 0 <= i < |s| ==> IsAlphabetChar(s[i])
    ensures |s| % 4 != 1
  {
    Chars(ToSextets(b))
  }

  /** PHP `base64_encode`: the data characters padded with `=` to a multiple of four. */
  function Encode(b: string): (s: string)
    requires IsBytes(b)
    ensures |s| % 4 == 0
  {
    var d := EncodeUnpadded(b);
    d + Padding((4 - |d| % 4) % 4)
  }

  // ---------------------------------------------------------------------
  // base64_decode($s, true)
  // ---------------------------------------------------------------------

  /**
   * The scan of the strict decoder: the data values in order and the number of
   * `=` seen, or None on a byte outside the alphabet or data after a `=`.
   */
  function Scan(s: string, pad: nat): (r: Option<(seq<int>, nat)>)
    ensures r.Some? ==> IsSextets(r.value.0) && r.value.1 >= pad && |r.value.0| <= |s|
    ensures pad == 0 && (forall k :: 0 <= k < |s| ==> IsAlphabetChar(s[k])) ==>
      r.Some? && r.value.1 == 0 && |r.value.0| == |s|
      && forall k :: 0 <= k < |s| ==> r.value.0[k] == ValueOf(s[k])
    ensures (exists k :: 0 <= k < |s| && !IsAlphabetChar(s[k]) && !IsSkipped(s[k]) && s[k] != '=') ==> r.None?
    decreases |s|
  {
    if |s| == 0 then Some(([], pad))
    else if s[0] == '=' then Scan(s[1..], pad + 1)
    else if IsSkipped(s[0]) then Scan(s[1..], pad)
    else if !IsAlphabetChar(s[0]) || pad > 0 then None
    else
      match Scan(s[1..], pad)
      case None => None
      case Some((v, p)) => Some(([ValueOf(s[0])] + v, p))
  }

  /** PHP `base64_decode($s, true)`: the decoded bytes, or None where PHP returns false. */
  function Decode(s: string): (r: Option<string>)
    ensures r.Some? ==> IsBytes(r.value)
  {
    match Scan(s, 0)
    case None => None
    case Some((v, pad)) =>
      if |v| % 4 == 1 then None
      else if pad > 0 && (pad > 2 || (|v| + pad) % 4 != 0) then None
      else Some(FromSextets(v))
  }

  lemma {:induction false} ScanPadding(n: nat, pad: nat)
    ensures Scan(Padding(n), pad) == Some(([], pad + n))
    decreases n
  {
    if n > 0 {
      assert Padding(n)[1..] == Padding(n - 1);
      ScanPadding(n - 1, pad + 1);
    }
  }

  lemma {:induction false} ScanCharsThenPadding(v: seq<int>, n: nat)
    requires IsSextets(v)
    ensures Scan(Chars(v) + Padding(n), 0) == Some((v, n))
    decreases |v|
  {
    if |v| == 0 {
      assert Chars(v) + Padding(n) == Padding(n);
      ScanPadding(n, 0);
    } else {
      var s := Chars(v) + Padding(n);
      assert s[0] == CharOf(v[0]);
      assert s[1..] == Chars(v[1..]) + Padding(n);
      ScanCharsThenPadding(v[1..], n);
      ScanAlphabetHead(s);
      ValueOfCharOf(v[0]);
      assert [v[0]] + v[1..] == v;
    }
  }

  /** An alphabet character at the head, before any `=`, contributes its value. */
  lemma ScanAlphabetHead(s: string)
    requires |s| > 0 && IsAlphabetChar(s[0])
    ensures Scan(s, 0) == match Scan(s[1..], 0)
                          case None => None
                          case Some((v, p)) => Some(([ValueOf(s[0])] + v, p))
  {
    assert s[0] != '=' && !IsSkipped(s[0]);
  }

  /** Strict decoding inverts encoding. */
  lemma DecodeEncode(b: string)
    requires IsBytes(b)
    ensures Decode(Encode(b)) == Some(b)
  {
    var v := ToSextets(b);
    var n := (4 - |v| % 4) % 4;
    assert Encode(b) == Chars(v) + Padding(n);
    ScanCharsThenPadding(v, n);
    PaddingCompletes(|v|);
    DecodeOfScan(Encode(b), v, n);
    FromToSextets(b);
  }

  lemma DecodeOfScan(s: string, v: seq<int>, pad: nat)
    requires Scan(s, 0) == Some((v, pad))
    requires |v| % 4 != 1
    requires pad == 0 || (pad <= 2 && (|v| + pad) % 4 == 0)
    ensures Decode(s) == Some(FromSextets(v))
  {
  }

  lemma PaddingCompletes(k: nat)
    requires k % 4 != 1
    ensures (4 - k % 4) % 4 <= 2
    ensures (k + (4 - k % 4) % 4) % 4 == 0
  {
  }

  /** Strict decoding also accepts the unpadded form, as section 3.2 of RFC 4648 permits. */
  lemma DecodeEncodeUnpadded(b: string)
    requires IsBytes(b)
    ensures Decode(EncodeUnpadded(b)) == Some(b)
  {
    var v := ToSextets(b);
    ScanCharsThenPadding(v, 0);
    assert Chars(v) + Padding(0) == Chars(v);
    DecodeOfScan(EncodeUnpadded(b), v, 0);
    FromToSextets(b);
  }

  /** A byte outside the alphabet, other than whitespace and `=`, makes decoding fail. */
  lemma {:induction false} DecodeRejectsForeignByte(s: string, k: nat)
    requires k < |s| && !IsAlphabetChar(s[k]) && !IsSkipped(s[k]) && s[k] != '='
    ensures Decode(s) == None
  {
    ScanRejects(s, k, 0);
  }

  lemma {:induction false} ScanRejects(s: string, k: nat, pad: nat)
    requires k < |s| && !IsAlphabetChar(s[k]) && !IsSkipped(s[k]) && s[k] != '='
    ensures Scan(s, pad) == None
    decreases k
  {
    if k > 0 {
      ScanRejects(s[1..], k - 1, if s[0] == '=' then pad + 1 else pad);
    }
  }

  /** The decoder ignores the unused low bits: "QQ" and "QR" both decode to "A". */
  lemma TrailingBitsIgnored()
    ensures Decode("QQ") == Some("A") && Decode("QR") == Some("A")
  {
    assert Scan("Q", 0) == Some(([16], 0)) by { assert "Q"[1..] == "" && [16] + [] == [16]; }
    assert Scan("R", 0) == Some(([17], 0)) by { assert "R"[1..] == "" && [17] + [] == [17]; }
    assert Scan("QQ", 0) == Some(([16, 16], 0)) by { assert "QQ"[1..] == "Q" && [16] + [16] == [16, 16]; }
    assert Scan("QR", 0) == Some(([16, 17], 0)) by { assert "QR"[1..] == "R" && [16] + [17] == [16, 17]; }
  }
}

=== FILE: click_meta.dfy ===
/**
 * Per-click metadata (`includes/meta.php`): key/value pairs attached to a
 * click id, added one at a time and read back as a map, either in full or
 * for a list of keys.
 *
 * The meta table is a sequence of rows in insertion order. Whether the
 * database accepts an insert is a parameter. Values are kept as given:
 * `maybe_unserialize` is taken to undo `maybe_serialize`.
 */
module ClickMeta {
  import opened Wrappers
  import opened Text
  import opened Php

  /** `meta_key` is a `VARCHAR(64)`; both functions cut keys to 64 bytes. */
  const MaxKeyLength := 64

  datatype MetaRow = MetaRow(clickId: int, key: string, value: Value)

  /** A key as both functions normalise it: trimmed, "" refused, the first 64 bytes kept. */
  function NormalKey(key: string): (r: Option<string>)
    ensures r.None? <==> Trim(key) == ""
    ensures r.Some? ==> 0 < |r.value| <= MaxKeyLength && StartsWith(Trim(key), r.value)
    ensures r.Some? ==> |r.value| == if |Trim(key)| <= MaxKeyLength then |Trim(key)| else MaxKeyLength
  {
    var t := Trim(key);
    if t == "" then None else Some(Truncate(t, MaxKeyLength))
  }

  /**
   * `iw8_wa_add_click_meta`: false for a click id that is not positive or a
   * blank key; otherwise one row is appended when the database accepts it.
   */
  function AddClickMeta(rows: seq<MetaRow>, clickId: int, key: string, value: Value,
                        insertOk: bool): (r: (bool, seq<MetaRow>))
    ensures r.0 <==> clickId > 0 && NormalKey(key).Some? && insertOk
    ensures r.0 ==> r.1 == rows + [MetaRow(clickId, NormalKey(key).value, value)]
    ensures !r.0 ==> r.1 == rows
  {
    if clickId <= 0 then (false, rows)
    else
      match NormalKey(key)
      case None => (false, rows)
      case Some(k) => if insertOk then (true, rows + [MetaRow(clickId, k, value)]) else (false, rows)
  }

  // ---------------------------------------------------------------------
  // Reading
  // ---------------------------------------------------------------------

  /** The rows of one click whose key is wanted (every key when `wanted` is None). */
  function Select(rows: seq<MetaRow>, clickId: int, wanted: Option<seq<string>>): (r: seq<MetaRow>)
    ensures forall x :: x in r <==> x in rows && x.clickId == clickId && (wanted.Some? ==> x.key in wanted.value)
    ensures |r| <= |rows|
    ensures Subsequence(r, rows)
  {
    if |rows| == 0 then []
    else
      var init := Select(rows[..|rows| - 1], clickId, wanted);
      var last := rows[|rows| - 1];
      assert rows == rows[..|rows| - 1] + [last];
      if last.clickId == clickId && (wanted.Some? ==> last.key in wanted.value) then
        SubsequenceKeepLast(init, rows[..|rows| - 1], last);
        init + [last]
      else
        SubsequenceSkipLast(init, rows[..|rows| - 1], last);
        init
  }

  /**
   * `$out[$r['meta_key']] = ...` over the rows in order: every key read is
   * present, and a key read twice keeps the later value.
   */
  function Collect(rows: seq<MetaRow>): (m: map<string, Value>)
    ensures forall k :: k in m <==> exists x :: x in rows && x.key == k
    ensures |rows| > 0 ==> rows[|rows| - 1].key in m && m[rows[|rows| - 1].key] == rows[|rows| - 1].value
    ensures forall i :: 0 <= i < |rows| && LastOfKey(rows, i) ==> m[rows[i].key] == rows[i].value
  {
    if |rows| == 0 then map[]
    else
      var last := rows[|rows| - 1];
      var init := rows[..|rows| - 1];
      assert rows == init + [last];
      var m := Collect(init)[last.key := last.value];
      assert forall i :: 0 <= i < |init| && LastOfKey(rows, i) ==> LastOfKey(init, i) && rows[i].key != last.key
        by {
          forall i | 0 <= i < |init| && LastOfKey(rows, i)
            ensures LastOfKey(init, i) && rows[i].key != last.key
          {
            assert rows[|rows| - 1] == last;
          }
        }
      m
  }

  /** No later row has the key of row `i`. */
  predicate LastOfKey(rows: seq<MetaRow>, i: int)
    requires 0 <= i < |rows|
  {
    forall j :: i < j < |rows| ==> rows[j].key != rows[i].key
  }

  /**
   * The key list as written: each key cast, trimmed, blank ones mapped to
   * null and long ones cut, then `array_filter` drops every falsy entry —
   * the nulls, and also the key "0".
   */
  function AskedKeys(keys: seq<Value>): (r: seq<string>)
    ensures forall k :: k in r ==> k != "" && k != "0" && |k| <= MaxKeyLength
    ensures forall k :: k in r ==> FromKeys(keys, k)
    ensures forall x :: x in keys && NormalKey(StrCast(x)).Some? && NormalKey(StrCast(x)).value != "0" ==>
      NormalKey(StrCast(x)).value in r
  {
    if |keys| == 0 then []
    else
      var rest := AskedKeys(keys[1..]);
      assert forall x :: x in keys[1..] ==> x in keys;
      FromKeysTail(keys, rest);
      match NormalKey(StrCast(keys[0]))
      case Some(k) => FromKeysHead(keys); if k != "0" then [k] + rest else rest
      case None => rest
  }

  /** `k` is the normalised form of one of `keys`. */
  predicate FromKeys(keys: seq<Value>, k: string)
  {
    exists x :: x in keys && NormalKey(StrCast(x)) == Some(k)
  }

  lemma FromKeysHead(keys: seq<Value>)
    requires |keys| > 0 && NormalKey(StrCast(keys[0])).Some?
    ensures FromKeys(keys, NormalKey(StrCast(keys[0])).value)
  {
    assert keys[0] in keys;
  }

  lemma FromKeysTail(keys: seq<Value>, rest: seq<string>)
    requires |keys| > 0 && forall k :: k in rest ==> FromKeys(keys[1..], k)
    ensures forall k :: k in rest ==> FromKeys(keys, k)
  {
    forall k | k in rest
      ensures FromKeys(keys, k)
    {
      var x :| x in keys[1..] && NormalKey(StrCast(x)) == Some(k);
      assert x in keys;
    }
  }

  /**
   * `iw8_wa_get_click_meta` as written: nothing for a click id that is not
   * positive; the requested keys when the list is not empty (nothing if none
   * survives the filter); else every key of the click.
   */
  function GetClickMeta(rows: seq<MetaRow>, clickId: int, keys: seq<Value>): (m: map<string, Value>)
    ensures clickId <= 0 ==> m == map[]
    ensures clickId > 0 && |keys| > 0 && |AskedKeys(keys)| == 0 ==> m == map[]
    ensures clickId > 0 && |keys| > 0 && |AskedKeys(keys)| > 0 ==>
      m == Collect(Select(rows, clickId, Some(AskedKeys(keys))))
    ensures clickId > 0 && |keys| == 0 ==> m == Collect(Select(rows, clickId, None))
  {
    if clickId <= 0 then map[]
    else if |keys| > 0 then
      var asked := AskedKeys(keys);
      if |asked| == 0 then map[] else Collect(Select(rows, clickId, Some(asked)))
    else Collect(Select(rows, clickId, None))
  }

  /**
   * `array_filter` with its evident purpose: drop the nulls the closure
   * returns for blank keys, and nothing else.
   */
  function IntendedKeys(keys: seq<Value>): (r: seq<string>)
    ensures forall k :: k in r ==> k != "" && |k| <= MaxKeyLength
    ensures forall k :: k in r ==> FromKeys(keys, k)
    ensures forall x :: x in keys && NormalKey(StrCast(x)).Some? ==> NormalKey(StrCast(x)).value in r
  {
    if |keys| == 0 then []
    else
      var rest := IntendedKeys(keys[1..]);
      assert forall x :: x in keys[1..] ==> x in keys;
      FromKeysTail(keys, rest);
      match NormalKey(StrCast(keys[0]))
      case Some(k) => FromKeysHead(keys); [k] + rest
      case None => rest
  }

  /** `iw8_wa_get_click_meta` with the key filter corrected. */
  function GetClickMetaIntended(rows: seq<MetaRow>, clickId: int, keys: seq<Value>): (m: map<string, Value>)
    ensures clickId <= 0 ==> m == map[]
    ensures clickId > 0 && |keys| > 0 && |IntendedKeys(keys)| > 0 ==>
      m == Collect(Select(rows, clickId, Some(IntendedKeys(keys))))
    ensures forall k :: k in m ==> exists x :: x in rows && x.clickId == clickId && x.key == k
  {
    if clickId <= 0 then map[]
    else if |keys| > 0 then
      var asked := IntendedKeys(keys);
      if |asked| == 0 then map[] else Collect(Select(rows, clickId, Some(asked)))
    else Collect(Select(rows, clickId, None))
  }

  // ---------------------------------------------------------------------
  // Properties
  // ---------------------------------------------------------------------

  /**
   * Adding a value and then asking for its key gives that value back: the
   * new row is the last one the read collects.
   */
  lemma AddThenGet(rows: seq<MetaRow>, clickId: int, key: string, value: Value)
    requires clickId > 0 && NormalKey(key).Some?
    ensures var added := AddClickMeta(rows, clickId, key, value, true);
      var k := NormalKey(key).value;
      && added.0
      && var m := GetClickMetaIntended(added.1, clickId, [Str(key)]);
         k in m && m[k] == value
  {
    var x := MetaRow(clickId, NormalKey(key).value, value);
    IntendedKeysOne(Str(key));
    ReadBackLast(rows, x, [Str(key)]);
  }

  /** Asking for exactly the key of a row appended last finds that row's value. */
  lemma ReadBackLast(rows: seq<MetaRow>, x: MetaRow, keys: seq<Value>)
    requires x.clickId > 0 && |keys| > 0 && IntendedKeys(keys) == [x.key]
    ensures var m := GetClickMetaIntended(rows + [x], x.clickId, keys);
      x.key in m && m[x.key] == x.value
  {
    SelectKeepsLast(rows, x, x.clickId, Some([x.key]));
  }

  lemma IntendedKeysOne(x: Value)
    ensures NormalKey(StrCast(x)).Some? ==> IntendedKeys([x]) == [NormalKey(StrCast(x)).value]
  {
    assert [x][1..] == [];
  }

  /** Adding then reading every key of the click also gives the value back. */
  lemma AddThenGetAll(rows: seq<MetaRow>, clickId: int, key: string, value: Value)
    requires clickId > 0 && NormalKey(key).Some?
    ensures var added := AddClickMeta(rows, clickId, key, value, true);
      var m := GetClickMeta(added.1, clickId, []);
      NormalKey(key).value in m && m[NormalKey(key).value] == value
  {
    var k := NormalKey(key).value;
    SelectKeepsLast(rows, MetaRow(clickId, k, value), clickId, None);
  }

  /** A selected row appended last is the last row selected. */
  lemma SelectKeepsLast(rows: seq<MetaRow>, x: MetaRow, clickId: int, wanted: Option<seq<string>>)
    requires x.clickId == clickId && (wanted.Some? ==> x.key in wanted.value)
    ensures var r := Select(rows + [x], clickId, wanted);
      |r| > 0 && r[|r| - 1] == x
  {
    assert (rows + [x])[..|rows + [x]| - 1] == rows;
  }

  /**
   * The key "0" is stored by `iw8_wa_add_click_meta` but asking for it by
   * name returns nothing, while reading every key of the click finds it.
   */
  lemma ZeroKeyLost(rows: seq<MetaRow>, clickId: int, value: Value)
    requires clickId > 0
    ensures var added := AddClickMeta(rows, clickId, "0", value, true);
      && added.0
      && GetClickMeta(added.1, clickId, [Str("0")]) == map[]
      && "0" in GetClickMeta(added.1, clickId, [])
  {
    ZeroIsKey();
    AddThenGetAll(rows, clickId, "0", value);
    assert AskedKeys([Str("0")]) == [];
  }

  lemma ZeroIsKey()
    ensures NormalKey("0") == Some("0")
  {
    var z := "0";
    assert |z| == 1 && z[0] == '0';
    TrimOfTrimmed(z);
  }

  /** With the filter corrected, asking for "0" finds it. */
  lemma ZeroKeyFound(rows: seq<MetaRow>, clickId: int, value: Value)
    requires clickId > 0
    ensures var added := AddClickMeta(rows, clickId, "0", value, true);
      var m := GetClickMetaIntended(added.1, clickId, [Str("0")]);
      "0" in m && m["0"] == value
  {
    ZeroIsKey();
    AddThenGet(rows, clickId, "0", value);
  }

  /** For every key list that does not name "0", the code as written and the corrected one agree. */
  lemma AgreeOffZero(rows: seq<MetaRow>, clickId: int, keys: seq<Value>)
    requires forall x :: x in keys ==> NormalKey(StrCast(x)) != Some("0")
    ensures GetClickMeta(rows, clickId, keys) == GetClickMetaIntended(rows, clickId, keys)
  {
    SameKeysOffZero(keys);
  }

  lemma {:induction false} SameKeysOffZero(keys: seq<Value>)
    requires forall x :: x in keys ==> NormalKey(StrCast(x)) != Some("0")
    ensures AskedKeys(keys) == IntendedKeys(keys)
  {
    if |keys| > 0 {
      assert keys[0] in keys;
      assert forall x :: x in keys[1..] ==> x in keys;
      SameKeysOffZero(keys[1..]);
      assert NormalKey(StrCast(keys[0])) != Some("0");
    }
  }
}

=== FILE: click_repository_build.dfy ===
/**
 * `Database\ClickRepository` of the packaged plugin: it finds the clicks
 * table (the new `iw8_wa_clicks` or the legacy `wa_clicks`), reads its
 * columns, and writes or queries only what the table has.
 *
 * The database is a value of `Db`: the tables that exist and the rows of
 * `SHOW COLUMNS` for each. Queries are returned as plans; what they select
 * and count is left to the database.
 */
module ClickRepositoryBuild {
  import opened Wrappers
  import opened Text
  import opened Php
  import Legacy = ClickRepositoryLegacy

  /** The database as the repository sees it. */
  datatype Db = Db(
    prefix: string,
    tables: set<string>,
    /** The `Field` of each row of `SHOW COLUMNS FROM table` (None for a row without one). */
    showColumns: string -> seq<Option<string>>)

  /** `tableExists`: `SHOW TABLES LIKE` the escaped name finds it. */
  predicate TableExists(db: Db, table: string)
  {
    table in db.tables
  }

  function NewTable(db: Db): string { db.prefix + "iw8_wa_clicks" }
  function OldTable(db: Db): string { db.prefix + "wa_clicks" }

  /** `resolveTableName`: the new table, else the legacy one, else the new name. */
  function ResolveTableName(db: Db): (t: string)
    ensures TableExists(db, NewTable(db)) ==> t == NewTable(db)
    ensures !TableExists(db, NewTable(db)) && TableExists(db, OldTable(db)) ==> t == OldTable(db)
    ensures !TableExists(db, NewTable(db)) && !TableExists(db, OldTable(db)) ==> t == NewTable(db)
  {
    if TableExists(db, NewTable(db)) then NewTable(db)
    else if TableExists(db, OldTable(db)) then OldTable(db)
    else NewTable(db)
  }

  /** The resolved table exists exactly when one of the two does. */
  lemma ResolvedExists(db: Db)
    ensures TableExists(db, ResolveTableName(db)) <==> TableExists(db, NewTable(db)) || TableExists(db, OldTable(db))
  {
  }

  // ---------------------------------------------------------------------
  // discoverSchema
  // ---------------------------------------------------------------------

  datatype Schema = Schema(columns: seq<string>, clickedCol: Option<string>)

  /** The `Field` values of `SHOW COLUMNS`, in order. */
  function FieldNames(rows: seq<Option<string>>): (cols: seq<string>)
    ensures |cols| <= |rows|
    ensures forall c :: c in cols <==> Some(c) in rows
  {
    if |rows| == 0 then []
    else
      var rest := FieldNames(rows[1..]);
      assert forall o :: o in rows <==> o == rows[0] || o in rows[1..];
      if rows[0].Some? then [rows[0].value] + rest else rest
  }

  /** `discoverSchema`: the columns, and `clicked_at`, else `created_at`, as the timestamp column. */
  function DiscoverSchema(db: Db, table: string): (s: Schema)
    ensures forall c :: c in s.columns <==> Some(c) in db.showColumns(table)
    ensures "clicked_at" in s.columns ==> s.clickedCol == Some("clicked_at")
    ensures "clicked_at" !in s.columns && "created_at" in s.columns ==> s.clickedCol == Some("created_at")
    ensures "clicked_at" !in s.columns && "created_at" !in s.columns ==> s.clickedCol.None?
  {
    var cols := FieldNames(db.showColumns(table));
    Schema(cols, if "clicked_at" in cols then Some("clicked_at")
                 else if "created_at" in cols then Some("created_at") else None)
  }

  // ---------------------------------------------------------------------
  // normalizeFilters
  // ---------------------------------------------------------------------

  /** The six filters `normalizeFilters` knows, with their defaults. */
  const FilterDefaults: map<string, Value> :=
    map["page_url" := Str(""), "element_tag" := Str(""), "user_id" := Int(0),
        "since" := Str(""), "until" := Str(""), "search" := Str("")]

  /** PHP's `strtotime` (None for `false`) and `gmdate('Y-m-d H:i:s', ·)`. */
  datatype Dates = Dates(strtotime: string -> Option<int>, gmdate: int -> string)

  /** A date filter: kept when empty, else reparsed and written as UTC, `''` when unparseable. */
  function NormalizeDate(dates: Dates, v: Value): (r: Value)
    ensures Empty(v) ==> r == v
    ensures !Empty(v) && dates.strtotime(StrCast(v)).None? ==> r == Str("")
    ensures !Empty(v) && dates.strtotime(StrCast(v)).Some?
            ==> r == Str(dates.gmdate(dates.strtotime(StrCast(v)).value))
  {
    if Empty(v) then v
    else
      match dates.strtotime(StrCast(v))
      case Some(ts) => Str(dates.gmdate(ts))
      case None => Str("")
  }

  /** `normalizeFilters`: the six known keys only, caller values copied when set. */
  function NormalizeFilters(filters: map<string, Value>, dates: Dates): (f: map<string, Value>)
    ensures f.Keys == FilterDefaults.Keys
    ensures forall k :: k in f && k != "since" && k != "until" ==>
              f[k] == (if k in filters && !filters[k].Null? then filters[k] else FilterDefaults[k])
    ensures f["since"] == NormalizeDate(dates, if "since" in filters && !filters["since"].Null? then filters["since"] else Str(""))
    ensures f["until"] == NormalizeDate(dates, if "until" in filters && !filters["until"].Null? then filters["until"] else Str(""))
  {
    var copied := map k | k in FilterDefaults ::
      if k in filters && !filters[k].Null? then filters[k] else FilterDefaults[k];
    copied["since" := NormalizeDate(dates, copied["since"])]["until" := NormalizeDate(dates, copied["until"])]
  }

  /** The admin-area filter names are dropped, and no sort order survives. */
  lemma UnknownFiltersDropped(filters: map<string, Value>, dates: Dates)
    ensures var f := NormalizeFilters(filters, dates);
      "s" !in f && "from" !in f && "to" !in f && "url_regexp" !in f && "order" !in f
  {
  }

  // ---------------------------------------------------------------------
  // insertClick
  // ---------------------------------------------------------------------

  /** `isset($data[k]) ? (string) $data[k] : ''`. */
  function TextOr(data: map<string, Value>, key: string): string
  {
    if key in data && !data[key].Null? then StrCast(data[key]) else ""
  }

  /** The columns `insertClick` fills, in the order it builds them. */
  const InsertColumns: seq<string> :=
    ["clicked_at", "url", "page_url", "element_tag", "element_text", "user_agent", "user_id"]

  /**
   * The full row before pruning: the insert's own time under `clicked_at`,
   * every text column the caller's value cast to text (`''` when unset), and
   * `user_id` its integer value (0 when unset).
   */
  function FullRow(data: map<string, Value>, nowUtc: string): (row: seq<(string, Value)>)
    ensures |row| == |InsertColumns| && forall i :: 0 <= i < |row| ==> row[i].0 == InsertColumns[i]
    ensures row[0].1 == Str(nowUtc)
    ensures forall i :: 1 <= i < |row| && row[i].0 != "user_id" ==> row[i].1 == Str(TextOr(data, row[i].0))
    ensures row[|row| - 1].1 == Int(if "user_id" in data && !data["user_id"].Null? then IntCast(data["user_id"]) else 0)
  {
    [("clicked_at", Str(nowUtc)),
     ("url", Str(TextOr(data, "url"))),
     ("page_url", Str(TextOr(data, "page_url"))),
     ("element_tag", Str(TextOr(data, "element_tag"))),
     ("element_text", Str(TextOr(data, "element_text"))),
     ("user_agent", Str(TextOr(data, "user_agent"))),
     ("user_id", Int(if "user_id" in data && !data["user_id"].Null? then IntCast(data["user_id"]) else 0))]
  }

  /** The pairs whose column is in `cols`, order kept. */
  function Prune(row: seq<(string, Value)>, cols: seq<string>): (r: seq<(string, Value)>)
    ensures |r| <= |row|
    ensures forall p :: p in r <==> p in row && p.0 in cols
    ensures Subsequence(r, row)
  {
    if |row| == 0 then []
    else
      var rest := Prune(row[1..], cols);
      assert forall p :: p in row <==> p == row[0] || p in row[1..];
      if row[0].0 in cols then
        assert ([row[0]] + rest)[1..] == rest;
        [row[0]] + rest
      else rest
  }

  /** `%d` for `user_id`, `%s` for every other column. */
  function Formats(row: seq<(string, Value)>): (fs: seq<string>)
    ensures |fs| == |row|
    ensures forall i :: 0 <= i < |row| ==> fs[i] == (if row[i].0 == "user_id" then "%d" else "%s")
  {
    seq(|row|, i requires 0 <= i < |row| => if row[i].0 == "user_id" then "%d" else "%s")
  }

  /** What `$wpdb->insert` was given: the table, the pruned row and its formats. */
  datatype Insert = Insert(table: string, row: seq<(string, Value)>, formats: seq<string>)

  /**
   * `insertClick($data)`. `nowUtc` is `gmdate('Y-m-d H:i:s')`; `insertId`
   * is the database's answer (None for failure) and `lastError` its
   * `last_error`.
   */
  function InsertClick(db: Db, data: map<string, Value>, nowUtc: string, insertId: Option<int>, lastError: string)
    : (r: (Option<Insert>, Legacy.InsertResult))
    ensures r.0.None? <==> !TableExists(db, ResolveTableName(db))
    ensures r.0.None? ==> r.1 == Legacy.InsertFailed("table_missing", "Tabela de cliques não existe.")
    ensures r.0.Some? ==> var ins := r.0.value;
      && ins.table == ResolveTableName(db)
      && (forall p :: p in ins.row <==> p in FullRow(data, nowUtc) && p.0 in DiscoverSchema(db, ins.table).columns)
      && ins.formats == Formats(ins.row)
    ensures r.0.Some? && insertId.None?
            ==> r.1 == Legacy.InsertFailed("db_insert_failed", if PhpEmptyString(lastError) then "Falha ao inserir" else lastError)
    ensures r.0.Some? && insertId.Some? ==> r.1 == Legacy.Inserted(insertId.value)
  {
    var table := ResolveTableName(db);
    if !TableExists(db, table) then
      (None, Legacy.InsertFailed("table_missing", "Tabela de cliques não existe."))
    else
      var row := Prune(FullRow(data, nowUtc), DiscoverSchema(db, table).columns);
      var ins := Insert(table, row, Formats(row));
      match insertId
      case None => (Some(ins), Legacy.InsertFailed("db_insert_failed", if PhpEmptyString(lastError) then "Falha ao inserir" else lastError))
      case Some(id) => (Some(ins), Legacy.Inserted(id))
  }

  /** The insert stamps its own clock: a caller's `clicked_at` changes nothing. */
  lemma CallerClockIgnored(db: Db, data: map<string, Value>, v: Value, nowUtc: string,
                           insertId: Option<int>, lastError: string)
    ensures InsertClick(db, data["clicked_at" := v], nowUtc, insertId, lastError)
            == InsertClick(db, data, nowUtc, insertId, lastError)
  {
    var d2 := data["clicked_at" := v];
    assert FullRow(d2, nowUtc) == FullRow(data, nowUtc) by {
      assert forall k :: k != "clicked_at" ==> TextOr(d2, k) == TextOr(data, k);
    }
  }

  /** When the table has a `clicked_at` column, the row carries the insert's own time there. */
  lemma StampedWithNow(db: Db, data: map<string, Value>, nowUtc: string, insertId: Option<int>, lastError: string)
    requires TableExists(db, ResolveTableName(db))
    requires Some("clicked_at") in db.showColumns(ResolveTableName(db))
    ensures var ins := InsertClick(db, data, nowUtc, insertId, lastError).0;
      ins.Some? && ("clicked_at", Str(nowUtc)) in ins.value.row
  {
    var ins := InsertClick(db, data, nowUtc, insertId, lastError).0;
    assert FullRow(data, nowUtc)[0] == ("clicked_at", Str(nowUtc));
  }

  // ---------------------------------------------------------------------
  // list
  // ---------------------------------------------------------------------

  /** One `WHERE` condition of the packaged repository's queries. */
  datatype Cond =
    | PageUrlLike(pattern: string)
    | TagIs(tag: string)
    | UserIs(id: int)
    | AtLeast(col: string, ts: string)
    | AtMost(col: string, ts: string)
    | TextLike(pattern: string)

  /** `untrailingslashit`: every trailing `/` and `\` removed. */
  function Untrailing(s: string): (r: string)
    ensures StartsWith(s, r)
    ensures |r| > 0 ==> r[|r| - 1] != '/' && r[|r| - 1] != '\\'
  {
    if |s| > 0 && (s[|s| - 1] == '/' || s[|s| - 1] == '\\') then Untrailing(s[..|s| - 1]) else s
  }

  /** `trailingslashit`: exactly one `/` at the end. */
  function TrailingSlashIt(s: string): (r: string)
    ensures |r| > 0 && r[|r| - 1] == '/'
    ensures |r| == 1 || (r[|r| - 2] != '/' && r[|r| - 2] != '\\')
  {
    Untrailing(s) + "/"
  }

  /** Adding the slash twice is adding it once. */
  lemma TrailingSlashIdempotent(s: string)
    ensures TrailingSlashIt(TrailingSlashIt(s)) == TrailingSlashIt(s)
  {
    var u := Untrailing(s);
    var t := u + "/";
    assert t[..|t| - 1] == u;
    assert Untrailing(t) == Untrailing(u);
    UntrailingFixed(u);
  }

  lemma UntrailingFixed(u: string)
    requires |u| > 0 ==> u[|u| - 1] != '/' && u[|u| - 1] != '\\'
    ensures Untrailing(u) == u
  {
  }

  /**
   * The page, tag and user conditions, in that order, each only when set
   * and the column exists: the page as a prefix pattern with one trailing
   * slash, the tag as given, the user as an integer.
   */
  function ColumnConds(pageUrl: Value, tag: Value, userId: Value, cols: seq<string>): (cs: seq<Cond>)
    ensures forall c :: c in cs ==> c.PageUrlLike? || c.TagIs? || c.UserIs?
    ensures Subsequence(cs, [PageUrlLike(TrailingSlashIt(StrCast(pageUrl)) + "%"), TagIs(StrCast(tag)),
                             UserIs(IntCast(userId))])
    ensures PageUrlLike(TrailingSlashIt(StrCast(pageUrl)) + "%") in cs <==> !Empty(pageUrl) && "page_url" in cols
    ensures TagIs(StrCast(tag)) in cs <==> !Empty(tag) && "element_tag" in cols
    ensures UserIs(IntCast(userId)) in cs <==> !Empty(userId) && "user_id" in cols
    ensures (exists c :: c in cs && c.PageUrlLike?) <==> !Empty(pageUrl) && "page_url" in cols
    ensures (exists c :: c in cs && c.TagIs?) <==> !Empty(tag) && "element_tag" in cols
    ensures (exists c :: c in cs && c.UserIs?) <==> !Empty(userId) && "user_id" in cols
  {
    var page := PageUrlLike(TrailingSlashIt(StrCast(pageUrl)) + "%");
    var tagIs := TagIs(StrCast(tag));
    var user := UserIs(IntCast(userId));
    PickConds(page, tagIs, user,
              !Empty(pageUrl) && "page_url" in cols, !Empty(tag) && "element_tag" in cols,
              !Empty(userId) && "user_id" in cols)
  }

  /** Each of three candidates kept exactly when its test holds, in order. */
  function PickConds(x: Cond, y: Cond, z: Cond, px: bool, py: bool, pz: bool): (cs: seq<Cond>)
    ensures Subsequence(cs, [x, y, z])
    ensures px ==> x in cs
    ensures py ==> y in cs
    ensures pz ==> z in cs
    ensures forall c :: c in cs ==> (c == x && px) || (c == y && py) || (c == z && pz)
  {
    var a := if px then [x] else [];
    var b := if py then [y] else [];
    var c := if pz then [z] else [];
    var cs := a + b + c;
    assert forall w :: w in cs <==> w in a || w in b || w in c;
    assert |a| > 0 ==> a[0] in cs;
    assert |b| > 0 ==> b[0] in cs;
    assert |c| > 0 ==> c[0] in cs;
    PickThree(a, b, c, x, y, z);
    cs
  }

  /** Keeping or dropping each of three candidates, in order, gives a subsequence of the three. */
  lemma PickThree<T>(a: seq<T>, b: seq<T>, c: seq<T>, x: T, y: T, z: T)
    requires a == [] || a == [x]
    requires b == [] || b == [y]
    requires c == [] || c == [z]
    ensures Subsequence(a + b + c, [x, y, z])
  {
    var t := [x, y, z];
    assert t[1..] == [y, z] && t[1..][1..] == [z] && t[1..][1..][1..] == [];
    var bc := b + c;
    assert Subsequence(c, [z]) by {
      if c == [z] { assert c[1..] == []; }
    }
    assert Subsequence(bc, [y, z]) by {
      if b == [y] { assert bc[0] == y && bc[1..] == c; }
      else { assert bc == c; }
    }
    if a == [x] {
      assert (a + b + c)[0] == x && (a + b + c)[1..] == bc;
    } else {
      assert a + b + c == bc;
    }
  }

  /** `ColumnConds` over the normalised filters. */
  function FilterConds(f: map<string, Value>, cols: seq<string>): seq<Cond>
    requires FilterDefaults.Keys <= f.Keys
  {
    ColumnConds(f["page_url"], f["element_tag"], f["user_id"], cols)
  }

  /**
   * The range and search conditions `list` adds after the column ones, in
   * this order: `since` and `until` as given on the timestamp column, then
   * the search text escaped and wrapped in `%` when the text column exists.
   */
  function RangeConds(since: Value, until: Value, search: Value, cols: seq<string>, clickedCol: string): (cs: seq<Cond>)
    ensures forall c :: c in cs ==> c.AtLeast? || c.AtMost? || c.TextLike?
    ensures Subsequence(cs, [AtLeast(clickedCol, StrCast(since)), AtMost(clickedCol, StrCast(until)),
                             TextLike("%" + Legacy.EscLike(StrCast(search)) + "%")])
    ensures AtLeast(clickedCol, StrCast(since)) in cs <==> !Empty(since)
    ensures AtMost(clickedCol, StrCast(until)) in cs <==> !Empty(until)
    ensures TextLike("%" + Legacy.EscLike(StrCast(search)) + "%") in cs <==> !Empty(search) && "element_text" in cols
    ensures (exists c :: c in cs && c.AtLeast?) <==> !Empty(since)
    ensures (exists c :: c in cs && c.AtMost?) <==> !Empty(until)
    ensures (exists c :: c in cs && c.TextLike?) <==> !Empty(search) && "element_text" in cols
    ensures forall c :: c in cs && (c.AtLeast? || c.AtMost?) ==> c.col == clickedCol
  {
    var lo := AtLeast(clickedCol, StrCast(since));
    var hi := AtMost(clickedCol, StrCast(until));
    var like := TextLike("%" + Legacy.EscLike(StrCast(search)) + "%");
    PickConds(lo, hi, like, !Empty(since), !Empty(until), !Empty(search) && "element_text" in cols)
  }

  /** `RangeConds` over the normalised filters. */
  function FilterRangeConds(f: map<string, Value>, cols: seq<string>, clickedCol: string): seq<Cond>
    requires FilterDefaults.Keys <= f.Keys
  {
    RangeConds(f["since"], f["until"], f["search"], cols, clickedCol)
  }

  /** One selected expression. */
  datatype Select = Column(name: string) | Alias(source: string, name: string) | ConstantId

  /** The public columns, in order. */
  const PublicFields: seq<string> :=
    ["id", "clicked_at", "url", "page_url", "element_tag", "element_text", "user_agent", "user_id"]

  /** The select list: the public columns the table has, the timestamp column as `clicked_at`. */
  function SelectParts(cols: seq<string>, clickedCol: string, fields: seq<string>): (ps: seq<Select>)
    ensures forall p :: p in ps ==> p.Column? || p.Alias?
    ensures forall p :: p in ps && p.Column? ==> p.name in fields && p.name in cols
    ensures forall p :: p in ps && p.Alias? ==> p == Alias("created_at", "clicked_at")
    ensures forall c :: c in fields && c != "clicked_at" && c in cols ==> Column(c) in ps
    ensures "clicked_at" in fields && clickedCol == "clicked_at" && "clicked_at" in cols ==> Column("clicked_at") in ps
    ensures "clicked_at" in fields && clickedCol == "created_at" && "created_at" in cols
            ==> Alias("created_at", "clicked_at") in ps
  {
    if |fields| == 0 then []
    else
      var c := fields[0];
      var rest := SelectParts(cols, clickedCol, fields[1..]);
      var head :=
        if c == "clicked_at" then
          (if clickedCol == "clicked_at" && "clicked_at" in cols then [Column("clicked_at")]
           else if clickedCol == "created_at" && "created_at" in cols then [Alias("created_at", "clicked_at")]
           else [])
        else if c in cols then [Column(c)] else [];
      head + rest
  }

  /**
   * `$selectParts`, with the fallback for an empty list. The fallback can
   * only be `1 AS id`: a table with an `id` column always selects it.
   */
  function SelectList(schema: Schema, clickedCol: string): (ps: seq<Select>)
    ensures |ps| > 0
    ensures |SelectParts(schema.columns, clickedCol, PublicFields)| > 0
            ==> ps == SelectParts(schema.columns, clickedCol, PublicFields)
    ensures |SelectParts(schema.columns, clickedCol, PublicFields)| == 0 ==> ps == [ConstantId]
  {
    assert "id" in PublicFields;
    var parts := SelectParts(schema.columns, clickedCol, PublicFields);
    if |parts| == 0 then (if "id" in schema.columns then [Column("id")] else [ConstantId]) else parts
  }

  datatype Direction = Asc | Desc

  /** The query `list` runs. */
  datatype ListPlan = ListPlan(
    table: string, select: seq<Select>, where: seq<Cond>,
    orderCol: string, dir: Direction, limit: int, offset: int)

  /** `strtoupper($f['order'] ?? 'DESC') === 'ASC' ? 'ASC' : 'DESC'`. */
  function Dir(f: map<string, Value>): Direction
  {
    if "order" in f && !f["order"].Null? && Upper(StrCast(f["order"])) == "ASC" then Asc else Desc
  }

  /** `isset($p[k]) ? max(lo, (int) $p[k]) : default`. */
  function Bounded(p: map<string, Value>, key: string, lo: int, default: int): (r: int)
    requires default >= lo
    ensures r >= lo
    ensures !(key in p && !p[key].Null?) ==> r == default
    ensures key in p && !p[key].Null? && IntCast(p[key]) >= lo ==> r == IntCast(p[key])
    ensures key in p && !p[key].Null? && IntCast(p[key]) < lo ==> r == lo
  {
    if key in p && !p[key].Null? then (if IntCast(p[key]) >= lo then IntCast(p[key]) else lo) else default
  }

  /**
   * `list($filters, $pagination)`: None where the code returns `[]`
   * without querying (no table, or no timestamp column).
   */
  function List(db: Db, filters: map<string, Value>, pagination: map<string, Value>, dates: Dates)
    : (r: Option<ListPlan>)
    ensures r.None? <==> !TableExists(db, ResolveTableName(db))
                         || DiscoverSchema(db, ResolveTableName(db)).clickedCol.None?
    ensures r.Some? ==> var p := r.value;
      && p.table == ResolveTableName(db)
      && Some(p.orderCol) == DiscoverSchema(db, p.table).clickedCol
      && p.limit >= 1 && p.offset >= 0
      && (!("limit" in pagination && !pagination["limit"].Null?) ==> p.limit == 50)
      && (!("offset" in pagination && !pagination["offset"].Null?) ==> p.offset == 0)
      && p.limit == Bounded(pagination, "limit", 1, 50)
      && p.offset == Bounded(pagination, "offset", 0, 0)
      && p.select == SelectList(DiscoverSchema(db, p.table), p.orderCol)
      && p.where == FilterConds(NormalizeFilters(filters, dates), DiscoverSchema(db, p.table).columns)
                    + FilterRangeConds(NormalizeFilters(filters, dates), DiscoverSchema(db, p.table).columns, p.orderCol)
      && p.dir == Desc
  {
    var table := ResolveTableName(db);
    if !TableExists(db, table) then None
    else
      var schema := DiscoverSchema(db, table);
      if schema.clickedCol.None? then None
      else
        var col := schema.clickedCol.value;
        var f := NormalizeFilters(filters, dates);
        UnknownFiltersDropped(filters, dates);
        var where := FilterConds(f, schema.columns) + FilterRangeConds(f, schema.columns, col);
        Some(ListPlan(table, SelectList(schema, col), where, col, Dir(f),
                      Bounded(pagination, "limit", 1, 50), Bounded(pagination, "offset", 0, 0)))
  }

  /**
   * The conditions of a listing: a date bound for each non-empty
   * normalised date, a user condition only when set and the column exists.
   */
  lemma ListConditions(db: Db, filters: map<string, Value>, pagination: map<string, Value>, dates: Dates)
    requires List(db, filters, pagination, dates).Some?
    ensures var p := List(db, filters, pagination, dates).value;
      var f := NormalizeFilters(filters, dates);
      && ((exists c :: c in p.where && c.AtLeast?) <==> !Empty(f["since"]))
      && ((exists c :: c in p.where && c.AtMost?) <==> !Empty(f["until"]))
      && ((exists c :: c in p.where && c.UserIs?) <==> !Empty(f["user_id"]) && "user_id" in DiscoverSchema(db, p.table).columns)
  {
    var p := List(db, filters, pagination, dates).value;
    var f := NormalizeFilters(filters, dates);
    var cols := DiscoverSchema(db, p.table).columns;
    var a := FilterConds(f, cols);
    var b := FilterRangeConds(f, cols, p.orderCol);
    assert p.where == a + b;
    WhereSplit(a, b);
  }

  /** Column and range conditions never mix, so each kind comes from its own half. */
  lemma WhereSplit(a: seq<Cond>, b: seq<Cond>)
    requires forall c :: c in a ==> c.PageUrlLike? || c.TagIs? || c.UserIs?
    requires forall c :: c in b ==> c.AtLeast? || c.AtMost? || c.TextLike?
    ensures (exists c :: c in a + b && c.AtLeast?) <==> (exists c :: c in b && c.AtLeast?)
    ensures (exists c :: c in a + b && c.AtMost?) <==> (exists c :: c in b && c.AtMost?)
    ensures (exists c :: c in a + b && c.UserIs?) <==> (exists c :: c in a && c.UserIs?)
  {
    assert forall x :: x in a + b <==> x in a || x in b;
  }

  /** Whenever `list` queries, the select list is never the `id` fallback: the timestamp is always there. */
  lemma SelectNeverFallsBack(db: Db)
    requires TableExists(db, ResolveTableName(db))
    requires DiscoverSchema(db, ResolveTableName(db)).clickedCol.Some?
    ensures var schema := DiscoverSchema(db, ResolveTableName(db));
      |SelectParts(schema.columns, schema.clickedCol.value, PublicFields)| > 0
  {
    var schema := DiscoverSchema(db, ResolveTableName(db));
    var col := schema.clickedCol.value;
    assert PublicFields[1..][0] == "clicked_at";
    var tail := SelectParts(schema.columns, col, PublicFields[1..]);
    assert "clicked_at" in PublicFields[1..];
    assert |tail| > 0;
  }

  // ---------------------------------------------------------------------
  // countTotals
  // ---------------------------------------------------------------------

  /** The three windows of `countTotals`. */
  datatype Window = AllTime | LastDays(days: nat)

  /** A `COUNT(*)` over the table, a timestamp column, a window and conditions. */
  datatype CountQuery = CountQuery(table: string, clickedCol: string, window: Window, where: seq<Cond>)

  /** The filters as an array: anything else counts as `[]`. */
  function FilterMap(filters: Value): map<string, Value>
  {
    if filters.Assoc? then filters.entries else map[]
  }

  /**
   * `countTotals($filters)`. `count` is the database's answer to one query;
   * all three are zero without a table or timestamp column.
   */
  function CountTotals(db: Db, filters: Value, dates: Dates, count: CountQuery -> int): (r: Legacy.Totals)
    ensures !TableExists(db, ResolveTableName(db)) || DiscoverSchema(db, ResolveTableName(db)).clickedCol.None?
            ==> r == Legacy.Totals(0, 0, 0)
    ensures TableExists(db, ResolveTableName(db)) && DiscoverSchema(db, ResolveTableName(db)).clickedCol.Some?
            ==> var t := ResolveTableName(db);
                var col := DiscoverSchema(db, t).clickedCol.value;
                var w := CountConds(db, filters, dates);
                r == Legacy.Totals(count(CountQuery(t, col, AllTime, w)), count(CountQuery(t, col, LastDays(7), w)),
                                   count(CountQuery(t, col, LastDays(30), w)))
  {
    var table := ResolveTableName(db);
    if !TableExists(db, table) then Legacy.Totals(0, 0, 0)
    else
      var schema := DiscoverSchema(db, table);
      if schema.clickedCol.None? then Legacy.Totals(0, 0, 0)
      else
        var col := schema.clickedCol.value;
        var w := CountConds(db, filters, dates);
        Legacy.Totals(count(CountQuery(table, col, AllTime, w)), count(CountQuery(table, col, LastDays(7), w)),
                      count(CountQuery(table, col, LastDays(30), w)))
  }

  /** The conditions `countTotals` applies: the page, tag and user filters only. */
  function CountConds(db: Db, filters: Value, dates: Dates): (cs: seq<Cond>)
    ensures forall c :: c in cs ==> c.PageUrlLike? || c.TagIs? || c.UserIs?
  {
    var f := NormalizeFilters(FilterMap(filters), dates);
    FilterConds(f, DiscoverSchema(db, ResolveTableName(db)).columns)
  }

  /** `m1` and `m2` agree on `key`, present or absent. */
  predicate SameEntry(m1: map<string, Value>, m2: map<string, Value>, key: string)
  {
    (key in m1 <==> key in m2) && (key in m1 ==> m1[key] == m2[key])
  }

  /**
   * The dates and the search text do not reach the counts: two filter sets
   * that agree on page, tag and user give the same totals.
   */
  lemma CountsIgnoreRangeAndSearch(db: Db, m1: map<string, Value>, m2: map<string, Value>, dates: Dates,
                                   count: CountQuery -> int)
    requires SameEntry(m1, m2, "page_url") && SameEntry(m1, m2, "element_tag") && SameEntry(m1, m2, "user_id")
    ensures CountTotals(db, Assoc(m1), dates, count) == CountTotals(db, Assoc(m2), dates, count)
  {
    var f1 := NormalizeFilters(m1, dates);
    var f2 := NormalizeFilters(m2, dates);
    assert f1["page_url"] == f2["page_url"];
    assert f1["element_tag"] == f2["element_tag"];
    assert f1["user_id"] == f2["user_id"];
  }
}

=== FILE: click_repository_legacy.dfy ===
/**
 * `Database\ClickRepository` of the admin area (the table `wa_clicks`):
 * the normalisation `insertClick` applies before writing a row, the paging
 * plan of `list`, and the three counting queries of `countTotals`.
 *
 * SQL runs in the database: a write's outcome, the rows a plan selects and
 * the counts are parameters, and the plans themselves are values.
 */
module ClickRepositoryLegacy {
  import opened Wrappers
  import opened Text
  import opened Php

  // ---------------------------------------------------------------------
  // insertClick
  // ---------------------------------------------------------------------

  /** A row as handed to `$wpdb->insert`: `None` is SQL NULL. */
  datatype Row = Row(
    url: string, pageUrl: Option<string>, elementTag: string, elementText: Option<string>,
    userId: Option<int>, userAgent: Option<string>, clickedAt: string)

  const UrlWidth: nat := 255
  const TagWidth: nat := 50
  const AgentWidth: nat := 255

  /** `isset($data[$key]) ? (string) $data[$key] : null`. */
  function OptText(data: map<string, Value>, key: string): (r: Option<string>)
    ensures r.Some? <==> key in data && !data[key].Null?
    ensures r.Some? ==> r.value == StrCast(data[key])
  {
    if key in data && !data[key].Null? then Some(StrCast(data[key])) else None
  }

  /**
   * The row `insertClick($data)` writes, with the cuts counted in bytes as
   * the `substr` fallback does: absent text columns are NULL, an absent url
   * or tag is `''`, the three short columns keep their first bytes up to
   * their widths, and `clicked_at` is the caller's value unless that is
   * empty, then `now` (`current_time('mysql')`).
   */
  function NormalizeInsert(data: map<string, Value>, now: string): (r: Row)
    ensures |r.url| <= UrlWidth && |r.elementTag| <= TagWidth
    ensures r.userAgent.Some? ==> |r.userAgent.value| <= AgentWidth
    ensures |r.url| == Min(|OptText(data, "url").GetOr("")|, UrlWidth)
    ensures |r.elementTag| == Min(|OptText(data, "element_tag").GetOr("")|, TagWidth)
    ensures r.userAgent.Some? ==> |r.userAgent.value| == Min(|OptText(data, "user_agent").GetOr("")|, AgentWidth)
    ensures StartsWith(OptText(data, "url").GetOr(""), r.url)
    ensures StartsWith(OptText(data, "element_tag").GetOr(""), r.elementTag)
    ensures r.userAgent.Some? <==> OptText(data, "user_agent").Some?
    ensures r.userAgent.Some? ==> StartsWith(OptText(data, "user_agent").value, r.userAgent.value)
    ensures r.pageUrl == OptText(data, "page_url") && r.elementText == OptText(data, "element_text")
    ensures r.userId.Some? <==> "user_id" in data && !data["user_id"].Null?
    ensures r.userId.Some? ==> r.userId.value == IntCast(data["user_id"])
    ensures "clicked_at" in data && !Empty(data["clicked_at"]) ==> r.clickedAt == StrCast(data["clicked_at"])
    ensures !("clicked_at" in data && !Empty(data["clicked_at"])) ==> r.clickedAt == now
  {
    var ua := OptText(data, "user_agent");
    Row(
      url := Truncate(OptText(data, "url").GetOr(""), UrlWidth),
      pageUrl := OptText(data, "page_url"),
      elementTag := Truncate(OptText(data, "element_tag").GetOr(""), TagWidth),
      elementText := OptText(data, "element_text"),
      userId := if "user_id" in data && !data["user_id"].Null? then Some(IntCast(data["user_id"])) else None,
      userAgent := if ua.Some? then Some(Truncate(ua.value, AgentWidth)) else None,
      clickedAt := if "clicked_at" in data && !Empty(data["clicked_at"]) then StrCast(data["clicked_at"]) else now)
  }

  function Min(a: int, b: int): int
  {
    if a <= b then a else b
  }

  /** Short values pass through the cuts unchanged. */
  lemma ShortValuesKept(data: map<string, Value>, now: string)
    requires "url" in data && data["url"].Str? && |data["url"].s| <= UrlWidth
    requires "element_tag" in data && data["element_tag"].Str? && |data["element_tag"].s| <= TagWidth
    requires "user_agent" in data && data["user_agent"].Str? && |data["user_agent"].s| <= AgentWidth
    ensures NormalizeInsert(data, now).url == data["url"].s
    ensures NormalizeInsert(data, now).elementTag == data["element_tag"].s
    ensures NormalizeInsert(data, now).userAgent == Some(data["user_agent"].s)
  {
  }

  /** Normalising an already normalised row changes nothing. */
  lemma NormalizeIdempotent(data: map<string, Value>, now: string)
    ensures var r := NormalizeInsert(data, now);
      NormalizeInsert(AsData(r), now) == r
  {
    var r := NormalizeInsert(data, now);
    var d := AsData(r);
    assert OptText(d, "url") == Some(r.url);
    assert OptText(d, "element_tag") == Some(r.elementTag);
    if r.userId.Some? {
      assert d["user_id"] == Int(r.userId.value);
    }
    if "clicked_at" in data && !Empty(data["clicked_at"]) {
      CastOfNonEmpty(data["clicked_at"]);
    }
  }

  /** A value `empty()` rejects never casts to `''` or `'0'`. */
  lemma CastOfNonEmpty(v: Value)
    requires !Empty(v)
    ensures !PhpEmptyString(StrCast(v))
  {
    if v.Float? {
      assert v.lexeme != "0" by {
        if v.lexeme == "0" {
          assert !MantissaNonZero(v.lexeme[1..]);
        }
      }
    }
  }

  /** The row written back as the `$data` array `insertClick` receives. */
  function AsData(r: Row): (d: map<string, Value>)
    ensures "url" in d && d["url"] == Str(r.url)
    ensures "element_tag" in d && d["element_tag"] == Str(r.elementTag)
    ensures "clicked_at" in d && d["clicked_at"] == Str(r.clickedAt)
    ensures "page_url" in d && d["page_url"] == OptStr(r.pageUrl)
    ensures "element_text" in d && d["element_text"] == OptStr(r.elementText)
    ensures "user_agent" in d && d["user_agent"] == OptStr(r.userAgent)
    ensures "user_id" in d && d["user_id"] == (if r.userId.Some? then Int(r.userId.value) else Null)
  {
    map["url" := Str(r.url), "element_tag" := Str(r.elementTag), "clicked_at" := Str(r.clickedAt),
        "page_url" := OptStr(r.pageUrl), "element_text" := OptStr(r.elementText),
        "user_agent" := OptStr(r.userAgent),
        "user_id" := if r.userId.Some? then Int(r.userId.value) else Null]
  }

  function OptStr(o: Option<string>): Value
  {
    if o.Some? then Str(o.value) else Null
  }

  /** What `insertClick` returns: the new id, or `WP_Error('db_insert_failed')`. */
  datatype InsertResult = Inserted(id: int) | InsertFailed(code: string, message: string)

  /**
   * `insertClick($data)`: the normalised row and the result; `insertId` is
   * `None` when `$wpdb->insert` returns false.
   */
  function InsertClick(data: map<string, Value>, now: string, insertId: Option<int>, lastError: string)
    : (r: (Row, InsertResult))
    ensures r.0 == NormalizeInsert(data, now)
    ensures insertId.None? <==> r.1.InsertFailed?
    ensures r.1.InsertFailed? ==> r.1.code == "db_insert_failed"
                                  && r.1.message == "Falha ao inserir clique: " + lastError
    ensures insertId.Some? ==> r.1 == Inserted(insertId.value)
  {
    var row := NormalizeInsert(data, now);
    match insertId
    case None => (row, InsertFailed("db_insert_failed", "Falha ao inserir clique: " + lastError))
    case Some(id) => (row, Inserted(id))
  }

  // ---------------------------------------------------------------------
  // list
  // ---------------------------------------------------------------------

  datatype Direction = Asc | Desc

  /** `ORDER BY ... LIMIT ... OFFSET ...` of a listing query. */
  datatype ListPlan = ListPlan(order: seq<(string, Direction)>, limit: int, offset: int)

  /**
   * `list($filters, $opts)`: `per_page` at least 1 (20 when absent),
   * `offset` at least 0 (0 when absent), newest first with the id breaking
   * ties. The filters are not used.
   */
  function ListQuery(opts: map<string, Value>): (r: ListPlan)
    ensures r.limit >= 1 && r.offset >= 0
    ensures !("per_page" in opts && !opts["per_page"].Null?) ==> r.limit == 20
    ensures "per_page" in opts && !opts["per_page"].Null? && IntCast(opts["per_page"]) >= 1
            ==> r.limit == IntCast(opts["per_page"])
    ensures "per_page" in opts && !opts["per_page"].Null? && IntCast(opts["per_page"]) < 1 ==> r.limit == 1
    ensures !("offset" in opts && !opts["offset"].Null?) ==> r.offset == 0
    ensures "offset" in opts && !opts["offset"].Null? && IntCast(opts["offset"]) >= 0
            ==> r.offset == IntCast(opts["offset"])
    ensures "offset" in opts && !opts["offset"].Null? && IntCast(opts["offset"]) < 0 ==> r.offset == 0
    ensures r.order == [("clicked_at", Desc), ("id", Desc)]
  {
    var perPage := if "per_page" in opts && !opts["per_page"].Null? then Max(1, IntCast(opts["per_page"])) else 20;
    var offset := if "offset" in opts && !opts["offset"].Null? then Max(0, IntCast(opts["offset"])) else 0;
    ListPlan([("clicked_at", Desc), ("id", Desc)], perPage, offset)
  }

  function Max(a: int, b: int): int
  {
    if a >= b then a else b
  }

  // ---------------------------------------------------------------------
  // countTotals
  // ---------------------------------------------------------------------

  /** One `WHERE` condition of the counting queries. */
  datatype Cond =
    | PageOrTextLike(pattern: string)
    | UrlRegexp(re: string)
    | ClickedAtLeast(ts: string)
    | ClickedAtMost(ts: string)

  /** What `esc_like` writes for one character. */
  function EscChar(c: char): (r: string)
    ensures |r| == 2 <==> c == '%' || c == '_' || c == '\\'
    ensures |r| == 1 || |r| == 2
    ensures r[|r| - 1] == c
  {
    if c == '%' || c == '_' || c == '\\' then ['\\', c] else [c]
  }

  /** `$wpdb->esc_like`: a backslash before each `%`, `_` and `\`. */
  function EscLike(s: string): (r: string)
    ensures |r| >= |s|
    ensures (forall k :: 0 <= k < |s| ==> s[k] != '%' && s[k] != '_' && s[k] != '\\') ==> r == s
  {
    if |s| == 0 then "" else EscChar(s[0]) + EscLike(s[1..])
  }

  /** `esc_like` works character by character. */
  lemma {:induction false} EscLikeConcat(a: string, b: string)
    ensures EscLike(a + b) == EscLike(a) + EscLike(b)
    decreases |a|
  {
    if |a| > 0 {
      assert (a + b)[0] == a[0] && (a + b)[1..] == a[1..] + b;
      EscLikeConcat(a[1..], b);
    } else {
      assert a + b == b;
    }
  }

  /**
   * Every `%`, `_` and `\` of the search text comes out with a `\` in front
   * of it, between the escaped text before it and the escaped text after it.
   */
  lemma {:induction false} EscLikeAt(s: string, k: nat)
    requires k < |s| && (s[k] == '%' || s[k] == '_' || s[k] == '\\')
    ensures EscLike(s) == EscLike(s[..k]) + ['\\', s[k]] + EscLike(s[k + 1..])
  {
    var a, b := s[..k], s[k + 1..];
    assert s == a + ([s[k]] + b);
    EscLikeConcat(a, [s[k]] + b);
    EscLikeCons(s[k], b);
  }

  lemma {:induction false} EscLikeCons(c: char, t: string)
    ensures EscLike([c] + t) == EscChar(c) + EscLike(t)
  {
    assert ([c] + t)[0] == c && ([c] + t)[1..] == t;
  }

  /** Reads `\x` back as `x`: the inverse of `EscLike`. */
  function UnescLike(s: string): string
  {
    if |s| == 0 then ""
    else if |s| >= 2 && s[0] == '\\' then [s[1]] + UnescLike(s[2..])
    else [s[0]] + UnescLike(s[1..])
  }

  /** `esc_like` loses nothing: the search text is recovered from the pattern body. */
  lemma {:induction false} UnescEscLike(s: string)
    ensures UnescLike(EscLike(s)) == s
    decreases |s|
  {
    if |s| > 0 {
      UnescEscLike(s[1..]);
      var e := EscLike(s);
      if |EscChar(s[0])| == 2 {
        assert e[0] == '\\' && e[1] == s[0] && e[2..] == EscLike(s[1..]);
      } else {
        assert e[0] == s[0] && e[1..] == EscLike(s[1..]);
      }
      assert s == [s[0]] + s[1..];
    }
  }

  /** The filters given as text; a missing key is the same as `''`. */
  function Filter(filters: map<string, string>, key: string): string
  {
    if key in filters then filters[key] else ""
  }

  /**
   * The conditions shared by all three counts: the search text, escaped and
   * wrapped in `%` for `LIKE`, then the url expression as given, each only
   * when it is not `empty()`.
   */
  function BaseConds(filters: map<string, string>): (r: seq<Cond>)
    ensures |r| == (if !PhpEmptyString(Filter(filters, "s")) then 1 else 0)
                   + (if !PhpEmptyString(Filter(filters, "url_regexp")) then 1 else 0)
    ensures !PhpEmptyString(Filter(filters, "s")) ==> r[0] == PageOrTextLike("%" + EscLike(Filter(filters, "s")) + "%")
    ensures !PhpEmptyString(Filter(filters, "url_regexp")) ==> r[|r| - 1] == UrlRegexp(Filter(filters, "url_regexp"))
  {
    var s := Filter(filters, "s");
    var re := Filter(filters, "url_regexp");
    (if !PhpEmptyString(s) then [PageOrTextLike("%" + EscLike(s) + "%")] else [])
    + (if !PhpEmptyString(re) then [UrlRegexp(re)] else [])
  }

  /** `total`: the shared conditions, then `from 00:00:00` and `to 23:59:59` when given. */
  function TotalConds(filters: map<string, string>): (r: seq<Cond>)
    ensures |BaseConds(filters)| <= |r| && r[..|BaseConds(filters)|] == BaseConds(filters)
    ensures ClickedAtLeast(Filter(filters, "from") + " 00:00:00") in r <==> !PhpEmptyString(Filter(filters, "from"))
    ensures ClickedAtMost(Filter(filters, "to") + " 23:59:59") in r <==> !PhpEmptyString(Filter(filters, "to"))
  {
    var from := Filter(filters, "from");
    var to := Filter(filters, "to");
    var base := BaseConds(filters);
    var lo := if !PhpEmptyString(from) then [ClickedAtLeast(from + " 00:00:00")] else [];
    var hi := if !PhpEmptyString(to) then [ClickedAtMost(to + " 23:59:59")] else [];
    var r := base + lo + hi;
    assert r[..|base|] == base;
    assert forall x :: x in r <==> x in base || x in lo || x in hi;
    assert forall k :: 0 <= k < |base| ==> base[k].PageOrTextLike? || base[k].UrlRegexp?;
    r
  }

  /**
   * A row meets a `WHERE 1=1 AND ...` built from `conds` exactly when it
   * meets each of them; `holds` says which single conditions it meets.
   */
  predicate MeetsAll(holds: Cond -> bool, conds: seq<Cond>)
  {
    forall c :: c in conds ==> holds(c)
  }

  /**
   * A rolling window: the shared conditions and `clicked_at >= since`, the
   * latter's parameter bound last.
   */
  function WindowConds(filters: map<string, string>, since: string): (r: seq<Cond>)
    ensures forall c :: c in r <==> c in BaseConds(filters) || c == ClickedAtLeast(since)
    ensures |r| == |BaseConds(filters)| + 1 && r[..|r| - 1] == BaseConds(filters)
    ensures r[|r| - 1] == ClickedAtLeast(since)
  {
    BaseConds(filters) + [ClickedAtLeast(since)]
  }

  /** A row is in a rolling window iff it meets the shared conditions and was clicked at `since` or later. */
  lemma WindowMeets(holds: Cond -> bool, filters: map<string, string>, since: string)
    ensures MeetsAll(holds, WindowConds(filters, since))
            <==> MeetsAll(holds, BaseConds(filters)) && holds(ClickedAtLeast(since))
  {
  }

  /** The three counts `countTotals` returns: always all three keys. */
  datatype Totals = Totals(total: int, last7: int, last30: int)

  const DayInSeconds: int := 86400

  /** The filters with `from` and `to` removed. */
  function SearchOnly(filters: map<string, string>): (r: map<string, string>)
    ensures Filter(r, "s") == Filter(filters, "s") && Filter(r, "url_regexp") == Filter(filters, "url_regexp")
    ensures "from" !in r && "to" !in r
  {
    map k | k in filters && (k == "s" || k == "url_regexp") :: filters[k]
  }

  /**
   * `countTotals($filters)`. `count` runs one `COUNT(*)` over the table
   * under a list of conditions; `format` is `date('Y-m-d H:i:s', ·)`.
   * The total honours `from` and `to`, and is the plain filtered count when
   * neither is given; the two rolling windows are counted as if neither
   * were given.
   */
  function CountTotals(filters: map<string, string>, nowTs: int, format: int -> string,
                       count: seq<Cond> -> int): (r: Totals)
    ensures r.total == count(TotalConds(filters))
    ensures PhpEmptyString(Filter(filters, "from")) && PhpEmptyString(Filter(filters, "to")) ==>
      r.total == count(BaseConds(filters))
    ensures r.last7 == count(WindowConds(SearchOnly(filters), format(nowTs - 7 * DayInSeconds)))
    ensures r.last30 == count(WindowConds(SearchOnly(filters), format(nowTs - 30 * DayInSeconds)))
  {
    assert BaseConds(SearchOnly(filters)) == BaseConds(filters);
    assert PhpEmptyString(Filter(filters, "from")) && PhpEmptyString(Filter(filters, "to")) ==>
      TotalConds(filters) == BaseConds(filters);
    Totals(count(TotalConds(filters)),
           count(WindowConds(filters, format(nowTs - 7 * DayInSeconds))),
           count(WindowConds(filters, format(nowTs - 30 * DayInSeconds))))
  }

  /**
   * The rolling windows ignore `from` and `to`: two filter sets that agree
   * on `s` and `url_regexp` give the same last-7 and last-30 counts.
   */
  lemma WindowsIgnoreRange(f1: map<string, string>, f2: map<string, string>, nowTs: int,
                           format: int -> string, count: seq<Cond> -> int)
    requires Filter(f1, "s") == Filter(f2, "s") && Filter(f1, "url_regexp") == Filter(f2, "url_regexp")
    ensures CountTotals(f1, nowTs, format, count).last7 == CountTotals(f2, nowTs, format, count).last7
    ensures CountTotals(f1, nowTs, format, count).last30 == CountTotals(f2, nowTs, format, count).last30
  {
    assert BaseConds(f1) == BaseConds(f2);
  }

  /** Every count keeps the search and url conditions. */
  lemma CountsKeepBase(filters: map<string, string>, since: string)
    ensures forall c :: c in BaseConds(filters) ==> c in TotalConds(filters) && c in WindowConds(filters, since)
  {
    var t := TotalConds(filters);
    var b := BaseConds(filters);
    assert forall k :: 0 <= k < |b| ==> t[k] == b[k];
  }
}

=== FILE: compat_permission.dfy ===
/**
 * `IW8_WA_CompatPermission::wrap_namespace_permissions`: a `rest_endpoints`
 * filter that gives every handler of the `/iw8-wa/v1/` routes a permission
 * check through the token authenticator (new token, then legacy).
 */
module CompatPermission {
  import opened Wrappers
  import opened Text
  import opened Php
  import TokenAuthLegacy

  const RoutePrefix: string := "/iw8-wa/v1/"

  /** A PHP value that is not an array. */
  type Scalar = v: Value | !IsArray(v) witness Null

  /**
   * A value of the endpoint table: a scalar, a callable (named by an id),
   * the wrapper closure around an original permission callback, or an array.
   */
  datatype Entry = Plain(v: Scalar) | Callable(id: string) | Wrapper(orig: Entry) | Table(m: map<string, Entry>)

  /** `isset($a[$k])` on an array entry. */
  predicate IsSetIn(m: map<string, Entry>, k: string)
  {
    k in m && m[k] != Plain(Null)
  }

  /** A handler that the filter rewrites: an array with a `callback`. */
  predicate Wrappable(h: Entry)
  {
    h.Table? && IsSetIn(h.m, "callback")
  }

  /** The permission callback a wrapper closes over (`__return_true` when there is none). */
  function OriginalPermission(m: map<string, Entry>): Entry
  {
    if IsSetIn(m, "permission_callback") then m["permission_callback"] else Plain(Str("__return_true"))
  }

  function WrapHandler(h: Entry): (r: Entry)
    ensures !Wrappable(h) ==> r == h
    ensures Wrappable(h) ==> r.Table? && r.m.Keys == h.m.Keys + {"permission_callback"}
    ensures Wrappable(h) ==> r.m["permission_callback"] == Wrapper(OriginalPermission(h.m))
    ensures Wrappable(h) ==> forall k :: k in h.m && k != "permission_callback" ==> r.m[k] == h.m[k]
  {
    if Wrappable(h) then Table(h.m["permission_callback" := Wrapper(OriginalPermission(h.m))]) else h
  }

  function WrapRoute(route: string, handlers: Entry): (r: Entry)
    ensures !StartsWith(route, RoutePrefix) || !handlers.Table? ==> r == handlers
    ensures StartsWith(route, RoutePrefix) && handlers.Table? ==>
              r.Table? && r.m.Keys == handlers.m.Keys
              && forall k :: k in handlers.m ==> r.m[k] == WrapHandler(handlers.m[k])
  {
    if !StartsWith(route, RoutePrefix) || !handlers.Table? then handlers
    else Table(map k | k in handlers.m :: WrapHandler(handlers.m[k]))
  }

  /** The filter: non-arrays come back unchanged; otherwise every route is rewritten in place. */
  function Wrap(endpoints: Entry): (r: Entry)
    ensures !endpoints.Table? ==> r == endpoints
    ensures endpoints.Table? ==> r.Table? && r.m.Keys == endpoints.m.Keys
    ensures endpoints.Table? ==>
      forall route :: route in endpoints.m && !StartsWith(route, RoutePrefix) ==> r.m[route] == endpoints.m[route]
    ensures endpoints.Table? ==>
      forall route :: route in endpoints.m && StartsWith(route, RoutePrefix) ==> r.m[route] == WrapRoute(route, endpoints.m[route])
  {
    if !endpoints.Table? then endpoints
    else Table(map route | route in endpoints.m :: WrapRoute(route, endpoints.m[route]))
  }

  /** A handler is changed by the filter exactly when it is an array with a `callback` under a plugin route. */
  lemma WrapChangesOnly(endpoints: Entry, route: string, k: string)
    requires endpoints.Table? && route in endpoints.m
    requires endpoints.m[route].Table? && k in endpoints.m[route].m
    ensures var h := endpoints.m[route].m[k];
      Wrap(endpoints).m[route].m[k] != h <==> StartsWith(route, RoutePrefix) && Wrappable(h)
  {
    var h := endpoints.m[route].m[k];
    if StartsWith(route, RoutePrefix) && Wrappable(h) {
      assert "permission_callback" in h.m ==> h.m["permission_callback"] != Wrapper(OriginalPermission(h.m));
    }
  }

  /**
   * What the wrapper closure returns for a request. `authLoaded` is
   * `class_exists('IW8_WA_TokenAuthenticator')`, `auth` that class's verdict;
   * without the class, `origCallable` and `origResult` are `is_callable` and
   * the return value of the original permission callback.
   */
  function RunWrapper(authLoaded: bool, auth: Result<(), WpError>, origCallable: bool, origResult: Value): (r: Result<Value, WpError>)
    ensures authLoaded ==> (r.Err? <==> auth.Err?)
    ensures authLoaded && auth.Err? ==> r.error == auth.error
    ensures authLoaded && auth.Ok? ==> r == Ok(Bool(true))
    ensures !authLoaded ==> r == Ok(if origCallable then origResult else Bool(true))
  {
    if !authLoaded then Ok(if origCallable then origResult else Bool(true))
    else if auth.Err? then Err(auth.error)
    else Ok(Bool(true))
  }

  /** With the authenticator loaded, the original permission callback never matters. */
  lemma WrapperIgnoresOriginal(header: Option<string>, param: Option<Value>, newOption: Value, legacyOption: Value,
                               c1: bool, r1: Value, c2: bool, r2: Value)
    ensures var auth := TokenAuthLegacy.ValidateRequest(header, param, newOption, legacyOption);
      RunWrapper(true, auth, c1, r1) == RunWrapper(true, auth, c2, r2)
  {
  }
}

=== FILE: cursor_codec.dfy ===
/**
 * The opaque pagination cursor of the REST read endpoint: the JSON object
 * `{"t": <ISO-8601 UTC timestamp>, "i": <click id>}`, base64-encoded with
 * the URL-safe alphabet of section 5 of RFC 4648 and without `=` padding.
 */
module CursorCodec {
  import opened Wrappers
  import opened Text
  import opened Php
  import Json
  import Base64
  import Time

  /** A decoded cursor: the timestamp and id of the last row of a page. */
  datatype Cursor = Cursor(t: string, i: int)

  /** Why a cursor was refused; every refusal is `invalid_cursor` with HTTP 400. */
  datatype Refusal = BadBase64 | BadShape | BadContent

  function Message(why: Refusal): string
  {
    match why
    case BadBase64 => "Cursor inválido (base64)."
    case BadShape => "Cursor inválido (formato)."
    case BadContent => "Cursor inválido (conteúdo)."
  }

  function Invalid(why: Refusal): WpError
  {
    WpError("invalid_cursor", Message(why), 400)
  }

  // ---------------------------------------------------------------------
  // Alphabet swap and padding
  // ---------------------------------------------------------------------

  /** The characters of the URL-safe alphabet. */
  predicate IsUrlSafeChar(c: char)
  {
    ('A' <= c <= 'Z') || ('a' <= c <= 'z') || ('0' <= c <= '9') || c == '-' || c == '_'
  }

  /** A character neither base64 alphabet has and the strict decoder does not skip. */
  predicate Foreign(c: char)
  {
    !IsUrlSafeChar(c) && !Base64.IsAlphabetChar(c) && !Base64.IsSkipped(c) && c != '='
  }

  /** One character of `strtr($s, '+/', '-_')`. */
  function UrlSafeChar(c: char): char
  {
    if c == '+' then '-' else if c == '/' then '_' else c
  }

  /** One character of `strtr($s, '-_', '+/')`. */
  function StandardChar(c: char): char
  {
    if c == '-' then '+' else if c == '_' then '/' else c
  }

  function ToUrlSafe(s: string): (r: string)
    ensures |r| == |s|
    ensures forall k :: 0 <= k < |s| ==> r[k] == UrlSafeChar(s[k])
  {
    seq(|s|, k requires 0 <= k < |s| => UrlSafeChar(s[k]))
  }

  function ToStandard(s: string): (r: string)
    ensures |r| == |s|
    ensures forall k :: 0 <= k < |s| ==> r[k] == StandardChar(s[k])
  {
    seq(|s|, k requires 0 <= k < |s| => StandardChar(s[k]))
  }

  /**
   * `rtrim($s, '=')`: the longest prefix of `s` that does not end in `=`,
   * everything cut off being `=`.
   */
  function TrimPadding(s: string): (r: string)
    ensures |r| <= |s| && r == s[..|r|]
    ensures |r| == 0 || r[|r| - 1] != '='
    ensures forall k :: |r| <= k < |s| ==> s[k] == '='
  {
    if |s| > 0 && s[|s| - 1] == '=' then TrimPadding(s[..|s| - 1]) else s
  }

  /** The `=` that make the length of `s` a multiple of four. */
  function Repad(s: string): (r: string)
    ensures |r| % 4 == 0 && |s| <= |r| < |s| + 4
    ensures forall k :: 0 <= k < |s| ==> r[k] == s[k]
    ensures forall k :: |s| <= k < |r| ==> r[k] == '='
  {
    s + Base64.Padding((4 - |s| % 4) % 4)
  }

  /**
   * The cursor text of a JSON payload (the last two steps of `encode`): the
   * base64 text in the URL-safe alphabet, cut before its trailing `=`.
   */
  function Armor(json: string): (r: string)
    requires Base64.IsBytes(json)
    ensures |r| <= |Base64.Encode(json)|
    ensures forall k :: 0 <= k < |r| ==> r[k] == UrlSafeChar(Base64.Encode(json)[k])
    ensures |r| == 0 || r[|r| - 1] != '='
    ensures forall k :: |r| <= k < |Base64.Encode(json)| ==> Base64.Encode(json)[k] == '='
  {
    TrimPadding(ToUrlSafe(Base64.Encode(json)))
  }

  /**
   * The JSON payload of a cursor text (the first three steps of `decode`):
   * bytes when the strict decoder accepts the repadded standard-alphabet
   * text, and nothing when the cursor holds a character outside both
   * alphabets, the skipped white space and `=`.
   */
  function Unarmor(c: string): (r: Option<string>)
    ensures r.Some? ==> Base64.IsBytes(r.value)
    ensures (exists k :: 0 <= k < |c| && Foreign(c[k])) ==> r.None?
  {
    Base64.Decode(Repad(ToStandard(c)))
  }

  // ---------------------------------------------------------------------
  // encode / decode
  // ---------------------------------------------------------------------

  /**
   * `CursorCodec::encode`. The text is the JSON object in URL-safe base64;
   * only `[A-Za-z0-9_-]` appear, so it needs no escaping in a query string.
   */
  function Encode(t: string, i: int): (r: string)
    requires Json.IsAscii(t)
    requires MinInt <= i <= MaxInt
    ensures forall k :: 0 <= k < |r| ==> IsUrlSafeChar(r[k])
    ensures |r| % 4 != 1
  {
    var json := Json.EncodeCursorObject(t, i);
    EncodeCursorObjectAscii(t, i);
    AsciiIsBytes(json);
    ArmorUnpadded(json);
    Armor(json)
  }

  /** `CursorCodec::decode`. */
  function Decode(c: string): (r: Result<Cursor, WpError>)
    ensures r.Ok? ==> Time.IsIsoUtcZ(r.value.t) && r.value.i > 0
    ensures r.Err? ==> r.error.code == "invalid_cursor" && r.error.status == 400
    ensures Unarmor(c).None? <==> r == Err(Invalid(BadBase64))
  {
    match Unarmor(c)
    case None => Err(Invalid(BadBase64))
    case Some(raw) => DecodePayload(raw)
  }

  /** The tests `decode` applies to the JSON payload. */
  predicate WellShaped(data: Option<Value>)
  {
    data.Some? && IsArray(data.value) && IsSet(data.value, "t") && IsSet(data.value, "i")
  }

  function DecodePayload(raw: string): (r: Result<Cursor, WpError>)
    ensures r.Ok? ==> Time.IsIsoUtcZ(r.value.t) && r.value.i > 0
    ensures r.Err? ==> r.error == Invalid(BadShape) || r.error == Invalid(BadContent)
    ensures !WellShaped(Json.Decode(raw)) <==> r == Err(Invalid(BadShape))
  {
    var data := Json.Decode(raw);
    if !WellShaped(data) then Err(Invalid(BadShape))
    else
      var t := StrCast(Lookup(data.value, "t").value);
      var i := IntCast(Lookup(data.value, "i").value);
      if !Time.IsIsoUtcZ(t) || i <= 0 then Err(Invalid(BadContent))
      else Ok(Cursor(t, i))
  }

  // ---------------------------------------------------------------------
  // Properties
  // ---------------------------------------------------------------------

  lemma AsciiIsBytes(s: string)
    requires Json.IsAscii(s)
    ensures Base64.IsBytes(s)
  {
  }

  lemma EncodeCursorObjectAscii(t: string, i: int)
    requires Json.IsAscii(t)
    ensures Json.IsAscii(Json.EncodeCursorObject(t, i))
  {
    Json.EncodeCursorObjectText(t, i);
    EscapeBodyAscii(t);
    IntTextAscii(i);
    CursorTextAscii(Json.EscapeBody(t), IntToString(i));
  }

  lemma CursorTextAscii(b: string, n: string)
    requires Json.IsAscii(b) && Json.IsAscii(n)
    ensures Json.IsAscii(Json.CursorText(b, n))
  {
    AsciiConcat("{\"t\":\"", b);
    AsciiConcat("{\"t\":\"" + b, "\",\"i\":");
    AsciiConcat("{\"t\":\"" + b + "\",\"i\":", n);
    AsciiConcat("{\"t\":\"" + b + "\",\"i\":" + n, "}");
  }

  lemma AsciiConcat(a: string, b: string)
    requires Json.IsAscii(a) && Json.IsAscii(b)
    ensures Json.IsAscii(a + b)
  {
  }

  lemma {:induction false} EscapeBodyAscii(t: string)
    requires Json.IsAscii(t)
    ensures Json.IsAscii(Json.EscapeBody(t))
    decreases |t|
  {
    if |t| > 0 {
      EscapeBodyAscii(t[1..]);
    }
  }

  lemma IntTextAscii(i: int)
    ensures Json.IsAscii(IntToString(i))
  {
    var n := NatToString(if i >= 0 then i else -i);
    assert forall k :: 0 <= k < |n| ==> IsDigit(n[k]);
  }

  /** The `=` padding is all that `rtrim` removes from an encoding. */
  lemma ArmorUnpadded(json: string)
    requires Base64.IsBytes(json)
    ensures Armor(json) == ToUrlSafe(Base64.EncodeUnpadded(json))
  {
    var d := Base64.EncodeUnpadded(json);
    var n := (4 - |d| % 4) % 4;
    assert ToUrlSafe(Base64.Encode(json)) == ToUrlSafe(d) + Base64.Padding(n);
    TrimPaddingAfter(ToUrlSafe(d), n);
  }

  lemma {:induction false} TrimPaddingAfter(d: string, n: nat)
    requires |d| == 0 || d[|d| - 1] != '='
    ensures TrimPadding(d + Base64.Padding(n)) == d
    decreases n
  {
    if n > 0 {
      var s := d + Base64.Padding(n);
      assert s[..|s| - 1] == d + Base64.Padding(n - 1);
      TrimPaddingAfter(d, n - 1);
    } else {
      assert d + Base64.Padding(0) == d;
    }
  }

  /** Decoding the cursor text of a payload gives the payload back. */
  lemma UnarmorArmor(json: string)
    requires Base64.IsBytes(json)
    ensures Unarmor(Armor(json)) == Some(json)
  {
    var d := Base64.EncodeUnpadded(json);
    ArmorUnpadded(json);
    StandardOfUrlSafe(d);
    Base64.DecodeEncode(json);
  }

  /** Swapping the alphabet back restores any text of the standard alphabet. */
  lemma StandardOfUrlSafe(d: string)
    requires forall k :: 0 <= k < |d| ==> Base64.IsAlphabetChar(d[k])
    ensures ToStandard(ToUrlSafe(d)) == d
  {
  }

  /** The payload written for a valid cursor passes every test of `decode`. */
  lemma DecodePayloadOfObject(t: string, i: int)
    requires Time.IsIsoUtcZ(t) && 0 < i <= MaxInt
    ensures Json.IsAscii(t)
    ensures DecodePayload(Json.EncodeCursorObject(t, i)) == Ok(Cursor(t, i))
  {
    IsoIsAscii(t);
    Json.DecodeCursorObject(t, i);
  }

  /** A cursor built from a page's last row decodes to that row's key. */
  lemma DecodeEncode(t: string, i: int)
    requires Time.IsIsoUtcZ(t) && 0 < i <= MaxInt
    ensures Json.IsAscii(t)
    ensures Decode(Encode(t, i)) == Ok(Cursor(t, i))
  {
    DecodePayloadOfObject(t, i);
    var json := Json.EncodeCursorObject(t, i);
    EncodeCursorObjectAscii(t, i);
    UnarmorArmor(json);
  }

  /** `decode` reads the standard alphabet as well: `+` and `/` pass through unchanged. */
  lemma DecodeEitherAlphabet(c: string)
    ensures Decode(ToUrlSafe(c)) == Decode(c)
  {
    assert ToStandard(ToUrlSafe(c)) == ToStandard(c);
  }

  /** A one-character cursor such as "0" is refused before any JSON is read. */
  lemma DecodeSingleChar(c: char)
    ensures Decode([c]) == Err(Invalid(BadBase64))
  {
    var s := Repad(ToStandard([c]));
    assert |s| == 4 && s[1] == '=' && s[2] == '=' && s[3] == '=';
    SingleCharRefused(s);
  }

  lemma SingleCharRefused(s: string)
    requires |s| == 4 && s[1] == '=' && s[2] == '=' && s[3] == '='
    ensures Base64.Decode(s) == None
  {
    assert s[1..] == Base64.Padding(3);
    Base64.ScanPadding(3, 0);
    Base64.ScanPadding(3, 1);
  }

  lemma IsoIsAscii(t: string)
    requires Time.IsIsoUtcZ(t)
    ensures Json.IsAscii(t)
  {
  }
}

=== FILE: env.dfy ===
/** Whether the site runs in production (`Env::isProduction`). */
module Env {
  import opened Wrappers
  import opened Text

  /**
   * `Env::isLocalHost`: the lower-cased host is `localhost` or `127.0.0.1`,
   * or ends in `.local` or `.test`.
   */
  predicate IsLocalHost(host: string)
  {
    var h := Lower(host);
    h == "localhost" || h == "127.0.0.1" || EndsWith(h, ".local") || EndsWith(h, ".test")
  }

  /**
   * `Env::isProduction`. `homeHost` is what `wp_parse_url(home, PHP_URL_HOST)`
   * returns (None when it returns null or false); `debug` is true when
   * `WP_DEBUG` is defined and truthy.
   */
  function IsProduction(homeHost: Option<string>, debug: bool): (r: bool)
    ensures debug ==> !r
    ensures r <==> !debug && (homeHost.None? || !IsLocalHost(homeHost.value))
  {
    var host := if homeHost.Some? && !PhpEmptyString(homeHost.value) then homeHost.value else "";
    !IsLocalHost(host) && !debug
  }

  /** The host test ignores letter case. */
  lemma LocalHostIgnoresCase(a: string, b: string)
    requires Lower(a) == Lower(b)
    ensures IsLocalHost(a) == IsLocalHost(b)
  {
  }

  lemma LocalHostOfUpper(h: string)
    ensures IsLocalHost(Upper(h)) == IsLocalHost(h)
  {
    assert Lower(Upper(h)) == Lower(h) by {
      assert forall k :: 0 <= k < |h| ==> LowerChar(UpperChar(h[k])) == LowerChar(h[k]);
    }
    LocalHostIgnoresCase(Upper(h), h);
  }
}

=== FILE: helpers.dfy ===
/**
 * `Helpers`, the phone utilities of the admin area. The stored option
 * `iw8_wa_phone` is given as a parameter (`get_option(..., '')`).
 */
module Helpers {
  import opened Wrappers
  import opened Text
  import UrlMatcher

  /** `Helpers::getConfiguredPhone`: the stored option with every non-digit removed. */
  function GetConfiguredPhone(option: string): (r: string)
    ensures AllDigits(r) && |r| <= |option|
    ensures AllDigits(option) ==> r == option
    ensures r == Digits(option)
  {
    Digits(option)
  }

  /** `Helpers::isPhoneConfigured`: a PHP-non-empty option with 10 to 15 digits. */
  function IsPhoneConfigured(option: string): (r: bool)
    ensures PhpEmptyString(option) ==> !r
    ensures r ==> 10 <= |GetConfiguredPhone(option)| <= 15
  {
    if PhpEmptyString(option) then false
    else 10 <= |Digits(option)| <= 15
  }

  /**
   * The three checks of a phone agree: `isPhoneConfigured`, the guard of
   * `matchesTarget` and `isValidPhone` accept the same texts.
   */
  lemma ConfiguredIsValid(option: string)
    ensures IsPhoneConfigured(option) <==> UrlMatcher.PhoneGuard(option)
    ensures IsPhoneConfigured(option) <==> UrlMatcher.IsValidPhone(Some(option))
  {
    UrlMatcher.ValidPhoneIsGuard(option);
  }

  /** Reading the configured phone twice gives the same digits. */
  lemma ConfiguredPhoneStable(option: string)
    ensures GetConfiguredPhone(GetConfiguredPhone(option)) == GetConfiguredPhone(option)
    ensures IsPhoneConfigured(option) ==> IsPhoneConfigured(GetConfiguredPhone(option))
  {
    var d := Digits(option);
    if IsPhoneConfigured(option) {
      assert |d| >= 10;
      assert d != "" && d != "0";
    }
  }

  // ---------------------------------------------------------------------
  // generateUrlRegexp
  // ---------------------------------------------------------------------

  /** `str_replace('/', '\/', $s)`. */
  function EscapeSlashes(s: string): (r: string)
    ensures |r| >= |s|
    ensures '/' !in s ==> r == s
    decreases |s|
  {
    if |s| == 0 then ""
    else if s[0] == '/' then "\\/" + EscapeSlashes(s[1..])
    else [s[0]] + EscapeSlashes(s[1..])
  }

  /** Reads `\/` back as `/`: the inverse of `EscapeSlashes`. */
  function UnescapeSlashes(s: string): string
    decreases |s|
  {
    if |s| == 0 then ""
    else if |s| >= 2 && s[0] == '\\' && s[1] == '/' then "/" + UnescapeSlashes(s[2..])
    else [s[0]] + UnescapeSlashes(s[1..])
  }

  /** The escaping loses nothing when the input has no backslash before a slash. */
  lemma {:induction false} UnescapeEscape(s: string)
    requires '\\' !in s
    ensures UnescapeSlashes(EscapeSlashes(s)) == s
    decreases |s|
  {
    if |s| > 0 {
      var e := EscapeSlashes(s);
      UnescapeEscape(s[1..]);
      if s[0] == '/' {
        assert e[2..] == EscapeSlashes(s[1..]);
      } else {
        assert e[1..] == EscapeSlashes(s[1..]);
        if |s| >= 2 && s[1] == '/' {
          assert e[0] == s[0] && e[0] != '\\';
        }
      }
      assert s == [s[0]] + s[1..];
    }
  }

  /** After escaping, every `/` follows a backslash. */
  lemma {:induction false} EscapedSlashes(s: string)
    ensures forall k :: 0 <= k < |EscapeSlashes(s)| && EscapeSlashes(s)[k] == '/' ==> k > 0 && EscapeSlashes(s)[k - 1] == '\\'
    decreases |s|
  {
    if |s| > 0 {
      EscapedSlashes(s[1..]);
      var e := EscapeSlashes(s);
      var t := EscapeSlashes(s[1..]);
      if s[0] == '/' {
        assert e == "\\/" + t;
        assert forall k :: 2 <= k < |e| ==> e[k] == t[k - 2];
      } else {
        assert e == [s[0]] + t;
        assert forall k :: 1 <= k < |e| ==> e[k] == t[k - 1];
      }
    }
  }

  /** The three spellings of a number after `phone=` or `wa.me/`: bare, `%2B` and `\+`. */
  function Spellings(p: string): string
  {
    "(" + p + "|%2B" + p + "|\\+" + p + ")"
  }

  /**
   * `Helpers::generateUrlRegexp`: a MySQL REGEXP that finds `phone=` or
   * `wa.me/` followed by the number, '' for a PHP-empty input.
   */
  function GenerateUrlRegexp(phone: string): (r: string)
    ensures PhpEmptyString(phone) <==> r == ""
    ensures !PhpEmptyString(phone) ==> StartsWith(r, "phone=(")
    ensures !PhpEmptyString(phone) ==>
      var e := EscapeSlashes(phone);
      r == "phone=" + Spellings(e) + "|wa\\.me\\/" + Spellings(e)
  {
    if PhpEmptyString(phone) then ""
    else
      var p := EscapeSlashes(phone);
      var r := "phone=" + Spellings(p) + "|wa\\.me\\/" + Spellings(p);
      assert r[..7] == "phone=(";
      r
  }

  /** For a digit string the expression is the fixed text around it, with the digits untouched. */
  lemma GenerateUrlRegexpDigits(p: string)
    requires AllDigits(p) && p != "" && p != "0"
    ensures GenerateUrlRegexp(p) == "phone=" + Spellings(p) + "|wa\\.me\\/" + Spellings(p)
    ensures Spellings(p) == "(" + p + "|%2B" + p + "|\\+" + p + ")"
  {
    assert forall k :: 0 <= k < |p| ==> IsDigit(p[k]);
    assert forall k :: 0 <= k < |p| ==> p[k] != '/';
  }

  // ---------------------------------------------------------------------
  // trim_text
  // ---------------------------------------------------------------------

  /**
   * `Helpers::trim_text`: '' for PHP-empty input, otherwise WordPress's
   * `wp_trim_words($str, $words, '...')`, which is given as a parameter.
   */
  function TrimText(str: string, words: int, trimWords: (string, int, string) -> string): (r: string)
    ensures PhpEmptyString(str) ==> r == ""
    ensures !PhpEmptyString(str) ==> r == trimWords(str, words, "...")
  {
    if PhpEmptyString(str) then "" else trimWords(str, words, "...")
  }
}

=== FILE: http.dfy ===
/**
 * REST responses and the error payload every read-API failure is reported
 * with (`ErrorFactory::make`).
 */
module Http {
  import opened Wrappers
  import opened Text
  import opened Php

  /** A `WP_REST_Response`: status, JSON body and headers. */
  datatype Response = Response(status: int, body: Value, headers: map<string, string>)

  /**
   * `ErrorFactory::make`. The request id comes from WordPress's UUID
   * generator (or `uniqid`) and is a parameter here.
   */
  function MakeError(code: string, message: string, status: int, details: map<string, Value>,
                     retryAfter: Option<int>, requestId: string): (r: Response)
    ensures r.status == status && r.headers == map[]
    ensures r.body.Assoc?
    ensures var p := r.body.entries;
      && "error" in p && p["error"] == Str(code)
      && "message" in p && p["message"] == Str(message)
      && "status" in p && p["status"] == Int(status)
      && "request_id" in p && p["request_id"] == Str(requestId)
    ensures ("details" in r.body.entries) <==> |details| > 0
    ensures "details" in r.body.entries ==> r.body.entries["details"] == Assoc(details)
    ensures ("retry_after_seconds" in r.body.entries) <==> retryAfter.Some?
    ensures retryAfter.Some? ==> r.body.entries["retry_after_seconds"] == Int(retryAfter.value)
    ensures |r.body.entries| == 4 + (if |details| > 0 then 1 else 0) + (if retryAfter.Some? then 1 else 0)
  {
    var base := map["error" := Str(code), "message" := Str(message), "status" := Int(status),
                     "request_id" := Str(requestId)];
    var withDetails := if |details| > 0 then base["details" := Assoc(details)] else base;
    var payload := if retryAfter.Some? then withDetails["retry_after_seconds" := Int(retryAfter.value)]
                   else withDetails;
    Response(status, Assoc(payload), map[])
  }

  /** The payload keys of an error response are exactly the four fixed ones and the optional two. */
  lemma ErrorKeys(code: string, message: string, status: int, details: map<string, Value>,
                  retryAfter: Option<int>, requestId: string)
    ensures MakeError(code, message, status, details, retryAfter, requestId).body.entries.Keys
      == {"error", "message", "status", "request_id"}
         + (if |details| > 0 then {"details"} else {})
         + (if retryAfter.Some? then {"retry_after_seconds"} else {})
  {
  }

  /** The error response for a `WP_Error` carrying `code`, `message` and `data['status']`. */
  function FromWpError(e: WpError, requestId: string): (r: Response)
    ensures r.status == e.status
    ensures r.body.Assoc? && "error" in r.body.entries && r.body.entries["error"] == Str(e.code)
    ensures "retry_after_seconds" !in r.body.entries && "details" !in r.body.entries
    ensures r.body.entries.Keys == {"error", "message", "status", "request_id"}
  {
    ErrorKeys(e.code, e.message, e.status, map[], None, requestId);
    MakeError(e.code, e.message, e.status, map[], None, requestId)
  }
}

=== FILE: https_enforcer.dfy ===
/** `HttpsEnforcer::enforce`: production requests must arrive over TLS. */
module HttpsEnforcer {
  import opened Wrappers

  const InsecureTransport: WpError := WpError("insecure_transport", "HTTPS é obrigatório em produção.", 400)

  /** `production` is `Env::isProduction()` and `ssl` is `is_ssl()`. */
  function Enforce(production: bool, ssl: bool): (r: Result<(), WpError>)
    ensures r.Err? <==> production && !ssl
    ensures r.Err? ==> r.error == InsecureTransport && r.error.status == 400
    ensures !production ==> r.Ok?
    ensures ssl ==> r.Ok?
  {
    if production && !ssl then Err(InsecureTransport) else Ok(())
  }
}

=== FILE: js_text.dfy ===
/**
 * The browser's string primitives the two trackers use: `trim`, the
 * `/\s+/g` collapse, `parseInt(s, 10)` and `replace` of the first
 * occurrence. JavaScript's `\s` and the characters `trim` removes are the
 * same set, `Text.IsJsSpace`.
 */
module JsText {
  import opened Wrappers
  import opened Text

  // ---------------------------------------------------------------------
  // trim
  // ---------------------------------------------------------------------

  function TrimStart(s: string): (r: string)
    ensures |r| <= |s| && r == s[|s| - |r|..]
    ensures |r| > 0 ==> !IsJsSpace(r[0])
    ensures forall i :: 0 <= i < |s| - |r| ==> IsJsSpace(s[i])
  {
    if |s| > 0 && IsJsSpace(s[0]) then TrimStart(s[1..]) else s
  }

  function TrimEnd(s: string): (r: string)
    ensures |r| <= |s| && r == s[..|r|]
    ensures |r| > 0 ==> !IsJsSpace(r[|r| - 1])
    ensures forall i :: |r| <= i < |s| ==> IsJsSpace(s[i])
  {
    if |s| > 0 && IsJsSpace(s[|s| - 1]) then TrimEnd(s[..|s| - 1]) else s
  }

  /** The number of white-space characters `s` starts with. */
  function LeadingSpace(s: string): (n: nat)
    ensures n <= |s|
    ensures forall i :: 0 <= i < n ==> IsJsSpace(s[i])
    ensures n < |s| ==> !IsJsSpace(s[n])
  {
    |s| - |TrimStart(s)|
  }

  /**
   * `String.prototype.trim`: the slice of `s` after its leading white space,
   * followed in `s` only by white space, neither starting nor ending with any.
   */
  function Trim(s: string): (r: string)
    ensures |r| <= |s|
    ensures |r| > 0 ==> !IsJsSpace(r[0]) && !IsJsSpace(r[|r| - 1])
    ensures (forall i :: 0 <= i < |s| ==> IsJsSpace(s[i])) <==> r == ""
    ensures LeadingSpace(s) + |r| <= |s| && r == s[LeadingSpace(s)..LeadingSpace(s) + |r|]
    ensures forall i :: LeadingSpace(s) + |r| <= i < |s| ==> IsJsSpace(s[i])
  {
    var l := TrimStart(s);
    var r := TrimEnd(l);
    assert r == "" ==> l == "";
    r
  }

  /** The characters of `s` that are not white space, in order. */
  function Visible(s: string): (r: string)
    ensures forall k :: 0 <= k < |r| ==> !IsJsSpace(r[k])
  {
    if |s| == 0 then ""
    else if IsJsSpace(s[0]) then Visible(s[1..])
    else [s[0]] + Visible(s[1..])
  }

  lemma {:induction false} VisibleAppend(a: string, b: string)
    ensures Visible(a + b) == Visible(a) + Visible(b)
    decreases |a|
  {
    if |a| == 0 {
      assert a + b == b;
    } else {
      assert (a + b)[0] == a[0] && (a + b)[1..] == a[1..] + b;
      VisibleAppend(a[1..], b);
    }
  }

  lemma {:induction false} VisibleOfSpaces(s: string)
    requires forall k :: 0 <= k < |s| ==> IsJsSpace(s[k])
    ensures Visible(s) == ""
    decreases |s|
  {
    if |s| > 0 {
      VisibleOfSpaces(s[1..]);
    }
  }

  lemma {:induction false} TrimStartKeepsVisible(s: string)
    ensures Visible(TrimStart(s)) == Visible(s)
    decreases |s|
  {
    if |s| > 0 && IsJsSpace(s[0]) {
      TrimStartKeepsVisible(s[1..]);
    }
  }

  lemma TrimEndKeepsVisible(s: string)
    ensures Visible(TrimEnd(s)) == Visible(s)
  {
    var r := TrimEnd(s);
    var post := s[|r|..];
    assert s == r + post;
    VisibleOfSpaces(post);
    VisibleAppend(r, post);
  }

  /** Trimming removes white space only. */
  lemma TrimKeepsVisible(s: string)
    ensures Visible(Trim(s)) == Visible(s)
  {
    TrimStartKeepsVisible(s);
    TrimEndKeepsVisible(TrimStart(s));
  }

  // ---------------------------------------------------------------------
  // replace(/\s+/g, " ")
  // ---------------------------------------------------------------------

  /** No white space other than single `' '` characters. */
  predicate Collapsed(s: string)
  {
    (forall k :: 0 <= k < |s| && IsJsSpace(s[k]) ==> s[k] == ' ')
    && (forall k :: 0 < k < |s| && IsJsSpace(s[k]) ==> !IsJsSpace(s[k - 1]))
  }

  /**
   * A text read as a sequence of tokens: `Some(c)` for a character that is
   * not white space, `None` for a whole maximal run of white space.
   */
  function Tokens(s: string): seq<Option<char>>
    decreases |s|
  {
    if |s| == 0 then []
    else if IsJsSpace(s[0]) then [None] + Tokens(TrimStart(s[1..]))
    else [Some(s[0])] + Tokens(s[1..])
  }

  /**
   * `s.replace(/\s+/g, " ")`: every run of white space becomes exactly one
   * space. The result has the same tokens as `s` and is collapsed; by
   * `CollapsedByTokens` those two facts determine it.
   */
  function Collapse(s: string): (r: string)
    ensures Collapsed(r)
    ensures Tokens(r) == Tokens(s)
    ensures |r| <= |s|
    ensures |s| > 0 && !IsJsSpace(s[0]) ==> |r| > 0 && r[0] == s[0]
    ensures |s| > 0 && IsJsSpace(s[0]) ==> |r| > 0 && r[0] == ' '
    decreases |s|
  {
    if |s| == 0 then ""
    else if IsJsSpace(s[0]) then
      var rest := TrimStart(s[1..]);
      var t := Collapse(rest);
      CollapsedCons(' ', t);
      assert TrimStart(t) == t;
      assert (" " + t)[1..] == t;
      " " + t
    else
      var t := Collapse(s[1..]);
      CollapsedCons(s[0], t);
      assert ([s[0]] + t)[1..] == t;
      [s[0]] + t
  }

  /** A collapsed text is determined by its tokens. */
  lemma {:induction false} CollapsedByTokens(a: string, b: string)
    requires Collapsed(a) && Collapsed(b) && Tokens(a) == Tokens(b)
    ensures a == b
    decreases |a|
  {
    if |a| == 0 || |b| == 0 {
      if |a| > 0 { TokensHead(a); }
      if |b| > 0 { TokensHead(b); }
    } else {
      TokensOfCollapsed(a);
      TokensOfCollapsed(b);
      CollapsedTail(a);
      CollapsedTail(b);
      assert Tokens(a)[0] == Tokens(b)[0];
      assert a[0] == b[0];
      assert Tokens(a[1..]) == Tokens(a)[1..] == Tokens(b)[1..] == Tokens(b[1..]);
      CollapsedByTokens(a[1..], b[1..]);
      assert a == [a[0]] + a[1..] && b == [b[0]] + b[1..];
    }
  }

  /** In collapsed text every character, space or not, is one token. */
  lemma TokensOfCollapsed(a: string)
    requires Collapsed(a) && |a| > 0
    ensures Tokens(a) == [if IsJsSpace(a[0]) then None else Some(a[0])] + Tokens(a[1..])
    ensures IsJsSpace(a[0]) ==> a[0] == ' '
  {
    CollapsedTail(a);
    if IsJsSpace(a[0]) {
      assert TrimStart(a[1..]) == a[1..];
    }
  }

  lemma TokensHead(s: string)
    requires |s| > 0
    ensures |Tokens(s)| > 0
    ensures Tokens(s)[0] == (if IsJsSpace(s[0]) then None else Some(s[0]))
  {
  }

  lemma CollapsedTail(s: string)
    requires Collapsed(s) && |s| > 0
    ensures Collapsed(s[1..])
    ensures IsJsSpace(s[0]) ==> s[0] == ' ' && (|s| == 1 || !IsJsSpace(s[1]))
  {
  }

  /** Collapsing is the identity on collapsed text, so it is idempotent. */
  lemma CollapseCollapsed(s: string)
    requires Collapsed(s)
    ensures Collapse(s) == s
  {
    CollapsedByTokens(Collapse(s), s);
  }

  lemma CollapsedCons(c: char, t: string)
    requires Collapsed(t)
    requires IsJsSpace(c) ==> c == ' ' && (|t| == 0 || !IsJsSpace(t[0]))
    ensures Collapsed([c] + t)
  {
    var r := [c] + t;
    assert forall k :: 1 <= k < |r| ==> r[k] == t[k - 1];
  }

  /** Collapsing white space keeps every other character, in order. */
  lemma {:induction false} CollapseKeepsVisible(s: string)
    ensures Visible(Collapse(s)) == Visible(s)
    decreases |s|
  {
    if |s| > 0 {
      if IsJsSpace(s[0]) {
        var rest := TrimStart(s[1..]);
        CollapseKeepsVisible(rest);
        TrimStartKeepsVisible(s[1..]);
        assert Collapse(s) == " " + Collapse(rest);
      } else {
        CollapseKeepsVisible(s[1..]);
        assert Collapse(s) == [s[0]] + Collapse(s[1..]);
      }
    }
  }

  // ---------------------------------------------------------------------
  // parseInt(s, 10)
  // ---------------------------------------------------------------------

  /** The leading run of decimal digits. */
  function DigitPrefix(s: string): (r: string)
    ensures AllDigits(r) && StartsWith(s, r)
    ensures |r| < |s| ==> !IsDigit(s[|r|])
  {
    if |s| > 0 && IsDigit(s[0]) then
      var t := DigitPrefix(s[1..]);
      [s[0]] + t
    else ""
  }

  /** `parseInt` after the leading white space: an optional sign, then the digits. */
  function SignedDigits(t: string): (r: Option<int>)
    ensures t == "" ==> r == None
    ensures |t| > 0 && IsDigit(t[0]) ==> r == Some(ParseDigits(DigitPrefix(t)))
    ensures |t| > 0 && (t[0] == '-' || t[0] == '+') ==>
              if |t| > 1 && IsDigit(t[1]) then
                r == Some(if t[0] == '-' then -(ParseDigits(DigitPrefix(t[1..])) as int)
                          else ParseDigits(DigitPrefix(t[1..])))
              else r == None
    ensures |t| > 0 && !IsDigit(t[0]) && t[0] != '-' && t[0] != '+' ==> r == None
  {
    var neg := |t| > 0 && t[0] == '-';
    var u := if |t| > 0 && (t[0] == '-' || t[0] == '+') then t[1..] else t;
    var d := DigitPrefix(u);
    if d == "" then None
    else Some(if neg then -(ParseDigits(d) as int) else ParseDigits(d))
  }

  /** The digit prefix of an all-digit text is the whole text. */
  lemma DigitPrefixOfDigits(s: string)
    requires AllDigits(s)
    ensures DigitPrefix(s) == s
  {
  }

  /**
   * `parseInt(s, 10)`: leading white space skipped, an optional sign, then
   * the longest run of digits; None for `NaN` (no digit at all).
   */
  function ParseInt(s: string): (r: Option<int>)
    ensures AllDigits(s) && s != "" ==> r == Some(ParseDigits(s))
    ensures s == "" ==> r == None
    ensures |s| > 0 && IsJsSpace(s[0]) ==> r == ParseInt(s[1..])
    ensures |s| > 0 && IsDigit(s[0]) ==> r == Some(ParseDigits(DigitPrefix(s)))
    ensures |s| > 0 && (s[0] == '-' || s[0] == '+') ==>
              if |s| > 1 && IsDigit(s[1]) then
                r == Some(if s[0] == '-' then -(ParseDigits(DigitPrefix(s[1..])) as int)
                          else ParseDigits(DigitPrefix(s[1..])))
              else r == None
    ensures |s| > 0 && !IsJsSpace(s[0]) && !IsDigit(s[0]) && s[0] != '-' && s[0] != '+' ==> r == None
    decreases |s|
  {
    var t := TrimStart(s);
    assert |s| > 0 && IsJsSpace(s[0]) ==> t == TrimStart(s[1..]);
    assert |s| > 0 && !IsJsSpace(s[0]) ==> t == s;
    if AllDigits(s) && s != "" then
      assert !IsJsSpace(s[0]);
      DigitPrefixOfDigits(s);
      SignedDigits(t)
    else SignedDigits(t)
  }

  // ---------------------------------------------------------------------
  // replace of a single character
  // ---------------------------------------------------------------------

  /** The position of the first `c` in `s`. */
  function IndexOf(s: string, c: char): (i: nat)
    requires c in s
    ensures i < |s| && s[i] == c
    ensures forall k :: 0 <= k < i ==> s[k] != c
  {
    if s[0] == c then 0 else 1 + IndexOf(s[1..], c)
  }

  /** `s.replace(c, "")` with a one-character string: only the first `c` goes. */
  function RemoveFirst(s: string, c: char): (r: string)
    ensures c !in s ==> r == s
    ensures c in s ==> |r| == |s| - 1 && r == s[..IndexOf(s, c)] + s[IndexOf(s, c) + 1..]
    decreases |s|
  {
    if |s| == 0 then ""
    else if s[0] == c then s[1..]
    else
      var t := RemoveFirst(s[1..], c);
      RemoveFirstCons(s, c, t);
      [s[0]] + t
  }

  /** The step of `RemoveFirst` past a first character other than `c`. */
  lemma RemoveFirstCons(s: string, c: char, t: string)
    requires |s| > 0 && s[0] != c
    requires c !in s[1..] ==> t == s[1..]
    requires c in s[1..] ==> t == s[1..][..IndexOf(s[1..], c)] + s[1..][IndexOf(s[1..], c) + 1..]
    ensures c !in s ==> [s[0]] + t == s
    ensures c in s ==> [s[0]] + t == s[..IndexOf(s, c)] + s[IndexOf(s, c) + 1..]
  {
    if c in s {
      assert c in s[1..];
      var j := IndexOf(s[1..], c);
      assert IndexOf(s, c) == 1 + j;
      assert s[1..][..j] == s[1..j + 1] && s[1..][j + 1..] == s[j + 2..];
      assert [s[0]] + s[1..j + 1] == s[..j + 1];
    } else {
      assert [s[0]] + s[1..] == s;
    }
  }
}

=== FILE: json.dfy ===
/**
 * PHP's `json_decode($raw, true)` over a byte string, and the part of
 * `json_encode` the cursor codec uses (an object of one string and one
 * integer).
 *
 * Decoding follows RFC 8259 as PHP's parser applies it: whitespace is space,
 * tab, line feed and carriage return; literals are lower case; numbers have no
 * leading zeros and no bare `.`; an integer outside the 64-bit range becomes a
 * double; strings must be well-formed UTF-8 without raw control characters;
 * `\u` escapes of UTF-16 surrogates must pair up; duplicate object keys keep
 * the last value; nesting deeper than 512 arrays or objects fails. Any error
 * makes the result None, where PHP returns null.
 */
module Json {
  import opened Wrappers
  import opened Text
  import opened Php

  /** The default `$depth` of `json_decode`. */
  const MaxDepth: nat := 512

  predicate IsWs(c: char)
  {
    c == ' ' || c == '\t' || c == '\n' || c == '\r'
  }

  function SkipWs(s: string, p: nat): (q: nat)
    requires p <= |s|
    ensures p <= q <= |s|
    ensures q == |s| || !IsWs(s[q])
    decreases |s| - p
  {
    if p < |s| && IsWs(s[p]) then SkipWs(s, p + 1) else p
  }

  // ---------------------------------------------------------------------
  // UTF-8 and \u escapes
  // ---------------------------------------------------------------------

  predicate ByteIn(s: string, i: nat, lo: int, hi: int)
  {
    i < |s| && lo <= s[i] as int <= hi
  }

  predicate Cont(s: string, i: nat)
  {
    ByteIn(s, i, 0x80, 0xBF)
  }

  /** The length of the well-formed multi-byte UTF-8 sequence at `p`, or 0 if there is none. */
  function Utf8Len(s: string, p: nat): (n: nat)
    requires p < |s|
    ensures n == 0 || (2 <= n <= 4 && p + n <= |s|)
  {
    var b := s[p] as int;
    if 0xC2 <= b <= 0xDF then (if Cont(s, p + 1) then 2 else 0)
    else if b == 0xE0 then (if ByteIn(s, p + 1, 0xA0, 0xBF) && Cont(s, p + 2) then 3 else 0)
    else if (0xE1 <= b <= 0xEC) || b == 0xEE || b == 0xEF then
      (if Cont(s, p + 1) && Cont(s, p + 2) then 3 else 0)
    else if b == 0xED then (if ByteIn(s, p + 1, 0x80, 0x9F) && Cont(s, p + 2) then 3 else 0)
    else if b == 0xF0 then
      (if ByteIn(s, p + 1, 0x90, 0xBF) && Cont(s, p + 2) && Cont(s, p + 3) then 4 else 0)
    else if 0xF1 <= b <= 0xF3 then
      (if Cont(s, p + 1) && Cont(s, p + 2) && Cont(s, p + 3) then 4 else 0)
    else if b == 0xF4 then
      (if ByteIn(s, p + 1, 0x80, 0x8F) && Cont(s, p + 2) && Cont(s, p + 3) then 4 else 0)
    else 0
  }

  /** The UTF-8 bytes of a code point. */
  function EncodeUtf8(cp: int): (r: string)
    requires 0 <= cp <= 0x10FFFF
    ensures 1 <= |r| <= 4
    ensures cp < 0x80 ==> r == [cp as char]
  {
    if cp < 0x80 then [cp as char]
    else if cp < 0x800 then [(0xC0 + cp / 64) as char, (0x80 + cp % 64) as char]
    else if cp < 0x10000 then
      [(0xE0 + cp / 4096) as char, (0x80 + cp / 64 % 64) as char, (0x80 + cp % 64) as char]
    else
      [(0xF0 + cp / 262144) as char, (0x80 + cp / 4096 % 64) as char,
       (0x80 + cp / 64 % 64) as char, (0x80 + cp % 64) as char]
  }

  predicate IsHex(c: char)
  {
    ('0' <= c <= '9') || ('a' <= c <= 'f') || ('A' <= c <= 'F')
  }

  function HexValue(c: char): (v: int)
    requires IsHex(c)
    ensures 0 <= v < 16
  {
    if '0' <= c <= '9' then c as int - '0' as int
    else if 'a' <= c <= 'f' then c as int - 'a' as int + 10
    else c as int - 'A' as int + 10
  }

  predicate HexAt(s: string, p: nat)
  {
    p + 4 <= |s| && IsHex(s[p]) && IsHex(s[p + 1]) && IsHex(s[p + 2]) && IsHex(s[p + 3])
  }

  function Hex4(s: string, p: nat): (v: int)
    requires HexAt(s, p)
    ensures 0 <= v < 0x10000
  {
    HexValue(s[p]) * 4096 + HexValue(s[p + 1]) * 256 + HexValue(s[p + 2]) * 16 + HexValue(s[p + 3])
  }

  /** The escape after a backslash at `p - 1`: the bytes it stands for and the position after it. */
  function ParseEscape(s: string, p: nat): (r: Option<(string, nat)>)
    requires p <= |s|
    ensures r.Some? ==> p < r.value.1 <= |s|
  {
    if p >= |s| then None
    else
      var c := s[p];
      if c == '"' then Some(("\"", p + 1))
      else if c == '\\' then Some(("\\", p + 1))
      else if c == '/' then Some(("/", p + 1))
      else if c == 'b' then Some(([8 as char], p + 1))
      else if c == 'f' then Some(([12 as char], p + 1))
      else if c == 'n' then Some(("\n", p + 1))
      else if c == 'r' then Some(("\r", p + 1))
      else if c == 't' then Some(("\t", p + 1))
      else if c == 'u' && HexAt(s, p + 1) then
        var hi := Hex4(s, p + 1);
        if 0xDC00 <= hi <= 0xDFFF then None
        else if 0xD800 <= hi <= 0xDBFF then
          if p + 6 < |s| && s[p + 5] == '\\' && s[p + 6] == 'u' && HexAt(s, p + 7)
             && 0xDC00 <= Hex4(s, p + 7) <= 0xDFFF
          then Some((EncodeUtf8(0x10000 + (hi - 0xD800) * 0x400 + (Hex4(s, p + 7) - 0xDC00)), p + 11))
          else None
        else Some((EncodeUtf8(hi), p + 5))
      else None
  }

  // ---------------------------------------------------------------------
  // Strings
  // ---------------------------------------------------------------------

  /** The string body starting at `p` (after the opening quote): its bytes and the position after the closing quote. */
  function ParseStringBody(s: string, p: nat): (r: Option<(string, nat)>)
    requires p <= |s|
    ensures r.Some? ==> p < r.value.1 <= |s|
    decreases |s| - p
  {
    if p >= |s| then None
    else if s[p] == '"' then Some(("", p + 1))
    else if s[p] == '\\' then
      match ParseEscape(s, p + 1)
      case None => None
      case Some((e, q)) =>
        match ParseStringBody(s, q)
        case None => None
        case Some((rest, q2)) => Some((e + rest, q2))
    else if s[p] as int < 0x20 then None
    else
      var n := if s[p] as int < 0x80 then 1 else Utf8Len(s, p);
      if n == 0 then None
      else
        match ParseStringBody(s, p + n)
        case None => None
        case Some((rest, q2)) => Some((s[p..p + n] + rest, q2))
  }

  // ---------------------------------------------------------------------
  // Numbers
  // ---------------------------------------------------------------------

  /** The end of `0|[1-9][0-9]*` starting with the digit at `q0`. */
  function IntPartEnd(s: string, q0: nat): (q1: nat)
    requires q0 < |s| && IsDigit(s[q0])
    ensures q0 < q1 <= |s|
    ensures forall k :: q0 <= k < q1 ==> IsDigit(s[k])
  {
    if s[q0] == '0' then q0 + 1 else DigitRunEnd(s, q0)
  }

  /** The end of the optional `(\.[0-9]+)?([eE][+-]?[0-9]+)?` at `q1`, or None when it is malformed. */
  function FracExpEnd(s: string, q1: nat): (r: Option<nat>)
    requires q1 <= |s|
    ensures r.Some? ==> q1 <= r.value <= |s|
    ensures (q1 == |s| || (s[q1] != '.' && s[q1] != 'e' && s[q1] != 'E')) ==> r == Some(q1)
  {
    var hasFrac := q1 < |s| && s[q1] == '.';
    if hasFrac && (q1 + 1 >= |s| || !IsDigit(s[q1 + 1])) then None
    else
      var q2 := if hasFrac then DigitRunEnd(s, q1 + 1) else q1;
      var hasExp := q2 < |s| && (s[q2] == 'e' || s[q2] == 'E');
      var e0 := if hasExp && q2 + 1 < |s| && (s[q2 + 1] == '+' || s[q2 + 1] == '-') then q2 + 2 else q2 + 1;
      if hasExp && (e0 >= |s| || !IsDigit(s[e0])) then None
      else Some(if hasExp then DigitRunEnd(s, e0) else q2)
  }

  /**
   * `-?(0|[1-9][0-9]*)(\.[0-9]+)?([eE][+-]?[0-9]+)?` at `p`. Without fraction
   * or exponent and inside the 64-bit range it is an integer, otherwise a double.
   */
  function ParseNumber(s: string, p: nat): (r: Option<(Value, nat)>)
    requires p < |s|
    ensures r.Some? ==> p < r.value.1 <= |s|
    ensures r.Some? ==> r.value.0.Int? || r.value.0.Float?
  {
    var negative := s[p] == '-';
    var q0 := if negative then p + 1 else p;
    if q0 >= |s| || !IsDigit(s[q0]) then None
    else
      var q1 := IntPartEnd(s, q0);
      match FracExpEnd(s, q1)
      case None => None
      case Some(q3) =>
        if q3 > q1 then Some((Float(s[p..q3]), q3))
        else
          var magnitude: int := ParseDigits(s[q0..q1]);
          var value: int := if negative then -magnitude else magnitude;
          if MinInt <= value <= MaxInt then Some((Int(value), q1)) else Some((Float(s[p..q1]), q1))
  }

  // ---------------------------------------------------------------------
  // Values
  // ---------------------------------------------------------------------

  predicate LiteralAt(s: string, p: nat, lit: string)
  {
    p + |lit| <= |s| && forall k :: 0 <= k < |lit| ==> s[p + k] == lit[k]
  }

  /**
   * The value starting at `p` (after optional whitespace) inside `depth`
   * enclosing arrays or objects, and the position just after it.
   */
  function ParseValue(s: string, p: nat, depth: nat): (r: Option<(Value, nat)>)
    requires p <= |s|
    ensures r.Some? ==> p < r.value.1 <= |s|
    ensures r.Some? ==> SkipWs(s, p) < |s| && ValueStarts(r.value.0, s[SkipWs(s, p)])
    decreases |s| - p, 0
  {
    var q := SkipWs(s, p);
    if q >= |s| then None
    else if s[q] == '{' then
      if depth >= MaxDepth then None else ParseObject(s, q + 1, depth + 1)
    else if s[q] == '[' then
      if depth >= MaxDepth then None else ParseArray(s, q + 1, depth + 1)
    else if s[q] == '"' then
      match ParseStringBody(s, q + 1)
      case None => None
      case Some((str, q2)) => Some((Str(str), q2))
    else if LiteralAt(s, q, "null") then assert s[q + 0] == "null"[0]; Some((Null, q + 4))
    else if LiteralAt(s, q, "true") then assert s[q + 0] == "true"[0]; Some((Bool(true), q + 4))
    else if LiteralAt(s, q, "false") then assert s[q + 0] == "false"[0]; Some((Bool(false), q + 5))
    else if s[q] == '-' || IsDigit(s[q]) then ParseNumber(s, q)
    else None
  }

  /** An array body after `[`. */
  function ParseArray(s: string, p: nat, depth: nat): (r: Option<(Value, nat)>)
    requires p <= |s|
    ensures r.Some? ==> p < r.value.1 <= |s|
    ensures r.Some? ==> r.value.0.List?
    decreases |s| - p, 2
  {
    var q := SkipWs(s, p);
    if q < |s| && s[q] == ']' then Some((List([]), q + 1))
    else
      match ParseElements(s, p, depth)
      case None => None
      case Some((items, q2)) => Some((List(items), q2))
  }

  /** One or more comma-separated values followed by `]`. */
  function ParseElements(s: string, p: nat, depth: nat): (r: Option<(seq<Value>, nat)>)
    requires p <= |s|
    ensures r.Some? ==> p < r.value.1 <= |s|
    decreases |s| - p, 1
  {
    match ParseValue(s, p, depth)
    case None => None
    case Some((v, q)) =>
      var q1 := SkipWs(s, q);
      if q1 < |s| && s[q1] == ']' then Some(([v], q1 + 1))
      else if q1 < |s| && s[q1] == ',' then
        match ParseElements(s, q1 + 1, depth)
        case None => None
        case Some((rest, q2)) => Some(([v] + rest, q2))
      else None
  }

  /** An object body after `{`, decoded as an associative array. */
  function ParseObject(s: string, p: nat, depth: nat): (r: Option<(Value, nat)>)
    requires p <= |s|
    ensures r.Some? ==> p < r.value.1 <= |s|
    ensures r.Some? ==> r.value.0.Assoc?
    decreases |s| - p, 3
  {
    var q := SkipWs(s, p);
    if q < |s| && s[q] == '}' then Some((Assoc(map[]), q + 1))
    else
      match ParseMembers(s, p, depth, map[])
      case None => None
      case Some((m, q2)) => Some((Assoc(m), q2))
  }

  /** One member `"key": value`, and the position after it and any whitespace that follows. */
  function ParseMember(s: string, p: nat, depth: nat): (r: Option<(string, Value, nat)>)
    requires p <= |s|
    ensures r.Some? ==> p < r.value.2 <= |s|
    decreases |s| - p, 1
  {
    var q := SkipWs(s, p);
    if q >= |s| || s[q] != '"' then None else ParseKeyed(s, q + 1, depth)
  }

  /** A member whose key's body starts at `p`. */
  function ParseKeyed(s: string, p: nat, depth: nat): (r: Option<(string, Value, nat)>)
    requires p <= |s|
    ensures r.Some? ==> p < r.value.2 <= |s|
    decreases |s| - p, 0
  {
    match ParseStringBody(s, p)
    case None => None
    case Some((key, q1)) => ParseMemberValue(s, q1, depth, key)
  }

  /** The `: value` part of a member whose key ends before `p`. */
  function ParseMemberValue(s: string, p: nat, depth: nat, key: string): (r: Option<(string, Value, nat)>)
    requires p <= |s|
    ensures r.Some? ==> p < r.value.2 <= |s| && r.value.0 == key
    decreases |s| - p, 0
  {
    var q := SkipWs(s, p);
    if q >= |s| || s[q] != ':' then None
    else
      match ParseValue(s, q + 1, depth)
      case None => None
      case Some((v, q2)) => Some((key, v, SkipWs(s, q2)))
  }

  /** One or more members followed by `}`; a repeated key keeps the later value. */
  function ParseMembers(s: string, p: nat, depth: nat, acc: map<string, Value>): (r: Option<(map<string, Value>, nat)>)
    requires p <= |s|
    ensures r.Some? ==> p < r.value.1 <= |s|
    decreases |s| - p, 2
  {
    var m := ParseMember(s, p, depth);
    if m.None? then None
    else
      var (key, v, q) := m.value;
      if q < |s| && s[q] == '}' then Some((acc[key := v], q + 1))
      else if q < |s| && s[q] == ',' then ParseMembers(s, q + 1, depth, acc[key := v])
      else None
  }

  /**
   * The first character of each kind of JSON text: `{` for an object, `[`
   * for an array, `"` for a string, `n`, `t` or `f` for the literals, and a
   * minus sign or a digit for a number.
   */
  predicate ValueStarts(v: Value, c: char)
  {
    match v
    case Assoc(_) => c == '{'
    case List(_) => c == '['
    case Str(_) => c == '"'
    case Null => c == 'n'
    case Bool(b) => c == (if b then 't' else 'f')
    case Int(_) => c == '-' || IsDigit(c)
    case Float(_) => c == '-' || IsDigit(c)
  }

  /**
   * `json_decode($s, true)`: one value surrounded by optional whitespace; a
   * blank document decodes to nothing, and the first character after the
   * leading whitespace tells which kind of value it is.
   */
  function Decode(s: string): (r: Option<Value>)
    ensures (forall k :: 0 <= k < |s| ==> IsWs(s[k])) ==> r.None?
    ensures r.Some? ==> SkipWs(s, 0) < |s| && ValueStarts(r.value, s[SkipWs(s, 0)])
    ensures s == "null" ==> r == Some(Null)
    ensures s == "true" ==> r == Some(Bool(true))
    ensures s == "false" ==> r == Some(Bool(false))
  {
    match ParseValue(s, 0, 0)
    case None => None
    case Some((v, q)) => if SkipWs(s, q) == |s| then Some(v) else None
  }

  // ---------------------------------------------------------------------
  // json_encode of the cursor object
  // ---------------------------------------------------------------------

  predicate IsAscii(t: string)
  {
    forall k :: 0 <= k < |t| ==> t[k] as int < 0x80
  }

  function HexDigitLower(v: int): (c: char)
    requires 0 <= v < 16
    ensures IsHex(c) && HexValue(c) == v
  {
    if v < 10 then ('0' as int + v) as char else ('a' as int + v - 10) as char
  }

  /** The letter of the two-character escape `json_encode` uses for `c`, or `c` itself when there is none. */
  function ShortEscape(c: char): char
  {
    if c == '"' then '"'
    else if c == '\\' then '\\'
    else if c == '/' then '/'
    else if c as int == 8 then 'b'
    else if c as int == 12 then 'f'
    else if c == '\n' then 'n'
    else if c == '\r' then 'r'
    else if c == '\t' then 't'
    else c
  }

  predicate HasShortEscape(c: char)
  {
    c == '"' || c == '\\' || c == '/' || c as int == 8 || c as int == 12 || c == '\n' || c == '\r' || c == '\t'
  }

  /**
   * How `json_encode` writes one ASCII character inside a string (slashes
   * escaped, no flags). Other bytes are kept as they are, which is not what
   * `json_encode` does; the encoder below is only applied to ASCII text.
   */
  function EscapeChar(c: char): (r: string)
    ensures |r| >= 1
  {
    if HasShortEscape(c) then ['\\', ShortEscape(c)]
    else if c as int < 0x20 then ['\\', 'u', '0', '0', HexDigitLower(c as int / 16), HexDigitLower(c as int % 16)]
    else [c]
  }

  function EscapeBody(t: string): string
  {
    if |t| == 0 then "" else EscapeChar(t[0]) + EscapeBody(t[1..])
  }

  /** `json_encode` of an ASCII string. */
  function EncodeString(t: string): string
    requires IsAscii(t)
  {
    "\"" + EscapeBody(t) + "\""
  }

  /** `json_encode(['t' => t, 'i' => i])`. */
  function EncodeCursorObject(t: string, i: int): string
    requires IsAscii(t)
  {
    "{\"t\":" + EncodeString(t) + ",\"i\":" + IntToString(i) + "}"
  }

  // ---------------------------------------------------------------------
  // Decoding what was encoded
  // ---------------------------------------------------------------------

  /** `s` holds the text `x` starting at `p`. */
  predicate SliceIs(s: string, p: nat, x: string)
  {
    p + |x| <= |s| && forall k :: 0 <= k < |x| ==> s[p + k] == x[k]
  }

  lemma SliceIsAt(s: string, p: nat, x: string, k: nat)
    requires SliceIs(s, p, x) && k < |x|
    ensures s[p + k] == x[k]
  {
    assert s[p..p + |x|][k] == s[p + k];
  }

  lemma SliceIsSplit(s: string, p: nat, x: string, y: string)
    requires SliceIs(s, p, x + y)
    ensures SliceIs(s, p, x) && SliceIs(s, p + |x|, y)
  {
    assert s[p..p + |x|] == (x + y)[..|x|];
    assert s[p + |x|..p + |x| + |y|] == (x + y)[|x|..];
  }

  /** `s` holds, at `p`, what `json_encode` writes for the character `c`. */
  predicate CharEncodedAt(s: string, p: nat, c: char)
  {
    if HasShortEscape(c) then p + 1 < |s| && s[p] == '\\' && s[p + 1] == ShortEscape(c)
    else if c as int < 0x20 then
      p + 5 < |s| && s[p] == '\\' && s[p + 1] == 'u' && s[p + 2] == '0' && s[p + 3] == '0'
      && s[p + 4] == HexDigitLower(c as int / 16) && s[p + 5] == HexDigitLower(c as int % 16)
    else p < |s| && s[p] == c
  }

  lemma CharEncodedFromSlice(s: string, p: nat, c: char)
    requires SliceIs(s, p, EscapeChar(c))
    ensures CharEncodedAt(s, p, c)
  {
    var e := EscapeChar(c);
    SliceIsAt(s, p, e, 0);
    if |e| > 1 {
      SliceIsAt(s, p, e, 1);
      if |e| > 2 {
        SliceIsAt(s, p, e, 2);
        SliceIsAt(s, p, e, 3);
        SliceIsAt(s, p, e, 4);
        SliceIsAt(s, p, e, 5);
      }
    }
  }

  lemma ParseEscapedChar(s: string, p: nat, c: char)
    requires c as int < 0x80
    requires CharEncodedAt(s, p, c)
    ensures p + |EscapeChar(c)| <= |s|
    ensures |EscapeChar(c)| == 1 ==> s[p] == c && c != '"' && c != '\\' && 0x20 <= c as int < 0x80
    ensures |EscapeChar(c)| > 1 ==> s[p] == '\\' && ParseEscape(s, p + 1) == Some(([c], p + |EscapeChar(c)|))
  {
    if !HasShortEscape(c) && c as int < 0x20 {
      assert HexAt(s, p + 2);
      assert Hex4(s, p + 2) == c as int;
    }
  }

  lemma StepPlain(s: string, p: nat, rest: string, end: nat)
    requires p < |s| && s[p] != '"' && s[p] != '\\' && 0x20 <= s[p] as int < 0x80
    requires ParseStringBody(s, p + 1) == Some((rest, end))
    ensures ParseStringBody(s, p) == Some(([s[p]] + rest, end))
  {
    assert s[p..p + 1] == [s[p]];
  }

  lemma StepEscape(s: string, p: nat, c: char, q: nat, rest: string, end: nat)
    requires p < |s| && s[p] == '\\'
    requires ParseEscape(s, p + 1) == Some(([c], q))
    requires q <= |s| && ParseStringBody(s, q) == Some((rest, end))
    ensures ParseStringBody(s, p) == Some(([c] + rest, end))
  {
  }

  /** One encoded character, then a string body that parses. */
  lemma StepChar(s: string, p: nat, c: char, rest: string, end: nat)
    requires c as int < 0x80
    requires CharEncodedAt(s, p, c)
    requires p + |EscapeChar(c)| <= |s|
    requires ParseStringBody(s, p + |EscapeChar(c)|) == Some((rest, end))
    ensures ParseStringBody(s, p) == Some(([c] + rest, end))
  {
    ParseEscapedChar(s, p, c);
    if |EscapeChar(c)| == 1 {
      StepPlain(s, p, rest, end);
    } else {
      StepEscape(s, p, c, p + |EscapeChar(c)|, rest, end);
    }
  }

  /** `s` holds, from `p`, the escaped characters of `t` and then a closing quote at `end - 1`. */
  predicate EncodedAt(s: string, p: nat, t: string, end: nat)
    decreases |t|
  {
    if |t| == 0 then p < |s| && s[p] == '"' && end == p + 1
    else CharEncodedAt(s, p, t[0]) && EncodedAt(s, p + |EscapeChar(t[0])|, t[1..], end)
  }

  lemma {:induction false} EncodedFromSlice(s: string, p: nat, t: string)
    requires SliceIs(s, p, EscapeBody(t) + "\"")
    ensures EncodedAt(s, p, t, p + |EscapeBody(t)| + 1)
    decreases |t|
  {
    if |t| == 0 {
      SliceIsAt(s, p, EscapeBody(t) + "\"", 0);
    } else {
      var e := EscapeChar(t[0]);
      var rest := EscapeBody(t[1..]);
      EscapeBodyCons(t);
      SliceIsSplit3(s, p, e, rest, "\"");
      CharEncodedFromSlice(s, p, t[0]);
      EncodedFromSlice(s, p + |e|, t[1..]);
    }
  }

  lemma {:induction false} ParseEncoded(s: string, p: nat, t: string, end: nat)
    requires IsAscii(t) && p <= |s|
    ensures EncodedAt(s, p, t, end) ==> ParseStringBody(s, p) == Some((t, end))
    decreases |t|
  {
    if |t| > 0 && EncodedAt(s, p, t, end) {
      var e := EscapeChar(t[0]);
      ParseEncoded(s, p + |e|, t[1..], end);
      StepChar(s, p, t[0], t[1..], end);
      HeadTail(t);
    }
  }

  /** The string body `json_encode` writes for an ASCII text decodes back to the text. */
  lemma ParseEscapeBody(s: string, p: nat, t: string)
    requires IsAscii(t)
    requires SliceIs(s, p, EscapeBody(t) + "\"")
    ensures ParseStringBody(s, p) == Some((t, p + |EscapeBody(t)| + 1))
  {
    EncodedFromSlice(s, p, t);
    ParseEncoded(s, p, t, p + |EscapeBody(t)| + 1);
  }

  lemma {:induction false} DigitRunEndAt(s: string, p: nat, q: nat)
    requires p <= q < |s|
    requires forall k :: p <= k < q ==> IsDigit(s[k])
    requires !IsDigit(s[q])
    ensures DigitRunEnd(s, p) == q
    decreases q - p
  {
    if p < q {
      DigitRunEndAt(s, p + 1, q);
    }
  }

  /** The digits of a natural number, followed by a non-digit, form the integer part of a number. */
  lemma IntPartOfNat(s: string, q0: nat, m: nat)
    requires SliceIs(s, q0, NatToString(m)) && q0 + |NatToString(m)| < |s|
    requires !IsDigit(s[q0 + |NatToString(m)|])
    ensures IsDigit(s[q0])
    ensures IntPartEnd(s, q0) == q0 + |NatToString(m)|
    ensures ParseDigits(s[q0..IntPartEnd(s, q0)]) == m
  {
    var d := NatToString(m);
    var e := q0 + |d|;
    forall k | q0 <= k < e
      ensures IsDigit(s[k])
    {
      SliceIsAt(s, q0, d, k - q0);
    }
    SliceIsAt(s, q0, d, 0);
    if s[q0] != '0' {
      DigitRunEndAt(s, q0, e);
    }
    assert s[q0..e] == d;
    ParseNatToString(m);
  }

  /** A number without fraction or exponent, read from its parts: sign, integer part, and value. */
  lemma NumberOfParts(s: string, p: nat, q0: nat, e: nat, m: nat, v: int)
    requires p < |s| && q0 == (if s[p] == '-' then p + 1 else p)
    requires q0 < |s| && IsDigit(s[q0])
    requires IntPartEnd(s, q0) == e && FracExpEnd(s, e) == Some(e)
    requires ParseDigits(s[q0..e]) == m
    requires (if s[p] == '-' then v + m == 0 else v == m) && MinInt <= v <= MaxInt
    ensures ParseNumber(s, p) == Some((Int(v), e))
  {
  }

  /** The decimal text of a 64-bit integer, followed by `}`, reads back as that integer. */
  lemma ParseIntText(s: string, p: nat, i: int)
    requires MinInt <= i <= MaxInt
    requires SliceIs(s, p, IntToString(i) + "}")
    ensures ParseNumber(s, p) == Some((Int(i), p + |IntToString(i)|))
  {
    var n := IntToString(i);
    IntToStringParts(i);
    var e := p + |n|;
    assert SliceIs(s, p, n) && s[e] == '}' by {
      SliceIsSplit(s, p, n, "}");
      SliceIsAt(s, e, "}", 0);
    }
    var q0 := if i >= 0 then p else p + 1;
    var m: nat := if i >= 0 then i else -i;
    assert SliceIs(s, q0, NatToString(m)) && q0 + |NatToString(m)| == e
           && (s[p] == '-' <==> i < 0) by {
      SliceIsAt(s, p, n, 0);
      if i < 0 {
        SliceIsSplit(s, p, "-", NatToString(m));
      }
    }
    IntPartOfNat(s, q0, m);
    assert FracExpEnd(s, e) == Some(e);
    NumberOfParts(s, p, q0, e, m, i);
  }

  lemma SliceIsSplit3(s: string, p: nat, x: string, y: string, z: string)
    requires SliceIs(s, p, x + y + z)
    ensures SliceIs(s, p, x) && SliceIs(s, p + |x|, y + z)
  {
    assert x + y + z == x + (y + z);
    SliceIsSplit(s, p, x, y + z);
  }

  lemma EscapeBodyCons(t: string)
    requires |t| > 0
    ensures EscapeBody(t) == EscapeChar(t[0]) + EscapeBody(t[1..])
    ensures |EscapeBody(t)| == |EscapeChar(t[0])| + |EscapeBody(t[1..])|
  {
  }

  lemma HeadTail(t: string)
    requires |t| > 0
    ensures [t[0]] + t[1..] == t
  {
  }

  lemma ConcatSlice(x: string, y: string, z: string)
    ensures SliceIs(x + y + z, |x|, y)
  {
    assert (x + y + z)[|x|..|x| + |y|] == y;
  }

  lemma ValueString(s: string, p: nat, depth: nat, x: string, q: nat)
    requires p < |s| && s[p] == '"'
    requires ParseStringBody(s, p + 1) == Some((x, q))
    ensures ParseValue(s, p, depth) == Some((Str(x), q))
  {
  }

  lemma LiteralFirst(s: string, p: nat, lit: string)
    requires p < |s| && |lit| > 0
    ensures LiteralAt(s, p, lit) ==> s[p] == lit[0]
  {
    if LiteralAt(s, p, lit) {
      assert s[p + 0] == lit[0];
    }
  }

  lemma ValueNumber(s: string, p: nat, depth: nat)
    requires p < |s| && (s[p] == '-' || IsDigit(s[p]))
    ensures ParseValue(s, p, depth) == ParseNumber(s, p)
  {
    LiteralFirst(s, p, "null");
    LiteralFirst(s, p, "true");
    LiteralFirst(s, p, "false");
  }

  lemma ValueObject(s: string, p: nat, depth: nat)
    requires p + 1 < |s| && s[p] == '{' && s[p + 1] == '"' && depth < MaxDepth
    ensures ParseValue(s, p, depth) ==
      match ParseMembers(s, p + 1, depth + 1, map[])
      case None => None
      case Some((m, q)) => Some((Assoc(m), q))
  {
  }

  lemma MemberAt(s: string, p: nat, depth: nat)
    requires p < |s| && s[p] == '"'
    ensures ParseMember(s, p, depth) == ParseKeyed(s, p + 1, depth)
  {
    assert SkipWs(s, p) == p;
  }

  lemma KeyedAt(s: string, p: nat, depth: nat, k: string, q1: nat)
    requires p <= |s|
    requires ParseStringBody(s, p) == Some((k, q1))
    ensures ParseKeyed(s, p, depth) == ParseMemberValue(s, q1, depth, k)
  {
  }

  lemma MemberValueAt(s: string, q1: nat, depth: nat, k: string, v: Value, q3: nat)
    requires q1 < |s| && s[q1] == ':'
    requires ParseValue(s, q1 + 1, depth) == Some((v, q3))
    requires q3 < |s| && !IsWs(s[q3])
    ensures ParseMemberValue(s, q1, depth, k) == Some((k, v, q3))
  {
  }

  /** The text `{"t":"<b>","i":<n>}`. */
  function CursorText(b: string, n: string): string
  {
    "{\"t\":\"" + b + "\",\"i\":" + n + "}"
  }

  /** The cursor object is that text around the escaped string and the integer's digits. */
  lemma EncodeCursorObjectText(t: string, i: int)
    requires IsAscii(t)
    ensures EncodeCursorObject(t, i) == CursorText(EscapeBody(t), IntToString(i))
  {
  }

  /** Where the pieces of `{"t":"<b>","i":<n>}` sit. */
  lemma ObjectLayout(b: string, n: string)
    ensures var s := CursorText(b, n);
      var lb := |b|;
      |s| == 13 + lb + |n|
      && s[0] == '{' && s[1] == '"' && s[4] == ':' && s[5] == '"'
      && s[7 + lb] == ',' && s[8 + lb] == '"' && s[11 + lb] == ':'
      && SliceIs(s, 2, "t\"") && SliceIs(s, 6, b + "\"")
      && SliceIs(s, 9 + lb, "i\"") && SliceIs(s, 12 + lb, n + "}")
  {
    var s := CursorText(b, n);
    var lb := |b|;
    assert s[2..4] == "t\"";
    assert s[6..7 + lb] == b + "\"" by {
      assert s[6..6 + lb] == b;
    }
    assert s[9 + lb..11 + lb] == "i\"";
    assert s[12 + lb..] == n + "}";
  }

  lemma MembersLast(s: string, p: nat, depth: nat, acc: map<string, Value>, k: string, v: Value, q: nat)
    requires p <= |s| && ParseMember(s, p, depth) == Some((k, v, q))
    requires q < |s| && s[q] == '}'
    ensures ParseMembers(s, p, depth, acc) == Some((acc[k := v], q + 1))
  {
  }

  lemma MembersNext(s: string, p: nat, depth: nat, acc: map<string, Value>, k: string, v: Value, q: nat)
    requires p <= |s| && ParseMember(s, p, depth) == Some((k, v, q))
    requires q < |s| && s[q] == ','
    ensures ParseMembers(s, p, depth, acc) == ParseMembers(s, q + 1, depth, acc[k := v])
  {
  }

  /** A one-letter key followed by its closing quote. */
  lemma LetterKey(s: string, p: nat, c: char)
    requires c == 't' || c == 'i'
    requires p + 1 < |s| && s[p] == c && s[p + 1] == '"'
    ensures ParseStringBody(s, p) == Some(([c], p + 2))
  {
    assert ParseStringBody(s, p + 1) == Some(("", p + 2));
    StepPlain(s, p, "", p + 2);
    assert [s[p]] + "" == [c];
  }

  /** `"t":"` at `p`, the string's body parsing to `t` and ending before the `,` at `e`. */
  predicate StringMemberLaid(s: string, p: nat, t: string, e: nat)
  {
    p + 4 < |s| && s[p] == '"' && s[p + 1] == 't' && s[p + 2] == '"' && s[p + 3] == ':' && s[p + 4] == '"'
    && ParseStringBody(s, p + 5) == Some((t, e)) && e < |s| && s[e] == ','
  }

  lemma StringMemberAt(s: string, p: nat, t: string, e: nat)
    requires StringMemberLaid(s, p, t, e)
    ensures ParseMember(s, p, 1) == Some(("t", Str(t), e))
  {
    LetterKey(s, p + 1, 't');
    ValueString(s, p + 4, 1, t, e);
    MemberValueAt(s, p + 3, 1, "t", Str(t), e);
    KeyedAt(s, p + 1, 1, "t", p + 3);
    MemberAt(s, p, 1);
  }

  /** `"i":` at `p`, followed by a number reading as `i` and ending before the final `}`. */
  predicate IntMemberLaid(s: string, p: nat, i: int)
  {
    p + 4 < |s| && s[p] == '"' && s[p + 1] == 'i' && s[p + 2] == '"' && s[p + 3] == ':'
    && (s[p + 4] == '-' || IsDigit(s[p + 4]))
    && ParseNumber(s, p + 4) == Some((Int(i), |s| - 1)) && s[|s| - 1] == '}'
  }

  lemma IntMemberAt(s: string, p: nat, i: int)
    requires IntMemberLaid(s, p, i)
    ensures ParseMember(s, p, 1) == Some(("i", Int(i), |s| - 1))
  {
    LetterKey(s, p + 1, 'i');
    ValueNumber(s, p + 4, 1);
    MemberValueAt(s, p + 3, 1, "i", Int(i), |s| - 1);
    KeyedAt(s, p + 1, 1, "i", p + 3);
    MemberAt(s, p, 1);
  }

  /** The string member of the cursor text, laid out. */
  lemma CursorStringLaid(t: string, n: string)
    requires IsAscii(t)
    ensures var b := EscapeBody(t);
      var s := CursorText(b, n);
      7 + |b| + 5 < |s| && s[0] == '{' && s[7 + |b|] == ',' && StringMemberLaid(s, 1, t, 7 + |b|)
  {
    var b := EscapeBody(t);
    ObjectLayout(b, n);
    ParseEscapeBody(CursorText(b, n), 6, t);
  }

  /** `"i":` followed by the decimal text of a 64-bit integer and the final `}`. */
  lemma IntMemberOfText(s: string, p: nat, i: int)
    requires MinInt <= i <= MaxInt
    requires p + 4 < |s| && s[p] == '"' && s[p + 1] == 'i' && s[p + 2] == '"' && s[p + 3] == ':'
    requires SliceIs(s, p + 4, IntToString(i) + "}") && |s| == p + 5 + |IntToString(i)|
    ensures IntMemberLaid(s, p, i)
  {
    ParseIntText(s, p + 4, i);
    SliceIsAt(s, p + 4, IntToString(i) + "}", 0);
    SliceIsAt(s, p + 4, IntToString(i) + "}", |IntToString(i)|);
  }

  /** The integer member of the cursor text, laid out. */
  lemma CursorIntLaid(b: string, i: int)
    requires MinInt <= i <= MaxInt
    ensures IntMemberLaid(CursorText(b, IntToString(i)), 7 + |b| + 1, i)
  {
    ObjectLayout(b, IntToString(i));
    IntMemberOfText(CursorText(b, IntToString(i)), 7 + |b| + 1, i);
  }

  /** The first member of the cursor text, as the parser sees it. */
  lemma CursorMemberT(t: string, n: string)
    requires IsAscii(t)
    ensures var e := 7 + |EscapeBody(t)|;
      var s := CursorText(EscapeBody(t), n);
      e + 1 <= |s| && s[0] == '{' && s[1] == '"'
      && ParseMembers(s, 1, 1, map[]) == ParseMembers(s, e + 1, 1, map["t" := Str(t)])
  {
    var s := CursorText(EscapeBody(t), n);
    var e := 7 + |EscapeBody(t)|;
    CursorStringLaid(t, n);
    StringMemberAt(s, 1, t, e);
    MembersNext(s, 1, 1, map[], "t", Str(t), e);
  }

  /** The member `"i":<number>` at `p` ends the object that members `acc` began. */
  lemma IntMembersLast(s: string, p: nat, i: int, acc: map<string, Value>)
    ensures IntMemberLaid(s, p, i) ==> ParseMembers(s, p, 1, acc) == Some((acc["i" := Int(i)], |s|))
  {
    if IntMemberLaid(s, p, i) {
      IntMemberAt(s, p, i);
      MembersLast(s, p, 1, acc, "i", Int(i), |s| - 1);
    }
  }

  /** The second member of the cursor text, as the parser sees it, after members `acc`. */
  lemma CursorMemberI(b: string, i: int, acc: map<string, Value>)
    requires MinInt <= i <= MaxInt
    ensures var s := CursorText(b, IntToString(i));
      ParseMembers(s, 7 + |b| + 1, 1, acc) == Some((acc["i" := Int(i)], |s|))
  {
    CursorIntLaid(b, i);
    IntMembersLast(CursorText(b, IntToString(i)), 7 + |b| + 1, i, acc);
  }

  /** The members of the cursor text of an ASCII string and a 64-bit integer. */
  lemma CursorTextMembers(t: string, i: int)
    requires IsAscii(t)
    requires MinInt <= i <= MaxInt
    ensures var s := CursorText(EscapeBody(t), IntToString(i));
      1 < |s| && s[0] == '{' && s[1] == '"'
      && ParseMembers(s, 1, 1, map[]) == Some((map["t" := Str(t), "i" := Int(i)], |s|))
  {
    CursorMemberT(t, IntToString(i));
    CursorMemberI(EscapeBody(t), i, map["t" := Str(t)]);
    assert map["t" := Str(t)]["i" := Int(i)] == map["t" := Str(t), "i" := Int(i)];
  }

  /** What `json_encode` writes for `['t' => t, 'i' => i]` decodes to that array. */
  lemma DecodeCursorObject(t: string, i: int)
    requires IsAscii(t)
    requires MinInt <= i <= MaxInt
    ensures Decode(EncodeCursorObject(t, i)) == Some(Assoc(map["t" := Str(t), "i" := Int(i)]))
  {
    var s := CursorText(EscapeBody(t), IntToString(i));
    EncodeCursorObjectText(t, i);
    CursorTextMembers(t, i);
    ValueObject(s, 0, 0);
  }
}

=== FILE: limits.dfy ===
/**
 * The constants the read API advertises and enforces: the rate, the page
 * sizes, and the informational lookback, cursor lifetime, ordering and
 * cursor semantics.
 */
module Limits {
  /** Requests allowed per key in each one-minute window. */
  const RatePerMinute: int := 60
  const MaxPageSize: int := 500
  const DefaultPageSize: int := 200
  /** Advertised only: no code path rejects an older `since`. */
  const MaxLookbackDays: int := 180
  /** Advertised only: cursors carry no expiry. */
  const CursorTtlSeconds: int := 86400
  const CanonicalOrdering: string := "clicked_at ASC, id ASC"
  const CursorSemantics: string := "forward_only"

  /** The page size used without a `limit` is one a client could also ask for. */
  lemma DefaultPageSizeAllowed()
    ensures 1 <= DefaultPageSize <= MaxPageSize
    ensures RatePerMinute > 0
  {
  }
}

=== FILE: mvp_clicks_controller.dfy ===
/**
 * The first read endpoint (`src/Rest/ClicksController.php`). It validates the
 * request and, in cursor mode, runs the cursor through the codec. It then
 * answers an empty page: this version reads no table and has no rate limit.
 */
module MvpClicksController {
  import opened Wrappers
  import opened Php
  import Time
  import Limits
  import Http
  import CursorCodec
  import RV = RequestValidator
  import Repo = RestClickRepository
  import Build = RestClicksController

  /** `$v['effective_since'] ?? null`: the validator's text, or JSON null. */
  function Echo(s: Option<string>): (r: Value)
    ensures r == Null <==> s.None?
    ensures s.Some? ==> r == Str(s.value)
  {
    if s.Some? then Str(s.value) else Null
  }

  /**
   * The `range` object: the validator's effective window as ISO text in
   * range mode, two nulls in cursor mode.
   */
  function RangeOf(v: RV.Validated): (r: Value)
    requires v.mode.RangeMode? ==> Time.Valid(v.mode.since) && Time.Valid(v.mode.until)
    ensures r.Assoc? && r.entries.Keys == {"effective_since", "effective_until"}
    ensures v.UsingCursor() <==> r.entries["effective_since"] == Null
    ensures v.UsingCursor() <==> r.entries["effective_until"] == Null
    ensures !v.UsingCursor() ==>
      && r.entries["effective_since"] == Str(Time.FormatIso(v.mode.since))
      && r.entries["effective_until"] == Str(Time.FormatIso(v.mode.until))
  {
    Assoc(map["effective_since" := Echo(RV.EffectiveSince(v)),
              "effective_until" := Echo(RV.EffectiveUntil(v))])
  }

  /** Whether the codec refuses the cursor of a cursor-mode request. */
  predicate BadCursor(v: RV.Validated)
  {
    v.UsingCursor() && CursorCodec.Decode(StrCast(v.mode.raw)).Err?
  }

  /**
   * What `handle` answers once the validator has accepted the request: the
   * codec's error when `isset($v['cursor_raw'])` holds and the cursor does not
   * decode, otherwise `200` with the window, a count of 0 and no items.
   */
  function Answer(v: RV.Validated, requestId: string): (r: Http.Response)
    requires v.mode.RangeMode? ==> Time.Valid(v.mode.since) && Time.Valid(v.mode.until)
    requires v.UsingCursor() ==> v.mode.raw != Null
    ensures r.headers == map[] && r.body.Assoc?
    ensures r.status == 200 <==> !BadCursor(v)
    ensures BadCursor(v) ==> r == Http.FromWpError(CursorCodec.Decode(StrCast(v.mode.raw)).error, requestId)
    ensures !BadCursor(v) ==>
      var b := r.body.entries;
      && b.Keys == {"range", "count", "items"}
      && b["range"] == RangeOf(v)
      && b["count"] == Int(0) && b["items"] == List([])
  {
    if v.UsingCursor() && v.mode.raw != Null && CursorCodec.Decode(StrCast(v.mode.raw)).Err? then
      Http.FromWpError(CursorCodec.Decode(StrCast(v.mode.raw)).error, requestId)
    else
      var body := map["range" := RangeOf(v), "count" := Int(0), "items" := List([])];
      assert body.Keys == {"range", "count", "items"};
      Http.Response(200, Assoc(body), map[])
  }

  /** The validated request, with the facts `Answer` needs about it. */
  function Validated(p: RV.Params, clock: Time.DateTime): (r: Result<RV.Validated, WpError>)
    requires Time.Valid(clock)
    ensures r == RV.Validate(p, clock)
    ensures r.Ok? && r.value.UsingCursor() ==> r.value.mode.raw != Null
    ensures r.Ok? && !r.value.UsingCursor() ==> Time.Valid(r.value.mode.since) && Time.Valid(r.value.mode.until)
  {
    RV.CursorRawNotNull(p.cursor, p.nextCursor);
    RV.Validate(p, clock)
  }

  /** `handle`: the validator's error, else the answer for the validated request. */
  function Handle(p: RV.Params, clock: Time.DateTime, requestId: string): (r: Http.Response)
    requires Time.Valid(clock)
    ensures RV.Validate(p, clock).Err? ==> r == Http.FromWpError(RV.Validate(p, clock).error, requestId)
    ensures RV.Validate(p, clock).Ok? ==> r == Answer(RV.Validate(p, clock).value, requestId)
    ensures var v := RV.Validate(p, clock);
      r.status == 200 <==>
        v.Ok? && (v.value.UsingCursor() ==> CursorCodec.Decode(StrCast(v.value.mode.raw)).Ok?)
    ensures r.body.Assoc? && "next_cursor" !in r.body.entries
    ensures r.status == 200 ==> r.body.entries["count"] == Int(0) && r.body.entries["items"] == List([])
  {
    var v := Validated(p, clock);
    if v.Err? then
      RefusalShape(v.error, requestId);
      Http.FromWpError(v.error, requestId)
    else
      NeverNextCursor(v.value, requestId);
      Answer(v.value, requestId)
  }

  /** A validator refusal is a `400` error body, which carries no `next_cursor`. */
  lemma RefusalShape(e: WpError, requestId: string)
    requires e.status == 400
    ensures var r := Http.FromWpError(e, requestId);
      r.status != 200 && r.body.Assoc? && "next_cursor" !in r.body.entries
  {
    assert "next_cursor" !in {"error", "message", "status", "request_id"};
  }

  // ---------------------------------------------------------------------
  // Properties
  // ---------------------------------------------------------------------

  /**
   * `isset($v['cursor_raw'])` holds for every cursor-mode request, so every
   * cursor reaches the codec: a request is answered `200` exactly when the
   * validator accepts it and its cursor, if any, decodes.
   */
  lemma AcceptedIff(p: RV.Params, clock: Time.DateTime, requestId: string)
    requires Time.Valid(clock)
    ensures var v := RV.Validate(p, clock);
      Handle(p, clock, requestId).status == 200 <==>
        v.Ok? && (v.value.UsingCursor() ==> CursorCodec.Decode(StrCast(v.value.mode.raw)).Ok?)
  {
    var v := Validated(p, clock);
    if v.Err? {
      assert v.error.status == 400;
    }
  }

  /** This version never pages: no answer carries `next_cursor`. */
  lemma NeverNextCursor(v: RV.Validated, requestId: string)
    requires v.mode.RangeMode? ==> Time.Valid(v.mode.since) && Time.Valid(v.mode.until)
    requires v.UsingCursor() ==> v.mode.raw != Null
    ensures "next_cursor" !in Answer(v, requestId).body.entries
  {
    if BadCursor(v) {
      assert "next_cursor" !in {"error", "message", "status", "request_id"};
    } else {
      assert "next_cursor" !in {"range", "count", "items"};
    }
  }

  /** An accepted cursor request echoes a null window. */
  lemma CursorWindowIsNull(v: RV.Validated, requestId: string)
    requires v.UsingCursor() && v.mode.raw != Null && !BadCursor(v)
    ensures Answer(v, requestId).body.entries["range"]
      == Assoc(map["effective_since" := Null, "effective_until" := Null])
  {
  }

  /**
   * With no cursor and neither bound, the echoed window is the seven days up
   * to now, as ISO text.
   */
  lemma DefaultWindowEchoed(p: RV.Params, clock: Time.DateTime, requestId: string)
    requires Time.Valid(clock)
    requires RV.Validate(p, clock).Ok? && !RV.Validate(p, clock).value.UsingCursor()
    requires Time.ParseIso(Text.Trim(StrCast(p.since))).None?
    requires Time.ParseIso(Text.Trim(StrCast(p.until))).None?
    ensures Handle(p, clock, requestId).status == 200
    ensures Handle(p, clock, requestId).body.entries["range"]
      == Assoc(map["effective_since" := Str(Time.FormatIso(Time.MinusDays(clock, 7))),
                   "effective_until" := Str(Time.FormatIso(clock))])
  {
    RV.DefaultWindow(p.since, p.until, clock);
  }

  /**
   * Both versions report a refused page size the same way: the build's
   * checks start with the same validator.
   */
  lemma LimitErrorsAgree(p: RV.Params, clock: Time.DateTime, table: Option<seq<Repo.Row>>,
                         requestId: string)
    requires Time.Valid(clock)
    requires table.Some? ==> Repo.Stored(table.value)
    requires RV.Validate(p, clock).Err?
    ensures Build.Serve(p, clock, table, requestId) == Handle(p, clock, requestId)
  {
    var cs := Build.Checks(p, clock, false);
    Build.ErrorPrecedence(p, clock, false);
    Build.FirstErrorOfFive(cs);
    assert cs[0] == Some(RV.Validate(p, clock).error);
  }

  /** `?cursor=0`: this version hands "0" to the codec, which refuses it. */
  lemma ZeroCursorRefused(clock: Time.DateTime, requestId: string)
    requires Time.Valid(clock)
    ensures var r := Handle(Build.ZeroCursor, clock, requestId);
      && r.status == 400
      && r.body.entries["error"] == Str("invalid_cursor")
  {
    Build.ZeroCursorValidated(clock);
    Build.ZeroDecodeRefused();
    var v := RV.Validated(Limits.DefaultPageSize, RV.AllowedFields, RV.CursorMode(Str("0")));
    assert BadCursor(v);
  }
}

=== FILE: php.dfy ===
/**
 * The PHP values that `json_decode($raw, true)` can produce, and the
 * conversions the code applies to them: `is_array`, `isset($a[$k])`,
 * `(int)` and `(string)`.
 *
 * Strings are PHP byte strings. A JSON array decodes to a PHP list (keys
 * 0..n-1); a JSON object decodes to an associative array, modelled as a map
 * from key text to value.
 */
module Php {
  import opened Wrappers
  import opened Text

  const MinInt: int := -0x8000_0000_0000_0000
  const MaxInt: int := 0x7FFF_FFFF_FFFF_FFFF

  datatype Value =
    | Null
    | Bool(b: bool)
    | Int(i: int)
    /** A double, kept as the decimal literal it was read from. */
    | Float(lexeme: string)
    | Str(s: string)
    | List(items: seq<Value>)
    | Assoc(entries: map<string, Value>)

  predicate IsArray(v: Value)
  {
    v.List? || v.Assoc?
  }

  /** `$a[$key]` on an array, absent when the key is not there. */
  function Lookup(v: Value, key: string): (r: Option<Value>)
    requires IsArray(v)
    ensures v.Assoc? ==> (r.Some? <==> key in v.entries)
    ensures v.List? && !AllDigits(key) ==> r.None?
  {
    if v.Assoc? then
      if key in v.entries then Some(v.entries[key]) else None
    else if |key| > 0 && AllDigits(key) && (key == "0" || key[0] != '0')
            && ParseDigits(key) < |v.items| then
      Some(v.items[ParseDigits(key)])
    else None
  }

  /** `isset($a[$key])`: the key is present and its value is not null. */
  predicate IsSet(v: Value, key: string)
    requires IsArray(v)
  {
    Lookup(v, key).Some? && !Lookup(v, key).value.Null?
  }

  /** `$a[$key] ?? $default`: the value when it is set, else the default. */
  function Coalesce(v: Value, key: string, default: Value): (r: Value)
    requires IsArray(v)
    ensures IsSet(v, key) ==> Some(r) == Lookup(v, key)
    ensures !IsSet(v, key) ==> r == default
  {
    if IsSet(v, key) then Lookup(v, key).value else default
  }

  /** A float literal whose mantissa has a non-zero digit. */
  predicate MantissaNonZero(lex: string)
  {
    |lex| > 0 && lex[0] != 'e' && lex[0] != 'E'
    && ('1' <= lex[0] <= '9' || MantissaNonZero(lex[1..]))
  }

  /** PHP's `empty()` (and the falsiness `?:` tests) of a value. */
  predicate Empty(v: Value)
  {
    match v
    case Null => true
    case Bool(b) => !b
    case Int(i) => i == 0
    case Float(lex) => !MantissaNonZero(lex)
    case Str(s) => PhpEmptyString(s)
    case List(items) => |items| == 0
    case Assoc(m) => |m| == 0
  }

  // ---------------------------------------------------------------------
  // (int)
  // ---------------------------------------------------------------------

  function Pow10(n: nat): (r: nat)
    ensures r >= 1
  {
    if n == 0 then 1 else 10 * Pow10(n - 1)
  }

  function Pow2(n: nat): (r: nat)
    ensures r > n
  {
    if n == 0 then 1 else 2 * Pow2(n - 1)
  }

  /**
   * 2^1024 - 2^970: halfway between the largest finite double and 2^1024.
   * A correctly rounded `strtod` turns a decimal of at least this magnitude
   * into an infinity.
   */
  const DoubleOverflow: int := (0x40_0000_0000_0000 - 1) * Pow2(970)

  /** The whitespace PHP allows around a numeric string. */
  predicate IsNumericSpace(c: char)
  {
    c == ' ' || c == '\t' || c == '\n' || c == '\r' || c == '\U{B}' || c == '\U{C}'
  }

  /** The end of the run of decimal digits starting at `p`. */
  function DigitRunEnd(s: string, p: nat): (q: nat)
    requires p <= |s|
    ensures p <= q <= |s|
    ensures forall k :: p <= k < q ==> IsDigit(s[k])
    ensures q == |s| || !IsDigit(s[q])
    decreases |s| - p
  {
    if p < |s| && IsDigit(s[p]) then DigitRunEnd(s, p + 1) else p
  }

  function SpaceRunEnd(s: string, p: nat): (q: nat)
    requires p <= |s|
    ensures p <= q <= |s|
    decreases |s| - p
  {
    if p < |s| && IsNumericSpace(s[p]) then SpaceRunEnd(s, p + 1) else p
  }

  /** `sign * trunc(m * 10^e)` for a mantissa `m` and a decimal exponent `e`. */
  function ScaleTrunc(negative: bool, m: nat, e: int): int
  {
    var mag := if e >= 0 then m * Pow10(e) else m / Pow10(-e);
    if negative then -mag else mag
  }

  /**
   * `(int)` of a string: the leading numeric prefix (after optional
   * whitespace, an optional sign, digits with an optional fraction, and an
   * optional exponent), truncated toward zero; 0 when there is none.
   */
  function StrToInt(s: string): int
  {
    var p0 := SpaceRunEnd(s, 0);
    var negative := p0 < |s| && s[p0] == '-';
    var p1 := if p0 < |s| && (s[p0] == '-' || s[p0] == '+') then p0 + 1 else p0;
    var p2 := DigitRunEnd(s, p1);
    var hasDot := p2 < |s| && s[p2] == '.';
    var p3 := if hasDot then DigitRunEnd(s, p2 + 1) else p2;
    var intDigits := s[p1..p2];
    var fracDigits := if hasDot then s[p2 + 1..p3] else "";
    if |intDigits| + |fracDigits| == 0 then 0
    else
      var e0 := p3 + 1;
      var hasExpSign := p3 < |s| && (s[p3] == 'e' || s[p3] == 'E')
                        && e0 < |s| && (s[e0] == '-' || s[e0] == '+');
      var e1 := if hasExpSign then e0 + 1 else e0;
      var hasExp := p3 < |s| && (s[p3] == 'e' || s[p3] == 'E') && e1 < |s| && IsDigit(s[e1]);
      var exp := if hasExp then
                   (var v: int := ParseDigits(s[e1..DigitRunEnd(s, e1)]); if hasExpSign && s[e0] == '-' then -v else v)
                 else 0;
      DigitSlice(s, p1, p2);
      DigitSlice(s, if hasDot then p2 + 1 else p3, p3);
      AllDigitsConcat(intDigits, fracDigits);
      ScaleTrunc(negative, ParseDigits(intDigits + fracDigits), exp - |fracDigits|)
  }

  /**
   * The integer `(int)` makes of a numeric string whose value truncates to
   * `i`. PHP reads the string as a double when it is not a 64-bit integer.
   * That double is clamped to the 64-bit range, except that an infinity
   * becomes 0.
   */
  function NumericToInt(i: int): (r: int)
    ensures MinInt <= r <= MaxInt
    ensures MinInt <= i <= MaxInt ==> r == i
    ensures MaxInt < i < DoubleOverflow ==> r == MaxInt
    ensures -DoubleOverflow < i < MinInt ==> r == MinInt
    ensures i >= DoubleOverflow || i <= -DoubleOverflow ==> r == 0
  {
    if i >= DoubleOverflow || i <= -DoubleOverflow then 0 else Saturate(i)
  }

  /** A value forced into the 64-bit range: numeric strings saturate when cast. */
  function Saturate(i: int): (r: int)
    ensures MinInt <= r <= MaxInt
    ensures MinInt <= i <= MaxInt ==> r == i
    ensures i > MaxInt ==> r == MaxInt
    ensures i < MinInt ==> r == MinInt
  {
    if i > MaxInt then MaxInt else if i < MinInt then MinInt else i
  }

  /**
   * PHP's `(int)` cast: null, false and empty arrays are 0, true and other
   * arrays 1, an integer itself, and a string its leading number held to
   * the 64-bit range (0 when that number overflows a double).
   */
  function IntCast(v: Value): (r: int)
    ensures v.Int? ==> r == v.i
    ensures v.Null? || v.Bool? || IsArray(v) ==> (r == if Empty(v) then 0 else 1)
    ensures v.Str? ==> MinInt <= r <= MaxInt
    ensures v.Str? && |v.s| > 0 && AllDigits(v.s) ==>
      r == (if ParseDigits(v.s) >= DoubleOverflow then 0
            else if ParseDigits(v.s) > MaxInt then MaxInt
            else ParseDigits(v.s))
  {
    match v
    case Null => 0
    case Bool(b) => if b then 1 else 0
    case Int(i) => i
    case Float(lex) => StrToInt(lex)
    case Str(s) =>
      DigitsCast(s);
      NumericToInt(StrToInt(s))
    case List(items) => if |items| == 0 then 0 else 1
    case Assoc(m) => if |m| == 0 then 0 else 1
  }

  /**
   * PHP's `(string)` cast. A float is rendered by its decimal literal, which
   * differs from PHP's shortest round-trip rendering but, like it, contains
   * only digits, signs, `.` and `e`/`E`.
   */
  function StrCast(v: Value): (r: string)
    ensures v.Str? ==> r == v.s
    ensures IsArray(v) ==> r == "Array"
    ensures v.Null? || v.Bool? ==> (r == "" <==> Empty(v)) && (r != "" ==> r == "1")
    ensures v.Int? && v.i >= 0 ==> |r| > 0 && AllDigits(r) && ParseDigits(r) == v.i
    ensures v.Int? && v.i < 0 ==> |r| >= 2 && r[0] == '-' && AllDigits(r[1..]) && ParseDigits(r[1..]) == -v.i
  {
    match v
    case Null => ""
    case Bool(b) => if b then "1" else ""
    case Int(i) => IntToString(i)
    case Float(lex) => lex
    case Str(s) => s
    case List(_) => "Array"
    case Assoc(_) => "Array"
  }

  lemma DigitSlice(s: string, p: nat, q: nat)
    requires p <= q <= |s|
    requires forall k :: p <= k < q ==> IsDigit(s[k])
    ensures AllDigits(s[p..q])
  {
    assert forall i :: 0 <= i < q - p ==> s[p..q][i] == s[p + i];
  }

  lemma AllDigitsConcat(a: string, b: string)
    requires AllDigits(a) && AllDigits(b)
    ensures AllDigits(a + b)
  {
  }

  lemma StrToIntOfDigits(s: string)
    requires |s| > 0 && AllDigits(s)
    ensures StrToInt(s) == ParseDigits(s)
  {
    assert SpaceRunEnd(s, 0) == 0;
    assert DigitRunEnd(s, 0) == |s| by { DigitRunToEnd(s, 0); }
    assert s[0..|s|] + "" == s;
  }

  lemma {:induction false} DigitRunToEnd(s: string, p: nat)
    requires p <= |s|
    requires forall k :: p <= k < |s| ==> IsDigit(s[k])
    ensures DigitRunEnd(s, p) == |s|
    decreases |s| - p
  {
    if p < |s| {
      DigitRunToEnd(s, p + 1);
    }
  }

  lemma DigitsCast(s: string)
    ensures |s| > 0 && AllDigits(s) ==> StrToInt(s) == ParseDigits(s)
  {
    if |s| > 0 && AllDigits(s) {
      StrToIntOfDigits(s);
    }
  }

  lemma StrToIntOfNegative(d: string)
    requires |d| > 0 && AllDigits(d)
    ensures StrToInt("-" + d) == -(ParseDigits(d) as int)
  {
    var s := "-" + d;
    assert s[0] == '-' && !IsNumericSpace(s[0]);
    assert SpaceRunEnd(s, 0) == 0;
    assert DigitRunEnd(s, 1) == |s| by { DigitRunToEnd(s, 1); }
    assert s[1..|s|] == d;
    assert d + "" == d;
    assert Pow10(0) == 1;
    assert ScaleTrunc(true, ParseDigits(d), 0) == -(ParseDigits(d) as int);
  }

  /** `(int)(string)$i` gives back every 64-bit integer `$i`. */
  lemma {:induction false} IntCastStrCast(i: int)
    requires MinInt <= i <= MaxInt
    ensures IntCast(Str(StrCast(Int(i)))) == i
  {
    var r := StrCast(Int(i));
    if i >= 0 {
      StrToIntOfDigits(r);
    } else {
      assert r == "-" + r[1..];
      StrToIntOfNegative(r[1..]);
    }
  }

  /**
   * `(int)` of the decimal text of a natural number is that number, capped
   * at the largest integer, and 0 past the largest double.
   */
  lemma IntCastOfNatText(n: nat)
    ensures n <= MaxInt ==> IntCast(Str(NatToString(n))) == n
    ensures MaxInt < n < DoubleOverflow ==> IntCast(Str(NatToString(n))) == MaxInt
    ensures n >= DoubleOverflow ==> IntCast(Str(NatToString(n))) == 0
  {
    StrToIntOfDigits(NatToString(n));
    ParseNatToString(n);
  }
}

=== FILE: rate_limiter.dfy ===
/**
 * The fixed-window rate limiter of the read API (`RateLimiter`). Buckets
 * live in WordPress transients; here the transient store is a map from key
 * to the stored value and its time-to-live, and one check is a transition
 * of that map.
 */
module RateLimiter {
  import opened Wrappers
  import opened Text
  import opened Php

  /** A transient: the stored PHP value and the TTL it was written with. */
  datatype Stored = Stored(data: Value, ttl: int)

  type Store = map<string, Stored>

  /** The array `check` returns. */
  datatype Meta = Meta(allowed: bool, limit: int, remaining: int, resetSeconds: int, retryAfterSeconds: int)

  const KeyPrefix: string := "iw8_rl_"

  /** `keyFor`: the prefix and the MD5 hex digest of `route|token`; `md5` is a parameter. */
  function KeyFor(md5: string -> string, route: string, token: string): (k: string)
    ensures StartsWith(k, KeyPrefix)
    ensures k[|KeyPrefix|..] == md5(route + "|" + token)
  {
    KeyPrefix + md5(route + "|" + token)
  }

  /** Two (route, token) pairs with the same `route|token` text share a bucket. */
  lemma KeyForJoined(md5: string -> string, r1: string, t1: string, r2: string, t2: string)
    requires r1 + "|" + t1 == r2 + "|" + t2
    ensures KeyFor(md5, r1, t1) == KeyFor(md5, r2, t2)
  {
  }

  /**
   * What `get_transient($key)` yields: the stored value, or None (PHP
   * `false`) when nothing is stored under the key.
   */
  function Load(store: Store, key: string): (r: Option<Value>)
    ensures r.None? <==> key !in store
    ensures r.Some? ==> r.value == store[key].data
  {
    if key in store then Some(store[key].data) else None
  }

  /** The stored bucket is usable: an array with `count` and `reset_at` set, and not yet expired. */
  predicate Live(data: Option<Value>, now: int)
  {
    data.Some? && IsArray(data.value) && IsSet(data.value, "count") && IsSet(data.value, "reset_at")
    && now < IntCast(Lookup(data.value, "reset_at").value)
  }

  /** The bucket `check` works on: the stored one while live, else a fresh one. */
  function Bucket(data: Option<Value>, now: int, window: int): (b: Value)
    ensures IsArray(b) && IsSet(b, "count") && IsSet(b, "reset_at")
    ensures !Live(data, now) ==> b == Assoc(map["count" := Int(0), "reset_at" := Int(now + window)])
    ensures Live(data, now) ==> b == data.value
  {
    if Live(data, now) then data.value
    else Assoc(map["count" := Int(0), "reset_at" := Int(now + window)])
  }

  function Count(b: Value): int
    requires IsArray(b) && IsSet(b, "count")
  {
    IntCast(Lookup(b, "count").value)
  }

  function ResetAt(b: Value): int
    requires IsArray(b) && IsSet(b, "reset_at")
  {
    IntCast(Lookup(b, "reset_at").value)
  }

  function Max(a: int, b: int): int
  {
    if a >= b then a else b
  }

  /**
   * `$data['count'] = (int)$data['count'] + 1` on a bucket. A list bucket
   * never reaches here (it has no `count` key); on an associative one the
   * other entries are kept.
   */
  function Increment(b: Value): (r: Value)
    requires b.Assoc? && IsSet(b, "count") && IsSet(b, "reset_at")
    ensures r.Assoc? && IsSet(r, "count") && IsSet(r, "reset_at")
    ensures Count(r) == Count(b) + 1 && ResetAt(r) == ResetAt(b)
    ensures r.entries.Keys == b.entries.Keys
  {
    Assoc(b.entries["count" := Int(Count(b) + 1)])
  }

  /**
   * `check($key, $limit, $window)` at time `now`: the returned array and the
   * transient store afterwards.
   */
  function Check(store: Store, key: string, limit: int, window: int, now: int): (r: (Meta, Store))
    ensures var (m, s) := r;
      var b := Bucket(Load(store, key), now, window);
      && m.limit == limit
      && (!m.allowed <==> Count(b) >= limit)
      && (!m.allowed ==> s == store && m.remaining == 0
                         && m.retryAfterSeconds == m.resetSeconds == Max(0, ResetAt(b) - now))
      && (m.allowed ==> key in s && s == store[key := s[key]]
                        && s[key].ttl == m.resetSeconds == Max(1, ResetAt(b) - now)
                        && m.retryAfterSeconds == 0)
  {
    var b := Bucket(Load(store, key), now, window);
    if Count(b) >= limit then
      var retry := Max(0, ResetAt(b) - now);
      (Meta(false, limit, 0, retry, retry), store)
    else
      assert b.Assoc?;
      var b' := Increment(b);
      var ttl := Max(1, ResetAt(b') - now);
      (Meta(true, limit, Max(0, limit - Count(b')), ttl, 0), store[key := Stored(b', ttl)])
  }

  /** An allowed check counts exactly one more request in the same window. */
  lemma AllowedIncrements(store: Store, key: string, limit: int, window: int, now: int)
    ensures var (m, s) := Check(store, key, limit, window, now);
      var b := Bucket(Load(store, key), now, window);
      m.allowed ==> key in s && s[key].data.Assoc? && IsSet(s[key].data, "count")
                    && IsSet(s[key].data, "reset_at") && Count(s[key].data) == Count(b) + 1
                    && ResetAt(s[key].data) == ResetAt(b)
                    && m.remaining == Max(0, limit - Count(s[key].data))
                    && m.resetSeconds >= 1
  {
  }

  /**
   * A check touches only its own bucket, and after an allowed check the next
   * read of that bucket finds it live until its reset time.
   */
  lemma CheckIsolated(store: Store, key: string, limit: int, window: int, now: int)
    ensures var (m, s) := Check(store, key, limit, window, now);
      && (forall k :: k != key ==> Load(s, k) == Load(store, k))
      && (m.allowed ==> forall t :: t < ResetAt(Bucket(Load(store, key), now, window)) ==> Live(Load(s, key), t))
  {
    var (m, s) := Check(store, key, limit, window, now);
    var b := Bucket(Load(store, key), now, window);
    if m.allowed {
      AllowedIncrements(store, key, limit, window, now);
      forall t | t < ResetAt(b) ensures Live(Load(s, key), t) {
        assert Load(s, key) == Some(s[key].data);
      }
    }
  }

  // ---------------------------------------------------------------------
  // A run of checks inside one window
  // ---------------------------------------------------------------------

  /** The verdicts of consecutive checks on one key at the times in `times`. */
  function Run(store: Store, key: string, limit: int, window: int, times: seq<int>): (r: seq<bool>)
    ensures |r| == |times|
    decreases |times|
  {
    if |times| == 0 then []
    else
      var (m, s) := Check(store, key, limit, window, times[0]);
      [m.allowed] + Run(s, key, limit, window, times[1..])
  }

  /** The bucket written by an allowed check: `count` requests so far, reset at `resetAt`. */
  predicate Holds(store: Store, key: string, count: int, resetAt: int)
  {
    key in store && store[key].data.Assoc? && IsSet(store[key].data, "count")
    && IsSet(store[key].data, "reset_at")
    && Count(store[key].data) == count && ResetAt(store[key].data) == resetAt
  }

  /**
   * With a bucket that has counted `count` requests and resets at `resetAt`,
   * checks made before `resetAt` are allowed while the total stays within
   * `limit`, and denied after that.
   */
  lemma {:induction false} RunInWindow(store: Store, key: string, limit: int, window: int,
                                       times: seq<int>, count: nat, resetAt: int)
    requires Holds(store, key, count, resetAt)
    requires forall k :: 0 <= k < |times| ==> times[k] < resetAt
    ensures forall k :: 0 <= k < |times| ==> (Run(store, key, limit, window, times)[k] <==> count + k < limit)
    decreases |times|
  {
    if |times| > 0 {
      var (m, s) := Check(store, key, limit, window, times[0]);
      assert Live(Load(store, key), times[0]);
      if m.allowed {
        RunInWindow(s, key, limit, window, times[1..], count + 1, resetAt);
      } else {
        RunDenied(s, key, limit, window, times[1..], count, resetAt);
      }
    }
  }

  lemma {:induction false} RunDenied(store: Store, key: string, limit: int, window: int,
                                     times: seq<int>, count: nat, resetAt: int)
    requires Holds(store, key, count, resetAt) && count >= limit
    requires forall k :: 0 <= k < |times| ==> times[k] < resetAt
    ensures forall k :: 0 <= k < |times| ==> !Run(store, key, limit, window, times)[k]
    decreases |times|
  {
    if |times| > 0 {
      assert Live(Load(store, key), times[0]);
      RunDenied(store, key, limit, window, times[1..], count, resetAt);
    }
  }

  /**
   * From an empty bucket, exactly the first `limit` checks before the window
   * ends are allowed; every later one in the window is denied.
   */
  lemma {:induction false} FreshWindow(store: Store, key: string, limit: int, window: int, times: seq<int>)
    requires key !in store && |times| > 0
    requires forall k :: 0 <= k < |times| ==> times[0] <= times[k] < times[0] + window
    ensures forall k :: 0 <= k < |times| ==> (Run(store, key, limit, window, times)[k] <==> k < limit)
  {
    var (m, s) := Check(store, key, limit, window, times[0]);
    if m.allowed {
      RunInWindow(s, key, limit, window, times[1..], 1, times[0] + window);
    } else {
      FreshDenied(store, key, limit, window, times);
    }
  }

  /** With a limit of zero or less, an empty bucket denies every check. */
  lemma {:induction false} FreshDenied(store: Store, key: string, limit: int, window: int, times: seq<int>)
    requires key !in store && limit <= 0
    ensures forall k :: 0 <= k < |times| ==> !Run(store, key, limit, window, times)[k]
    decreases |times|
  {
    if |times| > 0 {
      FreshDenied(store, key, limit, window, times[1..]);
    }
  }

  // ---------------------------------------------------------------------
  // applyHeaders
  // ---------------------------------------------------------------------

  /**
   * `applyHeaders`: the rate-limit headers, `Retry-After` (a delay in
   * seconds, section 10.2.3 of RFC 9110) only on a denial, the service
   * version when it is defined, and `X-Cursor-Semantics`.
   */
  function ApplyHeaders(headers: map<string, string>, m: Meta, version: Option<string>): (r: map<string, string>)
    ensures "X-RateLimit-Limit" in r && r["X-RateLimit-Limit"] == IntToString(m.limit)
    ensures "X-RateLimit-Remaining" in r && r["X-RateLimit-Remaining"] == IntToString(m.remaining)
    ensures "X-RateLimit-Reset" in r && r["X-RateLimit-Reset"] == IntToString(m.resetSeconds)
    ensures "X-Cursor-Semantics" in r && r["X-Cursor-Semantics"] == "forward_only"
    ensures !m.allowed ==> "Retry-After" in r && r["Retry-After"] == IntToString(m.retryAfterSeconds)
    ensures m.allowed ==> ("Retry-After" in r <==> "Retry-After" in headers)
    ensures forall h :: h in headers ==> h in r
  {
    var h1 := headers["X-RateLimit-Limit" := IntToString(m.limit)]
                     ["X-RateLimit-Remaining" := IntToString(m.remaining)]
                     ["X-RateLimit-Reset" := IntToString(m.resetSeconds)];
    var h2 := if !m.allowed then h1["Retry-After" := IntToString(m.retryAfterSeconds)] else h1;
    var h3 := if version.Some? then h2["X-Service-Version" := version.value] else h2;
    h3["X-Cursor-Semantics" := "forward_only"]
  }

  /** On a denial `Retry-After` is a non-negative number of seconds, all digits. */
  lemma DeniedRetryAfter(store: Store, key: string, limit: int, window: int, now: int,
                         headers: map<string, string>, version: Option<string>)
    ensures var (m, _) := Check(store, key, limit, window, now);
      !m.allowed ==> AllDigits(ApplyHeaders(headers, m, version)["Retry-After"])
  {
  }
}

=== FILE: request_validator.dfy ===
/**
 * The read API's request validation (`RequestValidator`): the page size, the
 * lenient field list, the choice between cursor and range mode with the
 * seven-day default window, and the two strict checks the build controller
 * applies afterwards (`validateFields`, `validateIsoUtc`).
 *
 * Request parameters are the values `get_param` returns: absent parameters
 * read as `Null`. The clock is a parameter.
 */
module RequestValidator {
  import opened Wrappers
  import opened Text
  import opened Php
  import Time
  import Limits

  /** The fields the read API can return, in their canonical order. */
  const AllowedFields: seq<string> :=
    ["id", "clicked_at", "url", "page_url", "element_tag", "element_text",
     "user_agent", "user_id", "geo_city", "geo_region"]

  /** `$request->get_param($key)`. */
  function Param(params: map<string, Value>, key: string): (v: Value)
    ensures key !in params ==> v.Null?
    ensures key in params ==> v == params[key]
  {
    if key in params then params[key] else Null
  }

  // ---------------------------------------------------------------------
  // is_numeric
  // ---------------------------------------------------------------------

  /**
   * PHP 8 `is_numeric` on a string: optional surrounding whitespace, an
   * optional sign, digits with an optional fraction (at least one digit in
   * all), and an optional exponent that must carry digits.
   */
  predicate IsNumericString(s: string)
  {
    var p0 := SpaceRunEnd(s, 0);
    var p1 := if p0 < |s| && (s[p0] == '-' || s[p0] == '+') then p0 + 1 else p0;
    var p2 := DigitRunEnd(s, p1);
    var hasDot := p2 < |s| && s[p2] == '.';
    var p3 := if hasDot then DigitRunEnd(s, p2 + 1) else p2;
    var mantissa := (p2 - p1) + (if hasDot then p3 - (p2 + 1) else 0);
    var hasExp := p3 < |s| && (s[p3] == 'e' || s[p3] == 'E');
    var e1 := if hasExp && p3 + 1 < |s| && (s[p3 + 1] == '-' || s[p3 + 1] == '+') then p3 + 2 else p3 + 1;
    var p4 := if hasExp && e1 <= |s| then DigitRunEnd(s, e1) else p3;
    mantissa > 0
    && (hasExp ==> e1 < p4)
    && SpaceRunEnd(s, p4) == |s|
  }

  /** `is_numeric($v)`: numbers, and strings of numeric form. */
  predicate IsNumeric(v: Value)
  {
    match v
    case Int(_) => true
    case Float(_) => true
    case Str(s) => IsNumericString(s)
    case _ => false
  }

  /** A run of decimal digits is numeric, and `(int)` reads it back. */
  lemma DigitsAreNumeric(s: string)
    requires |s| > 0 && AllDigits(s)
    ensures IsNumericString(s)
    ensures IntCast(Str(s)) == NumericToInt(ParseDigits(s))
  {
    assert SpaceRunEnd(s, 0) == 0;
    DigitRunToEnd(s, 0);
    StrToIntOfDigits(s);
  }

  // ---------------------------------------------------------------------
  // limit
  // ---------------------------------------------------------------------

  const NonNumericLimit: WpError :=
    WpError("invalid_limit", "Parâmetro \"limit\" inválido (não numérico).", 400)

  const LimitOutOfRange: WpError :=
    WpError("invalid_limit", "O parâmetro \"limit\" deve estar entre 1 e " + NatToString(Limits.MaxPageSize) + ".", 400)

  /** The page size asked for, or an `invalid_limit` error. */
  function ValidateLimit(raw: Value): (r: Result<int, WpError>)
    ensures raw.Null? || raw == Str("") ==> r == Ok(Limits.DefaultPageSize)
    ensures r.Ok? ==> 1 <= r.value <= Limits.MaxPageSize
    ensures r.Err? <==> !(raw.Null? || raw == Str(""))
                        && (!IsNumeric(raw) || !(1 <= IntCast(raw) <= Limits.MaxPageSize))
    ensures r.Err? ==> r.error.code == "invalid_limit" && r.error.status == 400
    ensures r.Ok? && !(raw.Null? || raw == Str("")) ==> r.value == IntCast(raw)
  {
    if raw.Null? || raw == Str("") then Ok(Limits.DefaultPageSize)
    else if !IsNumeric(raw) then Err(NonNumericLimit)
    else
      var limit := IntCast(raw);
      if limit < 1 || limit > Limits.MaxPageSize then Err(LimitOutOfRange) else Ok(limit)
  }

  /** Every page size from 1 to the maximum, sent as its decimal text, is accepted as is. */
  lemma {:induction false} DecimalLimitAccepted(n: nat)
    requires 1 <= n <= Limits.MaxPageSize
    ensures ValidateLimit(Str(NatToString(n))) == Ok(n)
  {
    DigitsAreNumeric(NatToString(n));
    ParseNatToString(n);
  }

  /** Text that is not a number is refused, whatever it looks like. */
  lemma NonNumericRefused(s: string)
    requires s != "" && !IsNumericString(s)
    ensures ValidateLimit(Str(s)) == Err(NonNumericLimit)
  {
  }

  // ---------------------------------------------------------------------
  // Splitting a comma-separated list
  // ---------------------------------------------------------------------

  /** Each piece trimmed. */
  function TrimEach(pieces: seq<string>): (ts: seq<string>)
    ensures |ts| == |pieces|
    ensures forall k :: 0 <= k < |pieces| ==> ts[k] == Trim(pieces[k])
  {
    if |pieces| == 0 then [] else [Trim(pieces[0])] + TrimEach(pieces[1..])
  }

  /** The non-empty entries, in order. */
  function NonBlank(ts: seq<string>): (ps: seq<string>)
    ensures |ps| <= |ts|
    ensures forall x :: x in ps <==> x in ts && x != ""
  {
    if |ts| == 0 then []
    else
      var rest := NonBlank(ts[1..]);
      assert forall x :: x in ts <==> x == ts[0] || x in ts[1..];
      if ts[0] == "" then rest else [ts[0]] + rest
  }

  /** The trimmed, non-blank pieces of `explode(',', csv)`, in order. */
  function Parts(csv: string): (ps: seq<string>)
    ensures forall x :: x in ps <==> x in TrimEach(Split(csv, ',')) && x != ""
  {
    NonBlank(TrimEach(Split(csv, ',')))
  }

  /** `array_values(array_intersect($parts, $allowed))`: order and repeats of `parts` kept. */
  function Intersect(parts: seq<string>, allowed: seq<string>): (r: seq<string>)
    ensures |r| <= |parts|
    ensures forall x :: x in r <==> x in parts && x in allowed
    ensures |r| == 0 <==> forall k :: 0 <= k < |parts| ==> parts[k] !in allowed
  {
    if |parts| == 0 then []
    else
      var rest := Intersect(parts[1..], allowed);
      assert forall x :: x in parts <==> x == parts[0] || x in parts[1..];
      if parts[0] in allowed then [parts[0]] + rest else rest
  }

  // ---------------------------------------------------------------------
  // Lenient fields
  // ---------------------------------------------------------------------

  /**
   * The lenient field list of `validate` for the trimmed `fields` text: the
   * requested names that are allowed, in request order, or the whole
   * allow-list when none survives.
   */
  function FieldsOf(csv: string, allowed: seq<string>): (fields: seq<string>)
    ensures |allowed| > 0 ==> |fields| > 0
    ensures forall f :: f in fields ==> f in allowed
  {
    if csv == "" then allowed
    else
      var kept := Intersect(Parts(csv), allowed);
      if |kept| == 0 then allowed else kept
  }

  function LenientFields(param: Value): (fields: seq<string>)
    ensures |fields| > 0
    ensures forall f :: f in fields ==> f in AllowedFields
  {
    FieldsOf(Trim(StrCast(param)), AllowedFields)
  }

  /** Every allowed name the request lists is kept. */
  lemma LenientFieldsKeepRequested(csv: string, allowed: seq<string>)
    ensures forall x :: x in allowed && x in Parts(csv) ==> x in FieldsOf(csv, allowed)
  {
    if csv == "" {
      PartsOfBlank();
    }
  }

  /** When any requested name is allowed, nothing unrequested is added. */
  lemma LenientFieldsOnlyRequested(csv: string, allowed: seq<string>, x: string)
    requires x in allowed && x in Parts(csv)
    ensures forall f :: f in FieldsOf(csv, allowed) ==> f in Parts(csv)
  {
    if csv == "" {
      PartsOfBlank();
    } else {
      assert x in Intersect(Parts(csv), allowed);
    }
  }

  /** No parameter, or nothing allowed in it, means all fields. */
  lemma LenientFieldsDefault(csv: string, allowed: seq<string>)
    requires forall x :: x in Parts(csv) ==> x !in allowed
    ensures FieldsOf(csv, allowed) == allowed
  {
  }

  // ---------------------------------------------------------------------
  // Cursor or range
  // ---------------------------------------------------------------------

  /**
   * The raw cursor: the trimmed `cursor` when it is a non-blank string;
   * otherwise `next_cursor` (trimmed when a string) when it is not empty();
   * otherwise "".
   */
  function CursorRaw(cursor: Value, alias: Value): (r: Value)
    ensures cursor.Str? && Trim(cursor.s) != "" ==> r == Str(Trim(cursor.s))
    ensures !(cursor.Str? && Trim(cursor.s) != "") ==>
      var a := if alias.Str? then Str(Trim(alias.s)) else alias;
      r == if Empty(a) then Str("") else a
  {
    var c := if cursor.Str? then Trim(cursor.s) else "";
    if c != "" then Str(c)
    else
      var a := if alias.Str? then Str(Trim(alias.s)) else alias;
      if !Empty(a) then a else Str("")
  }

  /** The two modes `validate` can choose. */
  datatype Mode =
    | CursorMode(raw: Value)
    | RangeMode(since: Time.DateTime, until: Time.DateTime)

  /** A successful `validate`: the page size, the lenient fields and the mode. */
  datatype Validated = Validated(limit: int, fields: seq<string>, mode: Mode)
  {
    predicate UsingCursor() { mode.CursorMode? }
  }

  /**
   * `readIsoOrNull`: the trimmed text parsed strictly as `Y-m-d\TH:i:s\Z`,
   * or nothing.
   */
  function ReadIsoOrNull(s: Value): (r: Option<Time.DateTime>)
    ensures r == Time.ParseIso(Trim(StrCast(s)))
    ensures r.Some? ==> Time.Valid(r.value) && Time.FourDigitYear(r.value)
    ensures r.Some? ==> Time.FormatIso(r.value) == Trim(StrCast(s))
  {
    var t := Trim(StrCast(s));
    if t == "" then None
    else
      var d := Time.ParseIso(t);
      if d.Some? then Time.FormatParseIso(t); d else None
  }

  /** Range mode: `until` defaults to now, `since` to seven days before `until`. */
  function RangeOf(sinceParam: Value, untilParam: Value, now: Time.DateTime): (m: Mode)
    requires Time.Valid(now)
    ensures m.RangeMode? && Time.Valid(m.since) && Time.Valid(m.until)
    ensures ReadIsoOrNull(untilParam).None? ==> m.until == now
    ensures ReadIsoOrNull(untilParam).Some? ==> Time.FormatIso(m.until) == Trim(StrCast(untilParam))
    ensures ReadIsoOrNull(sinceParam).None? ==> m.since == Time.MinusDays(m.until, 7)
    ensures ReadIsoOrNull(sinceParam).Some? ==> Time.FormatIso(m.since) == Trim(StrCast(sinceParam))
  {
    var until := ReadIsoOrNull(untilParam).GetOr(now);
    var since := ReadIsoOrNull(sinceParam).GetOr(Time.MinusDays(until, 7));
    RangeMode(since, until)
  }

  /** The six parameters `validate` reads. */
  datatype Params = Params(limit: Value, fields: Value, cursor: Value, nextCursor: Value,
                           since: Value, until: Value)

  /** `$request->get_param(...)` for each of the six names. */
  function ReadParams(params: map<string, Value>): (p: Params)
    ensures p.limit == Param(params, "limit") && p.fields == Param(params, "fields")
    ensures p.cursor == Param(params, "cursor") && p.nextCursor == Param(params, "next_cursor")
    ensures p.since == Param(params, "since") && p.until == Param(params, "until")
  {
    Params(Param(params, "limit"), Param(params, "fields"), Param(params, "cursor"),
           Param(params, "next_cursor"), Param(params, "since"), Param(params, "until"))
  }

  /** `validate`: the limit error, or the page size, fields and mode. */
  function Validate(p: Params, now: Time.DateTime): (r: Result<Validated, WpError>)
    requires Time.Valid(now)
    ensures r.Err? <==> ValidateLimit(p.limit).Err?
    ensures r.Err? ==> r.error == ValidateLimit(p.limit).error
    ensures r.Ok? ==> r.value.limit == ValidateLimit(p.limit).value
    ensures r.Ok? ==> r.value.fields == LenientFields(p.fields)
    ensures r.Ok? ==> (r.value.UsingCursor() <==> CursorRaw(p.cursor, p.nextCursor) != Str(""))
    ensures r.Ok? && r.value.UsingCursor() ==> r.value.mode.raw == CursorRaw(p.cursor, p.nextCursor)
    ensures r.Ok? && !r.value.UsingCursor() ==> r.value.mode == RangeOf(p.since, p.until, now)
  {
    var limit := ValidateLimit(p.limit);
    if limit.Err? then Err(limit.error)
    else
      var fields := LenientFields(p.fields);
      var raw := CursorRaw(p.cursor, p.nextCursor);
      if raw != Str("") then Ok(Validated(limit.value, fields, CursorMode(raw)))
      else Ok(Validated(limit.value, fields, RangeOf(p.since, p.until, now)))
  }

  /** `effective_since` / `effective_until`: null in cursor mode, the ISO text in range mode. */
  function EffectiveSince(v: Validated): (r: Option<string>)
    requires v.mode.RangeMode? ==> Time.Valid(v.mode.since)
    ensures r.None? <==> v.UsingCursor()
  {
    if v.mode.RangeMode? then Some(Time.FormatIso(v.mode.since)) else None
  }

  function EffectiveUntil(v: Validated): (r: Option<string>)
    requires v.mode.RangeMode? ==> Time.Valid(v.mode.until)
    ensures r.None? <==> v.UsingCursor()
  {
    if v.mode.RangeMode? then Some(Time.FormatIso(v.mode.until)) else None
  }

  /**
   * The range window: a well-formed `until` is echoed exactly, anything else
   * means now; a well-formed `since` is echoed exactly, anything else means
   * seven days before `until`.
   */
  lemma RangeWindow(p: Params, now: Time.DateTime)
    requires Time.Valid(now)
    requires Validate(p, now).Ok? && !Validate(p, now).value.UsingCursor()
    ensures var v := Validate(p, now).value;
      var u := Trim(StrCast(p.until));
      var s := Trim(StrCast(p.since));
      && (Time.ParseIso(u).Some? ==> EffectiveUntil(v) == Some(u))
      && (Time.ParseIso(u).None? ==> EffectiveUntil(v) == Some(Time.FormatIso(now)))
      && (Time.ParseIso(s).Some? ==> EffectiveSince(v) == Some(s))
      && (Time.ParseIso(s).None? ==> v.mode.since == Time.MinusDays(v.mode.until, 7))
  {
    var v := Validate(p, now).value;
    var m := RangeOf(p.since, p.until, now);
    assert v.mode == m;
    assert EffectiveUntil(v) == Some(Time.FormatIso(m.until));
    assert EffectiveSince(v) == Some(Time.FormatIso(m.since));
  }

  /** With neither bound given, the window is the seven days up to now, and since is before until. */
  lemma DefaultWindow(sinceParam: Value, untilParam: Value, now: Time.DateTime)
    requires Time.Valid(now)
    requires Time.ParseIso(Trim(StrCast(untilParam))).None?
    requires Time.ParseIso(Trim(StrCast(sinceParam))).None?
    ensures var m := RangeOf(sinceParam, untilParam, now);
      m == RangeMode(Time.MinusDays(now, 7), now) && Time.Before(m.since, m.until)
  {
  }

  /** The raw cursor is never null: a null `next_cursor` is empty() and reads as "". */
  lemma CursorRawNotNull(cursor: Value, alias: Value)
    ensures CursorRaw(cursor, alias) != Null
  {
  }

  /** A blank `cursor` defers to `next_cursor`; a non-blank one wins over it. */
  lemma CursorPrecedence(cursor: Value, alias: Value)
    ensures cursor.Str? && Trim(cursor.s) != "" ==> CursorRaw(cursor, alias) == Str(Trim(cursor.s))
    ensures !cursor.Str? && alias.Str? && !PhpEmptyString(Trim(alias.s)) ==>
      CursorRaw(cursor, alias) == Str(Trim(alias.s))
    ensures alias.Str? && PhpEmptyString(Trim(alias.s)) && !(cursor.Str? && Trim(cursor.s) != "") ==>
      CursorRaw(cursor, alias) == Str("")
  {
  }

  // ---------------------------------------------------------------------
  // validateFields
  // ---------------------------------------------------------------------

  /** Input aliases: `created_at` is reported as `clicked_at`. */
  function Canonical(name: string): (r: string)
    ensures name != "created_at" ==> r == name
  {
    if name == "created_at" then "clicked_at" else name
  }

  function Normalize(parts: seq<string>): (r: seq<string>)
    ensures |r| == |parts|
    ensures forall k :: 0 <= k < |parts| ==> r[k] == Canonical(Lower(parts[k]))
  {
    if |parts| == 0 then [] else [Canonical(Lower(parts[0]))] + Normalize(parts[1..])
  }

  /** `array_values(array_diff($names, $allowed))`: the names not allowed, in order. */
  function Outside(names: seq<string>, allowed: seq<string>): (r: seq<string>)
    ensures |r| <= |names|
    ensures forall x :: x in r <==> x in names && x !in allowed
  {
    if |names| == 0 then []
    else
      var rest := Outside(names[1..], allowed);
      assert forall x :: x in names <==> x == names[0] || x in names[1..];
      if names[0] in allowed then rest else [names[0]] + rest
  }

  /** `implode(sep, parts)`. */
  function Implode(parts: seq<string>, sep: string): string
  {
    if |parts| == 0 then ""
    else if |parts| == 1 then parts[0]
    else parts[0] + sep + Implode(parts[1..], sep)
  }

  predicate NoDuplicates(xs: seq<string>)
  {
    forall i, j :: 0 <= i < j < |xs| ==> xs[i] != xs[j]
  }

  /** The position of the first occurrence of `x`. */
  function FirstIndex(xs: seq<string>, x: string): (k: nat)
    requires x in xs
    ensures k < |xs| && xs[k] == x
    ensures forall j :: 0 <= j < k ==> xs[j] != x
  {
    if xs[0] == x then 0 else 1 + FirstIndex(xs[1..], x)
  }

  lemma {:induction false} FirstIndexPrefix(xs: seq<string>, y: string, x: string)
    requires x in xs
    ensures FirstIndex(xs + [y], x) == FirstIndex(xs, x)
  {
    var k := FirstIndex(xs, x);
    var k' := FirstIndex(xs + [y], x);
    assert (xs + [y])[k] == x;
    assert k' <= k;
    assert xs[k'] == x;
  }

  /** `r` lists names of `xs` in the order of their first occurrence in `xs`. */
  predicate InFirstOrder(xs: seq<string>, r: seq<string>)
  {
    forall i, j :: 0 <= i < j < |r| ==> r[i] in xs && r[j] in xs && FirstIndex(xs, r[i]) < FirstIndex(xs, r[j])
  }

  /** The names in order of first occurrence, each once. */
  function Dedupe(xs: seq<string>): (r: seq<string>)
    ensures NoDuplicates(r)
    ensures forall x :: x in r <==> x in xs
    ensures InFirstOrder(xs, r)
    decreases |xs|
  {
    if |xs| == 0 then []
    else
      var init := xs[..|xs| - 1];
      var last := xs[|xs| - 1];
      assert xs == init + [last];
      var r := Dedupe(init);
      DedupeStep(init, last, r);
      if last in r then r else r + [last]
  }

  /** One step of the `in_array` loop keeps the three properties. */
  lemma DedupeStep(init: seq<string>, last: string, r: seq<string>)
    requires NoDuplicates(r) && (forall x :: x in r <==> x in init) && InFirstOrder(init, r)
    ensures var r' := if last in r then r else r + [last];
      && NoDuplicates(r')
      && (forall x :: x in r' <==> x in init + [last])
      && InFirstOrder(init + [last], r')
  {
    FirstIndexKept(init, last, r);
    if last !in r {
      DedupeAppend(init, last, r);
    }
  }

  /** Appending an element does not move the first occurrences of the earlier ones. */
  lemma FirstIndexKept(init: seq<string>, last: string, r: seq<string>)
    requires forall x :: x in r ==> x in init
    requires InFirstOrder(init, r)
    ensures InFirstOrder(init + [last], r)
    ensures forall x :: x in r ==> FirstIndex(init + [last], x) == FirstIndex(init, x)
  {
    forall x | x in init
      ensures FirstIndex(init + [last], x) == FirstIndex(init, x)
    {
      FirstIndexPrefix(init, last, x);
    }
  }

  lemma DedupeAppend(init: seq<string>, last: string, r: seq<string>)
    requires last !in r && NoDuplicates(r) && (forall x :: x in r <==> x in init)
    requires InFirstOrder(init + [last], r)
    requires forall x :: x in r ==> FirstIndex(init + [last], x) == FirstIndex(init, x)
    ensures NoDuplicates(r + [last])
    ensures InFirstOrder(init + [last], r + [last])
  {
    var xs := init + [last];
    var r' := r + [last];
    assert last !in init;
    assert FirstIndex(xs, last) == |init|;
    forall i, j | 0 <= i < j < |r'|
      ensures r'[i] in xs && r'[j] in xs && FirstIndex(xs, r'[i]) < FirstIndex(xs, r'[j])
    {
      if j == |r| {
        assert r'[i] == r[i];
        assert FirstIndex(xs, r[i]) == FirstIndex(init, r[i]);
      } else {
        assert r'[i] == r[i] && r'[j] == r[j];
      }
    }
  }

  const BadFieldsPrefix: string := "Campos inválidos em \"fields\": "

  /**
   * `validateFields`: [] when nothing is asked for (the caller then uses its
   * defaults); `invalid_fields` naming every requested name outside
   * `allowed`; otherwise the canonical names, each once.
   */
  function ValidateFields(csv: Value, allowed: seq<string>): (r: Result<seq<string>, WpError>)
    ensures r.Err? ==> r.error.code == "invalid_fields" && r.error.status == 400
    ensures r.Err? <==> |Outside(Requested(csv), allowed)| > 0
    ensures r.Err? ==> r.error.message == BadFieldsPrefix + Implode(Outside(Requested(csv), allowed), ", ")
    ensures r.Ok? ==> r.value == Dedupe(Requested(csv))
  {
    PartsOfBlank();
    var text := if csv.Str? then Trim(csv.s) else "";
    if text == "" then Ok([])
    else
      var parts := Parts(text);
      if |parts| == 0 then Ok([])
      else
        var names := Normalize(parts);
        var invalid := Outside(names, allowed);
        if |invalid| > 0 then Err(WpError("invalid_fields", BadFieldsPrefix + Implode(invalid, ", "), 400))
        else Ok(Dedupe(names))
  }

  /** The canonical names of what was asked for. */
  function Requested(csv: Value): (names: seq<string>)
  {
    Normalize(Parts(if csv.Str? then Trim(csv.s) else ""))
  }

  lemma PartsOfBlank()
    ensures Parts("") == []
  {
    assert Split("", ',') == [""];
  }

  /**
   * The strict field check refuses exactly the requests naming something
   * outside the allow-list, and reports every such name.
   */
  lemma FieldsRefusedIffUnknown(csv: Value, allowed: seq<string>)
    ensures var names := Requested(csv);
      && (ValidateFields(csv, allowed).Err? <==> exists x :: x in names && x !in allowed)
      && (ValidateFields(csv, allowed).Err? ==>
            ValidateFields(csv, allowed).error.message == BadFieldsPrefix + Implode(Outside(names, allowed), ", "))
  {
    var bad := Outside(Requested(csv), allowed);
    if |bad| > 0 {
      assert bad[0] in bad;
    }
  }

  /** An accepted field list names each requested field once, in order of first request. */
  lemma FieldsAcceptedOnce(csv: Value, allowed: seq<string>)
    requires ValidateFields(csv, allowed).Ok?
    ensures var names := Requested(csv);
      var fs := ValidateFields(csv, allowed).value;
      && NoDuplicates(fs)
      && (forall x :: x in fs <==> x in names)
      && (forall f :: f in fs ==> f in allowed)
      && (forall i, j :: 0 <= i < j < |fs| ==> FirstIndex(names, fs[i]) < FirstIndex(names, fs[j]))
  {
    var names := Requested(csv);
    assert |Outside(names, allowed)| == 0;
  }

  /** Blank or non-string input means "use the defaults". */
  lemma BlankFieldsMeanDefaults(csv: Value, allowed: seq<string>)
    requires !csv.Str? || Trim(csv.s) == ""
    ensures ValidateFields(csv, allowed) == Ok([])
  {
  }

  /** A lone `created_at`, in any letter case, is accepted as `clicked_at`. */
  lemma CreatedAtIsClickedAt(name: string, allowed: seq<string>)
    requires "clicked_at" in allowed
    requires ',' !in name && Trim(name) == name && Lower(name) == "created_at"
    ensures ValidateFields(Str(name), allowed) == Ok(["clicked_at"])
  {
    SplitNoSep(name, ',');
    assert TrimEach([name]) == [name];
    assert Parts(name) == [name];
    assert Normalize([name]) == ["clicked_at"];
    assert Dedupe(["clicked_at"]) == ["clicked_at"];
  }

  // ---------------------------------------------------------------------
  // validateIsoUtc
  // ---------------------------------------------------------------------

  function BadDateTime(paramName: string, value: Value): WpError
  {
    WpError("invalid_datetime",
            "Parâmetro " + paramName + " inválido. Use ISO-8601 UTC, ex.: 2025-08-29T23:59:59Z (valor: "
              + StrCast(value) + ")", 400)
  }

  /** A date alone stands for midnight of that day. */
  function Expand(v: string): (r: string)
    ensures Time.IsDateShape(v) ==> r == v + "T00:00:00Z"
    ensures !Time.IsDateShape(v) ==> r == v
  {
    if Time.IsDateShape(v) then v + "T00:00:00Z" else v
  }

  /**
   * The instant a `since`/`until` parameter names: nothing when blank, an
   * `invalid_datetime` error when it is neither `YYYY-MM-DD` nor
   * `YYYY-MM-DDTHH:MM:SSZ` spelling a real instant.
   */
  function ParseIsoUtc(value: Value, paramName: string): (r: Result<Option<Time.DateTime>, WpError>)
    ensures Trim(StrCast(value)) == "" ==> r == Ok(None)
    ensures r.Err? <==> Trim(StrCast(value)) != "" && Time.ParseIso(Expand(Trim(StrCast(value)))).None?
    ensures r.Err? ==> r.error == BadDateTime(paramName, value)
    ensures r.Ok? && r.value.Some? ==> Some(r.value.value) == Time.ParseIso(Expand(Trim(StrCast(value))))
    ensures r.Ok? && r.value.None? ==> Trim(StrCast(value)) == ""
  {
    if value.Null? || Trim(StrCast(value)) == "" then Ok(None)
    else
      var v := Expand(Trim(StrCast(value)));
      match Time.ParseIso(v)
      case None => Err(BadDateTime(paramName, value))
      case Some(d) => Ok(Some(d))
  }

  /** `validateIsoUtc`: the instant rendered `Y-m-d H:i:s`, nothing, or the error. */
  function ValidateIsoUtc(value: Value, paramName: string): (r: Result<Option<string>, WpError>)
    ensures r.Err? <==> ParseIsoUtc(value, paramName).Err?
    ensures r.Err? ==> r.error.code == "invalid_datetime" && r.error.status == 400
    ensures r.Ok? ==> (r.value.Some? <==> ParseIsoUtc(value, paramName).value.Some?)
    ensures r.Ok? && r.value.Some? ==> r.value.value == Time.FormatSql(ParseIsoUtc(value, paramName).value.value)
  {
    var d :- ParseIsoUtc(value, paramName);
    Ok(if d.Some? then Some(Time.FormatSql(d.value)) else None)
  }

  /**
   * Whatever accepted text a parameter carries (a bare date, padding around
   * it), the SQL text keeps its own digits: the expanded ISO text with the
   * `T` a space and the `Z` dropped.
   */
  lemma ValidateIsoUtcText(value: Value, paramName: string)
    requires ValidateIsoUtc(value, paramName).Ok? && ValidateIsoUtc(value, paramName).value.Some?
    ensures var t := Expand(Trim(StrCast(value)));
            ValidateIsoUtc(value, paramName).value.value == t[..10] + " " + t[11..19]
  {
    var t := Expand(Trim(StrCast(value)));
    var d := Time.ParseIso(t).value;
    Time.FormatParseIso(t);
    Time.SqlOfIso(d);
  }

  /** An ISO timestamp the API itself prints is accepted and names the same instant. */
  lemma IsoTimestampAccepted(d: Time.DateTime, paramName: string)
    requires Time.Valid(d) && Time.FourDigitYear(d)
    ensures ParseIsoUtc(Str(Time.FormatIso(d)), paramName) == Ok(Some(d))
  {
    var s := Time.FormatIso(d);
    IsoTextTrimmed(d);
    assert Expand(s) == s;
    Time.ParseFormatIso(d);
  }

  lemma IsoTextTrimmed(d: Time.DateTime)
    requires Time.Valid(d) && Time.FourDigitYear(d)
    ensures Trim(StrCast(Str(Time.FormatIso(d)))) == Time.FormatIso(d)
    ensures !Time.IsDateShape(Time.FormatIso(d))
  {
    Time.FormatIsoShape(d);
    TrimOfTrimmed(Time.FormatIso(d));
  }

  /** ... and `validateIsoUtc` renders it for SQL. */
  lemma IsoTimestampRendered(d: Time.DateTime, paramName: string)
    requires Time.Valid(d) && Time.FourDigitYear(d)
    ensures ValidateIsoUtc(Str(Time.FormatIso(d)), paramName) == Ok(Some(Time.FormatSql(d)))
  {
    IsoTimestampAccepted(d, paramName);
  }

  /** The date of a midnight timestamp, given alone, names that midnight. */
  lemma DateAloneIsMidnight(d: Time.DateTime, paramName: string)
    requires Time.Valid(d) && Time.FourDigitYear(d)
    requires d.hour == 0 && d.minute == 0 && d.second == 0
    ensures ParseIsoUtc(Str(Time.FormatIso(d)[..10]), paramName) == Ok(Some(d))
  {
    MidnightText(d);
    Time.ParseFormatIso(d);
    DateParsed(Time.FormatIso(d)[..10], Time.FormatIso(d), d, paramName);
  }

  lemma DateParsed(date: string, full: string, d: Time.DateTime, paramName: string)
    requires Time.IsDateShape(date) && full == date + "T00:00:00Z" && Time.ParseIso(full) == Some(d)
    ensures ParseIsoUtc(Str(date), paramName) == Ok(Some(d))
  {
    DateShapeTrimmed(date);
    ParseIsoUtcOf(Str(date), paramName, date, d);
  }

  /** The instant a non-blank parameter names, from its expanded text. */
  lemma ParseIsoUtcOf(value: Value, paramName: string, t: string, d: Time.DateTime)
    requires Trim(StrCast(value)) == t && t != "" && Time.ParseIso(Expand(t)) == Some(d)
    ensures ParseIsoUtc(value, paramName) == Ok(Some(d))
  {
  }

  lemma DateShapeTrimmed(date: string)
    requires Time.IsDateShape(date)
    ensures Trim(StrCast(Str(date))) == date
  {
    TrimOfTrimmed(date);
  }

  /** A midnight timestamp is its date followed by `T00:00:00Z`. */
  lemma MidnightText(d: Time.DateTime)
    requires Time.Valid(d) && Time.FourDigitYear(d)
    requires d.hour == 0 && d.minute == 0 && d.second == 0
    ensures Time.IsDateShape(Time.FormatIso(d)[..10])
    ensures Time.FormatIso(d) == Time.FormatIso(d)[..10] + "T00:00:00Z"
  {
    var date := Time.YearText(d.year) + "-" + Time.Pad2(d.month) + "-" + Time.Pad2(d.day);
    assert Time.Pad2(0) == "00";
    assert Time.FormatIso(d) == date + "T00:00:00Z";
    assert Time.FormatIso(d)[..10] == date;
  }
}

=== FILE: rest_click_repository.dfy ===
/**
 * The read API's repository (`Repositories\ClickRepository`): the selected
 * columns, the two keyset queries (a `clicked_at` window, and "strictly
 * after a cursor"), their `(clicked_at, id)` order and `LIMIT`, the
 * projection of each row onto the requested fields, and the key of the last
 * row that the next cursor is built from.
 *
 * The clicks table is a sequence of rows, absent when the table does not
 * exist. The SQL engine is modelled by its answer: the matching rows in key
 * order, cut at the limit.
 */
module RestClickRepository {
  import opened Wrappers
  import opened Php
  import Time
  import RV = RequestValidator

  /** `allSelectableFields`: the same ten names, in the same order, as the validator's allow-list. */
  const AllSelectable: seq<string> := RV.AllowedFields

  /** A stored click: its primary key, its `DATETIME` stamp (UTC) and the other columns. */
  datatype Row = Row(id: int, clickedAt: Time.DateTime, columns: map<string, Value>)

  /**
   * What the column types guarantee of a stored row: a `DATETIME` is a real
   * instant with a four-digit year, and the auto-increment id is a positive
   * 64-bit integer.
   */
  predicate RowStored(r: Row)
  {
    Time.Valid(r.clickedAt) && Time.FourDigitYear(r.clickedAt) && 0 < r.id <= MaxInt
  }

  predicate Stored(rows: seq<Row>)
  {
    forall k :: 0 <= k < |rows| ==> RowStored(rows[k])
  }

  // ---------------------------------------------------------------------
  // The (clicked_at, id) order
  // ---------------------------------------------------------------------

  datatype Key = Key(t: Time.DateTime, i: int)

  /** A key read off a stored row. */
  predicate KeyStored(k: Key)
  {
    Time.Valid(k.t) && Time.FourDigitYear(k.t) && 0 < k.i <= MaxInt
  }

  function KeyOf(r: Row): Key
  {
    Key(r.clickedAt, r.id)
  }

  /** Lexicographic order on `(clicked_at, id)`. */
  predicate Less(a: Key, b: Key)
  {
    Time.Before(a.t, b.t) || (a.t == b.t && a.i < b.i)
  }

  predicate NotAfter(a: Row, b: Row)
  {
    !Less(KeyOf(b), KeyOf(a))
  }

  predicate Sorted(rows: seq<Row>)
  {
    forall i, j :: 0 <= i < j < |rows| ==> NotAfter(rows[i], rows[j])
  }

  lemma LessTransitive(a: Key, b: Key, c: Key)
    requires Less(a, b) && Less(b, c)
    ensures Less(a, c)
  {
    if Time.Before(a.t, b.t) && Time.Before(b.t, c.t) {
      Time.BeforeTransitive(a.t, b.t, c.t);
    }
  }

  /** Any two keys are equal or ordered one way. */
  lemma LessTotal(a: Key, b: Key)
    ensures a == b || Less(a, b) || Less(b, a)
  {
  }

  lemma LessAsymmetric(a: Key, b: Key)
    ensures !(Less(a, b) && Less(b, a))
  {
  }

  lemma NotAfterTransitive(a: Row, b: Row, c: Row)
    requires NotAfter(a, b) && NotAfter(b, c)
    ensures NotAfter(a, c)
  {
    if Less(KeyOf(c), KeyOf(a)) {
      LessTotal(KeyOf(a), KeyOf(b));
      if Less(KeyOf(a), KeyOf(b)) {
        LessTransitive(KeyOf(c), KeyOf(a), KeyOf(b));
      }
    }
  }

  // ---------------------------------------------------------------------
  // ORDER BY clicked_at ASC, id ASC
  // ---------------------------------------------------------------------

  lemma SortedCons(x: Row, s: seq<Row>)
    requires Sorted(s) && (|s| > 0 ==> NotAfter(x, s[0]))
    ensures Sorted([x] + s)
  {
    forall j | 0 <= j < |s|
      ensures NotAfter(x, s[j])
    {
      if j > 0 {
        NotAfterTransitive(x, s[0], s[j]);
      }
    }
  }

  lemma SortedConsAll(x: Row, s: seq<Row>)
    requires Sorted(s) && forall y :: y in s ==> NotAfter(x, y)
    ensures Sorted([x] + s)
  {
  }

  /** Insertion into a sorted sequence. */
  function Insert(x: Row, s: seq<Row>): (r: seq<Row>)
    requires Sorted(s)
    ensures Sorted(r)
    ensures multiset(r) == multiset(s) + multiset{x}
  {
    if |s| == 0 then [x]
    else if NotAfter(x, s[0]) then
      SortedCons(x, s);
      [x] + s
    else
      var rest := Insert(x, s[1..]);
      assert s == [s[0]] + s[1..];
      HeadBelowInsert(x, s, rest);
      [s[0]] + rest
  }

  /** The head of a sorted sequence stays first when a later row is inserted behind it. */
  lemma HeadBelowInsert(x: Row, s: seq<Row>, rest: seq<Row>)
    requires |s| > 0 && Sorted(s) && !NotAfter(x, s[0])
    requires Sorted(rest) && multiset(rest) == multiset(s[1..]) + multiset{x}
    ensures Sorted([s[0]] + rest)
  {
    assert NotAfter(s[0], x) by { LessAsymmetric(KeyOf(x), KeyOf(s[0])); }
    forall y | y in rest ensures NotAfter(s[0], y) {
      assert y in multiset(rest);
      if y != x {
        var k :| 0 <= k < |s[1..]| && s[1..][k] == y;
        assert y == s[k + 1];
      }
    }
    SortedConsAll(s[0], rest);
  }

  /** The rows in `(clicked_at, id)` order. */
  function SortByKey(rows: seq<Row>): (r: seq<Row>)
    ensures Sorted(r)
    ensures multiset(r) == multiset(rows)
  {
    if |rows| == 0 then []
    else
      assert rows == [rows[0]] + rows[1..];
      Insert(rows[0], SortByKey(rows[1..]))
  }

  // ---------------------------------------------------------------------
  // WHERE and LIMIT
  // ---------------------------------------------------------------------

  /** The two `WHERE` clauses the repository issues. */
  datatype Window =
    | Between(since: Time.DateTime, until: Time.DateTime)
    | After(key: Key)

  /** `clicked_at BETWEEN since AND until`, or `(clicked_at > t) OR (clicked_at = t AND id > i)`. */
  predicate Admits(w: Window, r: Row)
  {
    match w
    case Between(since, until) => !Time.Before(r.clickedAt, since) && !Time.Before(until, r.clickedAt)
    case After(k) => Less(k, KeyOf(r))
  }

  function Where(rows: seq<Row>, w: Window): (r: seq<Row>)
    ensures forall x :: x in r <==> x in rows && Admits(w, x)
  {
    if |rows| == 0 then []
    else
      var rest := Where(rows[1..], w);
      assert forall x :: x in rows <==> x == rows[0] || x in rows[1..];
      if Admits(w, rows[0]) then [rows[0]] + rest else rest
  }

  /** `LIMIT n`: no rows for a limit below one. */
  function Cap(limit: int): nat
  {
    if limit < 0 then 0 else limit
  }

  /**
   * The rows a query returns: the matching rows in key order, at most
   * `limit` of them, and no matching row left out that sorts before the
   * last one returned.
   */
  function Matching(rows: seq<Row>, w: Window, limit: int): (page: seq<Row>)
    ensures |page| <= Cap(limit)
    ensures forall x :: x in page ==> x in rows && Admits(w, x)
    ensures Sorted(page)
    ensures forall x :: x in rows && Admits(w, x) && x !in page ==>
      |page| == Cap(limit) && (|page| > 0 ==> NotAfter(page[|page| - 1], x))
  {
    var s := SortByKey(Where(rows, w));
    var n := if Cap(limit) < |s| then Cap(limit) else |s|;
    PrefixMembers(rows, w, s, n);
    PrefixComplete(rows, w, s, Cap(limit), n);
    s[..n]
  }

  lemma PrefixMembers(rows: seq<Row>, w: Window, s: seq<Row>, n: nat)
    requires multiset(s) == multiset(Where(rows, w)) && n <= |s|
    ensures forall x :: x in s[..n] ==> x in rows && Admits(w, x)
  {
    forall x | x in s[..n] ensures x in rows && Admits(w, x) {
      assert x in multiset(s);
    }
  }

  /** A sorted permutation of the matching rows, cut at `n`, leaves out only rows not below its last. */
  lemma PrefixComplete(rows: seq<Row>, w: Window, s: seq<Row>, cap: nat, n: nat)
    requires multiset(s) == multiset(Where(rows, w)) && Sorted(s)
    requires n == if cap < |s| then cap else |s|
    ensures forall x :: x in rows && Admits(w, x) && x !in s[..n] ==>
      n == cap && (n > 0 ==> NotAfter(s[n - 1], x))
  {
    forall x | x in rows && Admits(w, x) && x !in s[..n]
      ensures n == cap && (n > 0 ==> NotAfter(s[n - 1], x))
    {
      assert x in multiset(Where(rows, w));
      var k :| 0 <= k < |s| && s[k] == x;
      assert k >= n;
    }
  }

  // ---------------------------------------------------------------------
  // Columns and projection
  // ---------------------------------------------------------------------

  lemma KeyColumnsSelectable()
    ensures "id" in AllSelectable && "clicked_at" in AllSelectable
  {
    assert AllSelectable[0] == "id" && AllSelectable[1] == "clicked_at";
  }

  /**
   * `selectColumns`: the requested selectable names in request order, then
   * `id` and `clicked_at` when missing, each once.
   */
  function SelectColumns(requested: seq<string>): (cols: seq<string>)
    ensures RV.NoDuplicates(cols)
    ensures "id" in cols && "clicked_at" in cols
    ensures forall c :: c in cols <==> (c in requested && c in AllSelectable) || c == "id" || c == "clicked_at"
    ensures forall c :: c in cols ==> c in AllSelectable
  {
    KeyColumnsSelectable();
    var req := RV.Intersect(requested, AllSelectable);
    var withId := if "id" in req then req else req + ["id"];
    var withStamp := if "clicked_at" in withId then withId else withId + ["clicked_at"];
    RV.Dedupe(withStamp)
  }

  /**
   * A selected column of a row as the item shows it: `clicked_at` rendered
   * `Y-m-d\TH:i:s\Z`, the others as stored.
   */
  function ColumnValue(row: Row, c: string): Value
    requires Time.Valid(row.clickedAt)
  {
    if c == "id" then Int(row.id)
    else if c == "clicked_at" then Str(Time.FormatIso(row.clickedAt))
    else if c in row.columns then row.columns[c]
    else Null
  }

  /**
   * The public item of a row: the requested fields the query selected, or
   * the whole selected row when nothing was requested.
   */
  function Item(row: Row, requested: seq<string>): (item: map<string, Value>)
    requires Time.Valid(row.clickedAt)
    ensures |requested| > 0 ==> item.Keys == set f | f in requested && f in AllSelectable
    ensures |requested| == 0 ==> item.Keys == {"id", "clicked_at"}
    ensures forall f :: f in item ==> item[f] == ColumnValue(row, f)
  {
    var cols := SelectColumns(requested);
    var selected := map c | c in cols :: ColumnValue(row, c);
    KeyColumnsSelectable();
    SelectedKeys(requested, AllSelectable, cols);
    if |requested| == 0 then selected
    else map f | f in requested && f in selected :: selected[f]
  }

  lemma SelectedKeys(requested: seq<string>, allowed: seq<string>, cols: seq<string>)
    requires "id" in allowed && "clicked_at" in allowed
    requires forall c :: c in cols <==> (c in requested && c in allowed) || c == "id" || c == "clicked_at"
    ensures |requested| > 0 ==> (set f | f in requested && f in cols) == set f | f in requested && f in allowed
    ensures |requested| == 0 ==> (set c | c in cols) == {"id", "clicked_at"}
  {
  }

  // ---------------------------------------------------------------------
  // fetchByRange / fetchAfter
  // ---------------------------------------------------------------------

  /** What both queries return: the items and the key of the last row. */
  datatype Page = Page(items: seq<map<string, Value>>, last: Option<Key>)

  function Items(rows: seq<Row>, requested: seq<string>): (items: seq<map<string, Value>>)
    requires forall k :: 0 <= k < |rows| ==> Time.Valid(rows[k].clickedAt)
    ensures |items| == |rows|
    ensures forall k :: 0 <= k < |rows| ==> items[k] == Item(rows[k], requested)
  {
    if |rows| == 0 then [] else [Item(rows[0], requested)] + Items(rows[1..], requested)
  }

  lemma StoredSub(rows: seq<Row>, page: seq<Row>)
    requires Stored(rows) && forall x :: x in page ==> x in rows
    ensures Stored(page)
  {
    forall k | 0 <= k < |page| ensures RowStored(page[k]) {
      assert page[k] in rows;
    }
  }

  /** The answer built from the returned rows: one item per row, and the key of the final row. */
  function PageOf(rows: seq<Row>, requested: seq<string>): (p: Page)
    requires Stored(rows)
    ensures |p.items| == |rows|
    ensures forall k :: 0 <= k < |rows| ==> p.items[k] == Item(rows[k], requested)
    ensures p.last.None? <==> |rows| == 0
    ensures p.last.Some? ==> p.last.value == KeyOf(rows[|rows| - 1]) && KeyStored(p.last.value)
  {
    Page(Items(rows, requested), if |rows| == 0 then None else Some(KeyOf(rows[|rows| - 1])))
  }

  /**
   * What `SELECT ... WHERE w ORDER BY clicked_at, id LIMIT n` may return
   * from `rows`: stored rows the window admits, in key order, at most `n`
   * of them, and every admitted row left out sorts after the last one
   * returned (and is left out only because the limit was reached).
   */
  predicate Returned(rows: seq<Row>, w: Window, limit: int, page: seq<Row>)
  {
    && |page| <= Cap(limit)
    && (forall x :: x in page ==> x in rows && Admits(w, x))
    && Sorted(page)
    && (forall x :: x in rows && Admits(w, x) && x !in page ==>
          |page| == Cap(limit) && (|page| > 0 ==> NotAfter(page[|page| - 1], x)))
  }

  /** One query: nothing when the table is missing, else the page of the matching rows. */
  function Fetch(table: Option<seq<Row>>, w: Window, limit: int, requested: seq<string>): (p: Page)
    requires table.Some? ==> Stored(table.value)
    ensures table.None? ==> p == Page([], None)
    ensures table.Some? ==>
      exists page ::
        && Returned(table.value, w, limit, page)
        && Stored(page)
        && |p.items| == |page|
        && (forall k :: 0 <= k < |page| ==> p.items[k] == Item(page[k], requested))
        && (p.last.None? <==> |page| == 0)
        && (p.last.Some? ==> p.last.value == KeyOf(page[|page| - 1]))
    ensures table.Some? ==> Stored(Matching(table.value, w, limit))
    ensures table.Some? ==> p == PageOf(Matching(table.value, w, limit), requested)
  {
    if table.None? then Page([], None)
    else
      var rows := Matching(table.value, w, limit);
      StoredSub(table.value, rows);
      assert Returned(table.value, w, limit, rows);
      PageOf(rows, requested)
  }

  /** `fetchByRange`: rows with `since <= clicked_at <= until`. */
  function FetchByRange(table: Option<seq<Row>>, since: Time.DateTime, until: Time.DateTime,
                        limit: int, requested: seq<string>): (p: Page)
    requires table.Some? ==> Stored(table.value)
    ensures table.None? ==> p == Page([], None)
    ensures p.last.None? <==> table.None? || |Matching(table.value, Between(since, until), limit)| == 0
    ensures p.last.Some? ==> KeyStored(p.last.value)
    ensures |p.items| <= Cap(limit)
  {
    Fetch(table, Between(since, until), limit, requested)
  }

  /** `fetchAfter`: rows strictly after `(t, i)`. */
  function FetchAfter(table: Option<seq<Row>>, t: Time.DateTime, i: int, limit: int,
                      requested: seq<string>): (p: Page)
    requires table.Some? ==> Stored(table.value)
    ensures table.None? ==> p == Page([], None)
    ensures p.last.None? <==> table.None? || |Matching(table.value, After(Key(t, i)), limit)| == 0
    ensures p.last.Some? ==> KeyStored(p.last.value)
    ensures |p.items| <= Cap(limit)
  {
    Fetch(table, After(Key(t, i)), limit, requested)
  }

  /**
   * How MySQL reads a bound bound into the query as text: the ISO stamp (a
   * trailing newline ignored) as the instant it spells; any other text reads
   * as no instant, and a comparison with it admits no row.
   */
  function SqlStamp(s: string): (d: Option<Time.DateTime>)
    ensures d.Some? ==> Time.Valid(d.value)
    ensures !Time.IsIsoUtcZ(s) ==> d.None?
  {
    if Time.IsIsoUtcZ(s) then Time.ParseIso(s[..20]) else None
  }

  /** A stamp rendered `Y-m-d\TH:i:s\Z` is read back as the same instant. */
  lemma SqlStampIso(d: Time.DateTime)
    requires Time.Valid(d) && Time.FourDigitYear(d)
    ensures SqlStamp(Time.FormatIso(d)) == Some(d)
  {
    Time.FormatIsoShape(d);
    var s := Time.FormatIso(d);
    assert s[..20] == s;
  }

  /** `fetchByRange($sinceIso, $untilIso, ...)` with the bounds as the text the query binds. */
  function FetchByRangeText(table: Option<seq<Row>>, sinceIso: string, untilIso: string,
                            limit: int, requested: seq<string>): (p: Page)
    requires table.Some? ==> Stored(table.value)
    ensures p.last.Some? ==> KeyStored(p.last.value)
    ensures |p.items| <= Cap(limit)
    ensures SqlStamp(sinceIso).None? || SqlStamp(untilIso).None? ==> p == Page([], None)
    ensures SqlStamp(sinceIso).Some? && SqlStamp(untilIso).Some? ==>
      p == FetchByRange(table, SqlStamp(sinceIso).value, SqlStamp(untilIso).value, limit, requested)
  {
    match (SqlStamp(sinceIso), SqlStamp(untilIso))
    case (Some(since), Some(until)) => FetchByRange(table, since, until, limit, requested)
    case _ => Page([], None)
  }

  /** `fetchAfter($cursorIso, $cursorId, ...)` with the cursor stamp as the text the query binds. */
  function FetchAfterText(table: Option<seq<Row>>, cursorIso: string, cursorId: int,
                          limit: int, requested: seq<string>): (p: Page)
    requires table.Some? ==> Stored(table.value)
    ensures p.last.Some? ==> KeyStored(p.last.value)
    ensures |p.items| <= Cap(limit)
    ensures SqlStamp(cursorIso).None? ==> p == Page([], None)
    ensures SqlStamp(cursorIso).Some? ==>
      p == FetchAfter(table, SqlStamp(cursorIso).value, cursorId, limit, requested)
  {
    match SqlStamp(cursorIso)
    case Some(t) => FetchAfter(table, t, cursorId, limit, requested)
    case None => Page([], None)
  }

  // ---------------------------------------------------------------------
  // Paging
  // ---------------------------------------------------------------------

  /** Primary keys are unique, so no two rows share a `(clicked_at, id)` key. */
  predicate UniqueIds(rows: seq<Row>)
  {
    forall a, b :: 0 <= a < b < |rows| ==> rows[a].id != rows[b].id
  }

  /** Within one page of a table with unique ids, keys strictly increase. */
  lemma PageStrictlyIncreasing(rows: seq<Row>, w: Window, limit: int)
    requires UniqueIds(rows)
    ensures var page := Matching(rows, w, limit);
      forall a, b :: 0 <= a < b < |page| ==> Less(KeyOf(page[a]), KeyOf(page[b]))
  {
    var page := Matching(rows, w, limit);
    forall a, b | 0 <= a < b < |page|
      ensures Less(KeyOf(page[a]), KeyOf(page[b]))
    {
      assert NotAfter(page[a], page[b]);
      LessTotal(KeyOf(page[a]), KeyOf(page[b]));
      if KeyOf(page[a]) == KeyOf(page[b]) {
        SameKeySameRow(rows, page[a], page[b]);
        SortedNoRepeat(rows, w, limit, a, b);
      }
    }
  }

  /** Two rows of a table with unique ids and the same id are the same row. */
  lemma SameKeySameRow(rows: seq<Row>, x: Row, y: Row)
    requires UniqueIds(rows) && x in rows && y in rows && x.id == y.id
    ensures x == y
  {
    var a :| 0 <= a < |rows| && rows[a] == x;
    var b :| 0 <= b < |rows| && rows[b] == y;
  }

  /** A page of a table with unique ids never repeats a row. */
  lemma {:induction false} SortedNoRepeat(rows: seq<Row>, w: Window, limit: int, a: nat, b: nat)
    requires UniqueIds(rows)
    requires a < b < |Matching(rows, w, limit)|
    ensures Matching(rows, w, limit)[a] != Matching(rows, w, limit)[b]
  {
    var page := Matching(rows, w, limit);
    var s := SortByKey(Where(rows, w));
    WhereNoRepeat(rows, w);
    assert page == s[..|page|];
    MultisetNoRepeat(Where(rows, w), s, a, b);
  }

  /** `Where` keeps each row of a unique-id table at most once. */
  lemma {:induction false} WhereNoRepeat(rows: seq<Row>, w: Window)
    requires UniqueIds(rows)
    ensures forall x :: multiset(Where(rows, w))[x] <= 1
  {
    if |rows| > 0 {
      assert UniqueIds(rows[1..]) by {
        forall a, b | 0 <= a < b < |rows[1..]| ensures rows[1..][a].id != rows[1..][b].id {
          assert rows[1..][a] == rows[a + 1] && rows[1..][b] == rows[b + 1];
        }
      }
      WhereNoRepeat(rows[1..], w);
      var rest := Where(rows[1..], w);
      if Admits(w, rows[0]) {
        assert rows[0] !in rows[1..] by {
          forall k | 0 <= k < |rows[1..]| ensures rows[1..][k] != rows[0] {
            assert rows[1..][k] == rows[k + 1];
          }
        }
        assert rows[0] !in rest;
        assert Where(rows, w) == [rows[0]] + rest;
      } else {
        assert Where(rows, w) == rest;
      }
    }
  }

  /** A permutation of a repeat-free sequence has no repeated element. */
  lemma MultisetNoRepeat(src: seq<Row>, s: seq<Row>, a: nat, b: nat)
    requires multiset(s) == multiset(src) && forall x :: multiset(src)[x] <= 1
    requires a < b < |s|
    ensures s[a] != s[b]
  {
    var t := s[a + 1..];
    assert s == s[..a] + [s[a]] + t;
    assert s[b] == t[b - a - 1];
    assert multiset(s)[s[a]] == multiset(s[..a])[s[a]] + 1 + multiset(t)[s[a]];
  }

  /**
   * Consecutive cursor pages over a fixed table with unique ids: every key
   * of the next page is strictly above every key of the first (so the pages
   * are disjoint), and no row between the old cursor and the new one is
   * skipped.
   */
  lemma ConsecutivePages(rows: seq<Row>, k0: Key, limit: int)
    requires UniqueIds(rows)
    requires |Matching(rows, After(k0), limit)| > 0
    ensures var p1 := Matching(rows, After(k0), limit);
      var k1 := KeyOf(p1[|p1| - 1]);
      var p2 := Matching(rows, After(k1), limit);
      && (forall x, y :: x in p1 && y in p2 ==> Less(KeyOf(x), KeyOf(y)))
      && (forall x :: x in rows && Less(k0, KeyOf(x)) && !Less(k1, KeyOf(x)) ==> x in p1)
  {
    var p1 := Matching(rows, After(k0), limit);
    var last := p1[|p1| - 1];
    var k1 := KeyOf(last);
    var p2 := Matching(rows, After(k1), limit);
    forall x, y | x in p1 && y in p2
      ensures Less(KeyOf(x), KeyOf(y))
    {
      var a :| 0 <= a < |p1| && p1[a] == x;
      if a < |p1| - 1 {
        assert NotAfter(x, last);
        LessTotal(KeyOf(x), k1);
        if Less(KeyOf(x), k1) {
          LessTransitive(KeyOf(x), k1, KeyOf(y));
        }
      }
    }
    forall x | x in rows && Less(k0, KeyOf(x)) && !Less(k1, KeyOf(x))
      ensures x in p1
    {
      if x !in p1 {
        assert NotAfter(last, x);
        LessTotal(k1, KeyOf(x));
        SameKeySameRow(rows, x, last);
      }
    }
  }
}

=== FILE: rest_clicks_controller.dfy ===
/**
 * The read endpoint `GET /clicks` of the packaged plugin
 * (`IW8\WA\Rest\ClicksController::handle`): the rate limit, the checks in
 * the order they are reported, the choice between a cursor page and a range
 * page, and the payload with its `next_cursor`. Every response, error or
 * success, carries the rate-limit headers.
 */
module RestClicksController {
  import opened Wrappers
  import opened Text
  import opened Php
  import Time
  import Limits
  import Http
  import RateLimiter
  import TokenAuth
  import CursorCodec
  import RV = RequestValidator
  import Repo = RestClickRepository

  /** The parts of a `WP_REST_Request` the handler reads. */
  datatype Request = Request(route: string, headers: map<string, Value>, params: map<string, Value>)

  /**
   * The handler's surroundings: the transient store, the clock (Unix
   * seconds for the limiter, the same instant as a date-time for the
   * validator), the clicks table, and the foreign primitives: `md5`, the
   * request id the error factory draws, and the plugin version constant.
   */
  datatype Env = Env(store: RateLimiter.Store, now: int, clock: Time.DateTime,
                     table: Option<seq<Repo.Row>>, md5: string -> string,
                     requestId: string, version: Option<string>)

  predicate EnvOk(env: Env)
  {
    Time.Valid(env.clock) && (env.table.Some? ==> Repo.Stored(env.table.value))
  }

  /** The response and the transient store after the request. */
  datatype Outcome = Outcome(response: Http.Response, store: RateLimiter.Store)

  /** The query a request that passes every check runs. */
  datatype Target =
    | AfterCursor(t: string, i: int)
    | InRange(sinceIso: string, untilIso: string)

  datatype Query = Query(limit: int, fields: seq<string>, target: Target)

  /** The limiter's window, in seconds. */
  const WindowSeconds: int := 60

  const TooManyRequests: string := "too_many_requests"
  const TooManyMessage: string := "Limite de taxa excedido."

  // ---------------------------------------------------------------------
  // The checks, in order
  // ---------------------------------------------------------------------

  /**
   * Whether the cursor branch runs. As written it needs cursor mode AND a
   * raw cursor PHP does not consider empty; `intended` drops the second
   * test (see `ZeroCursorServedAsRange`).
   */
  predicate TakesCursor(v: RV.Validated, intended: bool)
  {
    v.UsingCursor() && (intended || !Empty(v.mode.raw))
  }

  /** A strictly parsed bound rendered back as ISO text, else the validator's value (`(string)null` is ""). */
  function BoundText(strict: Option<Time.DateTime>, fallback: Option<string>): (s: string)
    requires strict.Some? ==> Time.Valid(strict.value)
    ensures strict.Some? ==> s == Time.FormatIso(strict.value)
    ensures strict.None? && fallback.Some? ==> s == fallback.value
    ensures strict.None? && fallback.None? ==> s == ""
  {
    if strict.Some? then Time.FormatIso(strict.value) else fallback.GetOr("")
  }

  /** What the four parameter checks yield when they all pass. */
  datatype Checked = Checked(v: RV.Validated, fields: seq<string>,
                             since: Option<Time.DateTime>, until: Option<Time.DateTime>)

  predicate CheckedOk(c: Checked)
  {
    && (c.v.mode.RangeMode? ==> Time.Valid(c.v.mode.since) && Time.Valid(c.v.mode.until))
    && (c.since.Some? ==> Time.Valid(c.since.value))
    && (c.until.Some? ==> Time.Valid(c.until.value))
    && 1 <= c.v.limit <= Limits.MaxPageSize
    && |c.fields| > 0 && (forall f :: f in c.fields ==> f in RV.AllowedFields)
  }

  /**
   * The checks before the cursor, in the order they are reported: the base
   * validator, the strict fields, `since`, `until`. The strict field list
   * wins when it is not empty; otherwise the validator's lenient list is
   * used.
   */
  function CheckParams(p: RV.Params, clock: Time.DateTime): (r: Result<Checked, WpError>)
    requires Time.Valid(clock)
    ensures r.Ok? ==> CheckedOk(r.value)
    ensures r.Ok? ==> RV.Validate(p, clock) == Ok(r.value.v)
    ensures r.Ok? ==> RV.ParseIsoUtc(p.since, "since") == Ok(r.value.since)
    ensures r.Ok? ==> RV.ParseIsoUtc(p.until, "until") == Ok(r.value.until)
    ensures r.Ok? ==> var strict := RV.ValidateFields(p.fields, RV.AllowedFields);
      && strict.Ok?
      && (|strict.value| > 0 ==> r.value.fields == strict.value)
      && (|strict.value| == 0 ==> r.value.fields == RV.LenientFields(p.fields))
  {
    var v := RV.Validate(p, clock);
    if v.Err? then Err(v.error)
    else
      var checked := RV.ValidateFields(p.fields, RV.AllowedFields);
      if checked.Err? then Err(checked.error)
      else
        StrictFieldsAllowed(p.fields, checked.value);
        var fields := if |checked.value| == 0 then v.value.fields else checked.value;
        var since := RV.ParseIsoUtc(p.since, "since");
        if since.Err? then Err(since.error)
        else
          var until := RV.ParseIsoUtc(p.until, "until");
          if until.Err? then Err(until.error)
          else Ok(Checked(v.value, fields, since.value, until.value))
  }

  /**
   * The branch: the decoded cursor's `(t, i)` in the cursor branch (or the
   * codec's error), else the range with each bound strictly parsed or the
   * validator's.
   */
  function Choose(c: Checked, intended: bool): (r: Result<Query, WpError>)
    requires CheckedOk(c)
    ensures r.Err? <==> TakesCursor(c.v, intended) && CursorCodec.Decode(StrCast(c.v.mode.raw)).Err?
    ensures r.Err? ==> r.error == CursorCodec.Decode(StrCast(c.v.mode.raw)).error
    ensures r.Ok? ==> r.value.limit == c.v.limit && r.value.fields == c.fields
    ensures r.Ok? ==> (r.value.target.AfterCursor? <==> TakesCursor(c.v, intended))
    ensures r.Ok? && r.value.target.AfterCursor? ==>
      CursorCodec.Decode(StrCast(c.v.mode.raw)) == Ok(CursorCodec.Cursor(r.value.target.t, r.value.target.i))
    ensures r.Ok? && r.value.target.InRange? ==>
      && r.value.target.sinceIso == BoundText(c.since, RV.EffectiveSince(c.v))
      && r.value.target.untilIso == BoundText(c.until, RV.EffectiveUntil(c.v))
  {
    if TakesCursor(c.v, intended) then
      match CursorCodec.Decode(StrCast(c.v.mode.raw))
      case Err(e) => Err(e)
      case Ok(cur) => Ok(Query(c.v.limit, c.fields, AfterCursor(cur.t, cur.i)))
    else
      Ok(Query(c.v.limit, c.fields,
               InRange(BoundText(c.since, RV.EffectiveSince(c.v)), BoundText(c.until, RV.EffectiveUntil(c.v)))))
  }

  /** Everything between the rate limit and the query; the first failure is the answer. */
  function PlanBy(p: RV.Params, clock: Time.DateTime, intended: bool): (r: Result<Query, WpError>)
    requires Time.Valid(clock)
    ensures CheckParams(p, clock).Err? ==> r == Err(CheckParams(p, clock).error)
    ensures CheckParams(p, clock).Ok? ==> r == Choose(CheckParams(p, clock).value, intended)
    ensures r.Ok? ==> 1 <= r.value.limit <= Limits.MaxPageSize
  {
    match CheckParams(p, clock)
    case Err(e) => Err(e)
    case Ok(c) => Choose(c, intended)
  }

  /** A strict field list that passed names only allowed fields. */
  lemma StrictFieldsAllowed(csv: Value, fields: seq<string>)
    requires RV.ValidateFields(csv, RV.AllowedFields) == Ok(fields)
    ensures forall f :: f in fields ==> f in RV.AllowedFields
  {
    forall f | f in fields ensures f in RV.AllowedFields {
      assert f in RV.Requested(csv);
      assert f !in RV.Outside(RV.Requested(csv), RV.AllowedFields);
    }
  }

  /** The handler as written, on the request's parameter map. */
  function Plan(params: map<string, Value>, clock: Time.DateTime): (r: Result<Query, WpError>)
    requires Time.Valid(clock)
    ensures r == PlanBy(RV.ReadParams(params), clock, false)
    ensures FailsFirst(r, RV.ReadParams(params), clock, false)
    ensures r.Ok? ==> 1 <= r.value.limit <= Limits.MaxPageSize
    ensures ReadsAfterCursor(r, RV.ReadParams(params), clock, false)
  {
    var p := RV.ReadParams(params);
    ErrorPrecedence(p, clock, false);
    PlanTarget(p, clock, false);
    PlanBy(p, clock, false)
  }

  /** The handler with the cursor branch taken whenever the validator chose cursor mode. */
  function PlanIntended(params: map<string, Value>, clock: Time.DateTime): (r: Result<Query, WpError>)
    requires Time.Valid(clock)
    ensures r == PlanBy(RV.ReadParams(params), clock, true)
    ensures FailsFirst(r, RV.ReadParams(params), clock, true)
    ensures r.Ok? ==> 1 <= r.value.limit <= Limits.MaxPageSize
    ensures ReadsAfterCursor(r, RV.ReadParams(params), clock, true)
  {
    var p := RV.ReadParams(params);
    ErrorPrecedence(p, clock, true);
    PlanTarget(p, clock, true);
    PlanBy(p, clock, true)
  }

  /** A planned query reads after a cursor exactly when the validated request takes the cursor branch. */
  predicate ReadsAfterCursor(r: Result<Query, WpError>, p: RV.Params, clock: Time.DateTime, intended: bool)
    requires Time.Valid(clock)
  {
    r.Ok? ==> RV.Validate(p, clock).Ok?
              && (r.value.target.AfterCursor? <==> TakesCursor(RV.Validate(p, clock).value, intended))
  }

  lemma PlanTarget(p: RV.Params, clock: Time.DateTime, intended: bool)
    requires Time.Valid(clock)
    ensures ReadsAfterCursor(PlanBy(p, clock, intended), p, clock, intended)
  {
    var c := CheckParams(p, clock);
    if c.Ok? {
      assert RV.Validate(p, clock) == Ok(c.value.v);
    }
  }

  // ---------------------------------------------------------------------
  // Error precedence, stated independently
  // ---------------------------------------------------------------------

  function ErrorOf<T>(r: Result<T, WpError>): (e: Option<WpError>)
    ensures e.Some? <==> r.Err?
    ensures e.Some? ==> e.value == r.error
  {
    if r.Err? then Some(r.error) else None
  }

  /** The first failure of a list of checks. */
  function FirstError(checks: seq<Option<WpError>>): (e: Option<WpError>)
    ensures e.None? <==> forall k :: 0 <= k < |checks| ==> checks[k].None?
    ensures e.Some? ==> exists k :: 0 <= k < |checks| && checks[k] == e
                                   && forall j :: 0 <= j < k ==> checks[j].None?
  {
    if |checks| == 0 then None
    else if checks[0].Some? then checks[0]
    else
      var e := FirstError(checks[1..]);
      assert forall k :: 1 <= k < |checks| ==> checks[k] == checks[1..][k - 1];
      e
  }

  /** The cursor decode, which only a request in the cursor branch undergoes. */
  function CursorCheck(p: RV.Params, clock: Time.DateTime, intended: bool): Option<WpError>
    requires Time.Valid(clock)
  {
    var v := RV.Validate(p, clock);
    if v.Ok? && TakesCursor(v.value, intended) then ErrorOf(CursorCodec.Decode(StrCast(v.value.mode.raw)))
    else None
  }

  /** The five checks, each on its own parameter, in the order the handler reports them. */
  function Checks(p: RV.Params, clock: Time.DateTime, intended: bool): (cs: seq<Option<WpError>>)
    requires Time.Valid(clock)
    ensures |cs| == 5
  {
    [ ErrorOf(RV.ValidateLimit(p.limit)),
      ErrorOf(RV.ValidateFields(p.fields, RV.AllowedFields)),
      ErrorOf(RV.ParseIsoUtc(p.since, "since")),
      ErrorOf(RV.ParseIsoUtc(p.until, "until")),
      CursorCheck(p, clock, intended) ]
  }

  lemma FirstErrorOfFive(cs: seq<Option<WpError>>)
    requires |cs| == 5
    ensures FirstError(cs) == if cs[0].Some? then cs[0] else if cs[1].Some? then cs[1]
                              else if cs[2].Some? then cs[2] else if cs[3].Some? then cs[3] else cs[4]
  {
    assert cs[1..][1..][1..][1..][1..] == [];
  }

  /** `r` fails exactly when one of the five checks fails, with the first failing check's error. */
  predicate FailsFirst(r: Result<Query, WpError>, p: RV.Params, clock: Time.DateTime, intended: bool)
    requires Time.Valid(clock)
  {
    var e := FirstError(Checks(p, clock, intended));
    && (r.Err? <==> e.Some?)
    && (r.Err? ==> r.error == e.value)
  }

  /**
   * A request fails exactly when one of the five checks fails, and the
   * error reported is the first failing check's: limit, fields, since,
   * until, cursor.
   */
  lemma ErrorPrecedence(p: RV.Params, clock: Time.DateTime, intended: bool)
    requires Time.Valid(clock)
    ensures FailsFirst(PlanBy(p, clock, intended), p, clock, intended)
  {
    FirstErrorOfFive(Checks(p, clock, intended));
  }

  /**
   * The strict check overrides the lenient one: a field name outside the
   * allow-list fails with `invalid_fields` even though the base validator
   * simply drops it.
   */
  lemma UnknownFieldRefused(p: RV.Params, clock: Time.DateTime, intended: bool)
    requires Time.Valid(clock)
    requires RV.ValidateLimit(p.limit).Ok?
    requires |RV.Outside(RV.Requested(p.fields), RV.AllowedFields)| > 0
    ensures PlanBy(p, clock, intended).Err? && PlanBy(p, clock, intended).error.code == "invalid_fields"
  {
    ErrorPrecedence(p, clock, intended);
  }

  // ---------------------------------------------------------------------
  // The page and the payload
  // ---------------------------------------------------------------------

  /** `encode(last.t, last.i)` for the last row's key: URL-safe text. */
  function NextCursor(k: Repo.Key): (c: string)
    requires Repo.KeyStored(k)
    ensures forall j :: 0 <= j < |c| ==> CursorCodec.IsUrlSafeChar(c[j])
  {
    Time.FormatIsoIsIsoUtcZ(k.t);
    CursorCodec.IsoIsAscii(Time.FormatIso(k.t));
    CursorCodec.Encode(Time.FormatIso(k.t), k.i)
  }

  /**
   * The cursor decodes back to the rendered stamp and the id, and the
   * stamp reads back as the same instant.
   */
  lemma NextCursorDecodes(k: Repo.Key)
    requires Repo.KeyStored(k)
    ensures CursorCodec.Decode(NextCursor(k)) == Ok(CursorCodec.Cursor(Time.FormatIso(k.t), k.i))
    ensures Repo.SqlStamp(Time.FormatIso(k.t)) == Some(k.t)
  {
    Time.FormatIsoIsIsoUtcZ(k.t);
    CursorCodec.DecodeEncode(Time.FormatIso(k.t), k.i);
    Repo.SqlStampIso(k.t);
  }

  /** The page a query reads. */
  function Run(table: Option<seq<Repo.Row>>, q: Query): (p: Repo.Page)
    requires table.Some? ==> Repo.Stored(table.value)
    ensures p.last.Some? ==> Repo.KeyStored(p.last.value)
    ensures |p.items| <= Repo.Cap(q.limit)
  {
    match q.target
    case AfterCursor(t, i) => Repo.FetchAfterText(table, t, i, q.limit, q.fields)
    case InRange(since, until) => Repo.FetchByRangeText(table, since, until, q.limit, q.fields)
  }

  function ItemValues(items: seq<map<string, Value>>): (vs: seq<Value>)
    ensures |vs| == |items|
    ensures forall k :: 0 <= k < |items| ==> vs[k] == Assoc(items[k])
  {
    if |items| == 0 then [] else [Assoc(items[0])] + ItemValues(items[1..])
  }

  /** The `range` object: the bounds in range mode, two nulls in cursor mode. */
  function RangeValue(target: Target): Value
  {
    match target
    case AfterCursor(_, _) => Assoc(map["effective_since" := Null, "effective_until" := Null])
    case InRange(since, until) => Assoc(map["effective_since" := Str(since), "effective_until" := Str(until)])
  }

  /**
   * The `200` payload: `range`, `count` (the number of items), `items`, and
   * `next_cursor` exactly when there is a last row and the page is full.
   */
  function Success(target: Target, page: Repo.Page, limit: int): (r: Http.Response)
    requires page.last.Some? ==> Repo.KeyStored(page.last.value)
    ensures r.status == 200 && r.headers == map[] && r.body.Assoc?
    ensures var b := r.body.entries;
      && "range" in b && b["range"] == RangeValue(target)
      && "count" in b && b["count"] == Int(|page.items|)
      && "items" in b && b["items"].List? && |b["items"].items| == |page.items|
      && (forall k :: 0 <= k < |page.items| ==> b["items"].items[k] == Assoc(page.items[k]))
      && (("next_cursor" in b) <==> page.last.Some? && |page.items| == limit)
      && ("next_cursor" in b ==> b["next_cursor"] == Str(NextCursor(page.last.value)))
      && b.Keys <= {"range", "count", "items", "next_cursor"}
  {
    var base := map["range" := RangeValue(target), "count" := Int(|page.items|),
                     "items" := List(ItemValues(page.items))];
    var body := if page.last.Some? && |page.items| == limit
                then base["next_cursor" := Str(NextCursor(page.last.value))] else base;
    Http.Response(200, Assoc(body), map[])
  }

  /** The answer once the rate limit has let the request through. */
  function Serve(p: RV.Params, clock: Time.DateTime, table: Option<seq<Repo.Row>>,
                 requestId: string): (r: Http.Response)
    requires Time.Valid(clock)
    requires table.Some? ==> Repo.Stored(table.value)
    ensures PlanBy(p, clock, false).Err? ==> r == Http.FromWpError(PlanBy(p, clock, false).error, requestId)
    ensures PlanBy(p, clock, false).Ok? ==>
      var q := PlanBy(p, clock, false).value;
      r == Success(q.target, Run(table, q), q.limit)
    ensures r.body.Assoc?
    ensures ("error" in r.body.entries) <==> PlanBy(p, clock, false).Err?
    ensures PlanBy(p, clock, false).Err? ==>
      r.status == PlanBy(p, clock, false).error.status &&
      r.body.entries["error"] == Str(PlanBy(p, clock, false).error.code)
    ensures PlanBy(p, clock, false).Ok? ==>
      var q := PlanBy(p, clock, false).value;
      var b := r.body.entries;
      && r.status == 200
      && "count" in b && "items" in b && b["items"].List?
      && b["count"] == Int(|b["items"].items|)
      && |b["items"].items| <= q.limit
      && (("next_cursor" in b) <==> |b["items"].items| == q.limit && Run(table, q).last.Some?)
  {
    var plan := PlanBy(p, clock, false);
    if plan.Err? then Http.FromWpError(plan.error, requestId)
    else
      var q := plan.value;
      var page := Run(table, q);
      SuccessShape(q.target, page, q.limit);
      Success(q.target, page, q.limit)
  }

  /** A success body is not an error body, and its count is its number of items. */
  lemma SuccessShape(target: Target, page: Repo.Page, limit: int)
    requires page.last.Some? ==> Repo.KeyStored(page.last.value)
    requires |page.items| <= limit
    ensures var r := Success(target, page, limit);
      var b := r.body.entries;
      && r.status == 200 && r.body.Assoc?
      && "error" !in b
      && "count" in b && "items" in b && b["items"].List?
      && b["count"] == Int(|b["items"].items|)
      && |b["items"].items| <= limit
      && (("next_cursor" in b) <==> |b["items"].items| == limit && page.last.Some?)
  {
    var b := Success(target, page, limit).body.entries;
    assert "error" !in {"range", "count", "items", "next_cursor"};
  }

  // ---------------------------------------------------------------------
  // handle
  // ---------------------------------------------------------------------

  /** The limiter's key: route and token, `(string)null` being "". */
  function LimiterKey(md5: string -> string, req: Request): string
  {
    RateLimiter.KeyFor(md5, req.route, TokenAuth.ExtractToken(req.headers).GetOr(""))
  }

  function Limited(req: Request, env: Env): (RateLimiter.Meta, RateLimiter.Store)
  {
    RateLimiter.Check(env.store, LimiterKey(env.md5, req), Limits.RatePerMinute, WindowSeconds, env.now)
  }

  /** The 429 answer, carrying the seconds until the window resets. */
  function RateLimited(m: RateLimiter.Meta, requestId: string): (r: Http.Response)
    ensures r.status == 429 && r.body.Assoc?
    ensures "error" in r.body.entries && r.body.entries["error"] == Str(TooManyRequests)
    ensures "retry_after_seconds" in r.body.entries && r.body.entries["retry_after_seconds"] == Int(m.retryAfterSeconds)
  {
    Http.MakeError(TooManyRequests, TooManyMessage, 429, map[], Some(m.retryAfterSeconds), requestId)
  }

  /** `applyHeaders` on a response. */
  function WithHeaders(resp: Http.Response, m: RateLimiter.Meta, version: Option<string>): (r: Http.Response)
    ensures r.status == resp.status && r.body == resp.body
    ensures r.headers == RateLimiter.ApplyHeaders(resp.headers, m, version)
  {
    resp.(headers := RateLimiter.ApplyHeaders(resp.headers, m, version))
  }

  /**
   * `handle`: the rate limit first; a denial answers 429 without looking
   * at the parameters; otherwise the checks and the query. Either way the
   * response carries the limiter's headers.
   */
  function Handle(req: Request, env: Env): (out: Outcome)
    requires EnvOk(env)
    ensures var (m, s) := Limited(req, env);
      var h := out.response.headers;
      && out.store == s
      && "X-RateLimit-Limit" in h && h["X-RateLimit-Limit"] == IntToString(Limits.RatePerMinute)
      && "X-RateLimit-Remaining" in h && h["X-RateLimit-Remaining"] == IntToString(m.remaining)
      && "X-RateLimit-Reset" in h && h["X-RateLimit-Reset"] == IntToString(m.resetSeconds)
      && "X-Cursor-Semantics" in h && h["X-Cursor-Semantics"] == "forward_only"
    ensures var (m, _) := Limited(req, env);
      !m.allowed ==>
        && out.response.status == 429
        && out.response.body.Assoc?
        && "error" in out.response.body.entries
        && out.response.body.entries["error"] == Str(TooManyRequests)
        && "retry_after_seconds" in out.response.body.entries
        && out.response.body.entries["retry_after_seconds"] == Int(m.retryAfterSeconds)
        && "Retry-After" in out.response.headers
    ensures var (m, _) := Limited(req, env);
      m.allowed ==>
        var r := Serve(RV.ReadParams(req.params), env.clock, env.table, env.requestId);
        out.response.status == r.status && out.response.body == r.body
  {
    var (m, s) := Limited(req, env);
    var resp := if !m.allowed then RateLimited(m, env.requestId)
                else Serve(RV.ReadParams(req.params), env.clock, env.table, env.requestId);
    Outcome(WithHeaders(resp, m, env.version), s)
  }

  // ---------------------------------------------------------------------
  // Properties
  // ---------------------------------------------------------------------

  /** The rate limit is decided before any parameter is read. */
  lemma DeniedBeforeValidation(req1: Request, req2: Request, env: Env)
    requires EnvOk(env)
    requires req1.route == req2.route && req1.headers == req2.headers
    requires !Limited(req1, env).0.allowed
    ensures Handle(req1, env) == Handle(req2, env)
  {
  }

  /**
   * A full page hands out a cursor; following it resumes strictly after
   * the page's last row: the cursor decodes to that row's key, and the
   * query it leads to is the repository's `fetchAfter` on that key.
   */
  lemma NextCursorResumes(target: Target, page: Repo.Page, limit: int,
                          table: Option<seq<Repo.Row>>, fields: seq<string>)
    requires page.last.Some? ==> Repo.KeyStored(page.last.value)
    requires table.Some? ==> Repo.Stored(table.value)
    requires "next_cursor" in Success(target, page, limit).body.entries
    ensures page.last.Some? && |page.items| == limit
    ensures var c := Success(target, page, limit).body.entries["next_cursor"];
      var k := page.last.value;
      && c.Str?
      && CursorCodec.Decode(c.s) == Ok(CursorCodec.Cursor(Time.FormatIso(k.t), k.i))
      && Repo.FetchAfterText(table, Time.FormatIso(k.t), k.i, limit, fields)
         == Repo.FetchAfter(table, k.t, k.i, limit, fields)
  {
    NextCursorDecodes(page.last.value);
  }

  /**
   * In range mode the bounds are the strictly parsed `since`/`until` when
   * given, else the validator's range.
   */
  lemma RangeBounds(p: RV.Params, clock: Time.DateTime, intended: bool)
    requires Time.Valid(clock)
    requires PlanBy(p, clock, intended).Ok? && PlanBy(p, clock, intended).value.target.InRange?
    ensures var target := PlanBy(p, clock, intended).value.target;
      var since := RV.ParseIsoUtc(p.since, "since");
      var until := RV.ParseIsoUtc(p.until, "until");
      var v := RV.Validate(p, clock);
      && since.Ok? && until.Ok? && v.Ok?
      && target.sinceIso == (if since.value.Some? then Time.FormatIso(since.value.value) else RV.EffectiveSince(v.value).GetOr(""))
      && target.untilIso == (if until.value.Some? then Time.FormatIso(until.value.value) else RV.EffectiveUntil(v.value).GetOr(""))
  {
  }

  /** With neither bound given, a range page covers the seven days up to now. */
  lemma DefaultRange(p: RV.Params, clock: Time.DateTime, intended: bool)
    requires Time.Valid(clock)
    requires Trim(StrCast(p.since)) == "" && Trim(StrCast(p.until)) == ""
    requires RV.Validate(p, clock).Ok? && !RV.Validate(p, clock).value.UsingCursor()
    requires PlanBy(p, clock, intended).Ok?
    ensures PlanBy(p, clock, intended).value.target
      == InRange(Time.FormatIso(Time.MinusDays(clock, 7)), Time.FormatIso(clock))
  {
    RV.DefaultWindow(p.since, p.until, clock);
  }

  // ---------------------------------------------------------------------
  // The "0" cursor
  // ---------------------------------------------------------------------

  /** The parameters of `?cursor=0` and nothing else. */
  const ZeroCursor: RV.Params := RV.Params(Null, Null, Str("0"), Null, Null, Null)

  lemma ZeroCursorRead()
    ensures RV.ReadParams(map["cursor" := Str("0")]) == ZeroCursor
  {
  }

  /** The validator puts `?cursor=0` in cursor mode with the default page size and fields. */
  lemma ZeroCursorValidated(clock: Time.DateTime)
    requires Time.Valid(clock)
    ensures RV.Validate(ZeroCursor, clock)
      == Ok(RV.Validated(Limits.DefaultPageSize, RV.AllowedFields, RV.CursorMode(Str("0"))))
  {
    var p := ZeroCursor;
    assert p.cursor == Str("0") && p.nextCursor == Null && p.limit == Null && p.fields == Null;
    CursorRawZero();
    LenientDefault();
    var v := RV.Validate(p, clock);
    assert v.Ok? && v.value.limit == Limits.DefaultPageSize && v.value.fields == RV.AllowedFields;
    assert v.value.UsingCursor() && v.value.mode.raw == Str("0");
  }

  lemma CursorRawZero()
    ensures RV.CursorRaw(Str("0"), Null) == Str("0")
  {
    var z := "0";
    assert |z| == 1 && z[0] == '0';
    TrimOfTrimmed(z);
  }

  /** The checks before the cursor pass for `?cursor=0`, with the validator in cursor mode. */
  lemma ZeroCursorChecked(clock: Time.DateTime)
    requires Time.Valid(clock)
    ensures CheckParams(ZeroCursor, clock) == Ok(ZeroCursorChecks)
  {
    ZeroCursorValidated(clock);
    RV.BlankFieldsMeanDefaults(Null, RV.AllowedFields);
    assert Trim(StrCast(Null)) == "";
    assert RV.ParseIsoUtc(Null, "since") == Ok(None);
    assert RV.ParseIsoUtc(Null, "until") == Ok(None);
  }

  const ZeroCursorChecks: Checked :=
    Checked(RV.Validated(Limits.DefaultPageSize, RV.AllowedFields, RV.CursorMode(Str("0"))), RV.AllowedFields, None, None)

  lemma LenientDefault()
    ensures RV.LenientFields(Null) == RV.AllowedFields
  {
    RV.PartsOfBlank();
    RV.LenientFieldsDefault(Trim(StrCast(Null)), RV.AllowedFields);
  }

  /**
   * As written: `?cursor=0` puts the validator in cursor mode, but PHP's
   * `empty("0")` skips the cursor branch, so the request becomes a range
   * query whose bounds are the empty text (`(string)null`).
   */
  lemma ZeroCursorPlanned(clock: Time.DateTime)
    requires Time.Valid(clock)
    ensures PlanBy(ZeroCursor, clock, false) == Ok(Query(Limits.DefaultPageSize, RV.AllowedFields, InRange("", "")))
  {
    ZeroCursorChecked(clock);
    assert Empty(Str("0"));
    assert !TakesCursor(ZeroCursorChecks.v, false);
  }

  /** A range with empty bounds matches no row, whatever the table holds. */
  lemma EmptyBoundsMatchNothing(table: Option<seq<Repo.Row>>, limit: int, fields: seq<string>)
    requires table.Some? ==> Repo.Stored(table.value)
    ensures Run(table, Query(limit, fields, InRange("", ""))) == Repo.Page([], None)
  {
    assert Repo.SqlStamp("").None?;
  }

  /**
   * So `?cursor=0` is answered `200` with no items and no `next_cursor`,
   * where the codec would refuse "0" as an `invalid_cursor` (`ZeroDecodeRefused`).
   */
  lemma ZeroCursorServedAsRange(clock: Time.DateTime, table: Option<seq<Repo.Row>>, requestId: string)
    requires Time.Valid(clock)
    requires table.Some? ==> Repo.Stored(table.value)
    ensures var r := Serve(ZeroCursor, clock, table, requestId);
      && r.status == 200 && r.body.Assoc?
      && "count" in r.body.entries && r.body.entries["count"] == Int(0)
      && "next_cursor" !in r.body.entries
  {
    var q := Query(Limits.DefaultPageSize, RV.AllowedFields, InRange("", ""));
    ZeroCursorPlanned(clock);
    ServedAsPlanned(ZeroCursor, clock, table, requestId, q);
    EmptyBoundsMatchNothing(table, q.limit, q.fields);
    EmptyPage(q.target, q.limit);
  }

  lemma ServedAsPlanned(p: RV.Params, clock: Time.DateTime, table: Option<seq<Repo.Row>>,
                        requestId: string, q: Query)
    requires Time.Valid(clock)
    requires table.Some? ==> Repo.Stored(table.value)
    requires PlanBy(p, clock, false) == Ok(q)
    ensures Serve(p, clock, table, requestId) == Success(q.target, Run(table, q), q.limit)
  {
  }

  /** An empty page is a `200` with count 0 and no `next_cursor`. */
  lemma EmptyPage(target: Target, limit: int)
    ensures var r := Success(target, Repo.Page([], None), limit);
      && r.status == 200 && r.body.Assoc?
      && "count" in r.body.entries && r.body.entries["count"] == Int(0)
      && "next_cursor" !in r.body.entries
  {
  }

  lemma ZeroDecodeRefused()
    ensures CursorCodec.Decode(StrCast(Str("0"))).Err?
    ensures CursorCodec.Decode(StrCast(Str("0"))).error.code == "invalid_cursor"
  {
    assert StrCast(Str("0")) == ['0'];
    CursorCodec.DecodeSingleChar('0');
  }

  /**
   * Intended: a request the validator puts in cursor mode is never answered
   * with a range page; it either fails or reads after the decoded cursor.
   */
  lemma CursorModeNeverRange(p: RV.Params, clock: Time.DateTime)
    requires Time.Valid(clock)
    requires RV.Validate(p, clock).Ok? && RV.Validate(p, clock).value.UsingCursor()
    ensures PlanBy(p, clock, true).Ok? ==> PlanBy(p, clock, true).value.target.AfterCursor?
  {
  }

  /** Intended: `?cursor=0` is refused as an invalid cursor. */
  lemma ZeroCursorRefused(clock: Time.DateTime)
    requires Time.Valid(clock)
    ensures PlanBy(ZeroCursor, clock, true).Err?
    ensures PlanBy(ZeroCursor, clock, true).error.code == "invalid_cursor"
  {
    ZeroCursorChecked(clock);
    ZeroCursorChooses();
  }

  lemma ZeroCursorChooses()
    ensures Choose(ZeroCursorChecks, true).Err?
    ensures Choose(ZeroCursorChecks, true).error.code == "invalid_cursor"
  {
    ZeroDecodeRefused();
  }
}

=== FILE: save_phone_handler.dfy ===
/**
 * `iw8ct_handle_save_phone`: the phone form's handler. It keeps the digits
 * of the submitted phone, refuses 1 to 9 or more than 15 digits, stores the
 * digits under both phone options, and updates the two optional flags.
 *
 * `wp_unslash`, `sanitize_text_field` and `rawurlencode` are parameters.
 */
module SavePhoneHandler {
  import opened Wrappers
  import opened Text
  import opened Php
  import Options = WpOptions
  import AdminPost
  import SettingsPage
  import Helpers

  const PhoneField := "iw8_wa_phone"
  const DebugField := "iw8_wa_debug"
  const DebugPresentField := "_iw8_wa_debug_present"
  const NoBeaconField := "iw8_wa_no_beacon"
  const NoBeaconPresentField := "_iw8_wa_no_beacon_present"

  const MinDigits := 10
  const MaxDigits := 15

  /** The WordPress helpers the handler calls. */
  datatype Wp = Wp(unslash: Value -> Value, sanitizeTextField: string -> string,
                   rawUrlEncode: string -> string)

  /** `isset($_POST[$name])`. */
  predicate Posted(post: map<string, Value>, name: string)
  {
    name in post && !post[name].Null?
  }

  /** The sanitised phone text, "" when the field is not posted. */
  function Raw(wp: Wp, post: map<string, Value>): string
  {
    wp.sanitizeTextField(if Posted(post, PhoneField) then StrCast(wp.unslash(post[PhoneField])) else "")
  }

  /** The digit count is checked only when there are digits at all. */
  predicate Refused(digits: string)
  {
    digits != "" && (|digits| < MinDigits || |digits| > MaxDigits)
  }

  /**
   * One optional flag: 1 when its box is posted, 0 when only its
   * "present" marker is, untouched otherwise.
   */
  function Flag(s: Options.Store, post: map<string, Value>, name: string, present: string): (r: Options.Store)
    ensures Posted(post, name) ==> r == Options.Update(s, name, Int(1))
    ensures !Posted(post, name) && Posted(post, present) ==> r == Options.Update(s, name, Int(0))
    ensures !Posted(post, name) && !Posted(post, present) ==> r == s
  {
    if Posted(post, name) then Options.Update(s, name, Int(1))
    else if Posted(post, present) then Options.Update(s, name, Int(0))
    else s
  }

  /**
   * The options after an accepted form: the same digits under both phone
   * options, each flag as its fields say, and no other option changed.
   */
  function Store(s: Options.Store, post: map<string, Value>, digits: string): (r: Options.Store)
    ensures SettingsPage.PhoneOption in r && SettingsPage.PhoneMirrorOption in r
    ensures r[SettingsPage.PhoneOption].value == Str(digits)
    ensures r[SettingsPage.PhoneMirrorOption].value == Str(digits)
    ensures Posted(post, DebugField) ==>
      SettingsPage.DebugOption in r && r[SettingsPage.DebugOption].value == Int(1)
    ensures !Posted(post, DebugField) && Posted(post, DebugPresentField) ==>
      SettingsPage.DebugOption in r && r[SettingsPage.DebugOption].value == Int(0)
    ensures Posted(post, NoBeaconField) ==>
      SettingsPage.NoBeaconOption in r && r[SettingsPage.NoBeaconOption].value == Int(1)
    ensures !Posted(post, NoBeaconField) && Posted(post, NoBeaconPresentField) ==>
      SettingsPage.NoBeaconOption in r && r[SettingsPage.NoBeaconOption].value == Int(0)
    ensures forall name :: name in s && name !in Written(post) ==> name in r && r[name] == s[name]
    ensures r.Keys <= s.Keys + Written(post)
  {
    var withPhone := Options.Update(Options.Update(s, SettingsPage.PhoneOption, Str(digits)),
                                    SettingsPage.PhoneMirrorOption, Str(digits));
    var withDebug := Flag(withPhone, post, DebugField, DebugPresentField);
    FlagWrites(withPhone, post, DebugField, DebugPresentField);
    FlagWrites(withDebug, post, NoBeaconField, NoBeaconPresentField);
    Flag(withDebug, post, NoBeaconField, NoBeaconPresentField)
  }

  /**
   * The handler: refused input goes back with `phone_invalid` and the raw
   * text to prefill, leaving the options alone; accepted input is stored and
   * goes back with `saved`.
   */
  function Save(c: AdminPost.Caller, wp: Wp, post: map<string, Value>, s: Options.Store,
                referer: Option<string>): (r: (AdminPost.Outcome, Options.Store))
    ensures AdminPost.Guard(c).Some? ==> r == (AdminPost.Guard(c).value, s)
    ensures AdminPost.Guard(c).None? ==>
      var raw := Raw(wp, post);
      var digits := Digits(raw);
      && (Refused(digits) ==>
            r == (AdminPost.Redirect(AdminPost.Back(referer),
                                     [("iw8_notice", "phone_invalid"), ("prefill_phone", wp.rawUrlEncode(raw))]), s))
      && (!Refused(digits) ==>
            r.0 == AdminPost.Redirect(AdminPost.Back(referer), [("iw8_notice", "saved")])
            && r.1 == Store(s, post, digits))
  {
    match AdminPost.Guard(c)
    case Some(stop) => (stop, s)
    case None =>
      var raw := Raw(wp, post);
      var digits := Digits(raw);
      if Refused(digits) then
        (AdminPost.Redirect(AdminPost.Back(referer),
                            [("iw8_notice", "phone_invalid"), ("prefill_phone", wp.rawUrlEncode(raw))]), s)
      else
        (AdminPost.Redirect(AdminPost.Back(referer), [("iw8_notice", "saved")]), Store(s, post, digits))
  }

  // ---------------------------------------------------------------------
  // Properties
  // ---------------------------------------------------------------------

  /** A flag writes only its own option, and only when the form carried it. */
  lemma FlagWrites(s: Options.Store, post: map<string, Value>, name: string, present: string)
    ensures var r := Flag(s, post, name, present);
      && (forall other :: other in s && other != name ==> other in r && r[other] == s[other])
      && (Posted(post, name) || Posted(post, present) ==> r.Keys == s.Keys + {name})
      && (!Posted(post, name) && !Posted(post, present) ==> r == s)
  {
  }

  /** The options an accepted form may write. */
  function Written(post: map<string, Value>): (names: set<string>)
    ensures SettingsPage.PhoneOption in names && SettingsPage.PhoneMirrorOption in names
  {
    {SettingsPage.PhoneOption, SettingsPage.PhoneMirrorOption}
    + (if Posted(post, DebugField) || Posted(post, DebugPresentField) then {SettingsPage.DebugOption} else {})
    + (if Posted(post, NoBeaconField) || Posted(post, NoBeaconPresentField) then {SettingsPage.NoBeaconOption} else {})
  }

  /**
   * What an accepted form stores is "" or a phone the rest of the plugin
   * treats as configured.
   */
  lemma StoredPhoneConfigured(s: Options.Store, post: map<string, Value>, digits: string)
    requires AllDigits(digits) && !Refused(digits)
    ensures var stored := Options.GetString(Store(s, post, digits), SettingsPage.PhoneOption);
      && stored == digits
      && (Helpers.IsPhoneConfigured(stored) <==> digits != "")
  {
    if digits != "" {
      assert |digits| >= MinDigits;
      assert digits != "0";
    }
  }

  /** After an accepted form the page shows the digits just saved. */
  lemma SavedPhoneShown(s: Options.Store, post: map<string, Value>, digits: string)
    ensures SettingsPage.PhoneShown(Store(s, post, digits), "") == digits
  {
  }

  /** After an accepted form the page's debug switch reflects the box, when the form carried it. */
  lemma SavedDebugShown(s: Options.Store, post: map<string, Value>, digits: string)
    requires Posted(post, DebugField) || Posted(post, DebugPresentField)
    ensures SettingsPage.DebugOn(Store(s, post, digits)) <==> Posted(post, DebugField)
  {
  }

  /** A refused form leaves every option as it was. */
  lemma RefusedChangesNothing(c: AdminPost.Caller, wp: Wp, post: map<string, Value>, s: Options.Store,
                              referer: Option<string>)
    requires Refused(Digits(Raw(wp, post)))
    ensures Save(c, wp, post, s, referer).1 == s
  {
  }
}

=== FILE: security_gate.dfy ===
/**
 * The REST pre-dispatch gate of the plugin's routes (`Security::restHttpsGate`):
 * in production, a request to `/iw8-wa/v1/...` that did not arrive over
 * HTTPS is refused before any callback runs.
 */
module SecurityGate {
  import opened Wrappers
  import opened Text
  import opened Php
  import Json

  const RoutePrefix: string := "/iw8-wa/v1/"

  const ForbiddenHttp: WpError := WpError("rest_forbidden_http", "HTTPS obrigatório em produção.", 401)

  /** `routeIsIw8`. */
  predicate RouteIsIw8(route: string)
  {
    StartsWith(route, RoutePrefix)
  }

  /** `isProd`: `seedDev` is true when `IW8_WA_SEED_DEV` is defined and truthy. */
  function IsProd(seedDev: bool): bool
  {
    !seedDev
  }

  /** `$_SERVER[a] ?? $_SERVER[b] ?? null`. */
  function FirstOf(server: map<string, string>, a: string, b: string): (r: Option<string>)
    ensures r.Some? <==> a in server || b in server
    ensures a in server ==> r == Some(server[a])
    ensures a !in server && b in server ==> r == Some(server[b])
  {
    if a in server then Some(server[a]) else if b in server then Some(server[b]) else None
  }

  /** The forwarded protocol mentions `https` in any letter case (`stripos`). */
  predicate ForwardedHttps(server: map<string, string>)
  {
    var proto := FirstOf(server, "HTTP_X_FORWARDED_PROTO", "X-Forwarded-Proto");
    proto.Some? && Contains(Lower(proto.value), "https")
  }

  /** The `scheme` member of a non-empty `CF-Visitor` header that decodes to a JSON array or object. */
  function CfScheme(server: map<string, string>): Option<Value>
  {
    if "HTTP_CF_VISITOR" in server && !PhpEmptyString(server["HTTP_CF_VISITOR"]) then
      var cf := Json.Decode(server["HTTP_CF_VISITOR"]);
      if cf.Some? && IsArray(cf.value) then Some(Coalesce(cf.value, "scheme", Str(""))) else None
    else None
  }

  /**
   * The scheme is itself an array: PHP 8's `strtolower` then throws a
   * `TypeError`, which ends the request with a fatal error.
   */
  predicate CfSchemeIsArray(server: map<string, string>)
  {
    var scheme := CfScheme(server);
    scheme.Some? && IsArray(scheme.value)
  }

  /** Cloudflare's `CF-Visitor` header is a JSON object whose `scheme` is `https`. */
  predicate CfVisitorHttps(server: map<string, string>)
  {
    var scheme := CfScheme(server);
    scheme.Some? && !IsArray(scheme.value) && Lower(StrCast(scheme.value)) == "https"
  }

  predicate PortHttps(server: map<string, string>)
  {
    "SERVER_PORT" in server && server["SERVER_PORT"] == "443"
  }

  predicate HttpsOn(server: map<string, string>)
  {
    "HTTPS" in server && Lower(server["HTTPS"]) == "on"
  }

  /**
   * `isHttpsRequest`: `isSsl` is WordPress's `is_ssl()`; the other
   * indicators are read from the server variables. `Err` is the `TypeError`
   * the Cloudflare check throws when it reaches an array scheme.
   */
  function IsHttpsRequest(isSsl: bool, server: map<string, string>): (r: Result<bool, string>)
    ensures r.Err? <==> !isSsl && !ForwardedHttps(server) && CfSchemeIsArray(server)
    ensures r.Ok? ==> (r.value <==> isSsl || HttpsOn(server) || PortHttps(server)
                                     || ForwardedHttps(server) || CfVisitorHttps(server))
  {
    if isSsl then Ok(true)
    else if ForwardedHttps(server) then Ok(true)
    else if CfSchemeIsArray(server) then Err("TypeError")
    else if CfVisitorHttps(server) then Ok(true)
    else if PortHttps(server) then Ok(true)
    else Ok(HttpsOn(server))
  }

  /** What the filter does with a request: hand back its input, refuse it, or die with a fatal error. */
  datatype GateOutcome<T> = Pass(value: T) | Refuse(error: WpError) | Fatal(reason: string)

  /**
   * `restHttpsGate($result, $server, $request)`: `Pass(result)` means the
   * filter returns its input unchanged, `Refuse` the `WP_Error` it returns
   * instead. `https` is the outcome of `isHttpsRequest()`, which only runs in
   * production on a plugin route.
   */
  function Gate<T>(result: T, seedDev: bool, route: string, https: Result<bool, string>): (r: GateOutcome<T>)
    ensures r.Refuse? <==> IsProd(seedDev) && RouteIsIw8(route) && https == Ok(false)
    ensures r.Fatal? <==> IsProd(seedDev) && RouteIsIw8(route) && https.Err?
    ensures r.Pass? ==> r.value == result
    ensures r.Refuse? ==> r.error == ForbiddenHttp && r.error.status == 401
  {
    if !IsProd(seedDev) then Pass(result)
    else if !RouteIsIw8(route) then Pass(result)
    else if https.Err? then Fatal(https.error)
    else if !https.value then Refuse(ForbiddenHttp)
    else Pass(result)
  }

  /** Outside the plugin's namespace the gate never interferes. */
  lemma OtherRoutesPass<T>(result: T, seedDev: bool, route: string, isSsl: bool, server: map<string, string>)
    requires !StartsWith(route, RoutePrefix)
    ensures Gate(result, seedDev, route, IsHttpsRequest(isSsl, server)) == Pass(result)
  {
  }

  /**
   * A request on port 443 passes even when `is_ssl()` and every header say
   * otherwise, unless a `CF-Visitor` scheme array kills it first.
   */
  lemma Port443Passes<T>(result: T, seedDev: bool, route: string, server: map<string, string>)
    requires "SERVER_PORT" in server && server["SERVER_PORT"] == "443"
    ensures !CfSchemeIsArray(server) ==> Gate(result, seedDev, route, IsHttpsRequest(false, server)) == Pass(result)
    ensures CfSchemeIsArray(server) && !ForwardedHttps(server) && IsProd(seedDev) && RouteIsIw8(route)
            ==> Gate(result, seedDev, route, IsHttpsRequest(false, server)).Fatal?
  {
  }

  /**
   * A client-sent `CF-Visitor: {"scheme":["https"]}` on a plain-HTTP plugin
   * request in production ends in the fatal error rather than the 401.
   */
  lemma ArraySchemeIsFatal<T>(result: T, route: string, server: map<string, string>)
    requires RouteIsIw8(route) && CfSchemeIsArray(server)
    requires "HTTP_X_FORWARDED_PROTO" !in server && "X-Forwarded-Proto" !in server
    ensures Gate(result, false, route, IsHttpsRequest(false, server)).Fatal?
  {
  }
}

=== FILE: settings_page.dfy ===
/**
 * What the settings page shows (`SettingsPage::render` and `mask_token`):
 * the phone in the form field, the two flags, and the effective token with
 * all but its last eight bytes hidden.
 */
module SettingsPage {
  import opened Wrappers
  import opened Text
  import opened Php
  import Options = WpOptions
  import TokenHandlers

  const PhoneOption := "iw8_wa_phone"
  /** The mirror older code reads the phone from. */
  const PhoneMirrorOption := "iw8_wa_phone_number"
  const DebugOption := "iw8_wa_debug"
  const NoBeaconOption := "iw8_wa_no_beacon"

  /** How many trailing bytes of the token stay visible. */
  const Visible := 8
  /** `•` (U+2022) as the three UTF-8 bytes `str_repeat` copies. */
  const Bullet: string := [0xE2 as char, 0x80 as char, 0xA2 as char]
  const NotDefined := "(não definido)"

  /** `str_repeat('•', n)`. */
  function Bullets(n: nat): (r: string)
    ensures |r| == 3 * n
    ensures forall k :: 0 <= k < |r| ==> r[k] in Bullet
  {
    if n == 0 then "" else Bullet + Bullets(n - 1)
  }

  /**
   * `mask_token`: a token of at most eight bytes is shown as it is; a longer
   * one as one bullet per hidden byte followed by its last eight bytes.
   */
  function MaskToken(t: string): (r: string)
    ensures |t| <= Visible ==> r == t
    ensures |t| > Visible ==> |r| == 3 * (|t| - Visible) + Visible
    ensures |t| > Visible ==> r[|r| - Visible..] == t[|t| - Visible..]
    ensures |t| > Visible ==> forall k :: 0 <= k < |r| - Visible ==> r[k] in Bullet
  {
    if |t| <= Visible then t
    else
      var hidden := Bullets(|t| - Visible);
      var r := hidden + t[|t| - Visible..];
      assert r[|r| - Visible..] == t[|t| - Visible..];
      r
  }

  /** The mask reveals the length and the last eight bytes, and nothing else. */
  lemma MaskSeesOnlyTail(a: string, b: string)
    requires |a| == |b| > Visible
    requires a[|a| - Visible..] == b[|b| - Visible..]
    ensures MaskToken(a) == MaskToken(b)
  {
    var ra, rb := MaskToken(a), MaskToken(b);
    assert |ra| == |rb|;
    assert ra[..|ra| - Visible] == Bullets(|a| - Visible) == rb[..|rb| - Visible];
    assert ra == ra[..|ra| - Visible] + ra[|ra| - Visible..];
    assert rb == rb[..|rb| - Visible] + rb[|rb| - Visible..];
  }

  /**
   * The token line: `$token_effect ? mask_token(...) : '(não definido)'`,
   * PHP's truth test making "0" count as no token.
   */
  function TokenShown(s: Options.Store): (r: string)
    ensures PhpEmptyString(TokenHandlers.EffectiveToken(s)) ==> r == NotDefined
    ensures !PhpEmptyString(TokenHandlers.EffectiveToken(s)) ==> r == MaskToken(TokenHandlers.EffectiveToken(s))
  {
    var t := TokenHandlers.EffectiveToken(s);
    if PhpEmptyString(t) then NotDefined else MaskToken(t)
  }

  /** After a rotation the page shows 56 bullets and the new token's last eight characters. */
  lemma RotatedTokenShown(s: Options.Store, token: string, now: int)
    requires Options.Valid(s)
    requires |token| == TokenHandlers.TokenLength
    ensures var r := TokenShown(TokenHandlers.Rotate(s, token, now));
      && |r| == 3 * 56 + Visible
      && r[|r| - Visible..] == token[|token| - Visible..]
  {
    var s' := TokenHandlers.Rotate(s, token, now);
    assert Options.GetString(s', TokenHandlers.TokenOption) == token;
    assert TokenHandlers.EffectiveToken(s') == token;
    assert !PhpEmptyString(token);
  }

  /** The stored phone: `iw8_wa_phone`, or its mirror when that is "". */
  function StoredPhone(s: Options.Store): (r: string)
    ensures Options.GetString(s, PhoneOption) != "" ==> r == Options.GetString(s, PhoneOption)
    ensures Options.GetString(s, PhoneOption) == "" ==> r == Options.GetString(s, PhoneMirrorOption)
  {
    var phone := Options.GetString(s, PhoneOption);
    if phone == "" then Options.GetString(s, PhoneMirrorOption) else phone
  }

  /**
   * The phone field: the sanitised `prefill_phone` query argument when it is
   * not "", else the stored phone.
   */
  function PhoneShown(s: Options.Store, prefill: string): (r: string)
    ensures prefill != "" ==> r == prefill
    ensures prefill == "" ==> r == StoredPhone(s)
  {
    if prefill != "" then prefill else StoredPhone(s)
  }

  /** `(int) get_option('iw8_wa_debug', 0) === 1`. */
  predicate DebugOn(s: Options.Store)
  {
    IntCast(Options.Get(s, DebugOption, Int(0))) == 1
  }

  /** `(int) get_option('iw8_wa_no_beacon', 1) === 1`. */
  predicate NoBeaconOn(s: Options.Store)
  {
    IntCast(Options.Get(s, NoBeaconOption, Int(1))) == 1
  }

  /** On a fresh site: no phone, debug off, the beacon switched off, no token. */
  lemma FreshSiteDefaults(prefill: string)
    ensures var s: Options.Store := map[];
      && PhoneShown(s, "") == ""
      && !DebugOn(s) && NoBeaconOn(s)
      && TokenShown(s) == NotDefined
  {
    var s: Options.Store := map[];
    assert IntCast(Int(0)) == 0 && IntCast(Int(1)) == 1;
    assert TokenHandlers.EffectiveToken(s) == "";
  }
}

=== FILE: text.dfy ===
/**
 * String helpers with the semantics of the PHP and JavaScript built-ins the
 * source uses: digit extraction (`preg_replace('/\D+/', '', …)`), ASCII case
 * mapping (`strtolower`/`strtoupper`), `trim`, `str_starts_with`,
 * `str_ends_with`, `substr($s, 0, n)`, `explode`, and decimal rendering of
 * integers.
 */
module Text {

  // ---------------------------------------------------------------------
  // Character classes
  // ---------------------------------------------------------------------

  predicate IsDigit(c: char) { '0' <= c <= '9' }

  predicate IsAsciiUpper(c: char) { 'A' <= c <= 'Z' }

  predicate IsAsciiLower(c: char) { 'a' <= c <= 'z' }

  /** A PCRE/JavaScript "word" character when no Unicode mode is enabled: `[A-Za-z0-9_]`. */
  predicate IsWordChar(c: char)
  {
    IsDigit(c) || IsAsciiUpper(c) || IsAsciiLower(c) || c == '_'
  }

  /** The characters PHP's `trim()` strips by default: " \t\n\r\0\x0B". */
  predicate IsPhpTrimChar(c: char)
  {
    c == ' ' || c == '\t' || c == '\n' || c == '\r' || c == '\0' || c == '\U{B}'
  }

  /**
   * JavaScript's `\s` and the characters `String.prototype.trim` removes:
   * WhiteSpace and LineTerminator of the ECMAScript grammar.
   */
  predicate IsJsSpace(c: char)
  {
    c == ' ' || c == '\t' || c == '\n' || c == '\U{B}' || c == '\U{C}' || c == '\r'
    || c == '\U{A0}' || c == '\U{1680}' || ('\U{2000}' <= c <= '\U{200A}')
    || c == '\U{2028}' || c == '\U{2029}' || c == '\U{202F}' || c == '\U{205F}'
    || c == '\U{3000}' || c == '\U{FEFF}'
  }

  /** PCRE's `\s` (space, \t, \n, \x0B, \f, \r). */
  predicate IsPcreSpace(c: char)
  {
    c == ' ' || c == '\t' || c == '\n' || c == '\U{B}' || c == '\U{C}' || c == '\r'
  }

  function LowerChar(c: char): char
  {
    if IsAsciiUpper(c) then (c as int + 32) as char else c
  }

  function UpperChar(c: char): char
  {
    if IsAsciiLower(c) then (c as int - 32) as char else c
  }

  // ---------------------------------------------------------------------
  // Digits
  // ---------------------------------------------------------------------

  predicate AllDigits(s: string)
  {
    forall i :: 0 <= i < |s| ==> IsDigit(s[i])
  }

  /** `preg_replace('/\D+/', '', s)`: the digits of `s`, in order. */
  function Digits(s: string): (r: string)
    ensures AllDigits(r)
    ensures |r| <= |s|
    ensures AllDigits(s) ==> r == s
  {
    if |s| == 0 then ""
    else if IsDigit(s[0]) then [s[0]] + Digits(s[1..])
    else Digits(s[1..])
  }

  lemma {:induction false} DigitsAppend(a: string, b: string)
    ensures Digits(a + b) == Digits(a) + Digits(b)
  {
    if |a| == 0 {
      assert a + b == b;
    } else {
      assert (a + b)[0] == a[0];
      assert (a + b)[1..] == a[1..] + b;
      DigitsAppend(a[1..], b);
    }
  }

  /** Removing non-digits twice is the same as removing them once. */
  lemma DigitsIdempotent(s: string)
    ensures Digits(Digits(s)) == Digits(s)
  {
  }

  /** A string without digits normalises to the empty string. */
  lemma {:induction false} DigitsOfNoDigits(s: string)
    requires forall i :: 0 <= i < |s| ==> !IsDigit(s[i])
    ensures Digits(s) == ""
  {
    if |s| > 0 {
      DigitsOfNoDigits(s[1..]);
    }
  }

  // ---------------------------------------------------------------------
  // Case mapping (ASCII only, as PHP 8's strtolower/strtoupper)
  // ---------------------------------------------------------------------

  function Lower(s: string): (r: string)
    ensures |r| == |s|
    ensures forall i :: 0 <= i < |s| ==> r[i] == LowerChar(s[i])
  {
    if |s| == 0 then "" else [LowerChar(s[0])] + Lower(s[1..])
  }

  function Upper(s: string): (r: string)
    ensures |r| == |s|
    ensures forall i :: 0 <= i < |s| ==> r[i] == UpperChar(s[i])
  {
    if |s| == 0 then "" else [UpperChar(s[0])] + Upper(s[1..])
  }

  lemma LowerIdempotent(s: string)
    ensures Lower(Lower(s)) == Lower(s)
  {
  }

  lemma LowerAppend(a: string, b: string)
    ensures Lower(a + b) == Lower(a) + Lower(b)
  {
  }

  /**
   * `s` starts with the lower-case literal `lit` when ASCII letters are
   * compared without regard to case (a regular expression's `i` flag).
   */
  predicate StartsWithCI(s: string, lit: string)
    ensures StartsWithCI(s, lit) ==> |lit| <= |s|
    decreases |lit|
  {
    |lit| == 0 || (|s| > 0 && LowerChar(s[0]) == lit[0] && StartsWithCI(s[1..], lit[1..]))
  }

  /** The test is `Lower` applied to the head of `s`. */
  lemma {:induction false} StartsWithCILower(s: string, lit: string)
    ensures StartsWithCI(s, lit) <==> |lit| <= |s| && Lower(s[..|lit|]) == lit
    decreases |lit|
  {
    if 0 < |lit| <= |s| {
      StartsWithCILower(s[1..], lit[1..]);
      assert s[1..][..|lit| - 1] == s[1..|lit|];
      assert Lower(s[..|lit|]) == [LowerChar(s[0])] + Lower(s[1..|lit|]);
    } else if 0 < |lit| && 0 < |s| {
      StartsWithCILower(s[1..], lit[1..]);
    }
  }

  /** A head `a` that lower-cases to `lit` is found whatever follows it. */
  lemma {:induction false} CIHead(a: string, rest: string, lit: string)
    requires |a| == |lit| && forall k :: 0 <= k < |a| ==> LowerChar(a[k]) == lit[k]
    ensures StartsWithCI(a + rest, lit)
    decreases |a|
  {
    if |a| > 0 {
      assert (a + rest)[1..] == a[1..] + rest;
      CIHead(a[1..], rest, lit[1..]);
    }
  }

  /** One position where `s` and `lit` differ in any case rules the prefix out. */
  lemma {:induction false} CIHeadDiffers(s: string, lit: string, k: nat)
    requires k < |lit| && k < |s| && LowerChar(s[k]) != lit[k]
    ensures !StartsWithCI(s, lit)
    decreases k
  {
    if k > 0 {
      CIHeadDiffers(s[1..], lit[1..], k - 1);
    }
  }

  /**
   * `s.toLowerCase() === lit` (or `strtolower($s) === $lit`) for a
   * lower-case literal `lit`.
   */
  predicate LowerIs(s: string, lit: string)
  {
    |s| == |lit| && StartsWithCI(s, lit)
  }

  lemma LowerIsLower(s: string, lit: string)
    ensures LowerIs(s, lit) <==> Lower(s) == lit
  {
    StartsWithCILower(s, lit);
    assert s[..|s|] == s;
  }

  /** A lower-case literal compares equal to itself. */
  lemma LowerIsSelf(lit: string)
    requires forall k :: 0 <= k < |lit| ==> LowerChar(lit[k]) == lit[k]
    ensures LowerIs(lit, lit)
  {
    CIHead(lit, "", lit);
    assert lit + "" == lit;
  }

  // ---------------------------------------------------------------------
  // Prefix / suffix tests and truncation
  // ---------------------------------------------------------------------

  predicate StartsWith(s: string, p: string)
  {
    |p| <= |s| && s[..|p|] == p
  }

  predicate EndsWith(s: string, p: string)
  {
    |p| <= |s| && s[|s| - |p|..] == p
  }

  /** `substr(s, 0, n)` / `mb_substr(s, 0, n)` / JavaScript `s.substring(0, n)`. */
  function Truncate(s: string, n: nat): (r: string)
    ensures |r| <= n && |r| <= |s|
    ensures |s| <= n ==> r == s
    ensures |s| > n ==> |r| == n
    ensures StartsWith(s, r)
  {
    if |s| <= n then s else s[..n]
  }

  /** `Contains(s, sub)`: `sub` occurs somewhere in `s`. */
  predicate Contains(s: string, sub: string)
    decreases |s|
  {
    |sub| <= |s| && (s[..|sub|] == sub || (|s| > 0 && Contains(s[1..], sub)))
  }

  // ---------------------------------------------------------------------
  // PHP trim
  // ---------------------------------------------------------------------

  function TrimLeft(s: string): (r: string)
    ensures |r| <= |s|
    ensures r == s[|s| - |r|..]
    ensures |r| > 0 ==> !IsPhpTrimChar(r[0])
    ensures forall i :: 0 <= i < |s| - |r| ==> IsPhpTrimChar(s[i])
  {
    if |s| > 0 && IsPhpTrimChar(s[0]) then TrimLeft(s[1..]) else s
  }

  function TrimRight(s: string): (r: string)
    ensures |r| <= |s|
    ensures r == s[..|r|]
    ensures |r| > 0 ==> !IsPhpTrimChar(r[|r| - 1])
    ensures forall i :: |r| <= i < |s| ==> IsPhpTrimChar(s[i])
  {
    if |s| > 0 && IsPhpTrimChar(s[|s| - 1]) then TrimRight(s[..|s| - 1]) else s
  }

  /** The number of trim characters `s` starts with. */
  function LeadingTrim(s: string): (n: nat)
    ensures n <= |s|
    ensures forall i :: 0 <= i < n ==> IsPhpTrimChar(s[i])
    ensures n < |s| ==> !IsPhpTrimChar(s[n])
  {
    |s| - |TrimLeft(s)|
  }

  /**
   * PHP `trim()`: strips " \t\n\r\0\x0B" from both ends. The result is the
   * slice of `s` after its leading trim characters, followed in `s` only by
   * trim characters, and neither starts nor ends with one.
   */
  function Trim(s: string): (r: string)
    ensures |r| <= |s|
    ensures |r| > 0 ==> !IsPhpTrimChar(r[0]) && !IsPhpTrimChar(r[|r| - 1])
    ensures (forall i :: 0 <= i < |s| ==> IsPhpTrimChar(s[i])) <==> r == ""
    ensures LeadingTrim(s) + |r| <= |s| && r == s[LeadingTrim(s)..LeadingTrim(s) + |r|]
    ensures forall i :: LeadingTrim(s) + |r| <= i < |s| ==> IsPhpTrimChar(s[i])
  {
    var l := TrimLeft(s);
    var r := TrimRight(l);
    assert r == "" ==> l == "";
    r
  }

  lemma TrimOfTrimmed(s: string)
    requires |s| == 0 || (!IsPhpTrimChar(s[0]) && !IsPhpTrimChar(s[|s| - 1]))
    ensures Trim(s) == s
  {
  }

  /** Trimming is idempotent. */
  lemma TrimIdempotent(s: string)
    ensures Trim(Trim(s)) == Trim(s)
  {
    TrimOfTrimmed(Trim(s));
  }

  // ---------------------------------------------------------------------
  // explode
  // ---------------------------------------------------------------------

  /** PHP `explode(sep, s)`: always at least one piece; no piece contains `sep`. */
  function Split(s: string, sep: char): (r: seq<string>)
    ensures |r| >= 1
    ensures forall k :: 0 <= k < |r| ==> sep !in r[k]
    decreases |s|
  {
    if |s| == 0 then [""]
    else
      var rest := Split(s[1..], sep);
      if s[0] == sep then [""] + rest
      else [[s[0]] + rest[0]] + rest[1..]
  }

  /** The pieces, glued back with the separator, give the input back. */
  function Join(parts: seq<string>, sep: char): string
  {
    if |parts| == 0 then ""
    else if |parts| == 1 then parts[0]
    else parts[0] + [sep] + Join(parts[1..], sep)
  }

  lemma {:induction false} SplitJoin(s: string, sep: char)
    ensures Join(Split(s, sep), sep) == s
    decreases |s|
  {
    if |s| > 0 {
      SplitJoin(s[1..], sep);
      var rest := Split(s[1..], sep);
      if s[0] == sep {
        assert Split(s, sep) == [""] + rest;
        assert ([""] + rest)[1..] == rest;
        assert s == [sep] + s[1..];
      } else {
        var parts := [[s[0]] + rest[0]] + rest[1..];
        assert Split(s, sep) == parts;
        if |rest| == 1 {
          assert Join(rest, sep) == rest[0];
        } else {
          assert parts[1..] == rest[1..];
          assert Join(rest, sep) == rest[0] + [sep] + Join(rest[1..], sep);
        }
        assert s == [s[0]] + s[1..];
      }
    }
  }

  /** A text without the separator is one piece. */
  lemma {:induction false} SplitNoSep(s: string, sep: char)
    requires sep !in s
    ensures Split(s, sep) == [s]
    decreases |s|
  {
    if |s| > 0 {
      SplitNoSep(s[1..], sep);
      assert s == [s[0]] + s[1..];
    }
  }

  /** Splitting at a separator between two texts splits each of them. */
  lemma {:induction false} SplitConcat(a: string, b: string, sep: char)
    ensures Split(a + [sep] + b, sep) == Split(a, sep) + Split(b, sep)
    decreases |a|
  {
    if |a| == 0 {
      assert a + [sep] + b == [sep] + b;
      assert ([sep] + b)[1..] == b;
    } else {
      assert (a + [sep] + b)[1..] == a[1..] + [sep] + b;
      SplitConcat(a[1..], b, sep);
    }
  }

  // ---------------------------------------------------------------------
  // Decimal rendering and parsing
  // ---------------------------------------------------------------------

  function DigitChar(d: nat): char
    requires d < 10
  {
    ('0' as int + d) as char
  }

  function DigitValue(c: char): nat
    requires IsDigit(c)
  {
    c as int - '0' as int
  }

  /** The decimal text of a natural number, without leading zeros ("0" for zero). */
  function NatToString(n: nat): (r: string)
    ensures |r| >= 1 && AllDigits(r)
    ensures |r| > 1 ==> r[0] != '0'
    ensures n > 0 ==> r[0] != '0'
    decreases n
  {
    if n < 10 then [DigitChar(n)]
    else NatToString(n / 10) + [DigitChar(n % 10)]
  }

  /** PHP's `(string)` of an integer. */
  function IntToString(i: int): (r: string)
    ensures |r| >= 1
    ensures i >= 0 ==> AllDigits(r) && ParseDigits(r) == i && (|r| > 1 ==> r[0] != '0')
    ensures i < 0 ==> |r| >= 2 && r[0] == '-' && r[1] != '0'
                      && AllDigits(r[1..]) && ParseDigits(r[1..]) == -i
  {
    if i >= 0 then
      ParseNatToString(i);
      NatToString(i)
    else
      var t := NatToString(-i);
      ParseNatToString(-i);
      assert ("-" + t)[1..] == t;
      "-" + t
  }

  /** The text of an integer is its magnitude's digits, after a `-` when negative. */
  lemma IntToStringParts(i: int)
    ensures i >= 0 ==> IntToString(i) == NatToString(i)
    ensures i < 0 ==> IntToString(i) == "-" + NatToString(-i)
  {
  }

  /** The value of a non-empty run of decimal digits. */
  function ParseDigits(s: string): nat
    requires AllDigits(s)
    decreases |s|
  {
    if |s| == 0 then 0
    else ParseDigits(s[..|s| - 1]) * 10 + DigitValue(s[|s| - 1])
  }

  lemma {:induction false} ParseNatToString(n: nat)
    ensures ParseDigits(NatToString(n)) == n
    decreases n
  {
    if n >= 10 {
      var s := NatToString(n);
      ParseNatToString(n / 10);
      assert s[..|s| - 1] == NatToString(n / 10);
    }
  }

  /** Distinct naturals have distinct decimal texts. */
  lemma NatToStringInjective(a: nat, b: nat)
    requires NatToString(a) == NatToString(b)
    ensures a == b
  {
    ParseNatToString(a);
    ParseNatToString(b);
  }

  /** PHP's `empty()` on a string: true for "" and for "0". */
  predicate PhpEmptyString(s: string)
  {
    s == "" || s == "0"
  }

  // ---------------------------------------------------------------------
  // Order-keeping selections
  // ---------------------------------------------------------------------

  /** `a` is `b` with some entries left out, the rest in their order. */
  predicate Subsequence<T(==)>(a: seq<T>, b: seq<T>)
    decreases |b|
  {
    |a| == 0 || (|b| > 0 && ((a[0] == b[0] && Subsequence(a[1..], b[1..])) || Subsequence(a, b[1..])))
  }

  /** Leaving out a new last entry keeps a selection a selection. */
  lemma {:induction false} SubsequenceSkipLast<T>(a: seq<T>, b: seq<T>, x: T)
    requires Subsequence(a, b)
    ensures Subsequence(a, b + [x])
    decreases |b|
  {
    if |a| > 0 {
      var bx := b + [x];
      assert bx[0] == b[0] && bx[1..] == b[1..] + [x];
      if a[0] == b[0] && Subsequence(a[1..], b[1..]) {
        SubsequenceSkipLast(a[1..], b[1..], x);
      } else {
        SubsequenceSkipLast(a, b[1..], x);
      }
    }
  }

  /** Keeping a new last entry keeps a selection a selection. */
  lemma {:induction false} SubsequenceKeepLast<T>(a: seq<T>, b: seq<T>, x: T)
    requires Subsequence(a, b)
    ensures Subsequence(a + [x], b + [x])
    decreases |b|
  {
    var ax, bx := a + [x], b + [x];
    if |a| == 0 {
      assert ax == [x];
      if |b| == 0 {
        assert bx == [x] && ax[1..] == [];
      } else {
        assert bx[1..] == b[1..] + [x];
        SubsequenceKeepLast(a, b[1..], x);
      }
    } else {
      assert ax[0] == a[0] && ax[1..] == a[1..] + [x];
      assert bx[0] == b[0] && bx[1..] == b[1..] + [x];
      if a[0] == b[0] && Subsequence(a[1..], b[1..]) {
        SubsequenceKeepLast(a[1..], b[1..], x);
      } else {
        SubsequenceKeepLast(a, b[1..], x);
      }
    }
  }
}

=== FILE: time.dfy ===
/**
 * UTC calendar timestamps as the PHP code handles them: the fields of a
 * `DateTimeImmutable` in UTC, the two renderings the code uses
 * (`Y-m-d\TH:i:s\Z` and `Y-m-d H:i:s`), the strict parse of the ISO form, the
 * regular-expression test `^\d{4}-\d{2}-\d{2}T\d{2}:\d{2}:\d{2}Z$`, and
 * subtraction of whole days (`->sub(new DateInterval('PnD'))`).
 */
module Time {
  import opened Wrappers
  import opened Text

  datatype DateTime = DateTime(year: int, month: int, day: int, hour: int, minute: int, second: int)

  predicate IsLeap(y: int)
  {
    y % 4 == 0 && (y % 100 != 0 || y % 400 == 0)
  }

  function DaysInMonth(y: int, m: int): int
    requires 1 <= m <= 12
  {
    if m == 2 then (if IsLeap(y) then 29 else 28)
    else if m == 4 || m == 6 || m == 9 || m == 11 then 30
    else 31
  }

  /** A real instant of the proleptic Gregorian calendar. */
  predicate Valid(d: DateTime)
  {
    1 <= d.month <= 12 && 1 <= d.day <= DaysInMonth(d.year, d.month)
    && 0 <= d.hour < 24 && 0 <= d.minute < 60 && 0 <= d.second < 60
  }

  /** Years 0000 to 9999: the ones whose `Y` rendering has exactly four digits. */
  predicate FourDigitYear(d: DateTime)
  {
    0 <= d.year <= 9999
  }

  // ---------------------------------------------------------------------
  // Chronological order
  // ---------------------------------------------------------------------

  function Fields(d: DateTime): seq<int>
  {
    [d.year, d.month, d.day, d.hour, d.minute, d.second]
  }

  /** `a` is strictly earlier than `b`: lexicographic order on the fields. */
  predicate Before(a: DateTime, b: DateTime)
  {
    a.year < b.year
    || (a.year == b.year && (a.month < b.month
    || (a.month == b.month && (a.day < b.day
    || (a.day == b.day && (a.hour < b.hour
    || (a.hour == b.hour && (a.minute < b.minute
    || (a.minute == b.minute && a.second < b.second)))))))))
  }

  // ---------------------------------------------------------------------
  // Rendering
  // ---------------------------------------------------------------------

  function Pad2(n: int): (r: string)
    requires 0 <= n < 100
    ensures |r| == 2 && AllDigits(r)
    ensures DigitValue(r[0]) * 10 + DigitValue(r[1]) == n
  {
    [DigitChar(n / 10), DigitChar(n % 10)]
  }

  function Pad4(n: int): (r: string)
    requires 0 <= n <= 9999
    ensures |r| == 4 && AllDigits(r)
    ensures (DigitValue(r[0]) * 10 + DigitValue(r[1])) * 100 + DigitValue(r[2]) * 10 + DigitValue(r[3]) == n
  {
    var hi := Pad2(n / 100);
    var lo := Pad2(n % 100);
    assert (hi + lo)[0] == hi[0] && (hi + lo)[1] == hi[1] && (hi + lo)[2] == lo[0] && (hi + lo)[3] == lo[1];
    hi + lo
  }

  /** PHP's `Y`: at least four digits, with a leading `-` before year zero. */
  function YearText(y: int): (r: string)
    ensures 0 <= y <= 9999 ==> r == Pad4(y)
  {
    if 0 <= y <= 9999 then Pad4(y)
    else if y > 9999 then NatToString(y)
    else if -y <= 9999 then "-" + Pad4(-y)
    else "-" + NatToString(-y)
  }

  /** `format('Y-m-d\TH:i:s\Z')` of a UTC instant. */
  function FormatIso(d: DateTime): (r: string)
    requires Valid(d)
  {
    YearText(d.year) + "-" + Pad2(d.month) + "-" + Pad2(d.day)
      + "T" + Pad2(d.hour) + ":" + Pad2(d.minute) + ":" + Pad2(d.second) + "Z"
  }

  /** `format('Y-m-d H:i:s')` of a UTC instant, the form the SQL layer uses. */
  function FormatSql(d: DateTime): (r: string)
    requires Valid(d)
  {
    YearText(d.year) + "-" + Pad2(d.month) + "-" + Pad2(d.day)
      + " " + Pad2(d.hour) + ":" + Pad2(d.minute) + ":" + Pad2(d.second)
  }

  /** The SQL form is the ISO form with the `T` a space and the `Z` dropped. */
  lemma SqlOfIso(d: DateTime)
    requires Valid(d) && FourDigitYear(d)
    ensures FormatSql(d) == FormatIso(d)[..10] + " " + FormatIso(d)[11..19]
  {
  }

  // ---------------------------------------------------------------------
  // Shape test and strict parse
  // ---------------------------------------------------------------------

  /** The twenty characters `dddd-dd-ddTdd:dd:ddZ`. */
  predicate IsoShape(s: string)
  {
    |s| == 20
    && IsDigit(s[0]) && IsDigit(s[1]) && IsDigit(s[2]) && IsDigit(s[3]) && s[4] == '-'
    && IsDigit(s[5]) && IsDigit(s[6]) && s[7] == '-'
    && IsDigit(s[8]) && IsDigit(s[9]) && s[10] == 'T'
    && IsDigit(s[11]) && IsDigit(s[12]) && s[13] == ':'
    && IsDigit(s[14]) && IsDigit(s[15]) && s[16] == ':'
    && IsDigit(s[17]) && IsDigit(s[18]) && s[19] == 'Z'
  }

  /**
   * `preg_match('/^\d{4}-\d{2}-\d{2}T\d{2}:\d{2}:\d{2}Z$/', s)`: PCRE's `$`
   * without the D modifier also matches before one final newline.
   */
  predicate IsIsoUtcZ(s: string)
  {
    IsoShape(s) || (|s| == 21 && s[20] == '\n' && IsoShape(s[..20]))
  }

  /** `preg_match('/^\d{4}-\d{2}-\d{2}$/', s)` on a string without a final newline. */
  predicate IsDateShape(s: string)
  {
    |s| == 10
    && IsDigit(s[0]) && IsDigit(s[1]) && IsDigit(s[2]) && IsDigit(s[3]) && s[4] == '-'
    && IsDigit(s[5]) && IsDigit(s[6]) && s[7] == '-'
    && IsDigit(s[8]) && IsDigit(s[9])
  }

  function Two(s: string, i: nat): int
    requires i + 1 < |s| && IsDigit(s[i]) && IsDigit(s[i + 1])
  {
    DigitValue(s[i]) * 10 + DigitValue(s[i + 1])
  }

  /** The fields an ISO-shaped text spells, whether or not they form a real date. */
  function ShapeFields(s: string): DateTime
    requires IsoShape(s)
  {
    DateTime(Two(s, 0) * 100 + Two(s, 2), Two(s, 5), Two(s, 8), Two(s, 11), Two(s, 14), Two(s, 17))
  }

  /**
   * `DateTime::createFromFormat('Y-m-d\TH:i:s\Z', s)` with no warning: the exact
   * ISO shape spelling a real instant.
   */
  function ParseIso(s: string): (r: Option<DateTime>)
    ensures r.Some? ==> Valid(r.value) && FourDigitYear(r.value)
    ensures r.Some? <==> IsoShape(s) && Valid(ShapeFields(s))
  {
    if IsoShape(s) && Valid(ShapeFields(s)) then Some(ShapeFields(s)) else None
  }

  lemma FormatIsoShape(d: DateTime)
    requires Valid(d) && FourDigitYear(d)
    ensures IsoShape(FormatIso(d))
    ensures ShapeFields(FormatIso(d)) == d
  {
    var s := FormatIso(d);
    var y := Pad4(d.year);
    assert s[0..4] == y;
    assert s[5..7] == Pad2(d.month);
    assert s[8..10] == Pad2(d.day);
    assert s[11..13] == Pad2(d.hour);
    assert s[14..16] == Pad2(d.minute);
    assert s[17..19] == Pad2(d.second);
    assert Two(s, 0) * 100 + Two(s, 2) == d.year;
  }

  /** Rendering then parsing gives the instant back. */
  lemma ParseFormatIso(d: DateTime)
    requires Valid(d) && FourDigitYear(d)
    ensures ParseIso(FormatIso(d)) == Some(d)
  {
    FormatIsoShape(d);
  }

  /** Parsing then rendering gives the text back: the accepted texts are exactly the canonical ones. */
  lemma FormatParseIso(s: string)
    requires ParseIso(s).Some?
    ensures FormatIso(ParseIso(s).value) == s
  {
    var d := ParseIso(s).value;
    FormatIsoShape(d);
    ShapeInjective(FormatIso(d), s);
  }

  /** Two ISO-shaped texts spelling the same fields are the same text. */
  lemma ShapeInjective(s: string, t: string)
    requires IsoShape(s) && IsoShape(t) && ShapeFields(s) == ShapeFields(t)
    ensures s == t
  {
    assert Two(s, 0) == Two(t, 0) && Two(s, 2) == Two(t, 2);
    TwoInjective(s, t, 0);
    TwoInjective(s, t, 2);
    TwoInjective(s, t, 5);
    TwoInjective(s, t, 8);
    TwoInjective(s, t, 11);
    TwoInjective(s, t, 14);
    TwoInjective(s, t, 17);
    assert forall i | 0 <= i < 20 :: s[i] == t[i];
  }

  lemma TwoInjective(s: string, t: string, i: nat)
    requires i + 1 < |s| && IsDigit(s[i]) && IsDigit(s[i + 1])
    requires i + 1 < |t| && IsDigit(t[i]) && IsDigit(t[i + 1])
    requires Two(s, i) == Two(t, i)
    ensures s[i] == t[i] && s[i + 1] == t[i + 1]
  {
  }

  /** Distinct instants render differently. */
  lemma FormatIsoInjective(a: DateTime, b: DateTime)
    requires Valid(a) && FourDigitYear(a) && Valid(b) && FourDigitYear(b)
    requires FormatIso(a) == FormatIso(b)
    ensures a == b
  {
    ParseFormatIso(a);
    ParseFormatIso(b);
  }

  lemma FormatIsoIsIsoUtcZ(d: DateTime)
    requires Valid(d) && FourDigitYear(d)
    ensures IsIsoUtcZ(FormatIso(d))
  {
    FormatIsoShape(d);
  }

  // ---------------------------------------------------------------------
  // Subtracting days
  // ---------------------------------------------------------------------

  /** The same time of day on the previous calendar day. */
  function PrevDay(d: DateTime): (r: DateTime)
    requires Valid(d)
    ensures Valid(r)
    ensures Before(r, d)
    ensures r.hour == d.hour && r.minute == d.minute && r.second == d.second
  {
    if d.day > 1 then d.(day := d.day - 1)
    else if d.month > 1 then d.(month := d.month - 1, day := DaysInMonth(d.year, d.month - 1))
    else d.(year := d.year - 1, month := 12, day := 31)
  }

  /** `->sub(new DateInterval('P' . n . 'D'))`. */
  function MinusDays(d: DateTime, n: nat): (r: DateTime)
    requires Valid(d)
    ensures Valid(r)
    ensures n > 0 ==> Before(r, d)
    ensures r.hour == d.hour && r.minute == d.minute && r.second == d.second
  {
    if n == 0 then d else PrevDay(MinusDays(d, n - 1))
  }

  lemma BeforeTransitive(a: DateTime, b: DateTime, c: DateTime)
    requires Before(a, b) && Before(b, c)
    ensures Before(a, c)
  {
  }
}

=== FILE: token_auth.dfy ===
/**
 * The token check of the read API (`IW8\WA\Security\TokenAuthenticator`):
 * the `X-IW8-Token` header against a list of valid tokens.
 */
module TokenAuth {
  import opened Wrappers
  import opened Text
  import opened Php

  const MissingToken: WpError := WpError("missing_token", "Header X-IW8-Token ausente.", 401)
  const InvalidToken: WpError := WpError("invalid_token", "Token inválido.", 401)

  /** The two spellings `extractToken` looks up, in order. */
  const HeaderKeys: seq<string> := ["x-iw8-token", "X-IW8-Token"]

  /** `isset($headers[$k]) && is_array($headers[$k]) && isset($headers[$k][0])`. */
  predicate Usable(headers: map<string, Value>, k: string)
  {
    k in headers && IsArray(headers[k]) && IsSet(headers[k], "0")
  }

  /** The trimmed first value under `k`, or None when it is blank. */
  function FirstValue(headers: map<string, Value>, k: string): (r: Option<string>)
    requires Usable(headers, k)
    ensures r.Some? ==> r.value != "" && r.value == Trim(StrCast(Lookup(headers[k], "0").value))
    ensures r.Some? ==> Trim(r.value) == r.value
  {
    var t := Trim(StrCast(Lookup(headers[k], "0").value));
    TrimIdempotent(StrCast(Lookup(headers[k], "0").value));
    if t != "" then Some(t) else None
  }

  /**
   * `extractToken($request)` on the request's header map: the first usable
   * spelling decides, even when its value is blank.
   */
  function ExtractToken(headers: map<string, Value>): (r: Option<string>)
    ensures Usable(headers, HeaderKeys[0]) ==> r == FirstValue(headers, HeaderKeys[0])
    ensures !Usable(headers, HeaderKeys[0]) && Usable(headers, HeaderKeys[1]) ==> r == FirstValue(headers, HeaderKeys[1])
    ensures !Usable(headers, HeaderKeys[0]) && !Usable(headers, HeaderKeys[1]) ==> r.None?
    ensures r.Some? ==> r.value != "" && Trim(r.value) == r.value
  {
    if Usable(headers, HeaderKeys[0]) then FirstValue(headers, HeaderKeys[0])
    else if Usable(headers, HeaderKeys[1]) then FirstValue(headers, HeaderKeys[1])
    else None
  }

  /** `last4`: None for null and PHP-falsy tokens, else the last four characters (or all of a shorter token). */
  function Last4(token: Option<string>): (r: Option<string>)
    ensures r.None? <==> token.None? || PhpEmptyString(token.value)
    ensures r.Some? ==> EndsWith(token.value, r.value)
    ensures r.Some? ==> |r.value| == (if |token.value| >= 4 then 4 else |token.value|)
  {
    if token.None? || PhpEmptyString(token.value) then None
    else if |token.value| >= 4 then Some(token.value[|token.value| - 4..])
    else Some(token.value)
  }

  /** `array_filter($tokens, 'is_string')`: the strings, in order. */
  function Strings(vs: seq<Value>): (r: seq<string>)
    ensures forall t :: t in r <==> Str(t) in vs
    decreases |vs|
  {
    if |vs| == 0 then []
    else (if vs[0].Str? then [vs[0].s] else []) + Strings(vs[1..])
  }

  predicate NoDuplicates(s: seq<string>)
  {
    forall i, j :: 0 <= i < j < |s| ==> s[i] != s[j]
  }

  /** `array_values(array_unique($s))`: the first occurrence of each string, in order. */
  function Unique(s: seq<string>): (r: seq<string>)
    ensures NoDuplicates(r)
    ensures forall t :: t in r <==> t in s
    decreases |s|
  {
    if |s| == 0 then []
    else
      var u := Unique(s[..|s| - 1]);
      if s[|s| - 1] in u then u else u + [s[|s| - 1]]
  }

  /** A non-empty string value. */
  predicate NonEmptyStr(v: Value)
  {
    v.Str? && v.s != ""
  }

  /**
   * `getValidTokens`: the dev constant (when defined), the legacy option,
   * then whatever the `iw8_wa_valid_tokens` filter makes of them; strings
   * only, without duplicates. The filter is a parameter.
   */
  function ValidTokens(devToken: Option<Value>, option: Value, filter: seq<Value> -> seq<Value>): (r: seq<string>)
    ensures NoDuplicates(r)
    ensures forall t :: t in r <==> Str(t) in filter(Seed(devToken, option))
  {
    Unique(Strings(filter(Seed(devToken, option))))
  }

  function Seed(devToken: Option<Value>, option: Value): (r: seq<Value>)
    ensures forall v :: v in r ==> NonEmptyStr(v)
    ensures devToken.Some? && NonEmptyStr(devToken.value) ==> devToken.value in r
    ensures NonEmptyStr(option) ==> option in r
    ensures |r| == (if devToken.Some? && NonEmptyStr(devToken.value) then 1 else 0)
                   + (if NonEmptyStr(option) then 1 else 0)
    ensures devToken.Some? && NonEmptyStr(devToken.value) ==> r[0] == devToken.value
    ensures NonEmptyStr(option) ==> r[|r| - 1] == option
  {
    (if devToken.Some? && NonEmptyStr(devToken.value) then [devToken.value] else [])
    + (if NonEmptyStr(option) then [option] else [])
  }

  /** `validate`: `!$token` rejects null and "0"; otherwise the token must be in the list. */
  function Validate(token: Option<string>, valid: seq<string>): (r: Result<(), WpError>)
    ensures token.None? || PhpEmptyString(token.value) ==> r == Err(MissingToken)
    ensures r.Ok? <==> token.Some? && !PhpEmptyString(token.value) && token.value in valid
    ensures r.Err? ==> r.error.status == 401 && r.error in {MissingToken, InvalidToken}
    ensures |valid| == 0 ==> r.Err?
  {
    if token.None? || PhpEmptyString(token.value) then Err(MissingToken)
    else if |valid| > 0 && token.value in valid then Ok(())
    else Err(InvalidToken)
  }

  /** A token "0" is reported missing even when "0" is a configured token. */
  lemma ZeroTokenMissing(headers: map<string, Value>, valid: seq<string>)
    requires ExtractToken(headers) == Some("0")
    ensures Validate(ExtractToken(headers), valid) == Err(MissingToken)
  {
  }

  /** Without a dev token, option or filter additions there is nothing to match, so every request fails. */
  lemma NothingConfigured(headers: map<string, Value>, option: Value)
    requires !NonEmptyStr(option)
    ensures Validate(ExtractToken(headers), ValidTokens(None, option, x => x)).Err?
  {
    assert Seed(None, option) == [];
  }
}

=== FILE: token_auth_legacy.dfy ===
/**
 * The token check of the plugin's first REST routes
 * (`IW8_WA_TokenAuthenticator`): the `X-IW8-Token` header, or the
 * `x_iw8_token` query parameter, against the new token option, falling
 * back to the legacy one.
 */
module TokenAuthLegacy {
  import opened Wrappers
  import opened Text
  import opened Php

  /** `error($code, …)`: every code is prefixed `iw8_wa_`. */
  function Error(code: string, message: string, status: int): (e: WpError)
    ensures StartsWith(e.code, "iw8_wa_") && e.code[7..] == code
  {
    WpError("iw8_wa_" + code, message, status)
  }

  const MissingToken: WpError := Error("missing_token", "Cabeçalho X-IW8-Token ausente ou vazio.", 401)
  const NotConfigured: WpError := Error("token_not_configured", "Nenhum token configurado no site.", 503)
  const InvalidToken: WpError := Error("invalid_token", "Token inválido.", 401)

  /** A non-empty string value, as tested by `is_string($x) && $x !== ''`. */
  predicate NonEmptyString(v: Option<Value>)
  {
    v.Some? && v.value.Str? && v.value.s != ""
  }

  /**
   * `get_token_from_request`: `header` is `get_header('x-iw8-token')` (None
   * for null) and `param` is `get_param('x_iw8_token')`.
   */
  function TokenFromRequest(header: Option<string>, param: Option<Value>): (t: string)
    ensures header.Some? && header.value != "" ==> t == Trim(header.value)
    ensures (header.None? || header.value == "") && NonEmptyString(param) ==> t == Trim(param.value.s)
    ensures (header.None? || header.value == "") && !NonEmptyString(param) ==> t == ""
  {
    if header.Some? && header.value != "" then Trim(header.value)
    else if NonEmptyString(param) then Trim(param.value.s)
    else ""
  }

  /** An option read with `get_option($name, '')`, trimmed when it is a string and '' otherwise. */
  function TrimmedOption(v: Value): string
  {
    if v.Str? then Trim(v.s) else ""
  }

  /** `get_expected_token`: the trimmed new token if non-empty, else the trimmed legacy one. */
  function ExpectedToken(newOption: Value, legacyOption: Value): (t: string)
    ensures TrimmedOption(newOption) != "" ==> t == TrimmedOption(newOption)
    ensures TrimmedOption(newOption) == "" ==> t == TrimmedOption(legacyOption)
    ensures t == "" <==> TrimmedOption(newOption) == "" && TrimmedOption(legacyOption) == ""
  {
    if TrimmedOption(newOption) != "" then TrimmedOption(newOption) else TrimmedOption(legacyOption)
  }

  /** `validate_request` on the provided token and the expected one. */
  function Validate(provided: string, expected: string): (r: Result<(), WpError>)
    ensures provided == "" ==> r == Err(MissingToken)
    ensures provided != "" && expected == "" ==> r == Err(NotConfigured)
    ensures r.Ok? <==> provided != "" && provided == expected
    ensures r.Err? ==> StartsWith(r.error.code, "iw8_wa_")
    ensures r.Err? ==> r.error in {MissingToken, NotConfigured, InvalidToken}
  {
    if provided == "" then Err(MissingToken)
    else if expected == "" then Err(NotConfigured)
    else if expected != provided then Err(InvalidToken)
    else Ok(())
  }

  /**
   * `validate_request($request)` with the request and the two options: the
   * request's token is accepted iff it is non-empty and equals the new token,
   * or the legacy one while the new one is blank.
   */
  function ValidateRequest(header: Option<string>, param: Option<Value>, newOption: Value, legacyOption: Value)
    : (r: Result<(), WpError>)
    ensures var t := TokenFromRequest(header, param);
      r.Ok? <==> t != "" && (t == TrimmedOption(newOption) || (TrimmedOption(newOption) == "" && t == TrimmedOption(legacyOption)))
    ensures r == Err(MissingToken) <==> TokenFromRequest(header, param) == ""
    ensures r == Err(NotConfigured) <==>
      TokenFromRequest(header, param) != "" && TrimmedOption(newOption) == "" && TrimmedOption(legacyOption) == ""
    ensures r.Err? ==> r.error in {MissingToken, NotConfigured, InvalidToken}
  {
    Validate(TokenFromRequest(header, param), ExpectedToken(newOption, legacyOption))
  }

  /** The legacy token is accepted only while the new one is blank. */
  lemma LegacyOnlyWhileNewBlank(header: Option<string>, param: Option<Value>, newOption: Value, legacyOption: Value)
    requires TrimmedOption(newOption) != TrimmedOption(legacyOption)
    requires TokenFromRequest(header, param) == TrimmedOption(legacyOption)
    ensures ValidateRequest(header, param, newOption, legacyOption).Ok?
            <==> TrimmedOption(newOption) == "" && TrimmedOption(legacyOption) != ""
  {
  }

  /** A non-empty header decides, even when it trims to nothing: the query parameter is not consulted. */
  lemma HeaderWins(h: string, param: Option<Value>, newOption: Value, legacyOption: Value)
    requires h != "" && Trim(h) == ""
    ensures ValidateRequest(Some(h), param, newOption, legacyOption) == Err(MissingToken)
  {
  }
}

=== FILE: token_handlers.dfy ===
/**
 * The token actions of the settings page (`iw8ct_handle_rotate_token_ui`,
 * `iw8ct_handle_export_token_ui`): generating a 64-character lowercase hex
 * token from the best entropy source available, storing it with the rotation
 * time, and exporting the effective token as JSON.
 *
 * The entropy sources, the clock, `home_url` and `gmdate('c')` are
 * parameters.
 */
module TokenHandlers {
  import opened Wrappers
  import opened Php
  import Base64
  import Options = WpOptions
  import AdminPost

  const TokenOption := "iw8_click_token"
  const LegacyTokenOption := "iw8_wa_domain_token"
  const RotatedAtOption := "iw8_click_token_rotated_at"

  /** Bytes asked of each source, hence 64 hex characters. */
  const TokenBytes := 32
  const TokenLength := 64

  const HexDigits := "0123456789abcdef"

  const NoTokenMessage := "Nenhum token disponível para exportação."
  const PluginName := "iw8-wa-click-tracker"
  /** The version exported when `IW8_WA_CT_VERSION` is not defined. */
  const FallbackVersion := "1.4.3"

  // ---------------------------------------------------------------------
  // Hex text
  // ---------------------------------------------------------------------

  predicate IsLowerHex(s: string)
  {
    forall k :: 0 <= k < |s| ==> s[k] in HexDigits
  }

  function HexValue(c: char): (v: nat)
    requires c in HexDigits
    ensures v < 16 && HexDigits[v] == c
  {
    if '0' <= c <= '9' then c as int - '0' as int else c as int - 'a' as int + 10
  }

  lemma HexValueOf(v: nat)
    requires v < 16
    ensures HexValue(HexDigits[v]) == v
  {
  }

  /** `bin2hex`: two lowercase hex digits per byte, high nibble first. */
  function Bin2Hex(b: string): (h: string)
    requires Base64.IsBytes(b)
    ensures |h| == 2 * |b|
    ensures IsLowerHex(h)
  {
    if |b| == 0 then ""
    else [HexDigits[b[0] as int / 16], HexDigits[b[0] as int % 16]] + Bin2Hex(b[1..])
  }

  /** `hex2bin` on lowercase hex text of even length. */
  function Hex2Bin(h: string): (b: string)
    requires IsLowerHex(h) && |h| % 2 == 0
    ensures |b| * 2 == |h|
  {
    if |h| == 0 then ""
    else [(HexValue(h[0]) * 16 + HexValue(h[1])) as char] + Hex2Bin(h[2..])
  }

  lemma DoubleIsEven(n: nat)
    ensures (2 * n) % 2 == 0
  {
  }

  lemma Hex2BinHead(h: string)
    requires IsLowerHex(h) && |h| % 2 == 0 && |h| >= 2
    ensures Hex2Bin(h) == [(HexValue(h[0]) * 16 + HexValue(h[1])) as char] + Hex2Bin(h[2..])
  {
  }

  /** The hex text keeps every bit of the bytes it was made from. */
  lemma {:induction false} Hex2BinBin2Hex(b: string)
    requires Base64.IsBytes(b)
    ensures Hex2Bin(Bin2Hex(b)) == b
  {
    if |b| > 0 {
      var h := Bin2Hex(b);
      var x := b[0] as int;
      var hi, lo := x / 16, x % 16;
      assert hi * 16 + lo == x;
      assert h[0] == HexDigits[hi] && h[1] == HexDigits[lo];
      HexValueOf(hi);
      HexValueOf(lo);
      assert h[2..] == Bin2Hex(b[1..]);
      Hex2BinBin2Hex(b[1..]);
      var v := HexValue(h[0]) * 16 + HexValue(h[1]);
      assert v == x;
      assert |h| == 2 * |b| && |h| >= 2;
      DoubleIsEven(|b|);
      Hex2BinHead(h);
      assert (v as char) == b[0];
      assert [b[0]] + b[1..] == b;
    }
  }

  // ---------------------------------------------------------------------
  // Token generation
  // ---------------------------------------------------------------------

  /**
   * What the three sources give: `random_bytes(32)` (None when missing or
   * when it throws), `openssl_random_pseudo_bytes(32, $strong)` with the
   * strength flag (None when missing or false), and the draws `wp_rand(0, 15)`
   * would return.
   */
  datatype Entropy = Entropy(randomBytes: Option<string>, openssl: Option<(string, bool)>, draws: seq<int>)

  /** What the PHP functions guarantee of their results. */
  predicate EntropyOk(e: Entropy)
  {
    && (e.randomBytes.Some? ==> |e.randomBytes.value| == TokenBytes && Base64.IsBytes(e.randomBytes.value))
    && (e.openssl.Some? ==> |e.openssl.value.0| == TokenBytes && Base64.IsBytes(e.openssl.value.0))
    && |e.draws| == TokenLength
    && (forall k :: 0 <= k < |e.draws| ==> 0 <= e.draws[k] < 16)
  }

  /** OpenSSL's bytes are used only when it reports them cryptographically strong. */
  predicate StrongOpenssl(e: Entropy)
  {
    e.openssl.Some? && e.openssl.value.1
  }

  /** The last resort: one alphabet character per `wp_rand(0, 15)` draw. */
  function FromDraws(draws: seq<int>): (t: string)
    requires forall k :: 0 <= k < |draws| ==> 0 <= draws[k] < 16
    ensures |t| == |draws| && IsLowerHex(t)
    ensures forall k :: 0 <= k < |draws| ==> HexValue(t[k]) == draws[k]
  {
    if |draws| == 0 then ""
    else
      var rest := FromDraws(draws[1..]);
      HexValueOf(draws[0]);
      [HexDigits[draws[0]]] + rest
  }

  /**
   * The rotated token: `random_bytes` if it worked, else OpenSSL's bytes if
   * they are strong, else the `wp_rand` draws. Every tier gives 64 lowercase
   * hex characters.
   */
  function GenerateToken(e: Entropy): (t: string)
    requires EntropyOk(e)
    ensures |t| == TokenLength && IsLowerHex(t)
    ensures e.randomBytes.Some? ==> Hex2Bin(t) == e.randomBytes.value
    ensures e.randomBytes.None? && StrongOpenssl(e) ==> Hex2Bin(t) == e.openssl.value.0
    ensures e.randomBytes.None? && !StrongOpenssl(e) ==>
      forall k :: 0 <= k < TokenLength ==> HexValue(t[k]) == e.draws[k]
  {
    if e.randomBytes.Some? then
      Hex2BinBin2Hex(e.randomBytes.value);
      Bin2Hex(e.randomBytes.value)
    else if StrongOpenssl(e) then
      Hex2BinBin2Hex(e.openssl.value.0);
      Bin2Hex(e.openssl.value.0)
    else FromDraws(e.draws)
  }

  /** The generated token never depends on a source below the first that worked. */
  lemma TierOrder(e1: Entropy, e2: Entropy)
    requires EntropyOk(e1) && EntropyOk(e2)
    requires e1.randomBytes == e2.randomBytes
    requires e1.randomBytes.None? ==> e1.openssl == e2.openssl
    requires e1.randomBytes.None? && !StrongOpenssl(e1) ==> e1.draws == e2.draws
    ensures GenerateToken(e1) == GenerateToken(e2)
  {
  }

  // ---------------------------------------------------------------------
  // Rotation
  // ---------------------------------------------------------------------

  /**
   * Writing one option the way the handler does: created with autoload off
   * when `get_option($name, null)` is null, updated otherwise.
   */
  function Put(s: Options.Store, name: string, value: Value): (r: Options.Store)
    requires Options.Valid(s) && !value.Null?
    ensures Options.Valid(r)
    ensures r.Keys == s.Keys + {name} && r[name].value == value
    ensures name !in s ==> !r[name].autoload
    ensures name in s ==> r[name].autoload == s[name].autoload
    ensures forall other :: other in s && other != name ==> r[other] == s[other]
  {
    if Options.Get(s, name, Null) == Null then Options.Add(s, name, value, false)
    else Options.Update(s, name, value)
  }

  /**
   * The options after a rotation: the new token and the rotation time are
   * stored, and no other option changes.
   */
  function Rotate(s: Options.Store, token: string, now: int): (r: Options.Store)
    requires Options.Valid(s)
    ensures Options.Valid(r)
    ensures r.Keys == s.Keys + {TokenOption, RotatedAtOption}
    ensures r[TokenOption].value == Str(token) && r[RotatedAtOption].value == Int(now)
    ensures forall name :: name in s && name != TokenOption && name != RotatedAtOption ==> r[name] == s[name]
    ensures TokenOption !in s ==> !r[TokenOption].autoload
    ensures RotatedAtOption !in s ==> !r[RotatedAtOption].autoload
  {
    Put(Put(s, TokenOption, Str(token)), RotatedAtOption, Int(now))
  }

  /** `iw8ct_handle_rotate_token_ui`: the outcome and the options afterwards. */
  function RotateUi(c: AdminPost.Caller, e: Entropy, s: Options.Store, now: int,
                    referer: Option<string>): (r: (AdminPost.Outcome, Options.Store))
    requires EntropyOk(e) && Options.Valid(s)
    ensures AdminPost.Guard(c).Some? ==> r == (AdminPost.Guard(c).value, s)
    ensures AdminPost.Guard(c).None? ==>
      && r.0 == AdminPost.Redirect(AdminPost.Back(referer), [("iw8_notice", "rotated")])
      && r.1 == Rotate(s, GenerateToken(e), now)
  {
    match AdminPost.Guard(c)
    case Some(stop) => (stop, s)
    case None =>
      (AdminPost.Redirect(AdminPost.Back(referer), [("iw8_notice", "rotated")]),
       Rotate(s, GenerateToken(e), now))
  }

  // ---------------------------------------------------------------------
  // Export
  // ---------------------------------------------------------------------

  /** The token in force: the new option when it is not "", else the legacy one. */
  function EffectiveToken(s: Options.Store): (t: string)
    ensures t == "" <==> Options.GetString(s, TokenOption) == "" && Options.GetString(s, LegacyTokenOption) == ""
    ensures t != "" ==> t == Options.GetString(s, TokenOption) || t == Options.GetString(s, LegacyTokenOption)
    ensures Options.GetString(s, TokenOption) != "" ==> t == Options.GetString(s, TokenOption)
  {
    var current := Options.GetString(s, TokenOption);
    var legacy := Options.GetString(s, LegacyTokenOption);
    if current != "" then current else if legacy != "" then legacy else ""
  }

  /** The exported JSON object. */
  function Payload(homeUrl: string, token: string, updated: string, version: Option<string>): Value
  {
    Assoc(map[
      "base_url" := Str(homeUrl),
      "token" := Str(token),
      "updated" := Str(updated),
      "plugin" := Assoc(map["name" := Str(PluginName), "version" := Str(version.GetOr(FallbackVersion))])])
  }

  /**
   * `iw8ct_handle_export_token_ui`: a 400 when no token is set, else the
   * download carrying the effective token. `homeUrl` is `home_url('/')`,
   * `updated` is `gmdate('c')`, `version` is `IW8_WA_CT_VERSION` if defined.
   */
  function ExportUi(c: AdminPost.Caller, s: Options.Store, homeUrl: string, updated: string,
                    version: Option<string>): (o: AdminPost.Outcome)
    ensures AdminPost.Guard(c).Some? ==> o == AdminPost.Guard(c).value
    ensures AdminPost.Guard(c).None? ==>
      (o == AdminPost.Die(400, NoTokenMessage) <==> EffectiveToken(s) == "")
    ensures AdminPost.Guard(c).None? && EffectiveToken(s) != "" ==>
      o.Download? && o.payload.Assoc? && "token" in o.payload.entries
      && o.payload.entries["token"] == Str(EffectiveToken(s))
  {
    match AdminPost.Guard(c)
    case Some(stop) => stop
    case None =>
      var token := EffectiveToken(s);
      if token == "" then AdminPost.Die(400, NoTokenMessage)
      else AdminPost.Download(Payload(homeUrl, token, updated, version))
  }

  /**
   * Rotating then exporting hands out the token just generated, whatever the
   * legacy option holds.
   */
  lemma ExportAfterRotate(c: AdminPost.Caller, e: Entropy, s: Options.Store, now: int,
                          referer: Option<string>, homeUrl: string, updated: string,
                          version: Option<string>)
    requires EntropyOk(e) && Options.Valid(s)
    requires AdminPost.Guard(c).None?
    ensures var s' := RotateUi(c, e, s, now, referer).1;
      var o := ExportUi(c, s', homeUrl, updated, version);
      && o.Download?
      && o.payload.entries["token"] == Str(GenerateToken(e))
      && o.payload.entries["plugin"].entries["name"] == Str(PluginName)
  {
    var t := GenerateToken(e);
    var s' := Rotate(s, t, now);
    assert Options.GetString(s', TokenOption) == t;
    assert |t| == TokenLength;
  }
}

=== FILE: tracker_build_js.dfy ===
/**
 * The browser tracker of the packaged plugin: a click on an `a` or `area`
 * whose `href` looks like a WhatsApp link is reported once per page, keyed
 * by the link without its query and fragment. Parsing with `new URL`, the
 * page location and `navigator.userAgent` are parameters.
 */
module TrackerBuildJs {
  import opened Wrappers
  import opened Text
  import Url
  import JsText
  import TrackerJs

  // ---------------------------------------------------------------------
  // isWhatsAppLink
  // ---------------------------------------------------------------------

  /** `\b` at position `j`: a word character on exactly one side. */
  predicate Boundary(s: string, j: nat)
    requires j <= |s|
  {
    (j > 0 && IsWordChar(s[j - 1])) != (j < |s| && IsWordChar(s[j]))
  }

  /** `(api\.whatsapp\.com|wa\.me)\/` starting at `j`, in any case. */
  predicate HostAt(s: string, j: nat)
    requires j <= |s|
  {
    StartsWithCI(s[j..], "api.whatsapp.com/") || StartsWithCI(s[j..], "wa.me/")
  }

  /**
   * `(^|\b)(https?:\/\/)?(api\.whatsapp\.com|wa\.me)\/` matching from `j`:
   * the scheme may be taken or skipped.
   */
  predicate LinkAt(s: string, j: nat)
    requires j <= |s|
  {
    (j == 0 || Boundary(s, j))
    && (HostAt(s, j) || SchemeHost(s, j, "http://") || SchemeHost(s, j, "https://"))
  }

  /** The scheme `lit` at `j` with a host right after it. */
  predicate SchemeHost(s: string, j: nat, lit: string)
    requires j <= |s|
  {
    StartsWithCI(s[j..], lit) && HostAt(s, j + |lit|)
  }

  /** `isWhatsAppLink(href)`: the host pattern anywhere, or a leading `whatsapp://`. */
  predicate IsWhatsAppLink(href: string)
  {
    href != ""
    && ((exists j :: 0 <= j <= |href| && LinkAt(href, j)) || StartsWithCI(href, "whatsapp://"))
  }

  /** The host pattern right after a non-word character (or at the start). */
  predicate HostAfterBreak(s: string)
  {
    exists j {:trigger HostAt(s, j)} :: 0 <= j <= |s| && (j == 0 || !IsWordChar(s[j - 1])) && HostAt(s, j)
  }

  lemma CIAt(s: string, lit: string, k: nat)
    requires StartsWithCI(s, lit) && k < |lit|
    ensures k < |s| && LowerChar(s[k]) == lit[k]
  {
    StartsWithCILower(s, lit);
    assert Lower(s[..|lit|])[k] == LowerChar(s[k]);
  }

  /** Both host spellings begin with `a` or `w`, in either case. */
  lemma HostHead(s: string, j: nat)
    requires j <= |s| && HostAt(s, j)
    ensures j < |s| && (LowerChar(s[j]) == 'a' || LowerChar(s[j]) == 'w')
  {
    if StartsWithCI(s[j..], "api.whatsapp.com/") {
      assert "api.whatsapp.com/"[0] == 'a';
    } else {
      assert "wa.me/"[0] == 'w';
    }
  }

  /** A host match begins with a word character. */
  lemma HostStartsWord(s: string, j: nat)
    requires j <= |s| && HostAt(s, j)
    ensures j < |s| && IsWordChar(s[j]) && (LowerChar(s[j]) == 'a' || LowerChar(s[j]) == 'w')
  {
    HostHead(s, j);
  }

  lemma BreakAt(s: string, k: nat)
    requires k <= |s| && (k == 0 || !IsWordChar(s[k - 1])) && HostAt(s, k)
    ensures HostAfterBreak(s)
  {
  }

  /** Each way `LinkAt` can hold puts a host right after a break: at `j`, `j + 7` or `j + 8`. */
  lemma LinkAtBreak(s: string, j: nat)
    requires j <= |s| && LinkAt(s, j)
    ensures HostAfterBreak(s)
  {
    if HostAt(s, j) {
      HostBreak(s, j);
      BreakAt(s, j);
    } else if SchemeHost(s, j, "http://") {
      SchemesEndInSlash();
      SchemeCase(s, j, "http://");
    } else {
      SchemesEndInSlash();
      SchemeCase(s, j, "https://");
    }
  }

  lemma SchemeCase(s: string, j: nat, lit: string)
    requires j <= |s| && |lit| > 0 && lit[|lit| - 1] == '/' && SchemeHost(s, j, lit)
    ensures HostAfterBreak(s)
  {
    SchemeHostBreak(s, j, lit);
    BreakAfter(s, j, lit);
  }

  lemma BreakAfter(s: string, j: nat, lit: string)
    requires j + |lit| <= |s| && |lit| > 0 && !IsWordChar(s[j + |lit| - 1]) && HostAt(s, j + |lit|)
    ensures HostAfterBreak(s)
  {
    BreakAt(s, j + |lit|);
  }

  /** At a boundary in front of a host, the character before it is not a word character. */
  lemma HostBreak(s: string, j: nat)
    requires j <= |s| && (j == 0 || Boundary(s, j)) && HostAt(s, j)
    ensures j == 0 || !IsWordChar(s[j - 1])
  {
    HostStartsWord(s, j);
  }

  lemma SchemesEndInSlash()
    ensures |"http://"| == 7 && "http://"[6] == '/'
    ensures |"https://"| == 8 && "https://"[7] == '/'
  {
  }

  /** A scheme ending in `/` leaves a non-word character right before the host. */
  lemma SchemeHostBreak(s: string, j: nat, lit: string)
    requires j <= |s| && |lit| > 0 && lit[|lit| - 1] == '/' && SchemeHost(s, j, lit)
    ensures j + |lit| <= |s| && !IsWordChar(s[j + |lit| - 1]) && HostAt(s, j + |lit|)
  {
    SlashBefore(s, j, lit);
  }

  lemma SlashBefore(s: string, j: nat, lit: string)
    requires j <= |s| && |lit| > 0 && lit[|lit| - 1] == '/' && StartsWithCI(s[j..], lit)
    ensures j + |lit| <= |s| && !IsWordChar(s[j + |lit| - 1])
  {
    CIEndsSlash(s[j..], lit);
    assert s[j..][|lit| - 1] == s[j + |lit| - 1];
  }

  lemma CIEndsSlash(t: string, lit: string)
    requires StartsWithCI(t, lit) && |lit| > 0 && lit[|lit| - 1] == '/'
    ensures |lit| <= |t| && !IsWordChar(t[|lit| - 1])
  {
    CIAt(t, lit, |lit| - 1);
    LowerSlash(t[|lit| - 1]);
  }

  lemma LowerSlash(c: char)
    requires LowerChar(c) == '/'
    ensures !IsWordChar(c)
  {
  }

  lemma BreakLinkAt(s: string, j: nat)
    requires j <= |s| && (j == 0 || !IsWordChar(s[j - 1])) && HostAt(s, j)
    ensures LinkAt(s, j)
  {
    HostStartsWord(s, j);
  }

  /**
   * The optional scheme widens nothing: a link is exactly a host match at
   * the start or after a non-word character.
   */
  lemma SchemeAddsNothing(s: string)
    ensures (exists j :: 0 <= j <= |s| && LinkAt(s, j)) <==> HostAfterBreak(s)
  {
    if j :| 0 <= j <= |s| && LinkAt(s, j) {
      LinkAtBreak(s, j);
    }
    if HostAfterBreak(s) {
      var j :| 0 <= j <= |s| && (j == 0 || !IsWordChar(s[j - 1])) && HostAt(s, j);
      BreakLinkAt(s, j);
    }
  }

  /** A letter or digit glued in front of the host rules that occurrence out. */
  lemma GluedHostRefused(s: string, j: nat)
    requires 0 < j <= |s| && IsWordChar(s[j - 1]) && HostAt(s, j)
    ensures !LinkAt(s, j)
  {
    HostStartsWord(s, j);
    CIHeadDiffers(s[j..], "http://", 0);
    CIHeadDiffers(s[j..], "https://", 0);
  }

  // ---------------------------------------------------------------------
  // keyFor
  // ---------------------------------------------------------------------

  /** JavaScript's LineTerminator, which `.` does not match. */
  predicate IsLineTerminator(c: char)
  {
    c == '\n' || c == '\r' || c == '\U{2028}' || c == '\U{2029}'
  }

  predicate NoLineTerminator(s: string)
  {
    forall k :: 0 <= k < |s| ==> !IsLineTerminator(s[k])
  }

  /** Where `[#?].*$` can start: a `#` or `?` with no line terminator after it. */
  predicate CutsAt(s: string, p: nat)
    requires p < |s|
  {
    (s[p] == '#' || s[p] == '?') && NoLineTerminator(s[p + 1..])
  }

  /**
   * `s.replace(/[#?].*$/, "")`: everything from the leftmost place the
   * pattern matches is removed; without such a place `s` is kept whole.
   */
  function Cut(s: string): (r: string)
    ensures StartsWith(s, r)
    ensures |r| < |s| ==> CutsAt(s, |r|)
    ensures forall p :: 0 <= p < |r| ==> !CutsAt(s, p)
    ensures NoLineTerminator(r) <==> NoLineTerminator(s)
    decreases |s|
  {
    if |s| == 0 then ""
    else if (s[0] == '#' || s[0] == '?') && NoLineTerminator(s[1..]) then ""
    else
      var t := Cut(s[1..]);
      CutsAtTail(s);
      [s[0]] + t
  }

  lemma CutsAtTail(s: string)
    requires |s| > 0
    ensures forall p :: 1 <= p < |s| ==> (CutsAt(s, p) <==> CutsAt(s[1..], p - 1))
  {
    forall p | 1 <= p < |s|
      ensures CutsAt(s, p) <==> CutsAt(s[1..], p - 1)
    {
      assert s[p + 1..] == s[1..][p..];
    }
  }

  /**
   * `keyFor(href)`: the link up to its query or fragment, lower-cased; the
   * cut falls at the first place `[#?].*$` can match.
   */
  function KeyFor(href: string): (r: string)
    ensures |r| <= |href| && forall k :: 0 <= k < |r| ==> r[k] == LowerChar(href[k])
    ensures |r| < |href| ==> CutsAt(href, |r|)
    ensures forall p :: 0 <= p < |r| ==> !CutsAt(href, p)
  {
    Lower(Cut(href))
  }

  /** Nothing is left to cut once a string has been cut. */
  lemma {:induction false} CutIdempotent(s: string)
    ensures Cut(Cut(s)) == Cut(s)
    decreases |s|
  {
    if |s| > 0 && !((s[0] == '#' || s[0] == '?') && NoLineTerminator(s[1..])) {
      var t := Cut(s[1..]);
      CutIdempotent(s[1..]);
      assert ([s[0]] + t)[1..] == t;
    }
  }

  lemma LowerKeepsLineTerminators(s: string)
    ensures NoLineTerminator(Lower(s)) <==> NoLineTerminator(s)
  {
    assert forall k :: 0 <= k < |s| ==> (IsLineTerminator(Lower(s)[k]) <==> IsLineTerminator(s[k]));
  }

  /** Lower-casing does not move the cut: `#`, `?` and line ends are not letters. */
  lemma {:induction false} CutLower(s: string)
    ensures Cut(Lower(s)) == Lower(Cut(s))
    decreases |s|
  {
    if |s| > 0 {
      var l := Lower(s);
      assert l[1..] == Lower(s[1..]);
      LowerKeepsLineTerminators(s[1..]);
      CutLower(s[1..]);
    }
  }

  /** `keyFor` is idempotent: a key is its own key. */
  lemma KeyForIdempotent(href: string)
    ensures KeyFor(KeyFor(href)) == KeyFor(href)
  {
    var c := Cut(href);
    CutLower(c);
    CutIdempotent(href);
    LowerIdempotent(c);
  }

  // ---------------------------------------------------------------------
  // getLabel
  // ---------------------------------------------------------------------

  /**
   * The clicked element as the handler reads it; an absent attribute or
   * property is `""`, which JavaScript's `||` treats as missing.
   */
  datatype Element = Element(
    href: string, tagName: string,
    ariaLabel: string, title: string, alt: string, innerText: string, textContent: string)

  /** The first non-empty string of `c`, or `""`: a chain of `||`. */
  function FirstNonEmpty(c: seq<string>): (r: string)
    ensures r == "" <==> forall k :: 0 <= k < |c| ==> c[k] == ""
    ensures r != "" ==> exists k :: 0 <= k < |c| && c[k] == r && forall m :: 0 <= m < k ==> c[m] == ""
  {
    if |c| == 0 then ""
    else if c[0] != "" then c[0]
    else
      var r := FirstNonEmpty(c[1..]);
      assert forall k :: 1 <= k < |c| ==> c[k] == c[1..][k - 1];
      r
  }

  /** The text `getLabel` starts from: aria-label, title, alt, innerText, textContent. */
  function LabelSource(el: Element): string
  {
    FirstNonEmpty([el.ariaLabel, el.title, el.alt, el.innerText, el.textContent])
  }

  /** All white space (or empty). */
  predicate Blank(s: string)
  {
    forall k :: 0 <= k < |s| ==> IsJsSpace(s[k])
  }

  /**
   * `txt.trim().replace(/\s+/g, " ").substring(0, 500)`: the first 500
   * characters of the trimmed, collapsed text; when nothing is cut, exactly
   * the tokens of the trimmed text.
   */
  function Clean(txt: string): (r: string)
    ensures |r| <= 500
    ensures r == "" <==> Blank(txt)
    ensures r != "" ==> !IsJsSpace(r[0])
    ensures JsText.Collapsed(r)
    ensures var full := JsText.Collapse(JsText.Trim(txt));
            |r| == (if |full| <= 500 then |full| else 500) && r == full[..|r|]
    ensures |JsText.Collapse(JsText.Trim(txt))| <= 500 ==> JsText.Tokens(r) == JsText.Tokens(JsText.Trim(txt))
  {
    var t := JsText.Trim(txt);
    var c := JsText.Collapse(t);
    CollapsedPrefix(c, 500);
    Truncate(c, 500)
  }

  lemma CollapsedPrefix(s: string, n: nat)
    requires JsText.Collapsed(s)
    ensures JsText.Collapsed(Truncate(s, n))
  {
    var r := Truncate(s, n);
    assert forall k :: 0 <= k < |r| ==> r[k] == s[k];
  }

  /**
   * `u.searchParams.get("text") || u.pathname || ""`: a non-empty `text`
   * parameter wins over the path.
   */
  function FallbackLabel(u: TrackerJs.JsUrl): (r: string)
    ensures r == u.pathname || Url.JsSearchGet(TrackerJs.QueryText(u.search), "text") == Some(r)
    ensures var q := Url.JsSearchGet(TrackerJs.QueryText(u.search), "text");
            q.Some? && q.value != "" ==> r == q.value
    ensures var q := Url.JsSearchGet(TrackerJs.QueryText(u.search), "text");
            (q.None? || q.value == "") ==> r == u.pathname
  {
    match Url.JsSearchGet(TrackerJs.QueryText(u.search), "text")
    case Some(t) => if t != "" then t else u.pathname
    case None => u.pathname
  }

  /**
   * `getLabel(el, url)`: the cleaned element text; when that is empty, the
   * link's `text` parameter or its path cut to 500, or `""` if `new URL`
   * throws.
   */
  function GetLabel(el: Element, parsed: Option<TrackerJs.JsUrl>): (r: string)
    ensures |r| <= 500
    ensures !Blank(LabelSource(el)) ==> r != "" && !IsJsSpace(r[0]) && JsText.Collapsed(r)
    ensures !Blank(LabelSource(el)) ==> r == Clean(LabelSource(el))
    ensures Blank(LabelSource(el)) && parsed.None? ==> r == ""
    ensures Blank(LabelSource(el)) && parsed.Some? ==> r == Truncate(FallbackLabel(parsed.value), 500)
  {
    var cleaned := Clean(LabelSource(el));
    if cleaned != "" then cleaned
    else
      match parsed
      case None => ""
      case Some(u) => Truncate(FallbackLabel(u), 500)
  }

  /** Cleaning drops only white space when nothing is cut off at 500. */
  lemma CleanKeepsText(txt: string)
    requires |JsText.Collapse(JsText.Trim(txt))| <= 500
    ensures JsText.Visible(Clean(txt)) == JsText.Visible(txt)
  {
    JsText.TrimKeepsVisible(txt);
    JsText.CollapseKeepsVisible(JsText.Trim(txt));
  }

  // ---------------------------------------------------------------------
  // The click handler
  // ---------------------------------------------------------------------

  datatype Payload = Payload(
    url: string, pageUrl: string, elementTag: string, elementText: string,
    userAgent: string, userId: int)

  /** `parseInt(cfg.user_id || 0, 10) || 0`: `NaN` (and `0`) become 0. */
  function UserId(cfg: string): (r: int)
    ensures cfg == "" ==> r == 0
    ensures AllDigits(cfg) && cfg != "" ==> r == ParseDigits(cfg)
  {
    match JsText.ParseInt(cfg)
    case None => 0
    case Some(n) => n
  }

  /** `clickable.tagName ? clickable.tagName.toUpperCase() : "UNKNOWN"`. */
  function ElementTag(tagName: string): (r: string)
    ensures tagName == "" ==> r == "UNKNOWN"
    ensures tagName != "" ==> |r| == |tagName| && forall k :: 0 <= k < |r| ==> r[k] == UpperChar(tagName[k])
  {
    if tagName != "" then Upper(tagName) else "UNKNOWN"
  }

  /** One page's click state: the set of keys already reported. */
  type Seen = set<string>

  /**
   * `handler(evt)` for a click that reached an `a`/`area`: a WhatsApp link
   * whose key has not been seen is recorded and its payload sent; anything
   * else changes nothing.
   */
  function Handle(seen: Seen, el: Element, pageUrl: string, parsed: Option<TrackerJs.JsUrl>,
                  userAgent: string, userIdCfg: string): (r: (Seen, Option<Payload>))
    ensures r.1.Some? <==> IsWhatsAppLink(el.href) && KeyFor(el.href) !in seen
    ensures r.1.Some? ==> r.0 == seen + {KeyFor(el.href)}
    ensures r.1.None? ==> r.0 == seen
    ensures r.1.Some? ==> r.1.value.url == el.href && r.1.value.pageUrl == pageUrl
                          && r.1.value.elementTag == ElementTag(el.tagName)
                          && r.1.value.elementText == GetLabel(el, parsed)
                          && r.1.value.userAgent == userAgent && r.1.value.userId == UserId(userIdCfg)
  {
    if !IsWhatsAppLink(el.href) then (seen, None)
    else
      var key := KeyFor(el.href);
      if key in seen then (seen, None)
      else
        var p := Payload(el.href, pageUrl, ElementTag(el.tagName), GetLabel(el, parsed), userAgent, UserId(userIdCfg));
        (seen + {key}, Some(p))
  }

  datatype Click = Click(el: Element, pageUrl: string, parsed: Option<TrackerJs.JsUrl>)

  /** A page's clicks in order: the final state and the payloads sent. */
  function Run(seen: Seen, clicks: seq<Click>, userAgent: string, userIdCfg: string): (r: (Seen, seq<Payload>))
    ensures seen <= r.0
    ensures |r.1| <= |clicks|
    decreases |clicks|
  {
    if |clicks| == 0 then (seen, [])
    else
      var c := clicks[0];
      var (s1, o) := Handle(seen, c.el, c.pageUrl, c.parsed, userAgent, userIdCfg);
      var (s2, sent) := Run(s1, clicks[1..], userAgent, userIdCfg);
      (s2, if o.Some? then [o.value] + sent else sent)
  }

  /**
   * What one page's run promises: every sent key was new at the start,
   * is seen at the end, and no key was sent twice.
   */
  predicate SentFresh(seen: Seen, fin: Seen, sent: seq<Payload>)
  {
    seen <= fin
    && (forall i :: 0 <= i < |sent| ==> KeyFor(sent[i].url) !in seen && KeyFor(sent[i].url) in fin)
    && (forall i, j :: 0 <= i < j < |sent| ==> KeyFor(sent[i].url) != KeyFor(sent[j].url))
  }

  lemma SentFreshCons(seen: Seen, p: Payload, fin: Seen, rest: seq<Payload>)
    requires KeyFor(p.url) !in seen
    requires SentFresh(seen + {KeyFor(p.url)}, fin, rest)
    ensures SentFresh(seen, fin, [p] + rest)
  {
    var all := [p] + rest;
    assert forall i :: 1 <= i < |all| ==> all[i] == rest[i - 1];
  }

  /** Once a key has been seen, no link with that key is sent again. */
  lemma {:induction false} SentOnce(seen: Seen, clicks: seq<Click>, userAgent: string, userIdCfg: string)
    ensures var r := Run(seen, clicks, userAgent, userIdCfg); SentFresh(seen, r.0, r.1)
    decreases |clicks|
  {
    if |clicks| > 0 {
      var c := clicks[0];
      var h := Handle(seen, c.el, c.pageUrl, c.parsed, userAgent, userIdCfg);
      SentOnce(h.0, clicks[1..], userAgent, userIdCfg);
      var rest := Run(h.0, clicks[1..], userAgent, userIdCfg);
      if h.1.Some? {
        SentFreshCons(seen, h.1.value, rest.0, rest.1);
      }
    }
  }
}

=== FILE: tracker_js.dfy ===
/**
 * The legacy browser tracker: `isTargetWhatsAppUrl`, the two-second
 * per-URL dedupe of `sendClick` and the payload of `captureClick`.
 *
 * Unlike the server, the classifier parses the URL first (`new URL`) and
 * falls back on the ECMAScript flavour of the target pattern only when
 * parsing throws. The parse result is a parameter; None stands for the
 * exception.
 */
module TrackerJs {
  import opened Wrappers
  import opened Text
  import Url
  import WaRegex
  import JsText
  import UrlMatcher

  /** What `new URL(raw, location.href)` exposes: `protocol` keeps its `:`, `search` its `?`. */
  datatype JsUrl = JsUrl(protocol: string, hostname: string, pathname: string, search: string)

  /** The query text `URLSearchParams` reads: `search` without its leading `?`. */
  function QueryText(search: string): (r: string)
    ensures |search| > 0 && search[0] == '?' ==> "?" + r == search
    ensures !(|search| > 0 && search[0] == '?') ==> r == search
  {
    if |search| > 0 && search[0] == '?' then search[1..] else search
  }

  /** `onlyDigits(q.get("phone") || "")`. */
  function PhoneDigits(u: JsUrl): (r: string)
    ensures AllDigits(r)
  {
    match Url.JsSearchGet(QueryText(u.search), "phone")
    case None => ""
    case Some(v) => Digits(v)
  }

  /**
   * `path.match(/^\/(?:\+|%2B)?(\d{6,20})$/i)`: the captured digits, or None.
   * A sign that is present must be consumed, since the group starts with a digit.
   */
  function WaMePathDigits(path: string): (r: Option<string>)
    ensures r.Some? ==> AllDigits(r.value) && 6 <= |r.value| <= 20
    ensures r.Some? ==> |path| > 0 && path[0] == '/' && path[1 + WaRegex.SignLen(path[1..])..] == r.value
  {
    if |path| == 0 || path[0] != '/' then None
    else
      var t := path[1..];
      var m := t[WaRegex.SignLen(t)..];
      if AllDigits(m) && 6 <= |m| <= 20 then Some(m) else None
  }

  /** The `try` block of `isTargetWhatsAppUrl`, on a URL that parsed. */
  function Structured(u: JsUrl, digits: string): bool
  {
    var scheme := JsText.RemoveFirst(u.protocol, ':');
    var path := u.pathname;
    if LowerIs(scheme, "whatsapp") then PhoneDigits(u) == digits
    else if LowerIs(u.hostname, "api.whatsapp.com") then
      if path == "/send" then PhoneDigits(u) == digits
      else StartsWith(path, "/message/")
    else if LowerIs(u.hostname, "wa.me") then
      match WaMePathDigits(path)
      case Some(m) => m == digits
      case None => StartsWith(path, "/message/")
    else false
  }

  /**
   * `isTargetWhatsAppUrl(rawUrl)` with `phoneDigits = onlyDigits(config.phone)`;
   * `parsed` is what `new URL` returns, None when it throws.
   */
  function IsTarget(raw: string, phone: string, parsed: Option<JsUrl>): (r: bool)
    ensures raw == "" || Digits(phone) == "" ==> !r
    ensures raw != "" && Digits(phone) != "" && parsed.None?
            ==> (r <==> WaRegex.Matches(WaRegex.EcmaScript, raw, Digits(phone)))
    ensures raw != "" && parsed.Some? ==> (r <==> Digits(phone) != "" && Structured(parsed.value, Digits(phone)))
  {
    var digits := Digits(phone);
    if raw == "" || digits == "" then false
    else match parsed
      case None => WaRegex.Matches(WaRegex.EcmaScript, raw, digits)
      case Some(u) => Structured(u, digits)
  }

  // ---------------------------------------------------------------------
  // Properties of the classifier
  // ---------------------------------------------------------------------

  lemma {:induction false} ProtocolScheme(name: string)
    requires ':' !in name
    ensures JsText.RemoveFirst(name + ":", ':') == name
    decreases |name|
  {
    if |name| > 0 {
      ProtocolScheme(name[1..]);
      assert (name + ":")[1..] == name[1..] + ":";
      assert name == [name[0]] + name[1..];
    }
  }

  lemma WhatsappProtocol()
    ensures LowerIs(JsText.RemoveFirst("whatsapp:", ':'), "whatsapp")
  {
    assert "whatsapp:" == "whatsapp" + ":";
    ProtocolScheme("whatsapp");
    UrlMatcher.LowerIsWhatsapp();
  }

  /** The protocols of web URLs. */
  predicate IsWebProtocol(p: string)
  {
    p == "https:" || p == "http:"
  }

  lemma WebProtocolNotScheme(p: string)
    requires IsWebProtocol(p)
    ensures !LowerIs(JsText.RemoveFirst(p, ':'), "whatsapp")
  {
    if p == "https:" {
      assert p == "https" + ":";
      ProtocolScheme("https");
    } else {
      assert p == "http" + ":";
      ProtocolScheme("http");
    }
  }

  /** The `whatsapp` branch of the parsed check. */
  lemma StructuredScheme(u: JsUrl, digits: string)
    requires LowerIs(JsText.RemoveFirst(u.protocol, ':'), "whatsapp")
    ensures Structured(u, digits) <==> PhoneDigits(u) == digits
  {
  }

  /** `whatsapp:` URLs match exactly when the digits of their `phone` parameter are the destination. */
  lemma SchemeMatchesIff(raw: string, u: JsUrl, phone: string)
    requires raw != "" && u.protocol == "whatsapp:" && Digits(phone) != ""
    ensures IsTarget(raw, phone, Some(u)) <==> PhoneDigits(u) == Digits(phone)
  {
    WhatsappProtocol();
    StructuredScheme(u, Digits(phone));
  }

  /** The `api.whatsapp.com` branch of the parsed check. */
  lemma StructuredApi(u: JsUrl, digits: string)
    requires !LowerIs(JsText.RemoveFirst(u.protocol, ':'), "whatsapp") && LowerIs(u.hostname, "api.whatsapp.com")
    ensures u.pathname == "/send" ==> (Structured(u, digits) <==> PhoneDigits(u) == digits)
    ensures u.pathname != "/send" ==> (Structured(u, digits) <==> StartsWith(u.pathname, "/message/"))
  {
  }

  /** The `wa.me` branch of the parsed check. */
  lemma StructuredWaMe(u: JsUrl, digits: string)
    requires !LowerIs(JsText.RemoveFirst(u.protocol, ':'), "whatsapp") && u.hostname == "wa.me"
    ensures WaMePathDigits(u.pathname).Some? ==> (Structured(u, digits) <==> WaMePathDigits(u.pathname).value == digits)
    ensures WaMePathDigits(u.pathname).None? ==> (Structured(u, digits) <==> StartsWith(u.pathname, "/message/"))
  {
    UrlMatcher.LowerIsWaMe();
  }

  /**
   * On `api.whatsapp.com`, over http or https, `/send` needs the
   * destination as `phone`, any `/message/` path is accepted, and every
   * other path is refused.
   */
  lemma ApiHostPaths(raw: string, u: JsUrl, phone: string)
    requires raw != "" && Digits(phone) != ""
    requires IsWebProtocol(u.protocol) && u.hostname == "api.whatsapp.com"
    ensures u.pathname == "/send" ==> (IsTarget(raw, phone, Some(u)) <==> PhoneDigits(u) == Digits(phone))
    ensures u.pathname != "/send" ==> (IsTarget(raw, phone, Some(u)) <==> StartsWith(u.pathname, "/message/"))
  {
    WebProtocolNotScheme(u.protocol);
    UrlMatcher.LowerIsApiHost();
    StructuredApi(u, Digits(phone));
  }

  /** The digits captured from `/` + sign + digits are those digits, when there are 6 to 20 of them. */
  lemma WaMePathOf(sign: string, d: string)
    requires sign == "" || sign == "+" || sign == "%2B"
    requires |d| > 0 && AllDigits(d)
    ensures WaMePathDigits("/" + sign + d) == (if 6 <= |d| <= 20 then Some(d) else None)
  {
    var path := "/" + sign + d;
    var t := path[1..];
    assert t == sign + d + "";
    WaRegex.SignOf(sign, d, "");
    assert t[WaRegex.SignLen(t)..] == d;
  }

  /**
   * On `wa.me` a path `/` + sign + the destination matches when the
   * destination has 6 to 20 digits; a path of other digits is refused.
   */
  lemma WaMePathMatches(u: JsUrl, phone: string, sign: string)
    requires IsWebProtocol(u.protocol) && u.hostname == "wa.me"
    requires sign == "" || sign == "+" || sign == "%2B"
    requires Digits(phone) != ""
    requires u.pathname == "/" + sign + Digits(phone)
    ensures IsTarget("https://wa.me" + u.pathname, phone, Some(u)) <==> 6 <= |Digits(phone)| <= 20
  {
    WebProtocolNotScheme(u.protocol);
    StructuredWaMe(u, Digits(phone));
    WaMePathOf(sign, Digits(phone));
    NotMessagePath(sign, Digits(phone));
  }

  lemma NotMessagePath(sign: string, d: string)
    requires sign == "" || sign == "+" || sign == "%2B"
    requires |d| > 0 && AllDigits(d)
    ensures !StartsWith("/" + sign + d, "/message/")
  {
    var p := "/" + sign + d;
    if sign == "" {
      assert p[1] == d[0] && IsDigit(d[0]);
    } else {
      assert p[1] == sign[0];
    }
  }

  /** A destination longer than 20 digits never matches a `wa.me/<digits>` path. */
  lemma LongDestinationNoWaMePath(u: JsUrl, phone: string)
    requires IsWebProtocol(u.protocol) && u.hostname == "wa.me"
    requires |Digits(phone)| > 20
    requires u.pathname == "/" + "" + Digits(phone)
    ensures !IsTarget("https://wa.me" + u.pathname, phone, Some(u))
  {
    WaMePathMatches(u, phone, "");
  }

  /** Hosts other than the two WhatsApp ones are refused unless the scheme is `whatsapp:`. */
  lemma OtherHostRefused(raw: string, u: JsUrl, phone: string)
    requires IsWebProtocol(u.protocol)
    requires Lower(u.hostname) != "api.whatsapp.com" && Lower(u.hostname) != "wa.me"
    ensures !IsTarget(raw, phone, Some(u))
  {
    WebProtocolNotScheme(u.protocol);
    LowerIsLower(u.hostname, "api.whatsapp.com");
    LowerIsLower(u.hostname, "wa.me");
  }

  // ---------------------------------------------------------------------
  // Where the browser and the server disagree
  // ---------------------------------------------------------------------

  /**
   * With `phone` repeated, the browser reads the first value and the server's
   * `parse_url` fallback the last: `whatsapp:` with `phone=P&phone=0` is a
   * target for the browser and not for the fallback.
   */
  lemma RepeatedPhoneDisagrees(d: string, path: string)
    requires WaRegex.IsPhone(d) && d != "0"
    ensures IsTarget("whatsapp://send?" + ("phone" + "=" + d + "&" + "phone" + "=" + "0"), d,
                     Some(JsUrl("whatsapp:", "", path, "?" + ("phone" + "=" + d + "&" + "phone" + "=" + "0"))))
    ensures !UrlMatcher.Fallback(UrlMatcher.UrlParts(Some("whatsapp"), None, Some(path), Some("phone" + "=" + d + "&" + "phone" + "=" + "0")), d)
  {
    var q := "phone" + "=" + d + "&" + "phone" + "=" + "0";
    var u := JsUrl("whatsapp:", "", path, "?" + q);
    FirstPhoneOfRepeated(u, d);
    DigitsIdempotent(d);
    SchemeMatchesIff("whatsapp://send?" + q, u, d);
    UrlMatcher.PhoneParamOfRepeated(d);
    UrlMatcher.SchemeFallback(None, Some(path), q, d);
  }

  /** The browser reads the first of two `phone` values. */
  lemma FirstPhoneOfRepeated(u: JsUrl, d: string)
    requires WaRegex.IsPhone(d)
    requires u.search == "?" + ("phone" + "=" + d + "&" + "phone" + "=" + "0")
    ensures PhoneDigits(u) == d
  {
    var q := "phone" + "=" + d + "&" + "phone" + "=" + "0";
    UrlMatcher.PhoneIsPlain();
    UrlMatcher.DigitsArePlain(d);
    Url.RepeatedParam("phone", d, "0");
    Url.DecodePlain(d);
    assert QueryText(u.search) == q;
  }

  /**
   * `https://api.whatsapp.com/message?phone=P` (no slash after `message`)
   * passes the server's fallback but not the browser's parsed check.
   */
  lemma MessageWithoutSlashDisagrees(d: string)
    requires WaRegex.IsPhone(d) && d != "0"
    ensures !IsTarget("https://api.whatsapp.com/message?" + ("phone" + "=" + d), d,
                      Some(JsUrl("https:", "api.whatsapp.com", "/message", "?" + ("phone" + "=" + d))))
    ensures UrlMatcher.Fallback(UrlMatcher.UrlParts(Some("https"), Some("api.whatsapp.com"), Some("/message"), Some("phone" + "=" + d)), d)
  {
    var u := JsUrl("https:", "api.whatsapp.com", "/message", "?" + ("phone" + "=" + d));
    MessageNoSlash();
    ApiHostPaths("https://api.whatsapp.com/message?" + ("phone" + "=" + d), u, d);
    ApiMessageFallback(d);
  }

  lemma MessageNoSlash()
    ensures "/message" != "/send" && !StartsWith("/message", "/message/") && StartsWith("/message", "/message")
  {
  }

  /** The server's fallback takes `/message` with the destination as `phone`. */
  lemma ApiMessageFallback(d: string)
    requires WaRegex.IsPhone(d) && d != "0"
    ensures UrlMatcher.Fallback(UrlMatcher.UrlParts(Some("https"), Some("api.whatsapp.com"), Some("/message"), Some("phone" + "=" + d)), d)
  {
    UrlMatcher.LowerIsApiHost();
    UrlMatcher.PhoneParamOfSingle(d);
    MessageNoSlash();
  }

  // ---------------------------------------------------------------------
  // sendClick dedupe
  // ---------------------------------------------------------------------

  /** `sentUrls`: URL → time of the last recorded send (ms). */
  type SentUrls = map<string, int>

  /** `sentUrls[url] && now - sentUrls[url] < 2000`; a stored 0 is falsy. */
  predicate IsDuplicate(sent: SentUrls, url: string, now: int)
  {
    url in sent && sent[url] != 0 && now - sent[url] < 2000
  }

  datatype SendOutcome = Dropped | Skipped | Sent

  /**
   * `sendClick(payload)` at time `now`: a duplicate is dropped untouched;
   * otherwise the time is recorded first, and the request goes out only if
   * `ajax_url`, `action` and `nonce` are all set (`configComplete`).
   */
  function SendClick(sent: SentUrls, url: string, now: int, configComplete: bool): (r: (SentUrls, SendOutcome))
    ensures r.1 == Dropped <==> IsDuplicate(sent, url, now)
    ensures r.1 == Dropped ==> r.0 == sent
    ensures r.1 != Dropped ==> r.0 == sent[url := now] && (r.1 == Sent <==> configComplete)
  {
    if IsDuplicate(sent, url, now) then (sent, Dropped)
    else (sent[url := now], if configComplete then Sent else Skipped)
  }

  /** A recorded send blocks the same URL for the next 2000 ms, whether or not the request went out. */
  lemma RepeatWithinWindowDropped(sent: SentUrls, url: string, t: int, dt: int, c1: bool, c2: bool)
    requires t != 0 && 0 <= dt < 2000
    requires SendClick(sent, url, t, c1).1 != Dropped
    ensures SendClick(SendClick(sent, url, t, c1).0, url, t + dt, c2).1 == Dropped
  {
  }

  /** After 2000 ms the same URL is recorded again. */
  lemma RepeatAfterWindowRecorded(sent: SentUrls, url: string, t: int, dt: int, c1: bool, c2: bool)
    requires dt >= 2000
    requires SendClick(sent, url, t, c1).1 != Dropped
    ensures SendClick(SendClick(sent, url, t, c1).0, url, t + dt, c2).1 != Dropped
  {
  }

  /** A send touches only its own URL's entry. */
  lemma SendClickFrame(sent: SentUrls, url: string, now: int, c: bool, other: string)
    requires other != url
    ensures other in SendClick(sent, url, now, c).0 <==> other in sent
    ensures other in sent ==> SendClick(sent, url, now, c).0[other] == sent[other]
  {
  }

  /**
   * Clicks on one URL every `step` ms (step < 2000): a dropped click does
   * not refresh the window, so the first click at or after 2000 ms from the
   * last recorded one is recorded again.
   */
  function Burst(sent: SentUrls, url: string, times: seq<int>): (r: seq<SendOutcome>)
    ensures |r| == |times|
    decreases |times|
  {
    if |times| == 0 then []
    else
      var (s2, o) := SendClick(sent, url, times[0], true);
      [o] + Burst(s2, url, times[1..])
  }

  /** Every recorded click after the first is at least 2000 ms after the previous recorded one. */
  lemma {:induction false} BurstSpacing(sent: SentUrls, url: string, times: seq<int>, last: int)
    requires url in sent && sent[url] == last && last != 0
    requires forall k :: 0 <= k < |times| ==> times[k] != 0
    ensures forall k :: 0 <= k < |times| && Burst(sent, url, times)[k] != Dropped ==> times[k] - LastRecorded(last, times[..k]) >= 2000
    decreases |times|
  {
    if |times| > 0 {
      var (s2, o) := SendClick(sent, url, times[0], true);
      var next := if o == Dropped then last else times[0];
      assert s2[url] == next;
      BurstSpacing(s2, url, times[1..], next);
      forall k | 0 <= k < |times| && Burst(sent, url, times)[k] != Dropped
        ensures times[k] - LastRecorded(last, times[..k]) >= 2000
      {
        if k > 0 {
          assert Burst(sent, url, times)[k] == Burst(s2, url, times[1..])[k - 1];
          assert times[..k] == [times[0]] + times[1..][..k - 1];
          LastRecordedCons(last, times[0], times[1..][..k - 1]);
        }
      }
    }
  }

  /** The time of the last recorded click after `times`, starting from `last`. */
  function LastRecorded(last: int, times: seq<int>): int
    decreases |times|
  {
    if |times| == 0 then last
    else LastRecorded(if last != 0 && times[0] - last < 2000 then last else times[0], times[1..])
  }

  lemma LastRecordedCons(last: int, t: int, rest: seq<int>)
    ensures LastRecorded(last, [t] + rest) == LastRecorded(if last != 0 && t - last < 2000 then last else t, rest)
  {
    assert ([t] + rest)[1..] == rest;
  }

  // ---------------------------------------------------------------------
  // captureClick payload
  // ---------------------------------------------------------------------

  datatype Payload = Payload(url: string, pageUrl: string, elementTag: string, elementText: string)

  /**
   * The payload `captureClick` builds: the tag lowercased (`"unknown"`
   * without one) and the text content trimmed and cut to 500 characters.
   */
  function CapturePayload(url: string, pageUrl: string, tagName: string, textContent: string): (r: Payload)
    ensures r.url == url && r.pageUrl == pageUrl
    ensures tagName == "" ==> r.elementTag == "unknown"
    ensures tagName != "" ==> |r.elementTag| == |tagName| && forall k :: 0 <= k < |tagName| ==> r.elementTag[k] == LowerChar(tagName[k])
    ensures |r.elementText| <= 500 && StartsWith(JsText.Trim(textContent), r.elementText)
    ensures |r.elementText| == if |JsText.Trim(textContent)| <= 500 then |JsText.Trim(textContent)| else 500
    ensures |r.elementText| > 0 ==> !IsJsSpace(r.elementText[0])
  {
    var tag := if tagName != "" then Lower(tagName) else "unknown";
    Payload(url, pageUrl, tag, Truncate(JsText.Trim(textContent), 500))
  }

  /**
   * `captureClick` on a clickable element: a target URL goes through
   * `sendClick`; anything else leaves the state alone and sends nothing.
   */
  function CaptureClick(sent: SentUrls, url: string, pageUrl: string, tagName: string, textContent: string,
                        phone: string, parsed: Option<JsUrl>, now: int, configComplete: bool): (r: (SentUrls, Option<Payload>))
    ensures !IsTarget(url, phone, parsed) ==> r == (sent, None)
    ensures r.1.Some? <==> IsTarget(url, phone, parsed) && !IsDuplicate(sent, url, now) && configComplete
    ensures r.1.Some? ==> r.1.value == CapturePayload(url, pageUrl, tagName, textContent)
    ensures r.1.Some? ==> r.1.value.url == url
    ensures IsTarget(url, phone, parsed) && !IsDuplicate(sent, url, now) ==> r.0 == sent[url := now]
  {
    if !IsTarget(url, phone, parsed) then (sent, None)
    else
      var (s2, o) := SendClick(sent, url, now, configComplete);
      (s2, if o == Sent then Some(CapturePayload(url, pageUrl, tagName, textContent)) else None)
  }
}

=== FILE: url.dfy ===
/**
 * Query strings as the two runtimes read them: PHP's `parse_str` (the last
 * pair for a name wins; `name[...]` makes an array) and the browser's
 * `URLSearchParams.get` (the first pair wins). Both split on `&`, cut each
 * pair at its first `=`, and percent-decode with `+` as a space.
 */
module Url {
  import opened Wrappers
  import opened Text

  predicate IsHex(c: char)
  {
    IsDigit(c) || ('a' <= c <= 'f') || ('A' <= c <= 'F')
  }

  function HexVal(c: char): (v: nat)
    requires IsHex(c)
    ensures v < 16
  {
    if IsDigit(c) then c as int - '0' as int
    else if 'a' <= c <= 'f' then c as int - 'a' as int + 10
    else c as int - 'A' as int + 10
  }

  /**
   * `urldecode`: `+` is a space, `%` and two hex digits is that byte, and any
   * other `%` stays as it is. (The browser then reads the bytes as UTF-8;
   * here they stay bytes.)
   */
  function Decode(s: string): (r: string)
    ensures |r| <= |s|
    ensures '%' !in s ==> |r| == |s| && forall k :: 0 <= k < |s| ==> r[k] == (if s[k] == '+' then ' ' else s[k])
    decreases |s|
  {
    if |s| == 0 then ""
    else if s[0] == '+' then " " + Decode(s[1..])
    else if s[0] == '%' && |s| >= 3 && IsHex(s[1]) && IsHex(s[2]) then
      [(HexVal(s[1]) * 16 + HexVal(s[2])) as char] + Decode(s[3..])
    else [s[0]] + Decode(s[1..])
  }

  function HexChar(v: nat): (c: char)
    requires v < 16
    ensures IsHex(c) && HexVal(c) == v
  {
    if v < 10 then ('0' as int + v) as char else ('A' as int + v - 10) as char
  }

  /** The bytes `rawurlencode` leaves alone (section 2.3 of RFC 3986): letters, digits and `-_.~`. */
  predicate Unreserved(c: char)
  {
    IsDigit(c) || ('a' <= c <= 'z') || ('A' <= c <= 'Z') || c == '-' || c == '_' || c == '.' || c == '~'
  }

  /** How many bytes of `s` `rawurlencode` escapes. */
  function EscapedCount(s: string): (n: nat)
    ensures n <= |s|
  {
    if |s| == 0 then 0 else (if Unreserved(s[0]) then 0 else 1) + EscapedCount(s[1..])
  }

  /**
   * `rawurlencode`: an unreserved byte as itself, any other byte as `%`
   * and two upper-case hex digits.
   */
  function RawUrlEncode(s: string): (r: string)
    requires forall k :: 0 <= k < |s| ==> s[k] as int < 256
    ensures |r| == |s| + 2 * EscapedCount(s)
    ensures forall k :: 0 <= k < |r| ==> Unreserved(r[k]) || r[k] == '%'
    ensures (forall k :: 0 <= k < |s| ==> Unreserved(s[k])) ==> r == s
  {
    if |s| == 0 then ""
    else if Unreserved(s[0]) then [s[0]] + RawUrlEncode(s[1..])
    else ['%', HexChar(s[0] as int / 16), HexChar(s[0] as int % 16)] + RawUrlEncode(s[1..])
  }

  /** Decoding undoes `rawurlencode`. */
  lemma {:induction false} DecodeRawUrlEncode(s: string)
    requires forall k :: 0 <= k < |s| ==> s[k] as int < 256
    ensures Decode(RawUrlEncode(s)) == s
    decreases |s|
  {
    if |s| > 0 {
      var rest := RawUrlEncode(s[1..]);
      DecodeRawUrlEncode(s[1..]);
      if Unreserved(s[0]) {
        EncodeKept(s[0], s[1..]);
        DecodeKept(s[0], rest);
      } else {
        EncodeEscaped(s[0], s[1..]);
        DecodeEscaped(s[0], rest);
      }
      assert [s[0]] + s[1..] == s;
    }
  }

  /** An unreserved byte at the head is encoded as itself... */
  lemma EncodeKept(c: char, rest: string)
    requires Unreserved(c)
    requires forall k :: 0 <= k < |rest| ==> rest[k] as int < 256
    ensures RawUrlEncode([c] + rest) == [c] + RawUrlEncode(rest)
  {
    assert ([c] + rest)[1..] == rest;
  }

  /** ...and decodes to itself. */
  lemma DecodeKept(c: char, rest: string)
    requires Unreserved(c)
    ensures Decode([c] + rest) == [c] + Decode(rest)
  {
    assert ([c] + rest)[1..] == rest;
  }

  /** A reserved byte at the head is encoded as `%` and two hex digits... */
  lemma EncodeEscaped(c: char, rest: string)
    requires c as int < 256 && !Unreserved(c)
    requires forall k :: 0 <= k < |rest| ==> rest[k] as int < 256
    ensures RawUrlEncode([c] + rest) == ['%', HexChar(c as int / 16), HexChar(c as int % 16)] + RawUrlEncode(rest)
  {
    assert ([c] + rest)[1..] == rest;
  }

  /** ...which decode back to that byte. */
  lemma DecodeEscaped(c: char, t: string)
    requires c as int < 256
    ensures Decode(['%', HexChar(c as int / 16), HexChar(c as int % 16)] + t) == [c] + Decode(t)
  {
    var e := ['%', HexChar(c as int / 16), HexChar(c as int % 16)] + t;
    assert e[0] == '%' && e[3..] == t;
  }

  /** A pair cut at its first `=`: the name and the value ("" when there is no `=`). */
  function SplitPair(p: string): (r: (string, string))
    ensures '=' !in r.0
    ensures '=' in p ==> p == r.0 + "=" + r.1
    ensures '=' !in p ==> r == (p, "")
    decreases |p|
  {
    if |p| == 0 then ("", "")
    else if p[0] == '=' then ("", p[1..])
    else
      var (k, v) := SplitPair(p[1..]);
      assert p == [p[0]] + p[1..];
      ([p[0]] + k, v)
  }

  /** The name of `name=value` is `name` when `name` holds no `=`. */
  lemma {:induction false} SplitPairOf(name: string, value: string)
    requires '=' !in name
    ensures SplitPair(name + "=" + value) == (name, value)
    decreases |name|
  {
    var p := name + "=" + value;
    if |name| == 0 {
      assert p[0] == '=' && p[1..] == value;
    } else {
      assert p[0] == name[0] && p[1..] == name[1..] + "=" + value;
      SplitPairOf(name[1..], value);
      assert name == [name[0]] + name[1..];
    }
  }

  /** Texts without `+` or `%` decode to themselves. */
  lemma {:induction false} DecodePlain(s: string)
    requires forall k :: 0 <= k < |s| ==> s[k] != '+' && s[k] != '%'
    ensures Decode(s) == s
    decreases |s|
  {
    if |s| > 0 {
      DecodePlain(s[1..]);
      assert s == [s[0]] + s[1..];
    }
  }

  // ---------------------------------------------------------------------
  // PHP parse_str
  // ---------------------------------------------------------------------

  /** A name that `parse_str` keeps as it is: ASCII letters and digits. */
  predicate PlainName(name: string)
  {
    |name| > 0 && forall k :: 0 <= k < |name| ==> IsWordChar(name[k]) && name[k] != '_'
  }

  function StripLeadingSpaces(s: string): (r: string)
    ensures |r| <= |s| && (|r| == 0 || r[0] != ' ')
    decreases |s|
  {
    if |s| > 0 && s[0] == ' ' then StripLeadingSpaces(s[1..]) else s
  }

  /** What `$q[name]` holds after `parse_str`: nothing, a string, or an array. */
  datatype PhpParam = Absent | Scalar(value: string) | ArrayParam

  /**
   * How a raw pair name addresses `name`: after decoding and dropping leading
   * spaces, it is `name` itself, or `name[` followed later by `]` (an array
   * element of `name`). Other spellings of `name` are mangled by PHP into
   * something else (`.` and space become `_`).
   */
  function Target(rawKey: string, name: string): (r: PhpParam)
    requires PlainName(name)
    ensures r.Scalar? ==> r.value == ""
  {
    var k := StripLeadingSpaces(Decode(rawKey));
    if k == name then Scalar("")
    else if StartsWith(k, name + "[") && ']' in k[|name| + 1..] then ArrayParam
    else Absent
  }

  /** Whether one raw pair sets `$q[name]`, as a string or as an array. */
  predicate Addresses(pair: string, name: string)
    requires PlainName(name)
  {
    !Target(SplitPair(pair).0, name).Absent?
  }

  /** What one pair that addresses `name` sets it to. */
  function SetBy(pair: string, name: string): PhpParam
    requires PlainName(name)
  {
    if Target(SplitPair(pair).0, name).Scalar? then Scalar(Decode(SplitPair(pair).1))
    else Target(SplitPair(pair).0, name)
  }

  /** The pair at `k` addresses `name` and no later pair does. */
  predicate LastAddressing(pairs: seq<string>, name: string, k: int)
    requires PlainName(name)
  {
    0 <= k < |pairs| && Addresses(pairs[k], name)
    && forall j :: k < j < |pairs| ==> !Addresses(pairs[j], name)
  }

  /**
   * What `$q[name]` is after reading `pairs`: unset when no pair addresses
   * `name`, otherwise what the last pair that does sets it to.
   */
  predicate PhpReads(pairs: seq<string>, name: string, r: PhpParam)
    requires PlainName(name)
  {
    && (r.Absent? <==> forall k :: 0 <= k < |pairs| ==> !Addresses(pairs[k], name))
    && (!r.Absent? ==> exists k :: 0 <= k < |pairs| && LastAddressing(pairs, name, k) && r == SetBy(pairs[k], name))
  }

  /** `parse_str` over the `&`-separated pairs: the last pair that addresses `name` decides. */
  function PhpParamOf(pairs: seq<string>, name: string): (r: PhpParam)
    requires PlainName(name)
    ensures PhpReads(pairs, name, r)
    decreases |pairs|
  {
    if |pairs| == 0 then Absent
    else
      var n := |pairs| - 1;
      if Addresses(pairs[n], name) then
        ReadsLast(pairs, name);
        SetBy(pairs[n], name)
      else
        var r := PhpParamOf(pairs[..n], name);
        ReadsSkip(pairs, name, r);
        r
  }

  lemma ReadsLast(pairs: seq<string>, name: string)
    requires PlainName(name) && |pairs| > 0 && Addresses(pairs[|pairs| - 1], name)
    ensures PhpReads(pairs, name, SetBy(pairs[|pairs| - 1], name))
  {
    assert LastAddressing(pairs, name, |pairs| - 1);
  }

  lemma ReadsSkip(pairs: seq<string>, name: string, r: PhpParam)
    requires PlainName(name) && |pairs| > 0 && !Addresses(pairs[|pairs| - 1], name)
    requires PhpReads(pairs[..|pairs| - 1], name, r)
    ensures PhpReads(pairs, name, r)
  {
    var n := |pairs| - 1;
    var front := pairs[..n];
    assert forall k :: 0 <= k < n ==> pairs[k] == front[k];
    if r.Absent? {
      NoneAddresses(pairs, name);
    } else {
      var i :| 0 <= i < n && LastAddressing(front, name, i) && r == SetBy(front[i], name);
      LastStillLast(pairs, name, i);
    }
  }

  lemma NoneAddresses(pairs: seq<string>, name: string)
    requires PlainName(name) && |pairs| > 0 && !Addresses(pairs[|pairs| - 1], name)
    requires forall k :: 0 <= k < |pairs| - 1 ==> !Addresses(pairs[k], name)
    ensures forall k :: 0 <= k < |pairs| ==> !Addresses(pairs[k], name)
  {
  }

  lemma LastStillLast(pairs: seq<string>, name: string, i: int)
    requires PlainName(name) && |pairs| > 0 && !Addresses(pairs[|pairs| - 1], name)
    requires LastAddressing(pairs[..|pairs| - 1], name, i)
    ensures LastAddressing(pairs, name, i)
  {
    var n := |pairs| - 1;
    assert forall k :: 0 <= k < n ==> pairs[k] == pairs[..n][k];
  }

  /**
   * `parse_str($query, $q); $q[name]`: unset when no pair addresses `name`,
   * otherwise what the last pair that does sets it to.
   */
  function PhpQueryParam(query: string, name: string): (r: PhpParam)
    requires PlainName(name)
    ensures PhpReads(Split(query, '&'), name, r)
  {
    PhpParamOf(Split(query, '&'), name)
  }

  lemma {:induction false} PhpParamOfConcat(a: seq<string>, b: seq<string>, name: string)
    requires PlainName(name)
    ensures PhpParamOf(a + b, name) == (if PhpParamOf(b, name).Absent? then PhpParamOf(a, name) else PhpParamOf(b, name))
    decreases |b|
  {
    if |b| == 0 {
      assert a + b == a;
    } else {
      assert (a + b)[..|a + b| - 1] == a + b[..|b| - 1];
      assert (a + b)[|a + b| - 1] == b[|b| - 1];
      PhpParamOfConcat(a, b[..|b| - 1], name);
    }
  }

  /** In PHP a later pair overrides an earlier one for the same name. */
  lemma PhpLastWins(a: string, b: string, name: string)
    requires PlainName(name)
    ensures PhpQueryParam(a + "&" + b, name)
            == (if PhpQueryParam(b, name).Absent? then PhpQueryParam(a, name) else PhpQueryParam(b, name))
  {
    SplitConcat(a, b, '&');
    PhpParamOfConcat(Split(a, '&'), Split(b, '&'), name);
  }

  /** A single pair `name=value` sets the string `value` (percent-decoded). */
  lemma PhpSinglePair(name: string, value: string)
    requires PlainName(name) && '&' !in value
    ensures PhpQueryParam(name + "=" + value, name) == Scalar(Decode(value))
  {
    var p := name + "=" + value;
    SplitNoSep(p, '&');
    SplitPairOf(name, value);
    DecodePlain(name);
    assert PhpParamOf([p], name) == Scalar(Decode(value));
  }

  // ---------------------------------------------------------------------
  // URLSearchParams.get
  // ---------------------------------------------------------------------

  /** Whether a raw pair is a non-empty pair whose decoded name is `name`. */
  predicate Names(pair: string, name: string)
  {
    pair != "" && Decode(SplitPair(pair).0) == name
  }

  /** The pair at `k` names `name` and no earlier pair does. */
  predicate FirstNaming(pairs: seq<string>, name: string, k: int)
  {
    0 <= k < |pairs| && Names(pairs[k], name)
    && forall j :: 0 <= j < k ==> !Names(pairs[j], name)
  }

  /**
   * What `get(name)` finds in `pairs`: `null` when no pair is named `name`,
   * otherwise the decoded value of the first pair that is.
   */
  predicate JsReads(pairs: seq<string>, name: string, r: Option<string>)
  {
    && (r.None? <==> forall k :: 0 <= k < |pairs| ==> !Names(pairs[k], name))
    && (r.Some? ==> exists k :: 0 <= k < |pairs| && FirstNaming(pairs, name, k) && r.value == Decode(SplitPair(pairs[k]).1))
  }

  /** `URLSearchParams.get` over the pairs: the first pair whose decoded name is `name`. */
  function JsGetOf(pairs: seq<string>, name: string): (r: Option<string>)
    ensures JsReads(pairs, name, r)
    decreases |pairs|
  {
    if |pairs| == 0 then None
    else
      var (k, v) := SplitPair(pairs[0]);
      if pairs[0] != "" && Decode(k) == name then
        assert FirstNaming(pairs, name, 0);
        Some(Decode(v))
      else
        var r := JsGetOf(pairs[1..], name);
        assert JsReads(pairs[1..], name, r);
        assert forall j :: 1 <= j < |pairs| ==> pairs[1..][j - 1] == pairs[j];
        if r.None? then r
        else
          var i :| FirstNaming(pairs[1..], name, i) && r.value == Decode(SplitPair(pairs[1..][i]).1);
          assert FirstNaming(pairs, name, i + 1);
          r
  }

  /**
   * `new URLSearchParams(query).get(name)`: `null` when no pair is named
   * `name`, otherwise the decoded value of the first pair that is.
   */
  function JsSearchGet(query: string, name: string): (r: Option<string>)
    ensures JsReads(Split(query, '&'), name, r)
  {
    JsGetOf(Split(query, '&'), name)
  }

  lemma {:induction false} JsGetOfConcat(a: seq<string>, b: seq<string>, name: string)
    ensures JsGetOf(a + b, name) == (if JsGetOf(a, name).Some? then JsGetOf(a, name) else JsGetOf(b, name))
    decreases |a|
  {
    if |a| == 0 {
      assert a + b == b;
    } else {
      assert (a + b)[0] == a[0];
      assert (a + b)[1..] == a[1..] + b;
      JsGetOfConcat(a[1..], b, name);
    }
  }

  /** In the browser an earlier pair shadows a later one for the same name. */
  lemma JsFirstWins(a: string, b: string, name: string)
    ensures JsSearchGet(a + "&" + b, name)
            == (if JsSearchGet(a, name).Some? then JsSearchGet(a, name) else JsSearchGet(b, name))
  {
    SplitConcat(a, b, '&');
    JsGetOfConcat(Split(a, '&'), Split(b, '&'), name);
  }

  /** A single pair `name=value` is found by `get` as `value` (percent-decoded). */
  lemma JsSinglePair(name: string, value: string)
    requires PlainName(name) && '&' !in value
    ensures JsSearchGet(name + "=" + value, name) == Some(Decode(value))
  {
    var p := name + "=" + value;
    SplitNoSep(p, '&');
    SplitPairOf(name, value);
    DecodePlain(name);
    assert JsGetOf([p], name) == Some(Decode(value));
  }

  /**
   * A repeated parameter reads differently in the two runtimes: PHP keeps
   * the last value, the browser the first.
   */
  lemma RepeatedParam(name: string, first: string, second: string)
    requires PlainName(name) && '&' !in first && '&' !in second
    ensures PhpQueryParam(name + "=" + first + "&" + name + "=" + second, name) == Scalar(Decode(second))
    ensures JsSearchGet(name + "=" + first + "&" + name + "=" + second, name) == Some(Decode(first))
  {
    var a := name + "=" + first;
    var b := name + "=" + second;
    assert name + "=" + first + "&" + name + "=" + second == a + "&" + b;
    PhpSinglePair(name, second);
    PhpLastWins(a, b, name);
    JsSinglePair(name, first);
    JsFirstWins(a, b, name);
  }
}

=== FILE: url_matcher.dfy ===
/**
 * `UrlMatcher`, the server-side classifier that decides whether a clicked
 * URL is a WhatsApp link to the configured destination. It tries the
 * anchored pattern of `WaRegex` first and falls back on the components
 * `parse_url` reports only when the pattern fails.
 */
module UrlMatcher {
  import opened Wrappers
  import opened Text
  import Url
  import WaRegex

  // ---------------------------------------------------------------------
  // The pattern text
  // ---------------------------------------------------------------------

  /**
   * The characters `preg_quote` escapes: its fixed set, which holds `#`, so
   * the `#` delimiter is covered too; `/` is not in it.
   */
  predicate IsQuoteSpecial(c: char)
  {
    c in {'.', '\\', '+', '*', '?', '[', '^', ']', '$', '(', ')', '{', '}', '=', '!', '<', '>', '|', ':', '-', '#'}
  }

  /** What `preg_quote` writes for one character. */
  function QuoteChar(c: char): (r: string)
    ensures |r| >= 2 <==> IsQuoteSpecial(c) || c == '\0'
    ensures |r| >= 1 && (|r| == 1 ==> r == [c])
  {
    if IsQuoteSpecial(c) then ['\\', c]
    else if c == '\0' then "\\000"
    else [c]
  }

  /** `preg_quote($s, '#')` (a NUL byte becomes `\000`). */
  function PregQuote(s: string): (r: string)
    ensures |r| >= |s|
    ensures (forall k :: 0 <= k < |s| ==> !IsQuoteSpecial(s[k]) && s[k] != '\0') ==> r == s
    decreases |s|
  {
    if |s| == 0 then "" else QuoteChar(s[0]) + PregQuote(s[1..])
  }

  /** Quoting works character by character. */
  lemma {:induction false} PregQuoteConcat(a: string, b: string)
    ensures PregQuote(a + b) == PregQuote(a) + PregQuote(b)
    decreases |a|
  {
    if |a| > 0 {
      assert (a + b)[0] == a[0] && (a + b)[1..] == a[1..] + b;
      PregQuoteConcat(a[1..], b);
    } else {
      assert a + b == b;
    }
  }

  /**
   * Every special character of `s` comes out with a `\` in front of it,
   * between the quoted text before it and the quoted text after it.
   */
  lemma {:induction false} PregQuoteAt(s: string, k: nat)
    requires k < |s| && IsQuoteSpecial(s[k])
    ensures PregQuote(s) == PregQuote(s[..k]) + ['\\', s[k]] + PregQuote(s[k + 1..])
  {
    var a, b := s[..k], s[k + 1..];
    assert s == a + ([s[k]] + b);
    PregQuoteConcat(a, [s[k]] + b);
    PregQuoteCons(s[k], b);
  }

  lemma {:induction false} PregQuoteCons(c: char, t: string)
    ensures PregQuote([c] + t) == QuoteChar(c) + PregQuote(t)
  {
    assert ([c] + t)[0] == c && ([c] + t)[1..] == t;
  }

  /** Reads the quoting back: `\000` is NUL, `\x` is `x`. */
  function Unquote(s: string): string
    decreases |s|
  {
    if |s| == 0 then ""
    else if |s| >= 4 && s[..4] == "\\000" then ['\0'] + Unquote(s[4..])
    else if |s| >= 2 && s[0] == '\\' then [s[1]] + Unquote(s[2..])
    else [s[0]] + Unquote(s[1..])
  }

  /** One quoted character reads back as itself, whatever follows. */
  lemma UnquoteQuoteChar(c: char, t: string)
    ensures Unquote(QuoteChar(c) + t) == [c] + Unquote(t)
  {
    var q := QuoteChar(c);
    var u := q + t;
    if IsQuoteSpecial(c) {
      assert u[0] == '\\' && u[1] == c && u[2..] == t;
      assert !(|u| >= 4 && u[..4] == "\\000") by { assert c != '0'; }
    } else if c == '\0' {
      assert u[..4] == "\\000" && u[4..] == t;
    } else {
      assert u[0] == c && u[1..] == t;
    }
  }

  /** Quoting loses nothing: the quoted text reads back as the original. */
  lemma {:induction false} UnquotePregQuote(s: string)
    ensures Unquote(PregQuote(s)) == s
    decreases |s|
  {
    if |s| > 0 {
      UnquotePregQuote(s[1..]);
      UnquoteQuoteChar(s[0], PregQuote(s[1..]));
      assert s == [s[0]] + s[1..];
    }
  }

  /** Digits are never escaped. */
  lemma PregQuoteDigits(s: string)
    requires AllDigits(s)
    ensures PregQuote(s) == s
  {
    assert forall k :: 0 <= k < |s| ==> IsDigit(s[k]);
  }

  /** The five alternatives, built on the escaped destination `q`. */
  function SubPatterns(q: string): (r: seq<string>)
    ensures |r| == 5
  {
    [ "https?://api\\.whatsapp\\.com/(?:send|message)(?:\\?(?=[^#]*\\bphone=(?:\\+|%2B)?" + q + ")[^#]*)?",
      "https?://wa\\.me/(?:\\+|%2B)?" + q + "(?:\\?[^#]*)?",
      "https?://api\\.whatsapp\\.com/message/[^#\\s]+",
      "https?://wa\\.me/message/[^#\\s]+",
      "whatsapp://send(?:\\?(?=[^#]*\\bphone=(?:\\+|%2B)?" + q + ")[^#]*)?" ]
  }

  /** `$parts[0] | ... | $parts[n-1]`. */
  function Alternation(parts: seq<string>): string
  {
    if |parts| == 0 then "" else if |parts| == 1 then parts[0] else parts[0] + "|" + Alternation(parts[1..])
  }

  /** `UrlMatcher::pattern`: the alternation without anchors or delimiters, '' when the phone has no digits. */
  function Pattern(phone: string): (r: string)
    ensures r == "" <==> Digits(phone) == ""
    ensures r != "" ==> StartsWith(r, "(?:") && EndsWith(r, ")")
  {
    var digits := Digits(phone);
    if digits == "" then ""
    else
      var r := "(?:" + Alternation(SubPatterns(PregQuote(digits))) + ")";
      assert r[..3] == "(?:";
      r
  }

  /** The regular expression `matchesTarget` compiles (delimiters `#`, anchors, flag `i`). */
  function RegexText(digits: string): string
  {
    "#^(" + Alternation(SubPatterns(PregQuote(digits))) + ")$#i"
  }

  /**
   * `pattern` and `matchesTarget` build the same five alternatives around
   * the same escaped digits; `WaRegex.Matches` is what that text accepts.
   */
  lemma PatternSharesAlternatives(phone: string)
    requires Digits(phone) != ""
    ensures Pattern(phone) == "(?:" + Alternation(SubPatterns(Digits(phone))) + ")"
    ensures RegexText(Digits(phone)) == "#^(" + Alternation(SubPatterns(Digits(phone))) + ")$#i"
  {
    PregQuoteDigits(Digits(phone));
  }

  // ---------------------------------------------------------------------
  // matchesTarget
  // ---------------------------------------------------------------------

  /** What `parse_url` reports; an absent component is None. */
  datatype UrlParts = UrlParts(scheme: Option<string>, host: Option<string>, path: Option<string>, query: Option<string>)

  /** `isset($parts[k]) ? $parts[k] : ''`. */
  function OrEmpty(o: Option<string>): string
  {
    if o.Some? then o.value else ""
  }

  /** The phone guards: a PHP-non-empty phone with 10 to 15 digits. */
  predicate PhoneGuard(phone: string)
  {
    !PhpEmptyString(phone) && 10 <= |Digits(phone)| <= 15
  }

  /**
   * `parse_str($query, $q); !empty($q['phone']) && digits((string)$q['phone']) === $digits`.
   * An array value casts to the text "Array".
   */
  predicate PhoneParamIs(query: string, digits: string)
  {
    match Url.PhpQueryParam(query, "phone")
    case Scalar(v) => !PhpEmptyString(v) && Digits(v) == digits
    case ArrayParam => Digits("Array") == digits
    case Absent => false
  }

  /** `preg_match('#^/(?:\+|%2B)?P$#i', $path)`; PCRE's `$` also accepts one final newline. */
  predicate WaMePath(path: string, digits: string)
  {
    |path| > 0 && path[0] == '/' && WaRegex.PhoneFirst(path[1..], digits)
    && var rest := WaRegex.AfterPhone(path[1..], digits);
       rest == "" || rest == "\n"
  }

  /** The `parse_url` recogniser of `matchesTarget`. */
  predicate Fallback(parts: UrlParts, digits: string)
  {
    var scheme := OrEmpty(parts.scheme);
    var host := OrEmpty(parts.host);
    var path := OrEmpty(parts.path);
    var query := OrEmpty(parts.query);
    if LowerIs(scheme, "whatsapp") then PhoneParamIs(query, digits)
    else if LowerIs(host, "api.whatsapp.com") then (path == "/send" || StartsWith(path, "/message")) && PhoneParamIs(query, digits)
    else if LowerIs(host, "wa.me") then WaMePath(path, digits) || StartsWith(path, "/message/")
    else false
  }

  /**
   * `UrlMatcher::matchesTarget($url, $phone)`; `parts` is what
   * `parse_url($url)` returns (None for `false`).
   */
  function MatchesTarget(url: string, phone: string, parts: Option<UrlParts>): (r: bool)
    ensures PhpEmptyString(url) || PhpEmptyString(phone) ==> !r
    ensures !(10 <= |Digits(phone)| <= 15) ==> !r
    ensures !PhpEmptyString(url) && PhoneGuard(phone) && WaRegex.Matches(WaRegex.Pcre, url, Digits(phone)) ==> r
    ensures !PhpEmptyString(url) && PhoneGuard(phone) && !WaRegex.Matches(WaRegex.Pcre, url, Digits(phone))
            ==> (r <==> parts.Some? && Fallback(parts.value, Digits(phone)))
  {
    if PhpEmptyString(url) || PhpEmptyString(phone) then false
    else
      var digits := Digits(phone);
      if |digits| < 10 || |digits| > 15 then false
      else if WaRegex.Matches(WaRegex.Pcre, url, digits) then true
      else if parts.None? then false
      else Fallback(parts.value, digits)
  }

  /** `UrlMatcher::isValidPhone`: null or '' is invalid, otherwise 10 to 15 digits. */
  function IsValidPhone(phone: Option<string>): (r: bool)
    ensures phone.None? ==> !r
    ensures phone.Some? && phone.value == "" ==> !r
    ensures r ==> 10 <= |Digits(phone.value)| <= 15
  {
    if phone.None? || phone.value == "" then false
    else 10 <= |Digits(phone.value)| <= 15
  }

  // ---------------------------------------------------------------------
  // Properties
  // ---------------------------------------------------------------------

  /** `isValidPhone` accepts exactly the phones that pass the guards of `matchesTarget`. */
  lemma ValidPhoneIsGuard(phone: string)
    ensures IsValidPhone(Some(phone)) <==> PhoneGuard(phone)
  {
  }

  /** A URL long enough to hold a scheme is never PHP-empty. */
  lemma LongNotEmpty(url: string)
    requires |url| >= 2
    ensures !PhpEmptyString(url)
  {
  }

  /** `http(s)://wa.me/` + optional `+`/`%2B` + the destination + optional query without `#` is a target. */
  lemma WaMeAccepted(scheme: string, sign: string, phone: string, r: string, parts: Option<UrlParts>)
    requires WaRegex.IsScheme(scheme) && PhoneGuard(phone)
    requires sign == "" || sign == "+" || sign == "%2B"
    requires WaRegex.OptQuery(r)
    ensures MatchesTarget(scheme + "wa.me/" + sign + Digits(phone) + r, phone, parts)
  {
    WaRegex.WaMeLink(WaRegex.Pcre, scheme, sign, Digits(phone), r);
    LongNotEmpty(scheme + "wa.me/" + sign + Digits(phone) + r);
  }

  /** `http(s)://api.whatsapp.com/message/<code>` is a target whatever the destination. */
  lemma ApiMessageAccepted(scheme: string, code: string, phone: string, parts: Option<UrlParts>)
    requires WaRegex.IsScheme(scheme) && PhoneGuard(phone)
    requires WaRegex.Code(WaRegex.Pcre, code)
    ensures MatchesTarget(scheme + "api.whatsapp.com/message/" + code, phone, parts)
  {
    WaRegex.ApiMessageLink(WaRegex.Pcre, scheme, code, Digits(phone));
    LongNotEmpty(scheme + "api.whatsapp.com/message/" + code);
  }

  /** `http(s)://wa.me/message/<code>` is a target whatever the destination. */
  lemma WaMeMessageAccepted(scheme: string, code: string, phone: string, parts: Option<UrlParts>)
    requires WaRegex.IsScheme(scheme) && PhoneGuard(phone)
    requires WaRegex.Code(WaRegex.Pcre, code)
    ensures MatchesTarget(scheme + "wa.me/message/" + code, phone, parts)
  {
    WaRegex.WaMeMessageLink(WaRegex.Pcre, scheme, code, Digits(phone));
    LongNotEmpty(scheme + "wa.me/message/" + code);
  }

  /**
   * `http(s)://api.whatsapp.com/send?` + `a` + `phone=` + sign + destination + `b`
   * is a target: the parameter may sit anywhere after a non-word character,
   * and nothing bounds the digits on the right.
   */
  lemma SendAccepted(scheme: string, a: string, sign: string, phone: string, b: string, parts: Option<UrlParts>)
    requires WaRegex.IsScheme(scheme) && PhoneGuard(phone)
    requires sign == "" || sign == "+" || sign == "%2B"
    requires '#' !in a && '#' !in b
    requires a == "" || !IsWordChar(a[|a| - 1])
    ensures MatchesTarget(scheme + "api.whatsapp.com/send" + ("?" + (a + "phone=" + sign + Digits(phone) + b)), phone, parts)
  {
    var q := a + "phone=" + sign + Digits(phone) + b;
    WaRegex.PhoneQueryOf(a, sign, Digits(phone), b);
    assert ("?" + q)[1..] == q;
    WaRegex.SendLink(WaRegex.Pcre, scheme, "?" + q, Digits(phone));
    LongNotEmpty(scheme + "api.whatsapp.com/send" + ("?" + q));
  }

  /** `http(s)://api.whatsapp.com/send` and `whatsapp://send` with no query at all are targets. */
  lemma BareSendAccepted(scheme: string, phone: string, parts: Option<UrlParts>)
    requires WaRegex.IsScheme(scheme) && PhoneGuard(phone)
    ensures MatchesTarget(scheme + "api.whatsapp.com/send" + "", phone, parts)
    ensures MatchesTarget("whatsapp://send" + "", phone, parts)
  {
    WaRegex.SendLink(WaRegex.Pcre, scheme, "", Digits(phone));
    WaRegex.SchemeLink(WaRegex.Pcre, "", Digits(phone));
    LongNotEmpty(scheme + "api.whatsapp.com/send" + "");
    LongNotEmpty("whatsapp://send" + "");
  }

  /**
   * `https://wa.me/` + destination + one more digit is refused by the
   * pattern and, with the components `parse_url` gives for it, by the
   * fallback as well.
   */
  lemma WaMeExtraDigitRefused(phone: string, d: char)
    requires PhoneGuard(phone) && IsDigit(d)
    ensures MatchesTarget("https://" + "wa.me/" + Digits(phone) + [d], phone,
                          Some(UrlParts(Some("https"), Some("wa.me"), Some("/" + Digits(phone) + [d]), None))) == false
  {
    var p := Digits(phone);
    var url := "https://" + "wa.me/" + p + [d];
    var parts := UrlParts(Some("https"), Some("wa.me"), Some("/" + p + [d]), None);
    WaRegex.WaMeExtraDigit(WaRegex.Pcre, "https://", p, d);
    ExtraDigitFallback(p, d);
    LongNotEmpty(url);
    BothRefuse(url, phone, parts);
  }

  /** A URL that both the pattern and the fallback refuse is not a target. */
  lemma BothRefuse(url: string, phone: string, parts: UrlParts)
    requires PhoneGuard(phone)
    requires !WaRegex.Matches(WaRegex.Pcre, url, Digits(phone))
    requires !Fallback(parts, Digits(phone))
    ensures !MatchesTarget(url, phone, Some(parts))
  {
  }

  /** The components of `https://wa.me/<destination><digit>` fail the fallback. */
  lemma ExtraDigitFallback(p: string, d: char)
    requires WaRegex.IsPhone(p) && IsDigit(d)
    ensures !Fallback(UrlParts(Some("https"), Some("wa.me"), Some("/" + p + [d]), None), p)
  {
    NotWaMePath(p, d);
    LowerIsWaMe();
  }

  lemma NotWaMePath(p: string, d: char)
    requires WaRegex.IsPhone(p) && IsDigit(d)
    ensures !WaMePath("/" + p + [d], p)
    ensures !StartsWith("/" + p + [d], "/message/")
  {
    var path := "/" + p + [d];
    assert path[1..] == "" + p + [d];
    WaRegex.SignOf("", p, [d]);
    assert path[1] == p[0];
  }

  lemma LowerIsWhatsapp()
    ensures LowerIs("whatsapp", "whatsapp")
  {
    LowerIsSelf("whatsapp");
  }

  lemma LowerIsApiHost()
    ensures LowerIs("api.whatsapp.com", "api.whatsapp.com")
  {
    LowerIsSelf("api.whatsapp.com");
  }

  lemma LowerIsWaMe()
    ensures LowerIs("wa.me", "wa.me")
  {
    LowerIsSelf("wa.me");
  }

  /** In the fallback, every host other than the two WhatsApp ones is refused (the `whatsapp` scheme aside). */
  lemma OtherHostsRefused(parts: UrlParts, digits: string)
    requires Lower(OrEmpty(parts.scheme)) != "whatsapp"
    requires Lower(OrEmpty(parts.host)) != "api.whatsapp.com" && Lower(OrEmpty(parts.host)) != "wa.me"
    ensures !Fallback(parts, digits)
  {
    LowerIsLower(OrEmpty(parts.scheme), "whatsapp");
    LowerIsLower(OrEmpty(parts.host), "api.whatsapp.com");
    LowerIsLower(OrEmpty(parts.host), "wa.me");
  }

  /** A `phone` parameter given as an array (`phone[]=...`) never matches. */
  lemma ArrayPhoneRefused(query: string, digits: string)
    requires WaRegex.IsPhone(digits)
    requires Url.PhpQueryParam(query, "phone").ArrayParam?
    ensures !PhoneParamIs(query, digits)
  {
    ArrayHasNoDigits();
  }

  /** `(string)` of an array is "Array", which has no digits. */
  lemma ArrayHasNoDigits()
    ensures Digits("Array") == ""
  {
    DigitsOfNoDigits("Array");
  }

  lemma PhoneIsPlain()
    ensures Url.PlainName("phone")
  {
    var n := "phone";
    assert n[0] == 'p' && n[1] == 'h' && n[2] == 'o' && n[3] == 'n' && n[4] == 'e';
  }

  lemma DigitsArePlain(d: string)
    requires AllDigits(d)
    ensures '&' !in d
    ensures forall k :: 0 <= k < |d| ==> d[k] != '+' && d[k] != '%'
  {
    assert forall k :: 0 <= k < |d| ==> IsDigit(d[k]);
    assert forall k :: 0 <= k < |d| ==> d[k] != '&';
  }

  /** `phone=<destination>` as the whole query satisfies the `parse_str` test. */
  lemma PhoneParamOfSingle(d: string)
    requires WaRegex.IsPhone(d) && d != "0"
    ensures PhoneParamIs("phone" + "=" + d, d)
  {
    PhoneIsPlain();
    DigitsArePlain(d);
    Url.PhpSinglePair("phone", d);
    Url.DecodePlain(d);
    DigitsIdempotent(d);
  }

  /**
   * `phone=<destination>&phone=0` fails the `parse_str` test: the last
   * value wins and "0" is empty to PHP.
   */
  lemma PhoneParamOfRepeated(d: string)
    requires WaRegex.IsPhone(d)
    ensures !PhoneParamIs("phone" + "=" + d + "&" + "phone" + "=" + "0", d)
  {
    PhoneIsPlain();
    DigitsArePlain(d);
    Url.RepeatedParam("phone", d, "0");
    Url.DecodePlain("0");
    assert Url.Decode("0") == "0";
  }

  /** In the fallback a `whatsapp:` URL matches exactly when its `phone` parameter carries the destination. */
  lemma SchemeFallback(host: Option<string>, path: Option<string>, query: string, d: string)
    ensures Fallback(UrlParts(Some("whatsapp"), host, path, Some(query)), d) <==> PhoneParamIs(query, d)
  {
    LowerIsWhatsapp();
  }
}

=== FILE: wa_regex.dfy ===
/**
 * The anchored, case-insensitive WhatsApp target pattern that both the
 * server (`UrlMatcher::matchesTarget`, PCRE) and the legacy browser tracker
 * (its `RegExp` fallback, ECMAScript) build around the destination digits
 * `P`, written as a predicate over the URL text.
 *
 *   https?://api.whatsapp.com/(send|message)(?\ query containing phone=P)?
 *   https?://wa.me/(+|%2B)?P(?query)?
 *   https?://api.whatsapp.com/message/<code>
 *   https?://wa.me/message/<code>
 *   whatsapp://send(?\ query containing phone=P)?
 *
 * The two flavours differ in three places: the browser's first alternative
 * has `send` only, its `\s` is the wider JavaScript white-space class, and
 * its `$` matches only at the very end, while PCRE's `$` (without the `D`
 * modifier) also matches before one final newline.
 */
module WaRegex {
  import opened Text

  datatype Flavor = Pcre | EcmaScript

  /** `\s` of the flavour. */
  predicate IsRegexSpace(f: Flavor, c: char)
  {
    if f.Pcre? then IsPcreSpace(c) else IsJsSpace(c)
  }

  /** The destination as the callers pass it: a non-empty run of digits. */
  predicate IsPhone(p: string)
  {
    |p| > 0 && AllDigits(p)
  }

  /** `https?://` in any case. */
  predicate HasHttp(s: string)
  {
    StartsWithCI(s, "https://") || StartsWithCI(s, "http://")
  }

  function AfterHttp(s: string): (r: string)
    requires HasHttp(s)
    ensures |r| < |s| && r == s[|s| - |r|..]
  {
    if StartsWithCI(s, "https://") then s[8..] else s[7..]
  }

  /**
   * The length of the optional sign `(?:\+|%2B)` at the start of `t`. The
   * destination starts with a digit, so a sign that is present must be
   * consumed and the choice is unique.
   */
  function SignLen(t: string): (n: nat)
    ensures n <= |t|
  {
    if |t| > 0 && t[0] == '+' then 1 else if StartsWithCI(t, "%2b") then 3 else 0
  }

  /** `(?:\+|%2B)?P` at the start of `t`. */
  predicate PhoneFirst(t: string, p: string)
  {
    StartsWith(t[SignLen(t)..], p)
  }

  /** What follows `(?:\+|%2B)?P` in `t`. */
  function AfterPhone(t: string, p: string): (r: string)
    requires PhoneFirst(t, p)
    ensures |r| <= |t|
  {
    t[SignLen(t) + |p|..]
  }

  /** `\bphone=(?:\+|%2B)?P` at position `j` of the query `q`. */
  predicate PhoneParamAt(q: string, j: int, p: string)
    requires 0 <= j <= |q|
  {
    (j == 0 || !IsWordChar(q[j - 1])) && StartsWithCI(q[j..], "phone=") && PhoneFirst(q[j + 6..], p)
  }

  /** `(?=[^#]*\bphone=(?:\+|%2B)?P)[^#]*` followed by the end: the whole query. */
  predicate PhoneQuery(q: string, p: string)
  {
    '#' !in q && exists j :: 0 <= j <= |q| && PhoneParamAt(q, j, p)
  }

  /** `(?:\?(?=...)[^#]*)?` followed by the end. */
  predicate OptPhoneQuery(r: string, p: string)
  {
    r == "" || (r[0] == '?' && PhoneQuery(r[1..], p))
  }

  /** `(?:\?[^#]*)?` followed by the end. */
  predicate OptQuery(r: string)
  {
    r == "" || (r[0] == '?' && '#' !in r[1..])
  }

  /** `[^#\s]+` followed by the end. */
  predicate Code(f: Flavor, c: string)
  {
    |c| > 0 && forall k :: 0 <= k < |c| ==> c[k] != '#' && !IsRegexSpace(f, c[k])
  }

  predicate AltSend(f: Flavor, s: string, p: string)
  {
    HasHttp(s) && StartsWithCI(AfterHttp(s), "api.whatsapp.com/")
    && var u := AfterHttp(s)[17..];
       (StartsWithCI(u, "send") && OptPhoneQuery(u[4..], p))
       || (f.Pcre? && StartsWithCI(u, "message") && OptPhoneQuery(u[7..], p))
  }

  predicate AltWaMe(s: string, p: string)
  {
    HasHttp(s) && StartsWithCI(AfterHttp(s), "wa.me/")
    && var u := AfterHttp(s)[6..];
       PhoneFirst(u, p) && OptQuery(AfterPhone(u, p))
  }

  predicate AltApiMessage(f: Flavor, s: string)
  {
    HasHttp(s) && StartsWithCI(AfterHttp(s), "api.whatsapp.com/message/") && Code(f, AfterHttp(s)[25..])
  }

  predicate AltWaMeMessage(f: Flavor, s: string)
  {
    HasHttp(s) && StartsWithCI(AfterHttp(s), "wa.me/message/") && Code(f, AfterHttp(s)[14..])
  }

  predicate AltScheme(s: string, p: string)
  {
    StartsWithCI(s, "whatsapp://send") && OptPhoneQuery(s[15..], p)
  }

  /** One of the five alternatives spans the whole of `s`. */
  predicate Whole(f: Flavor, s: string, p: string)
  {
    AltSend(f, s, p) || AltWaMe(s, p) || AltApiMessage(f, s) || AltWaMeMessage(f, s) || AltScheme(s, p)
  }

  /** `^(...)$` with the `i` flag: PCRE's `$` also accepts one final newline. */
  predicate Matches(f: Flavor, s: string, p: string)
    requires IsPhone(p)
  {
    Whole(f, s, p) || (f.Pcre? && |s| > 0 && s[|s| - 1] == '\n' && Whole(f, s[..|s| - 1], p))
  }

  // ---------------------------------------------------------------------
  // Building blocks for concrete URLs
  // ---------------------------------------------------------------------

  lemma AfterHttpOf(scheme: string, rest: string)
    requires scheme == "https://" || scheme == "http://"
    ensures HasHttp(scheme + rest) && AfterHttp(scheme + rest) == rest
  {
    var s := scheme + rest;
    CIHead(scheme, rest, scheme);
    if scheme == "http://" {
      CIHeadDiffers(s, "https://", 4);
    }
    assert s[|scheme|..] == rest;
  }

  lemma SignOf(sign: string, p: string, rest: string)
    requires IsPhone(p)
    requires sign == "" || sign == "+" || sign == "%2B"
    ensures SignLen(sign + p + rest) == |sign|
    ensures PhoneFirst(sign + p + rest, p) && AfterPhone(sign + p + rest, p) == rest
  {
    var t := sign + p + rest;
    assert t[|sign|..] == p + rest;
    assert (p + rest)[..|p|] == p;
    if sign == "" {
      assert t[0] == p[0] && IsDigit(p[0]);
      CIHeadDiffers(t, "%2b", 0);
    } else if sign == "%2B" {
      assert t == "%2B" + (p + rest);
      CIHead("%2B", p + rest, "%2b");
    }
    assert t[|sign| + |p|..] == rest;
  }

  /** `phone=` right after `a` is at a word boundary when `a` is empty or ends in a non-word character. */
  lemma ParamAfter(a: string, rest: string, p: string)
    requires a == "" || !IsWordChar(a[|a| - 1])
    requires PhoneFirst(rest, p)
    ensures PhoneParamAt(a + "phone=" + rest, |a|, p)
  {
    var q := a + "phone=" + rest;
    assert q[|a|..] == "phone=" + rest;
    PhoneHead(rest);
    assert q[|a| + 6..] == rest;
    assert |a| == 0 || q[|a| - 1] == a[|a| - 1];
  }

  lemma Regroup(a: string, b: string, c: string, d: string, e: string)
    ensures a + b + c + d + e == a + b + (c + d + e)
  {
  }

  lemma NoHashInQuery(a: string, sign: string, p: string, b: string)
    requires IsPhone(p)
    requires sign == "" || sign == "+" || sign == "%2B"
    requires '#' !in a && '#' !in b
    ensures '#' !in a + "phone=" + sign + p + b
  {
  }

  /** A query `a` + `phone=` + sign + `P` + `b`: the lookahead finds the parameter right after `a`. */
  lemma PhoneQueryOf(a: string, sign: string, p: string, b: string)
    requires IsPhone(p)
    requires sign == "" || sign == "+" || sign == "%2B"
    requires '#' !in a && '#' !in b
    requires a == "" || !IsWordChar(a[|a| - 1])
    ensures PhoneQuery(a + "phone=" + sign + p + b, p)
  {
    SignOf(sign, p, b);
    ParamAfter(a, sign + p + b, p);
    Regroup(a, "phone=", sign, p, b);
    NoHashInQuery(a, sign, p, b);
  }

  // ---------------------------------------------------------------------
  // What the pattern accepts
  // ---------------------------------------------------------------------

  predicate IsScheme(scheme: string)
  {
    scheme == "https://" || scheme == "http://"
  }

  lemma Assoc(a: string, b: string, c: string)
    ensures a + b + c == a + (b + c)
  {
  }

  /** A lower-case literal is found at the head of `lit + rest`, and `rest` follows it. */
  lemma LitHead(lit: string, rest: string)
    requires forall k :: 0 <= k < |lit| ==> LowerChar(lit[k]) == lit[k]
    ensures StartsWithCI(lit + rest, lit) && (lit + rest)[|lit|..] == rest
  {
    CIHead(lit, rest, lit);
  }

  lemma SendHead(rest: string)
    ensures StartsWithCI("send" + rest, "send") && ("send" + rest)[4..] == rest
  {
    LitHead("send", rest);
  }

  lemma ApiHead(rest: string)
    ensures StartsWithCI("api.whatsapp.com/" + rest, "api.whatsapp.com/") && ("api.whatsapp.com/" + rest)[17..] == rest
  {
    LitHead("api.whatsapp.com/", rest);
  }

  lemma SchemeHead(rest: string)
    ensures StartsWithCI("whatsapp://send" + rest, "whatsapp://send") && ("whatsapp://send" + rest)[15..] == rest
  {
    LitHead("whatsapp://send", rest);
  }

  lemma WaMeHead(rest: string)
    ensures StartsWithCI("wa.me/" + rest, "wa.me/") && ("wa.me/" + rest)[6..] == rest
  {
    LitHead("wa.me/", rest);
  }

  lemma ApiMessageHead(rest: string)
    ensures StartsWithCI("api.whatsapp.com/message/" + rest, "api.whatsapp.com/message/") && ("api.whatsapp.com/message/" + rest)[25..] == rest
  {
    LitHead("api.whatsapp.com/message/", rest);
  }

  lemma WaMeMessageHead(rest: string)
    ensures StartsWithCI("wa.me/message/" + rest, "wa.me/message/") && ("wa.me/message/" + rest)[14..] == rest
  {
    LitHead("wa.me/message/", rest);
  }

  lemma PhoneHead(rest: string)
    ensures StartsWithCI("phone=" + rest, "phone=") && ("phone=" + rest)[6..] == rest
  {
    LitHead("phone=", rest);
  }

  lemma SendPath(r: string)
    ensures "api.whatsapp.com/send" + r == "api.whatsapp.com/" + ("send" + r)
  {
  }

  lemma Regroup4(a: string, b: string, c: string, d: string, e: string)
    ensures a + b + c + d + e == a + (b + (c + d + e))
  {
  }

  /** `http(s)://api.whatsapp.com/send`, bare or with a query that holds `phone=` and the destination. */
  lemma SendLink(f: Flavor, scheme: string, r: string, p: string)
    requires IsPhone(p) && IsScheme(scheme)
    requires OptPhoneQuery(r, p)
    ensures Matches(f, scheme + "api.whatsapp.com/send" + r, p)
  {
    var x := "api.whatsapp.com/" + ("send" + r);
    SendHead(r);
    ApiHead("send" + r);
    AfterHttpOf(scheme, x);
    SendPath(r);
    Assoc(scheme, "api.whatsapp.com/send", r);
    assert AltSend(f, scheme + x, p);
  }

  /** `whatsapp://send`, bare or with a query that holds `phone=` and the destination. */
  lemma SchemeLink(f: Flavor, r: string, p: string)
    requires IsPhone(p)
    requires OptPhoneQuery(r, p)
    ensures Matches(f, "whatsapp://send" + r, p)
  {
    SchemeHead(r);
    assert AltScheme("whatsapp://send" + r, p);
  }

  /** `http(s)://wa.me/` + optional sign + destination + optional query without `#`. */
  lemma WaMeLink(f: Flavor, scheme: string, sign: string, p: string, r: string)
    requires IsPhone(p) && IsScheme(scheme)
    requires sign == "" || sign == "+" || sign == "%2B"
    requires OptQuery(r)
    ensures AltWaMe(scheme + "wa.me/" + sign + p + r, p)
    ensures Matches(f, scheme + "wa.me/" + sign + p + r, p)
  {
    var x := "wa.me/" + (sign + p + r);
    WaMeHead(sign + p + r);
    AfterHttpOf(scheme, x);
    SignOf(sign, p, r);
    Regroup4(scheme, "wa.me/", sign, p, r);
    assert AltWaMe(scheme + x, p);
  }

  /** `http(s)://api.whatsapp.com/message/<code>`, whatever the destination. */
  lemma ApiMessageLink(f: Flavor, scheme: string, code: string, p: string)
    requires IsPhone(p) && IsScheme(scheme)
    requires Code(f, code)
    ensures Matches(f, scheme + "api.whatsapp.com/message/" + code, p)
  {
    ApiMessageHead(code);
    AfterHttpOf(scheme, "api.whatsapp.com/message/" + code);
    Assoc(scheme, "api.whatsapp.com/message/", code);
    assert AltApiMessage(f, scheme + ("api.whatsapp.com/message/" + code));
  }

  /** `http(s)://wa.me/message/<code>`, whatever the destination. */
  lemma WaMeMessageLink(f: Flavor, scheme: string, code: string, p: string)
    requires IsPhone(p) && IsScheme(scheme)
    requires Code(f, code)
    ensures Matches(f, scheme + "wa.me/message/" + code, p)
  {
    WaMeMessageHead(code);
    AfterHttpOf(scheme, "wa.me/message/" + code);
    Assoc(scheme, "wa.me/message/", code);
    assert AltWaMeMessage(f, scheme + ("wa.me/message/" + code));
  }

  // ---------------------------------------------------------------------
  // What the pattern refuses, and where the flavours part
  // ---------------------------------------------------------------------

  lemma Regroup3(a: string, b: string, c: string, d: string)
    ensures a + b + c + d == a + (b + (c + d))
  {
  }

  lemma MessagePath(q: string)
    ensures "api.whatsapp.com/message?" + q == "api.whatsapp.com/" + ("message" + ("?" + q))
  {
  }

  lemma MessageHead(rest: string)
    ensures StartsWithCI("message" + rest, "message") && ("message" + rest)[7..] == rest
  {
    LitHead("message", rest);
  }

  /** An `http(s)` URL is never the `whatsapp://send` alternative. */
  lemma NotSchemeAlt(scheme: string, rest: string, p: string)
    requires IsScheme(scheme)
    ensures !AltScheme(scheme + rest, p)
  {
    CIHeadDiffers(scheme + rest, "whatsapp://send", 0);
  }

  /** A `wa.me/` URL is neither `api.whatsapp.com` alternative. */
  lemma NotApiAlts(f: Flavor, scheme: string, x: string, p: string)
    requires IsScheme(scheme) && StartsWithCI(x, "wa.me/")
    ensures !AltSend(f, scheme + x, p) && !AltApiMessage(f, scheme + x)
  {
    AfterHttpOf(scheme, x);
    CIHeadDiffers(x, "api.whatsapp.com/", 0);
    CIHeadDiffers(x, "api.whatsapp.com/message/", 0);
  }

  lemma NotWaMeAlt(scheme: string, p: string, t: string)
    requires IsPhone(p) && IsScheme(scheme)
    requires t != "" && t[0] != '?'
    ensures !AltWaMe(scheme + ("wa.me/" + (p + t)), p)
  {
    WaMeHead(p + t);
    AfterHttpOf(scheme, "wa.me/" + (p + t));
    SignOf("", p, t);
    assert "" + p + t == p + t;
  }

  lemma NotWaMeMessageAlt(f: Flavor, scheme: string, p: string, t: string)
    requires IsPhone(p) && IsScheme(scheme)
    ensures !AltWaMeMessage(f, scheme + ("wa.me/" + (p + t)))
  {
    AfterHttpOf(scheme, "wa.me/" + (p + t));
    NotMessageAfterWaMe(p, t);
  }

  lemma NotMessageAfterWaMe(p: string, t: string)
    requires IsPhone(p)
    ensures !StartsWithCI("wa.me/" + (p + t), "wa.me/message/")
  {
    var x := "wa.me/" + (p + t);
    assert x[6] == p[0];
    CIHeadDiffers(x, "wa.me/message/", 6);
  }

  /**
   * `wa.me/` + destination followed by anything but nothing or a query:
   * the pattern has no right boundary to skip, so more digits do not match.
   */
  lemma WaMeTrailing(f: Flavor, scheme: string, p: string, t: string)
    requires IsPhone(p) && IsScheme(scheme)
    requires t != "" && t[0] != '?'
    ensures !Whole(f, scheme + "wa.me/" + p + t, p)
  {
    var x := "wa.me/" + (p + t);
    WaMeHead(p + t);
    NotSchemeAlt(scheme, x, p);
    NotApiAlts(f, scheme, x, p);
    NotWaMeAlt(scheme, p, t);
    NotWaMeMessageAlt(f, scheme, p, t);
    Regroup3(scheme, "wa.me/", p, t);
  }

  /** `wa.me/` followed by the destination and one more digit is refused. */
  lemma WaMeExtraDigit(f: Flavor, scheme: string, p: string, d: char)
    requires IsPhone(p) && IsScheme(scheme) && IsDigit(d)
    ensures !Matches(f, scheme + "wa.me/" + p + [d], p)
  {
    WaMeTrailing(f, scheme, p, [d]);
  }

  /**
   * PCRE's `$` accepts a final newline and ECMAScript's does not: the same
   * `wa.me` link with a newline appended matches on the server only.
   */
  lemma FinalNewlineFlavors(scheme: string, p: string)
    requires IsPhone(p) && IsScheme(scheme)
    ensures Matches(Pcre, scheme + "wa.me/" + p + "\n", p)
    ensures !Matches(EcmaScript, scheme + "wa.me/" + p + "\n", p)
  {
    var s := scheme + "wa.me/" + p + "\n";
    var s' := scheme + "wa.me/" + p;
    WaMeLink(Pcre, scheme, "", p, "");
    NoSign(scheme + "wa.me/", p);
    assert s[..|s| - 1] == s';
    WaMeTrailing(EcmaScript, scheme, p, "\n");
  }

  lemma NoSign(a: string, p: string)
    ensures a + "" + p + "" == a + p
  {
  }

  lemma ApiNotWaMe(u: string)
    ensures !StartsWithCI("api.whatsapp.com/" + u, "wa.me/")
    ensures !StartsWithCI("api.whatsapp.com/" + u, "wa.me/message/")
  {
    CIHeadDiffers("api.whatsapp.com/" + u, "wa.me/", 0);
    CIHeadDiffers("api.whatsapp.com/" + u, "wa.me/message/", 0);
  }

  lemma MessageQueryNotCode(q: string)
    ensures !StartsWithCI("api.whatsapp.com/" + ("message" + ("?" + q)), "api.whatsapp.com/message/")
    ensures !StartsWithCI("message" + ("?" + q), "send")
  {
    var x := "api.whatsapp.com/" + ("message" + ("?" + q));
    assert x[24] == '?';
    CIHeadDiffers(x, "api.whatsapp.com/message/", 24);
    CIHeadDiffers("message" + ("?" + q), "send", 0);
  }

  lemma MessageQueryPcre(scheme: string, q: string, p: string)
    requires IsPhone(p) && IsScheme(scheme)
    requires PhoneQuery(q, p)
    ensures AltSend(Pcre, scheme + ("api.whatsapp.com/" + ("message" + ("?" + q))), p)
  {
    var u := "message" + ("?" + q);
    ApiHead(u);
    MessageHead("?" + q);
    AfterHttpOf(scheme, "api.whatsapp.com/" + u);
    assert ("?" + q)[1..] == q;
  }

  lemma MessageQueryEcma(scheme: string, q: string, p: string)
    requires IsPhone(p) && IsScheme(scheme)
    ensures !Whole(EcmaScript, scheme + ("api.whatsapp.com/" + ("message" + ("?" + q))), p)
  {
    var u := "message" + ("?" + q);
    var x := "api.whatsapp.com/" + u;
    ApiHead(u);
    AfterHttpOf(scheme, x);
    ApiNotWaMe(u);
    MessageQueryNotCode(q);
    NotSchemeAlt(scheme, x, p);
  }

  /**
   * The server's first alternative also takes `/message` with a `phone=`
   * query; the browser's takes `/send` only.
   */
  lemma MessageQueryFlavors(scheme: string, q: string, p: string)
    requires IsPhone(p) && IsScheme(scheme)
    requires PhoneQuery(q, p)
    ensures Matches(Pcre, scheme + "api.whatsapp.com/message?" + q, p)
    ensures !Matches(EcmaScript, scheme + "api.whatsapp.com/message?" + q, p)
  {
    MessagePath(q);
    Assoc(scheme, "api.whatsapp.com/message?", q);
    MessageQueryPcre(scheme, q, p);
    MessageQueryEcma(scheme, q, p);
  }
}

=== FILE: wp_options.dfy ===
/**
 * WordPress's options table as the admin handlers use it: `get_option` with
 * a default, `add_option` (which leaves an existing option alone) and
 * `update_option` (which creates a missing option, autoloaded).
 *
 * WordPress stores serialised text, so an option never reads back as null:
 * a store is `Valid` when no entry holds `Null`.
 */
module WpOptions {
  import opened Php

  /** One option: its value and whether WordPress autoloads it. */
  datatype Entry = Entry(value: Value, autoload: bool)

  type Store = map<string, Entry>

  predicate Valid(s: Store)
  {
    forall name :: name in s ==> !s[name].value.Null?
  }

  /** `get_option($name, $default)`. */
  function Get(s: Store, name: string, default: Value): (r: Value)
    ensures name in s ==> r == s[name].value
    ensures name !in s ==> r == default
  {
    if name in s then s[name].value else default
  }

  /** `(string) get_option($name, '')`. */
  function GetString(s: Store, name: string): (r: string)
    ensures name !in s ==> r == ""
    ensures name in s && s[name].value.Str? ==> r == s[name].value.s
  {
    StrCast(Get(s, name, Str("")))
  }

  /** `add_option($name, $value, '', $autoload)`: nothing happens when the option exists. */
  function Add(s: Store, name: string, value: Value, autoload: bool): (r: Store)
    ensures name in s ==> r == s
    ensures name !in s ==> r == s[name := Entry(value, autoload)]
  {
    if name in s then s else s[name := Entry(value, autoload)]
  }

  /** `update_option($name, $value)`: an existing option keeps its autoload flag. */
  function Update(s: Store, name: string, value: Value): (r: Store)
    ensures r.Keys == s.Keys + {name}
    ensures r[name].value == value
    ensures name in s ==> r[name].autoload == s[name].autoload
    ensures name !in s ==> r[name].autoload
    ensures forall other :: other in s && other != name ==> r[other] == s[other]
  {
    var autoload := if name in s then s[name].autoload else true;
    s[name := Entry(value, autoload)]
  }

  /** Reading an option back after writing it gives what was written. */
  lemma GetUpdate(s: Store, name: string, value: Value, default: Value)
    ensures Get(Update(s, name, value), name, default) == value
  {
  }

  /** Writing one option does not change how any other reads. */
  lemma GetUpdateOther(s: Store, name: string, value: Value, other: string, default: Value)
    requires other != name
    ensures Get(Update(s, name, value), other, default) == Get(s, other, default)
  {
  }

  /** Writing a non-null value keeps a store valid. */
  lemma UpdateValid(s: Store, name: string, value: Value)
    requires Valid(s) && !value.Null?
    ensures Valid(Update(s, name, value))
  {
  }
}

=== FILE: wrappers.dfy ===
/** Failure-compatible wrappers shared by every module of the model. */
module Wrappers {

  /** A value that may be absent (PHP `null`, a missing array key, an unset option). */
  datatype Option<+T> = None | Some(value: T) {
    predicate IsFailure() { None? }

    function PropagateFailure<U>(): Option<U>
      requires None?
    {
      None
    }

    function Extract(): T
      requires Some?
    {
      value
    }

    function GetOr(default: T): T
    {
      match this
      case Some(v) => v
      case None => default
    }
  }

  /** A computation that either succeeds with a value or fails with an error. */
  datatype Result<+R, +E> = Ok(value: R) | Err(error: E) {
    predicate IsFailure() { Err? }

    function PropagateFailure<U>(): Result<U, E>
      requires Err?
    {
      Err(error)
    }

    function Extract(): R
      requires Ok?
    {
      value
    }
  }

  /**
   * A WordPress `WP_Error` as the REST code builds it: a machine-readable code,
   * a human message and the HTTP status stored under `data['status']`.
   */
  datatype WpError = WpError(code: string, message: string, status: int)
}
